=== FILE: README.md ===
# tuJanalyst core, modelled in Dafny

tuJanalyst watches stock-exchange announcements for a watchlist of Indian
companies and turns the relevant ones into investment reports. Each
announcement becomes a *trigger*. A trigger passes through five layers:
ingestion (feed polling, document download and text extraction), a gate
(a cheap watchlist filter, then an LLM classifier), deep analysis, a
buy/sell/hold decision that updates the company's position, and report
generation with delivery. Around the pipeline sit resilience helpers (retry
with exponential back-off, a circuit breaker), a vector index, token
accounting, configuration validation, and the API and dashboard helpers for
notes, manual triggers, report ranking, performance tracking, costs and the
watchlist overview.

This project models that core as immutable datatypes and pure functions,
one Dafny module per source component:

- The trigger store is a sequence kept in creation order. `update_status`
  follows the `$set`/`$push` semantics of the Mongo repository.
- The orchestrator is a state machine. It runs over scripted collaborator
  outcomes (`Ok(v)` or `Raise(msg)`) and records the calls it makes, the
  status steps and the saves.
- Clocks, randomness, hashes, URL joining, date parsing, JSON decoding and
  every language-model prediction are parameters.
- Prices, returns and costs are reals, and instants are seconds since the
  epoch.
- Python's string operations are written out once, in module `Text`. They
  cover `strip` with the full `isspace` set, ASCII case mapping, `in`,
  `split`, `join` and slicing.

Where the repository's tests and code disagree, the model follows the code:

- Human triggers are stored GATE_PASSED, not PENDING.
- `GateClassifier` takes `gate_module`, not `module`.
- The orchestrator has no `report_repo` parameter.

## Model

| member | source | states |
|---|---|---|
| Trigger.AllStatusesComplete | tuJanalyst/src/models/trigger.py:24-33 | every trigger status is one of the nine listed |
| Trigger.AllStatusesDistinct | tuJanalyst/src/models/trigger.py:24-33 | the nine statuses are listed once each |
| Trigger.NewTrigger | tuJanalyst/src/models/trigger.py:51-78 | a new trigger is PENDING with empty history and documents, normal priority, no gate result, both timestamps at the clock reading, and satisfies the history invariant |
| Trigger.SetStatus | tuJanalyst/src/models/trigger.py:80-84 | the status and updated_at are set, exactly one (status, time, reason) entry is appended, earlier entries and every other field are unchanged, and the history invariant holds after it |
| Trigger.StepsKeepHistory | tuJanalyst/src/models/trigger.py:80-84 | a sequence of set_status calls appends exactly one entry per call, in order, never changes earlier entries or the other fields, and keeps the history consistent with the status |
| TriggerStore.Find | tuJanalyst/src/repositories/mongo.py:123-126 | a trigger is returned exactly when one with the id is stored, and it carries that id |
| TriggerStore.GetUnique | tuJanalyst/src/repositories/mongo.py:43-46 | with the unique trigger_id index, looking up a stored trigger's id returns that trigger |
| TriggerStore.InsertKeepsOrder | tuJanalyst/src/repositories/mongo.py:115-121 | inserting keeps the store ordered by created_at |
| TriggerStore.InsertKeepsUnique | tuJanalyst/src/repositories/mongo.py:43-46 | inserting a trigger with a fresh id keeps the ids unique |
| TriggerStore.Save | tuJanalyst/src/repositories/mongo.py:115-121 | saving fails exactly when the id is already stored, with the repository's "already exists" message; otherwise the store gains exactly the trigger, stays valid, and returns it by id |
| TriggerStore.UpdateIn | tuJanalyst/src/repositories/mongo.py:128-145 | the update keeps the length, every id, creation time and source URL in place |
| TriggerStore.UpdateStatus | tuJanalyst/src/repositories/mongo.py:128-145 | a status update keeps the store valid |
| TriggerStore.UpdateStatusSpec | tuJanalyst/src/repositories/mongo.py:128-145 | the stored trigger is changed exactly as set_status changes it, every other id reads back unchanged, and an unknown id stays unknown |
| TriggerStore.UpdateUnknownIsNoop | tuJanalyst/src/repositories/mongo.py:128-145 | an update of an unknown id leaves the triggers exactly as they were |
| TriggerStore.Pendings | tuJanalyst/src/repositories/mongo.py:147-154 | the pending selection holds exactly the stored PENDING triggers |
| TriggerStore.PendingsSorted | tuJanalyst/src/repositories/mongo.py:147-154 | the pending triggers of an ordered store are in created_at order |
| TriggerStore.GetPending | tuJanalyst/src/repositories/mongo.py:147-154 | get_pending returns the oldest PENDING triggers in created_at order, all of them for limit 0 or a limit past their number, otherwise exactly `limit`, and none it skips is older than one it returns |
| TriggerStore.ExistsAfterSave | tuJanalyst/src/repositories/mongo.py:169-173 | after a successful save the trigger's non-empty source URL is known |
| TriggerStore.ExistsStableUnderUpdate | tuJanalyst/src/repositories/mongo.py:169-173 | status updates never change which URLs are known |
| TriggerStore.SaveAddsOne | tuJanalyst/src/repositories/mongo.py:115-121 | a save makes known exactly the old URLs and ids plus the saved trigger's (an empty URL never counts) |
| TriggerStore.SavedMembers | tuJanalyst/src/repositories/mongo.py:115-121 | after a save the store holds exactly the old triggers and the new one |
| TriggerStore.Since | tuJanalyst/src/repositories/mongo.py:213-223 | the window holds only stored triggers created at or after the start |
| TriggerStore.CountsByStatus | tuJanalyst/src/repositories/mongo.py:213-223 | each status row has a positive count |
| TriggerStore.CountsCoverWindow | tuJanalyst/src/repositories/mongo.py:213-223 | the per-status counts add up to the number of triggers in the window |
| TriggersApi.HumanTrigger | tuJanalyst/src/api/triggers.py:71-88 | the human trigger carries the payload's content, URL, company, submitter and notes, high priority, status GATE_PASSED with exactly one history entry holding the bypass reason, and no documents |
| TriggersApi.CreateHumanTrigger | tuJanalyst/src/api/triggers.py:71-88 | empty content is refused with 422; a fresh id is saved and answered "accepted" with that id; a duplicate id surfaces the repository's error |
| TriggersApi.Stats | tuJanalyst/src/api/triggers.py:92-102 | the stats are the per-status counts of the window and their total, which equals the number of triggers in the window |
| TriggersApi.GetTriggerStatus | tuJanalyst/src/api/triggers.py:106-121 | 404 "Trigger not found" exactly for an unknown id; otherwise the stored trigger's id, status value, source value and creation time |
| Orchestrator.EmbedFailure | tuJanalyst/src/pipeline/orchestrator.py:271-275 | an embedding failure saves the document as ERROR with "Embedding error: " and the message appended; only a failing save of that copy escapes |
| Orchestrator.EnsureEmbedded | tuJanalyst/src/pipeline/orchestrator.py:248-275 | embedding records no status and no report save, and calls the vector store at most once |
| Orchestrator.ProcessDocuments | tuJanalyst/src/pipeline/orchestrator.py:203-226 | ingestion records no status, only makes ingestion calls, changes nothing on the trigger but its documents and content, and attaches at most the fetched document's id |
| Orchestrator.RunGate | tuJanalyst/src/pipeline/orchestrator.py:228-246 | the gate records no status, only makes gate calls, and a human trigger gets the bypass result without any call |
| Orchestrator.PersistDeliveryFailure | tuJanalyst/src/pipeline/orchestrator.py:292-306 | a delivery failure changes nothing but the report saves, which gain one DELIVERY_FAILED copy with no channels when a repository exists and its save succeeds |
| Orchestrator.PostGate | tuJanalyst/src/pipeline/orchestrator.py:95-192 | Layers 3 to 5 only append status updates and only make Layer 3-5 calls |
| Orchestrator.AfterAnalysis | tuJanalyst/src/pipeline/orchestrator.py:127-192 | after analysis the stages only append status updates and Layer 3-5 calls |
| Orchestrator.AfterAssessment | tuJanalyst/src/pipeline/orchestrator.py:161-192 | generation and delivery only append status updates and Layer 3-5 calls |
| Orchestrator.Delivery | tuJanalyst/src/pipeline/orchestrator.py:171-192 | delivery never raises out of the run, and only appends status updates and calls |
| Orchestrator.ProcessAll | tuJanalyst/src/pipeline/orchestrator.py:194-201 | processing a list of triggers gives one result per trigger |
| Orchestrator.ProcessPending | tuJanalyst/src/pipeline/orchestrator.py:194-201 | the count of attempted triggers is the number pending, or the limit when a positive limit is smaller |
| Orchestrator.ProcessTrigger | tuJanalyst/src/pipeline/orchestrator.py:47-93 | every run records at least one status, the first being GATE_PASSED, FILTERED_OUT or ERROR, and changes nothing on the trigger but its documents, content and gate result |
| Orchestrator.AfterIngestion | tuJanalyst/src/pipeline/orchestrator.py:56-58 | an ingestion exception ends the run as a pipeline error; otherwise the old status updates are kept, the first new one is GATE_PASSED, FILTERED_OUT or ERROR, and only the gate result changes on the trigger |
| Orchestrator.AfterGate | tuJanalyst/src/pipeline/orchestrator.py:58-91 | a raising gate ends the run as a pipeline error; otherwise the gate result is stored on the trigger and the first new entry is GATE_PASSED or FILTERED_OUT with the gate's reason; a rejection adds only that entry and returns the gate's result; a pass returns it or a pipeline error |
| Orchestrator.AfterPass | tuJanalyst/src/pipeline/orchestrator.py:67-73 | a passing gate keeps the old entries, records GATE_PASSED with the gate's reason next, leaves the trigger alone and returns the gate's result or a pipeline error |
| Orchestrator.Finish | tuJanalyst/src/pipeline/orchestrator.py:67-91 | a later stage's exception turns the run into a pipeline error; otherwise the gate's result is returned with the stages' effects |
| Orchestrator.PipelineError | tuJanalyst/src/pipeline/orchestrator.py:83-91 | the result never passes, has method pipeline_error and model "n/a", and its reason is "Pipeline error: " followed by the message |
| Orchestrator.Failed | tuJanalyst/src/pipeline/orchestrator.py:83-91 | the handler adds exactly one ERROR entry, whose reason is the returned result's, keeps the old entries as a prefix and changes nothing else |
| Orchestrator.ReportedReason | tuJanalyst/src/pipeline/orchestrator.py:183-185 | the reason starts with "Report generated" and is exactly that when no channel delivered |
| Orchestrator.FailureSaves | tuJanalyst/src/pipeline/orchestrator.py:292-306 | one save exactly when a repository exists and its save succeeds, through the deliverer's repository when it has one, of the report marked DELIVERY_FAILED with no channels and otherwise unchanged |
| Orchestrator.Replay | tuJanalyst/src/pipeline/orchestrator.py:69-85 | the status updates applied one after another to the trigger store; OrchestratorProperties.ReplaySpec states what that does |
| OrchestratorProperties.StatusesAppend | tuJanalyst/src/pipeline/orchestrator.py:47-93 | the statuses of two runs of steps are the statuses of each in turn |
| OrchestratorProperties.IngestionSkipped | tuJanalyst/src/pipeline/orchestrator.py:203-207 | without a source URL, or with documents already attached, ingestion does nothing |
| OrchestratorProperties.IngestionIdempotent | tuJanalyst/src/pipeline/orchestrator.py:206-217 | once ingestion has attached a document, ingesting again does nothing |
| OrchestratorProperties.ExtractOnlyAfterGoodFetch | tuJanalyst/src/pipeline/orchestrator.py:214-221 | extraction is asked for only after a fetch returned a document not in ERROR, whose id was attached |
| OrchestratorProperties.ExtractedTextAppended | tuJanalyst/src/pipeline/orchestrator.py:217-225 | the fetched id is attached; non-empty extracted text is appended after a blank line and the result stripped, otherwise the content stays |
| OrchestratorProperties.EmbeddingFailureRecorded | tuJanalyst/src/pipeline/orchestrator.py:260-275 | a failing vector store leaves the document saved EMBEDDING and then ERROR with the "Embedding error: " message, and nothing escapes |
| OrchestratorProperties.EmbeddingSuccess | tuJanalyst/src/pipeline/orchestrator.py:260-270 | a successful embedding saves the document EMBEDDING, then COMPLETE with the vector id, with one vector store call |
| OrchestratorProperties.FilterRejects | tuJanalyst/src/pipeline/orchestrator.py:237-239 | a filter rejection is the gate's decision and the classifier is not called |
| OrchestratorProperties.ClassifierArguments | tuJanalyst/src/pipeline/orchestrator.py:241-246 | a passing filter hands the classifier the content and the company name and sector, a missing one as "", and returns its answer |
| OrchestratorProperties.GateRejection | tuJanalyst/src/pipeline/orchestrator.py:59-81 | a rejected trigger ends FILTERED_OUT with the gate's reason, which is stored on the trigger and returned |
| OrchestratorProperties.GateRaises | tuJanalyst/src/pipeline/orchestrator.py:83-91 | an exception from the gate ends the run in ERROR with "Pipeline error: " and the message, and the pipeline_error result |
| OrchestratorProperties.StopWithoutAnalyzer | tuJanalyst/src/pipeline/orchestrator.py:68-74 | with no analyzer the run records GATE_PASSED only and returns the gate's decision |
| OrchestratorProperties.StopAfterAnalysis | tuJanalyst/src/pipeline/orchestrator.py:101-133 | a non-significant investigation, or a missing Layer 4 or 5 component, stops at ANALYZED after exactly the GATE_PASSED, ANALYZING and ANALYZED entries and one analyzer call |
| OrchestratorProperties.AnalysisErrorWrapped | tuJanalyst/src/pipeline/orchestrator.py:107-110 | an analyzer exception ends the run in ERROR right after ANALYZING, with "Layer 3 analysis failed: " in the reason and the result |
| OrchestratorProperties.AssessmentErrorWrapped | tuJanalyst/src/pipeline/orchestrator.py:135-144 | an assessor exception ends the run in ERROR after ASSESSING, with "Layer 4 assessment failed: ", and neither generator nor deliverer is called |
| OrchestratorProperties.GenerationErrorWrapped | tuJanalyst/src/pipeline/orchestrator.py:146-164 | a generator exception ends the run in ERROR after ASSESSED, with "Layer 5 report generation failed: ", and the deliverer is not called |
| OrchestratorProperties.FullPipeline | tuJanalyst/src/pipeline/orchestrator.py:95-192 | when every stage succeeds the run records the six statuses from GATE_PASSED to REPORTED with their reasons, calls the four stages once each in order, saves no report and returns the gate's decision |
| OrchestratorProperties.ReportedReasonShape | tuJanalyst/src/pipeline/orchestrator.py:183-185 | the final reason is "Report generated", followed by " and delivered via " and the channels joined with ", " when there are any |
| OrchestratorProperties.DeliveryFailure | tuJanalyst/src/pipeline/orchestrator.py:171-181 | a delivery exception still ends REPORTED with the exception in the reason, and the report is saved DELIVERY_FAILED when possible |
| OrchestratorProperties.AnalyzedOutcome | tuJanalyst/src/pipeline/orchestrator.py:95-192 | every run past a passing gate with an analyzer adds entries of one of the allowed shapes, and an ERROR entry comes with the matching pipeline_error result |
| OrchestratorProperties.AssessedOutcome | tuJanalyst/src/pipeline/orchestrator.py:131-192 | every run that reaches Layer 4 ends in one of the allowed shapes |
| OrchestratorProperties.AfterGateOutcome | tuJanalyst/src/pipeline/orchestrator.py:56-91 | whatever the gate decided or raised, the rest of the run ends in one of the allowed shapes |
| OrchestratorProperties.ProcessTriggerStages | tuJanalyst/src/pipeline/orchestrator.py:56-74 | an ingestion error ends the run in ERROR; otherwise the gate runs on the ingested trigger and neither stage records a status |
| OrchestratorProperties.RunShape | tuJanalyst/src/pipeline/orchestrator.py:47-93 | every run records at least one status, in one of the shapes a run can take, and never skips a stage |
| OrchestratorProperties.ErrorIsTerminal | tuJanalyst/src/pipeline/orchestrator.py:83-91 | a run whose last entry is ERROR has a "Pipeline error: " reason and returns the pipeline_error result with that reason and model "n/a" |
| OrchestratorProperties.HumanBypassesGate | tuJanalyst/src/pipeline/orchestrator.py:228-235 | a human trigger is never filtered or classified, records GATE_PASSED first with the bypass reason, stores the bypass result, and returns it unless a later stage fails |
| OrchestratorProperties.FilterRejection | tuJanalyst/src/pipeline/orchestrator.py:237-239 | a filter rejection is the run's result, FILTERED_OUT with the filter's reason is its only status, and the classifier is never called |
| OrchestratorProperties.FetchErrorIsPipelineError | tuJanalyst/src/pipeline/orchestrator.py:209-213 | a failing fetch ends the run with the single ERROR entry "Pipeline error: " and the message |
| OrchestratorProperties.ReplaySpec | tuJanalyst/src/pipeline/orchestrator.py:69-85 | the run's status updates act on the stored trigger as set_status step by step, leave every other trigger alone and keep the store valid |
| OrchestratorProperties.StoredTriggerAfterRun | tuJanalyst/src/pipeline/orchestrator.py:47-93 | after a run the stored trigger's old history is a prefix of the new one, one entry is added per status update, and the status is the newest entry's |
| OrchestratorProperties.StoredAfterProcessed | tuJanalyst/src/pipeline/orchestrator.py:47-93 | replaying a run with at least one entry on a stored trigger keeps its history as a prefix, adds one entry per step and leaves the newest step's status |
| OrchestratorProperties.ReplayHistory | tuJanalyst/src/pipeline/orchestrator.py:69-85 | replaying a non-empty run keeps the old history as a prefix and ends at the last step's status |
| OrchestratorProperties.FullHistoryFromEmpty | tuJanalyst/src/pipeline/orchestrator.py:95-192 | a trigger stored with an empty history that runs the whole pipeline ends with exactly the six pipeline statuses as its history |
| OrchestratorProperties.PendingProcessedInOrder | tuJanalyst/src/pipeline/orchestrator.py:194-201 | exactly the triggers get_pending returned are processed, in order, and their number is returned |
| OrchestratorProperties.ProcessAllRuns | tuJanalyst/src/pipeline/orchestrator.py:198-200 | the i-th result is the run of the i-th trigger |
| Retry.AnyToken | tuJanalyst/src/utils/retry.py:37 | true exactly when some token occurs in the text |
| Retry.IsTransientError | tuJanalyst/src/utils/retry.py:20-37 | transient exactly for a timeout, an HTTP status in {429, 500, 502, 503, 504}, or a lower-cased message containing one of the eight tokens |
| Retry.RetrySync | tuJanalyst/src/utils/retry.py:40-59 | non-positive attempts raise "attempts must be > 0" with no call; otherwise between 1 and attempts calls are made, every call but the last failed retryably, the last call's outcome is returned, a raised error is the last allowed call's or one should_retry rejects, and the k-th sleep is base delay times 2^k |
| Retry.RetryFrom | tuJanalyst/src/utils/retry.py:51-57 | the loop from a given attempt on makes calls up to the limit, returns the last call's outcome, and sleeps the doubling delays between calls |
| Retry.SucceedsOnCall | tuJanalyst/src/utils/retry.py:51-57 | when the first k-1 calls fail retryably and call k succeeds, its value is returned after exactly k calls |
| Retry.NonRetryableStops | tuJanalyst/src/utils/retry.py:54-56 | a first failure should_retry rejects is raised after one call with no sleep |
| Retry.AllFailRaisesLast | tuJanalyst/src/utils/retry.py:51-57 | when every call fails retryably, the last error is raised after exactly attempts calls and attempts-1 sleeps |
| Retry.TransientExamples | tuJanalyst/src/utils/retry.py:20-33 | a timeout and an HTTP 503 are transient |
| Retry.BadInputNotTransient | tuJanalyst/src/utils/retry.py:35-37 | a ValueError("bad input") is not transient |
| Retry.RateLimitMessageIsTransient | tuJanalyst/src/utils/retry.py:35-37 | a message "Rate limit exceeded" is transient whatever the exception class |
| CircuitBreaker.NewBreaker | tuJanalyst/src/utils/circuit_breaker.py:12-28 | the constructor fails exactly for a non-positive threshold or recovery time, with the source's messages; a new breaker is closed with no failures |
| CircuitBreaker.IsOpen | tuJanalyst/src/utils/circuit_breaker.py:30-41 | open exactly while the clock is before the deadline; once it has passed the breaker closes and forgets its failures |
| CircuitBreaker.RecordSuccess | tuJanalyst/src/utils/circuit_breaker.py:43-46 | a success closes the breaker for every clock reading and clears the failure count |
| CircuitBreaker.RecordFailure | tuJanalyst/src/utils/circuit_breaker.py:48-52 | a failure adds one to the count; at or past the threshold it (re)opens the breaker until now plus the recovery time |
| CircuitBreaker.SecondsUntilClose | tuJanalyst/src/utils/circuit_breaker.py:54-59 | the wait is the time left before the deadline, never negative, and positive exactly when the breaker is open |
| CircuitBreaker.OpensAfterThreshold | tuJanalyst/src/utils/circuit_breaker.py:48-52 | after failures reaching the threshold the breaker is open exactly until the last failure's time plus the recovery time |
| CircuitBreaker.StaysClosedBelowThreshold | tuJanalyst/src/utils/circuit_breaker.py:48-52 | fewer failures than the threshold leave a closed breaker closed |
| CircuitBreaker.FreshIsClosed | tuJanalyst/src/utils/circuit_breaker.py:12-28 | a new breaker is closed and has no time left to wait |
| CircuitBreaker.OperationsKeepBound | tuJanalyst/src/utils/circuit_breaker.py:30-52 | under a clock that never runs backwards no operation sets the deadline more than the recovery time ahead |
| CircuitBreaker.WaitAtMostRecovery | tuJanalyst/src/utils/circuit_breaker.py:54-59 | the wait never exceeds the recovery time under such a clock |
| Poller.PickStr | tuJanalyst/src/pipeline/layer1_triggers/rss_poller.py:242-253 | with a default there is always an answer |
| Poller.PickStrDefault | tuJanalyst/src/pipeline/layer1_triggers/rss_poller.py:242-253 | with no key holding a non-blank string or a number, the default is returned |
| Poller.PickStrFirst | tuJanalyst/src/pipeline/layer1_triggers/rss_poller.py:242-253 | the first key in priority order holding a usable value decides, stringified |
| Poller.PickedStringIsStripped | tuJanalyst/src/pipeline/layer1_triggers/rss_poller.py:248-250 | a picked string is the stripped value, non-empty, with no space at either end |
| Poller.DictRows | tuJanalyst/src/pipeline/layer1_triggers/rss_poller.py:106-107 | exactly the mappings of the list are kept, in order |
| Poller.EntryRow | tuJanalyst/src/pipeline/layer1_triggers/rss_poller.py:114-123 | a feed entry is remapped exactly when it is a mapping |
| Poller.EntryRowFields | tuJanalyst/src/pipeline/layer1_triggers/rss_poller.py:116-122 | the remapped entry carries title, link, published, symbol and company under desc, attchmntFile, an_dt, symbol and sm_name, with "" or None when missing |
| Poller.EntryRows | tuJanalyst/src/pipeline/layer1_triggers/rss_poller.py:112-124 | a feed's entries all remap, one row per entry in order, exactly when every entry is a mapping |
| Poller.FirstListRowsNone | tuJanalyst/src/pipeline/layer1_triggers/rss_poller.py:126-138 | with no key holding a list there are no rows |
| Poller.FirstListRowsFirst | tuJanalyst/src/pipeline/layer1_triggers/rss_poller.py:126-136 | the first key in order that holds a list supplies the rows |
| Poller.ExtractRows | tuJanalyst/src/pipeline/layer1_triggers/rss_poller.py:105-138 | a list payload gives its mappings, a non-mapping gives nothing, a mapping with an entries list is a feed, and otherwise each exchange reads its own keys in order |
| Poller.NseIgnoresBseKeys | tuJanalyst/src/pipeline/layer1_triggers/rss_poller.py:126-130 | an NSE payload whose list sits under "Table" gives no rows |
| Poller.BseIgnoresNseKeys | tuJanalyst/src/pipeline/layer1_triggers/rss_poller.py:132-136 | a BSE payload whose list sits under "rows" gives no rows |
| Poller.BseReadsSharedData | tuJanalyst/src/pipeline/layer1_triggers/rss_poller.py:132-136 | BSE reads the shared "data" key too |
| Poller.ParseDate | tuJanalyst/src/pipeline/layer1_triggers/rss_poller.py:255-259 | an empty value is no date |
| Poller.SyntheticSourceUrl | tuJanalyst/src/pipeline/layer1_triggers/rss_poller.py:230-240 | the URN is "urn:tuj:", the source value and ":" followed by the first 16 characters of the digest |
| Poller.ExtractDocumentUrls | tuJanalyst/src/pipeline/layer1_triggers/rss_poller.py:206-228 | every candidate document URL of the row occurs once, in the order of first occurrence, and nothing else |
| Poller.NormalizeRow | tuJanalyst/src/pipeline/layer1_triggers/rss_poller.py:140-183 | the announcement keeps the source, picks symbol, name and sector by their key lists, takes its document URLs, falls back from title to the first 120 characters of the content and from content to title, joins a given URL onto the base and otherwise uses the synthetic URN |
| Poller.NormalizeRows | tuJanalyst/src/pipeline/layer1_triggers/rss_poller.py:90 | each row is normalised in order |
| Poller.AnnouncementTrigger | tuJanalyst/src/pipeline/layer1_triggers/rss_poller.py:191-202 | an announcement becomes a PENDING, normal-priority trigger of its source, carrying its URL, title, date, company fields and content, with no history, documents or gate result |
| Poller.CreateNewTriggers | tuJanalyst/src/pipeline/layer1_triggers/rss_poller.py:185-204 | a pass that does not fail adds exactly the created triggers to the store, at most one per announcement |
| Poller.CreateFromUnseen | tuJanalyst/src/pipeline/layer1_triggers/rss_poller.py:185-204 | from any point of the batch, the triggers created are those for the announcements whose URL is unknown when reached |
| Poller.CreateFrom | tuJanalyst/src/pipeline/layer1_triggers/rss_poller.py:185-204 | from announcement k on, a pass that does not fail adds exactly the created triggers to the store, at most one per remaining announcement |
| Poller.CreatesExactlyUnseen | tuJanalyst/src/pipeline/layer1_triggers/rss_poller.py:185-204 | an announcement becomes a trigger exactly when its URL is unknown when it is reached, in announcement order, and the store gains exactly those triggers |
| Poller.KnownUrlsCreateNothing | tuJanalyst/src/pipeline/layer1_triggers/rss_poller.py:188-190 | a batch of known URLs creates nothing and leaves the store as it was |
| Poller.PollSource | tuJanalyst/src/pipeline/layer1_triggers/rss_poller.py:66-78 | a failing fetch leaves the store alone and reports nothing |
| Poller.CreatedKeepSource | tuJanalyst/src/pipeline/layer1_triggers/rss_poller.py:191-202 | every trigger a pass creates is a new PENDING, normal-priority trigger of the announcements' source |
| Poller.Poll | tuJanalyst/src/pipeline/layer1_triggers/rss_poller.py:59-64 | NSE is always polled, then BSE exactly when its URL is set |
| Poller.PollIsolation | tuJanalyst/src/pipeline/layer1_triggers/rss_poller.py:66-78 | a failing NSE fetch leaves exactly what BSE alone creates, and a failing or absent BSE leaves exactly what NSE alone creates |
| Poller.PollSourceKeepsSource | tuJanalyst/src/pipeline/layer1_triggers/rss_poller.py:66-70 | one source's poll only creates PENDING, normal-priority triggers of that source |
| Poller.PollCreatesFromPolledSources | tuJanalyst/src/pipeline/layer1_triggers/rss_poller.py:59-81 | every created trigger comes from a polled source and starts PENDING with normal priority |
| Fetcher.EmptyContentType | tuJanalyst/src/pipeline/layer1_triggers/document_fetcher.py:54 | the header's default "" hints at no document type |
| Fetcher.DetectType | tuJanalyst/src/pipeline/layer1_triggers/document_fetcher.py:94-106 | the type is PDF, HTML, Excel or text exactly when that hint holds and no earlier one does, and UNKNOWN exactly when none holds |
| Fetcher.Extension | tuJanalyst/src/pipeline/layer1_triggers/document_fetcher.py:108-117 | the extension is three or four characters with no dot or separator |
| Fetcher.ExtensionInjective | tuJanalyst/src/pipeline/layer1_triggers/document_fetcher.py:108-117 | distinct document types get distinct extensions |
| Fetcher.PathEndsWith | tuJanalyst/src/pipeline/layer1_triggers/document_fetcher.py:96-105 | after lower-casing, a path with a lower-case tail ends in a short suffix exactly when the tail does, whatever the stem |
| Fetcher.LongSuffixByTail | tuJanalyst/src/pipeline/layer1_triggers/document_fetcher.py:100-102 | a five-character suffix like ".html" or ".xlsx" ends such a path exactly when it ends the tail |
| Fetcher.PdfByTail | tuJanalyst/src/pipeline/layer1_triggers/document_fetcher.py:98 | with no content type, the PDF hint holds exactly when the tail ends in ".pdf" |
| Fetcher.HtmlByTail | tuJanalyst/src/pipeline/layer1_triggers/document_fetcher.py:100 | with no content type, the HTML hint holds exactly when the tail ends in ".html" or ".htm" |
| Fetcher.ExcelByTail | tuJanalyst/src/pipeline/layer1_triggers/document_fetcher.py:102 | with no content type, the Excel hint holds exactly when the tail ends in ".xlsx" or ".xls" |
| Fetcher.TextByTail | tuJanalyst/src/pipeline/layer1_triggers/document_fetcher.py:104 | with no content type, the text hint holds exactly when the tail ends in ".txt" |
| Fetcher.TailDecides | tuJanalyst/src/pipeline/layer1_triggers/document_fetcher.py:98-117 | the suffix tests applied to "." plus a type's extension give back that type |
| Fetcher.DetectsTail | tuJanalyst/src/pipeline/layer1_triggers/document_fetcher.py:94-106 | with no content type, detection on a path with an extension tail depends on the tail alone |
| Fetcher.ExtensionDetectsBack | tuJanalyst/src/pipeline/layer1_triggers/document_fetcher.py:73-74 | for every stem, a stored path "stem.ext" re-detects the type its extension came from |
| Fetcher.Failure | tuJanalyst/src/pipeline/layer1_triggers/document_fetcher.py:83-88 | the handler sets ERROR, appends the message and saves; only a failing save raises, and the saved snapshot is the returned document |
| Fetcher.Finish | tuJanalyst/src/pipeline/layer1_triggers/document_fetcher.py:77-81 | the final save appends the returned document; when that save fails the handler takes over |
| Fetcher.Fetch | tuJanalyst/src/pipeline/layer1_triggers/document_fetcher.py:40-88 | nothing is saved exactly when the first save fails; the first snapshot is the DOWNLOADING document; only failing saves raise; the returned document is the last snapshot, keeps the ids, url and symbol, and is DOWNLOADED or ERROR |
| Fetcher.DownloadedExactly | tuJanalyst/src/pipeline/layer1_triggers/document_fetcher.py:50-81 | DOWNLOADED exactly when every step succeeds and the size is at most max_size_mb MiB; the document then has the detected type, the path dir/id.ext, the body's size and no errors |
| Fetcher.OversizeRejected | tuJanalyst/src/pipeline/layer1_triggers/document_fetcher.py:59-71 | a body over the limit gives ERROR, no file path, the size recorded and a first error starting "File too large"; when the save succeeds that is the only error |
| Fetcher.DownloadFailureRecorded | tuJanalyst/src/pipeline/layer1_triggers/document_fetcher.py:83-88 | a failed download gives an ERROR document with the exception's message as its only error and no file path, saved twice in all |
| Fetcher.StoredPathKeepsType | tuJanalyst/src/pipeline/layer1_triggers/document_fetcher.py:56-77 | the stored path of a downloaded document re-detects its type |
| Extractor.NewExtractor | tuJanalyst/src/pipeline/layer1_triggers/text_extractor.py:21-31 | construction fails, with the source's message, exactly when a timeout is given and is not positive; otherwise the timeout is kept |
| Extractor.TrimTrail | tuJanalyst/src/pipeline/layer1_triggers/text_extractor.py:47 | the normalised path is a prefix of the path and ends in neither a separator nor a "." component |
| Extractor.LastComponent | tuJanalyst/src/pipeline/layer1_triggers/text_extractor.py:98 | the result is the suffix after the last separator and holds none |
| Extractor.BaseName | tuJanalyst/src/pipeline/layer1_triggers/text_extractor.py:98 | the name holds no separator and is never "." |
| Extractor.BaseNameTrailing | tuJanalyst/src/pipeline/layer1_triggers/text_extractor.py:47 | a trailing "/" or "/." does not change the name |
| Extractor.BaseNameJoin | tuJanalyst/src/pipeline/layer1_triggers/text_extractor.py:47 | the name of "dir/name" is name for any proper component |
| Extractor.Suffix | tuJanalyst/src/pipeline/layer1_triggers/text_extractor.py:98 | the suffix is empty or a dot followed by at least one dot-free character, and ends the name |
| Extractor.ResolveType | tuJanalyst/src/pipeline/layer1_triggers/text_extractor.py:92-105 | a stored known type is kept; an UNKNOWN one becomes PDF, HTML or text exactly for the lower-cased suffixes .pdf, .html/.htm and .txt/.md, and never Excel |
| Extractor.MethodFor | tuJanalyst/src/pipeline/layer1_triggers/text_extractor.py:85-90 | PDF and HTML get their own routine exactly for those types; every other type is read as plain text |
| Extractor.TableTexts | tuJanalyst/src/pipeline/layer1_triggers/text_extractor.py:120-126 | one text per table, in order |
| Extractor.AllBlocks | tuJanalyst/src/pipeline/layer1_triggers/text_extractor.py:114-126 | one block per page, in page order |
| Extractor.PdfTextIsJoinedParts | tuJanalyst/src/pipeline/layer1_triggers/text_extractor.py:130 | the final strip changes nothing: the text is the parts joined by blank lines |
| Extractor.ExtractPdf | tuJanalyst/src/pipeline/layer1_triggers/text_extractor.py:107-132 | the pdfplumber routine with the page and table counts; Extractor.PdfTextIsJoinedParts states what its text is |
| Extractor.TablePartsEmptyIff | tuJanalyst/src/pipeline/layer1_triggers/text_extractor.py:127-128 | tables add no part exactly when every table text is empty |
| Extractor.PdfPartsEmptyIff | tuJanalyst/src/pipeline/layer1_triggers/text_extractor.py:114-128 | the pages add no part exactly when every page block is blank |
| Extractor.PdfTextEmptyIff | tuJanalyst/src/pipeline/layer1_triggers/text_extractor.py:107-132 | the PDF text is empty exactly when every page's text is blank and every table's text is empty |
| Extractor.MarkedBlockPresent | tuJanalyst/src/pipeline/layer1_triggers/text_extractor.py:114-117 | a non-blank page k of pages numbered from index adds the part "[PAGE index+k]" and its text |
| Extractor.NonBlankPageMarked | tuJanalyst/src/pipeline/layer1_triggers/text_extractor.py:114-117 | every page with non-blank text appears as "[PAGE n]" plus its stripped text, n counted from 1 |
| Extractor.TableCountIsBlocks | tuJanalyst/src/pipeline/layer1_triggers/text_extractor.py:119-121 | the table texts of the blocks number exactly the tables counted |
| Extractor.PartsBounded | tuJanalyst/src/pipeline/layer1_triggers/text_extractor.py:113-131 | there are at most as many parts as pages plus counted tables |
| Extractor.Lines | tuJanalyst/src/pipeline/layer1_triggers/text_extractor.py:141 | at least one piece, none holding a line break |
| Extractor.KeptLines | tuJanalyst/src/pipeline/layer1_triggers/text_extractor.py:141 | at most as many lines as pieces, each non-empty, stripped and free of "\n" |
| Extractor.ExtractHtml | tuJanalyst/src/pipeline/layer1_triggers/text_extractor.py:134-144 | the HTML routine's name and a char_count equal to the text's length |
| Extractor.HtmlLinesRoundTrip | tuJanalyst/src/pipeline/layer1_triggers/text_extractor.py:141-142 | splitting the HTML text on "\n" gives back exactly the kept lines; the text is empty exactly when no line is kept |
| Extractor.ExtractPlain | tuJanalyst/src/pipeline/layer1_triggers/text_extractor.py:146-149 | the text is the file's text stripped, with its char_count |
| Extractor.RunExtraction | tuJanalyst/src/pipeline/layer1_triggers/text_extractor.py:52 | a successful run reports the routine chosen for the type |
| Extractor.Save | tuJanalyst/src/pipeline/layer1_triggers/text_extractor.py:42 | saving keeps every document under its own id |
| Extractor.UpdateExtractedText | tuJanalyst/src/repositories/mongo.py:282-294 | an unknown id changes nothing; a stored document gets the text, the method name, the metadata and EXTRACTED, keeping its id and errors, and every other document is unchanged |
| Extractor.ExtractFailure | tuJanalyst/src/pipeline/layer1_triggers/text_extractor.py:78-83 | the handler returns the document ERROR with the message appended, and stores exactly that |
| Extractor.EmbedDocument | tuJanalyst/src/pipeline/layer1_triggers/text_extractor.py:151-176 | the document is saved under its id with its text kept: COMPLETE with the vector id when the index accepts it, otherwise ERROR with "Embedding error: " and the message appended; every other document is unchanged |
| Extractor.Extract | tuJanalyst/src/pipeline/layer1_triggers/text_extractor.py:33-83 | None exactly when the id is not stored, and then nothing changes; otherwise the returned document has that id and is stored |
| Extractor.ExtractErrorBranch | tuJanalyst/src/pipeline/layer1_triggers/text_extractor.py:44-62 | a missing path or file, a timeout or a failing routine gives ERROR with exactly one message appended, the old text kept and the result stored; no path gives "Document has no file_path" |
| Extractor.ExtractSuccess | tuJanalyst/src/pipeline/layer1_triggers/text_extractor.py:66-76 | on success the stored text, method name and metadata are the routine's; with a vector store and non-empty text the document ends COMPLETE with the vector id or ERROR with "Embedding error: " and the message, otherwise EXTRACTED with no new error |
| Extractor.ExtractTouchesOnlyItsDocument | tuJanalyst/src/pipeline/layer1_triggers/text_extractor.py:33-83 | every other document is left as it was |
| WatchlistFilter.LowerAll | tuJanalyst/src/pipeline/layer2_gate/watchlist_filter.py:23-37 | one lower-cased entry per entry, in order |
| WatchlistFilter.LoweredNonBlank | tuJanalyst/src/pipeline/layer2_gate/watchlist_filter.py:31-37 | the kept keywords are exactly the lower-cased forms of the non-blank ones, and none is blank |
| WatchlistFilter.LoweredKept | tuJanalyst/src/pipeline/layer2_gate/watchlist_filter.py:31-37 | lower-casing after dropping blanks keeps every non-blank entry's lower-cased form and adds nothing else |
| WatchlistFilter.UpperSymbols | tuJanalyst/src/pipeline/layer2_gate/watchlist_filter.py:23 | each company's symbol upper-cased, in order |
| WatchlistFilter.SectorNames | tuJanalyst/src/pipeline/layer2_gate/watchlist_filter.py:30 | each sector's name lower-cased, in order |
| WatchlistFilter.SectorKeywords | tuJanalyst/src/pipeline/layer2_gate/watchlist_filter.py:31-36 | every keyword of every sector is listed |
| WatchlistFilter.WithValue | tuJanalyst/src/pipeline/layer2_gate/watchlist_filter.py:24-29 | each key paired with the one value, in order |
| WatchlistFilter.CompanyEntries | tuJanalyst/src/pipeline/layer2_gate/watchlist_filter.py:24-29 | a company adds (candidate lower-cased, symbol upper-cased) for exactly its non-blank name and aliases |
| WatchlistFilter.NameEntries | tuJanalyst/src/pipeline/layer2_gate/watchlist_filter.py:24-29 | every company's entries appear, each with a non-blank key and a watched symbol |
| WatchlistFilter.NewFilter | tuJanalyst/src/pipeline/layer2_gate/watchlist_filter.py:21-37 | the symbol, sector and keyword sets hold exactly the normalised watchlist entries; the name dict has distinct keys in first-insertion order and each key keeps its last value |
| WatchlistFilter.NewFilterValid | tuJanalyst/src/pipeline/layer2_gate/watchlist_filter.py:28-37 | no name or keyword of a built filter is blank, so none matches every text |
| WatchlistFilter.FindKeyword | tuJanalyst/src/pipeline/layer2_gate/watchlist_filter.py:94-98 | None exactly when no keyword occurs; otherwise the least occurring keyword in string order |
| WatchlistFilter.FirstInSorted | tuJanalyst/src/pipeline/layer2_gate/watchlist_filter.py:95-97 | the first keyword of the sorted listing that occurs is the least one, and running past the end means none occurs |
| WatchlistFilter.FindKeywordSetOnly | tuJanalyst/src/pipeline/layer2_gate/watchlist_filter.py:95 | the keyword found depends only on the set of keywords, not on how they are listed |
| WatchlistFilter.NameIn | tuJanalyst/src/pipeline/layer2_gate/watchlist_filter.py:57-58 | the first name in dict order occurring in the text, past the end exactly when none occurs |
| WatchlistFilter.SymbolIn | tuJanalyst/src/pipeline/layer2_gate/watchlist_filter.py:84-85 | the first symbol whose lower-cased form occurs, past the end exactly when none does |
| WatchlistFilter.SectorStage | tuJanalyst/src/pipeline/layer2_gate/watchlist_filter.py:66-74 | a watched sector passes with "keyword_match" and the found keyword exactly when a keyword occurs, and otherwise rejects as "sector_no_keyword" |
| WatchlistFilter.ContentStage | tuJanalyst/src/pipeline/layer2_gate/watchlist_filter.py:76-92 | the content scan passes exactly when a name or a symbol occurs, names first, with the source's reasons, and otherwise rejects as "no_match" |
| WatchlistFilter.Cascade | tuJanalyst/src/pipeline/layer2_gate/watchlist_filter.py:51-92 | passed exactly for the four passing methods; symbol_match exactly when a non-empty watched symbol is given, with its reason; otherwise the later stages decide |
| WatchlistFilter.AfterSymbol | tuJanalyst/src/pipeline/layer2_gate/watchlist_filter.py:55-63 | name_match exactly when a watched name or alias occurs in the company name, reported with the first one; otherwise the sector and content stages decide |
| WatchlistFilter.AfterName | tuJanalyst/src/pipeline/layer2_gate/watchlist_filter.py:65-92 | a watched sector decides on its own; otherwise the content scan decides |
| WatchlistFilter.Check | tuJanalyst/src/pipeline/layer2_gate/watchlist_filter.py:39-50 | check runs the cascade on the stripped upper-cased symbol, the stripped lower-cased name and sector, and the joined lower-cased content and feed title |
| WatchlistFilter.SectorDecides | tuJanalyst/src/pipeline/layer2_gate/watchlist_filter.py:66-74 | in a watched sector with no symbol or name match, the trigger passes exactly when a keyword occurs, reported with the least one, and the content scan never runs |
| WatchlistFilter.ContentDecides | tuJanalyst/src/pipeline/layer2_gate/watchlist_filter.py:76-92 | outside a watched sector with no symbol or name match, the trigger passes exactly when the content mentions a watched name, alias or symbol |
| WatchlistFilter.SetOrderIrrelevant | tuJanalyst/src/pipeline/layer2_gate/watchlist_filter.py:23-37 | filters with the same name dict and the same sets, listed in any order, give the same verdict and method, and the same reason unless only a symbol was found |
| GateClassifier.Truncate | tuJanalyst/src/pipeline/layer2_gate/gate_classifier.py:79-82 | the result is a prefix of the text: the whole text when it fits, else exactly max_input_chars characters, with Python's slice for a negative bound |
| GateClassifier.TruncateIdempotent | tuJanalyst/src/pipeline/layer2_gate/gate_classifier.py:79-82 | truncating twice with a non-negative bound is truncating once |
| GateClassifier.StripOr | tuJanalyst/src/pipeline/layer2_gate/gate_classifier.py:39-40 | a blank value gives the default; any other gives its stripped, non-empty form |
| GateClassifier.StripOrIdempotent | tuJanalyst/src/pipeline/layer2_gate/gate_classifier.py:39-40 | cleaning a cleaned value changes nothing |
| GateClassifier.LabelsTrimmed | tuJanalyst/src/pipeline/layer2_gate/gate_classifier.py:39-56 | "Unknown" and "No reason provided" are non-empty and already stripped |
| GateClassifier.ModuleInput | tuJanalyst/src/pipeline/layer2_gate/gate_classifier.py:38-40 | the module sees a prefix of the text of at most max_input_chars, and the stripped company and sector, "Unknown" when blank |
| GateClassifier.ModuleRun | tuJanalyst/src/pipeline/layer2_gate/gate_classifier.py:44-53 | between one and three calls; every call but the last failed transiently; a failure is returned only after three calls or when it is not transient |
| GateClassifier.Decide | tuJanalyst/src/pipeline/layer2_gate/gate_classifier.py:54-77 | an answer gives llm_classification with the module's verdict and stripped reason; a failure passes the trigger as error_fallthrough with the fail-open reason; the model is always reported |
| GateClassifier.Classify | tuJanalyst/src/pipeline/layer2_gate/gate_classifier.py:36-77 | classify never raises, reports llm_classification exactly when the retried call answers, and rejects only by the module's own verdict |
| GateClassifier.SucceedsAfterTransientFailures | tuJanalyst/src/pipeline/layer2_gate/gate_classifier.py:44-53 | after k-1 transient failures the k-th answer decides, after exactly k calls |
| GateClassifier.FailsOpenAfterThreeTransientFailures | tuJanalyst/src/pipeline/layer2_gate/gate_classifier.py:70-77 | three transient failures pass the trigger as error_fallthrough with the last error in the reason |
| GateClassifier.NonTransientFailureFailsOpenAtOnce | tuJanalyst/src/pipeline/layer2_gate/gate_classifier.py:50-77 | a non-transient failure is not retried: one call, then fail-open |
| GateClassifier.ClassifyOfCleanedInput | tuJanalyst/src/pipeline/layer2_gate/gate_classifier.py:38-40 | cleaning the inputs first changes neither the module's input nor the decision |
| GateClassifier.NewClassifier | tuJanalyst/src/pipeline/layer2_gate/gate_classifier.py:17-34 | construction fails exactly when configure_lm is set and the LM configuration fails, with that error; otherwise model, provider and max_input_chars are kept |
| GateWiring.AsWrittenFilterFailsEveryTrigger | tuJanalyst/src/pipeline/orchestrator.py:237-239 | with the filter result read by .get as written, every trigger not from a human raises and ends in ERROR, a watched symbol included |
| GateWiring.FilterAsWritten | tuJanalyst/src/pipeline/orchestrator.py:237-238 | the filter step as written raises the AttributeError of `.get` on the dataclass for every trigger; GateWiring.AsWrittenFilterFailsEveryTrigger states the consequence |
| GateWiring.FilterGate | tuJanalyst/src/pipeline/orchestrator.py:237-239 | the corrected reading carries passed, reason and method over from check, with no model |
| GateWiring.CorrectedFilterGate | tuJanalyst/src/pipeline/orchestrator.py:237-246 | with the corrected reading a rejected trigger ends FILTERED_OUT with the filter's reason and no classifier call; a passed one gets the classifier's result |
| GateWiring.ClassifierGateNeverRaises | tuJanalyst/src/pipeline/orchestrator.py:241-246 | a trigger the watchlist passes gets the classifier's decision and the gate never raises; a rejection is the module's own |
| LmConfig.BuildIdentifier | tuJanalyst/src/dspy_modules/gate.py:12-18 | the identifier holds a "/" and ends in the stripped model; a model holding "/" is kept as it is, otherwise it is prefixed by the stripped lower-cased provider and "/" |
| LmConfig.IdentifierTrimmed | tuJanalyst/src/dspy_modules/gate.py:12-18 | an identifier has no surrounding whitespace |
| LmConfig.IdentifierIdempotent | tuJanalyst/src/dspy_modules/gate.py:16-17 | building from an identifier gives it back, for any provider |
| LmConfig.CleanProviderSameIdentifier | tuJanalyst/src/dspy_modules/gate.py:29-33 | cleaning the provider first, as configure_dspy_lm does, changes nothing |
| LmConfig.ConfigureLm | tuJanalyst/src/dspy_modules/gate.py:21-42 | fails exactly for anthropic, openai or azure without a key, with the source's message; otherwise the identifier is built, and api_key and api_base are passed exactly when truthy |
| LmConfig.UnkeyedProviderConfigures | tuJanalyst/src/dspy_modules/gate.py:30 | any other provider is configured without a key |
| LmConfig.CleanIdentifier | tuJanalyst/src/dspy_modules/gate.py:12-18 | a clean provider and a slash-free clean model are joined as "provider/model" |
| LmConfig.AnthropicNeedsKey | tuJanalyst/src/dspy_modules/gate.py:30-31 | anthropic without a key is refused |
| Analyzer.InvestigationSymbol | tuJanalyst/src/pipeline/layer3_analysis/analyzer.py:54 | a truthy symbol upper-cased, "UNKNOWN" otherwise; the result is upper-case |
| Analyzer.InvestigationName | tuJanalyst/src/pipeline/layer3_analysis/analyzer.py:55 | a truthy name as given, "Unknown Company" otherwise; never empty |
| Analyzer.DocTexts | tuJanalyst/src/pipeline/layer3_analysis/analyzer.py:122-126 | at most one text per document id, each non-empty |
| Analyzer.DocTextsSnoc | tuJanalyst/src/pipeline/layer3_analysis/analyzer.py:123-126 | one more id appends its document's text exactly when the document exists and has text |
| Analyzer.NoTextNoTexts | tuJanalyst/src/pipeline/layer3_analysis/analyzer.py:125 | documents that are missing or have no text contribute nothing |
| Analyzer.CollectDocumentText | tuJanalyst/src/pipeline/layer3_analysis/analyzer.py:118-127 | the raw content when there are no ids or no texts; otherwise the texts joined by the "---" separator |
| Analyzer.OneDocumentText | tuJanalyst/src/pipeline/layer3_analysis/analyzer.py:118-127 | one document with text is the whole analysis text |
| Analyzer.PastRow | tuJanalyst/src/pipeline/layer3_analysis/analyzer.py:136-144 | a past row keeps the id, date and significance and the first three key findings |
| Analyzer.PastRows | tuJanalyst/src/pipeline/layer3_analysis/analyzer.py:136-144 | one row per past investigation, in order |
| Analyzer.Ids | tuJanalyst/src/pipeline/layer3_analysis/analyzer.py:147-150 | the ids of the inconclusive investigations, in order |
| Analyzer.GatherHistoricalContext | tuJanalyst/src/pipeline/layer3_analysis/analyzer.py:129-162 | an empty or "UNKNOWN" symbol queries nothing and gives the empty context; otherwise the three queries run in order, the count and rows are the past investigations', and a failed vector search leaves the similar documents empty |
| Analyzer.UnknownSymbolNoHistory | tuJanalyst/src/pipeline/layer3_analysis/analyzer.py:54-59 | a missing symbol, or "unknown" in any letter case, is analysed with no repository query |
| Analyzer.JsonList | tuJanalyst/src/pipeline/layer3_analysis/analyzer.py:253-258 | the decoded list, or the empty list when decoding fails or gives no list |
| Analyzer.SearchQueries | tuJanalyst/src/pipeline/layer3_analysis/analyzer.py:167-184 | at most five queries, a prefix of the decoded list; none when generation failed |
| Analyzer.CleanTrimmed | tuJanalyst/src/pipeline/layer3_analysis/analyzer.py:198-200 | title, url and snippet are stripped |
| Analyzer.CleanAll | tuJanalyst/src/pipeline/layer3_analysis/analyzer.py:197-200 | one cleaned row per row, in order |
| Analyzer.RowFindings | tuJanalyst/src/pipeline/layer3_analysis/analyzer.py:197-212 | at most one finding per row, each carrying the query |
| Analyzer.RowFindingsWellFormed | tuJanalyst/src/pipeline/layer3_analysis/analyzer.py:201-212 | every finding has the clean query, a non-empty title and source, medium relevance and neutral sentiment |
| Analyzer.RowFindingsComplete | tuJanalyst/src/pipeline/layer3_analysis/analyzer.py:197-212 | every row with a title and url yields its finding |
| Analyzer.QueryTexts | tuJanalyst/src/pipeline/layer3_analysis/analyzer.py:188 | one stripped text per raw query, in order |
| Analyzer.QueryTextsTrimmed | tuJanalyst/src/pipeline/layer3_analysis/analyzer.py:188 | every query text is stripped |
| Analyzer.QueryFindings | tuJanalyst/src/pipeline/layer3_analysis/analyzer.py:189-195 | a blank query or a failed search gives no findings; every finding carries its query |
| Analyzer.PerQuery | tuJanalyst/src/pipeline/layer3_analysis/analyzer.py:187-212 | each query's findings, in query order |
| Analyzer.FindingsWellFormed | tuJanalyst/src/pipeline/layer3_analysis/analyzer.py:186-213 | every finding of the search loop is well formed |
| Analyzer.FindingsComplete | tuJanalyst/src/pipeline/layer3_analysis/analyzer.py:186-213 | every kept row of every successful search is among the findings |
| Analyzer.FindingsFromQueries | tuJanalyst/src/pipeline/layer3_analysis/analyzer.py:186-213 | every finding answers one of the queries |
| Analyzer.RunWebSearch | tuJanalyst/src/pipeline/layer3_analysis/analyzer.py:164-213 | the findings of the stripped queries; a failed generation gives no findings and zero tokens, a successful one its token counts |
| Analyzer.WebSearchWellFormed | tuJanalyst/src/pipeline/layer3_analysis/analyzer.py:164-213 | every web-search result of an analysis is well formed |
| Analyzer.SignificanceNamed | tuJanalyst/src/models/investigation.py:18-22 | the member with that value, or none when no member has it |
| Analyzer.ParseSignificance | tuJanalyst/src/pipeline/layer3_analysis/analyzer.py:260-265 | the member whose value is the stripped lower-cased text, and NOISE exactly when no member has it |
| Analyzer.ParseSignificanceOfValue | tuJanalyst/src/pipeline/layer3_analysis/analyzer.py:260-265 | a level's own value parses back to the level |
| Analyzer.StrItems | tuJanalyst/src/pipeline/layer3_analysis/analyzer.py:218-223 | one str() per item, in order |
| Analyzer.Warnings | tuJanalyst/src/pipeline/layer3_analysis/analyzer.py:228-229 | one "Pipeline warning: " line per error, in order |
| Analyzer.ValidRows | tuJanalyst/src/pipeline/layer3_analysis/analyzer.py:231-251 | row k is the entries of the k-th validating dictionary of the list, so every validating dictionary appears, in list order, and nothing else |
| Analyzer.ValidIndices | tuJanalyst/src/pipeline/layer3_analysis/analyzer.py:231-251 | the positions of the list's items, each within bounds and a dictionary |
| Analyzer.ValidIndicesSpec | tuJanalyst/src/pipeline/layer3_analysis/analyzer.py:231-251 | the positions are increasing, all validate, and include every validating position |
| Analyzer.RowsAt | tuJanalyst/src/pipeline/layer3_analysis/analyzer.py:231-251 | from any position on, row k is the entries of the item at the k-th validating position |
| Analyzer.ApplyPipelineResult | tuJanalyst/src/pipeline/layer3_analysis/analyzer.py:215-229 | every analysis field is read from the result as the source does, warnings appended to the key findings; the ids, names, search results, market data, context and creation time are kept |
| Analyzer.MarketSnapshot | tuJanalyst/src/pipeline/layer3_analysis/analyzer.py:62-71 | no snapshot without a symbol; with one, the snapshot exactly when the call succeeds |
| Analyzer.Analyze | tuJanalyst/src/pipeline/layer3_analysis/analyzer.py:49-116 | analyze raises exactly when the deep-analysis call does; otherwise the investigation has the normalised symbol and name, the trigger's id, the context, snapshot, findings and model, the summed token counts and the parsed significance |
| Analyzer.QuerySummary | tuJanalyst/src/pipeline/layer3_analysis/analyzer.py:75 | query generation sees a prefix of at most 2000 characters of the document text |
| Analyzer.View | tuJanalyst/src/pipeline/orchestrator.py:111-127 | the orchestrator reads "SignificanceLevel." plus the member name, and the significance flag |
| Decision.RecommendationNamed | tuJanalyst/src/models/decision.py:18-22 | the member with that value, or none when no member has it |
| Decision.TimeframeNamed | tuJanalyst/src/models/decision.py:25-28 | the member with that value, or none when no member has it |
| Decision.ParseRecommendation | tuJanalyst/src/dspy_modules/decision.py:73-78 | the member whose value is the stripped lower-cased text, NONE when no member has it |
| Decision.ParseTimeframe | tuJanalyst/src/dspy_modules/decision.py:80-85 | the member whose value is the stripped lower-cased text, MEDIUM_TERM when no member has it |
| Decision.RecommendationToStr | tuJanalyst/src/dspy_modules/decision.py:68-71 | a member becomes its value, anything else its str() |
| Decision.NamedOfValue | tuJanalyst/src/models/decision.py:18-22 | a recommendation's value names it |
| Decision.TimeframeNamedOfValue | tuJanalyst/src/models/decision.py:25-28 | a timeframe's value names it |
| Decision.NormalizedWord | tuJanalyst/src/dspy_modules/decision.py:74 | a lower-case word in any letter case with any whitespace padding normalises to itself |
| Decision.ParseRecommendationPadded | tuJanalyst/src/dspy_modules/decision.py:73-78 | a recommendation's value in any case with any padding parses to that recommendation |
| Decision.ParseTimeframePadded | tuJanalyst/src/dspy_modules/decision.py:80-85 | a timeframe's value in any case with any padding parses to that timeframe |
| Decision.RecommendationStrRoundTrip | tuJanalyst/src/dspy_modules/decision.py:68-78 | what _recommendation_to_str sends, _parse_recommendation reads back as the same member |
| Decision.ParseConfidenceAsWritten | tuJanalyst/src/dspy_modules/decision.py:87-96 | unparsable input gives 0.0 and any number but NaN lands in [0, 1] |
| Decision.ConfidenceNaNEscapes | tuJanalyst/src/dspy_modules/decision.py:92-96 | NaN passes both comparisons and comes back outside [0, 1] |
| Decision.ParseConfidence | tuJanalyst/src/dspy_modules/decision.py:87-96 | every input gives a value in [0, 1]: values inside kept, values outside clamped, non-numbers and NaN 0 |
| Decision.ConfidenceAgreesOffNaN | tuJanalyst/src/dspy_modules/decision.py:87-96 | away from NaN the corrected parser returns what the code as written returns |
| Decision.StrippedItems | tuJanalyst/src/dspy_modules/decision.py:103 | one stripped str() per item, empty exactly when the item's text is blank |
| Decision.ListFactors | tuJanalyst/src/dspy_modules/decision.py:103 | the stripped non-blank items in order: a subsequence holding every non-blank item |
| Decision.StrippedKept | tuJanalyst/src/dspy_modules/decision.py:103 | dropping empty items keeps only non-empty stripped ones |
| Decision.LineFactors | tuJanalyst/src/dspy_modules/decision.py:107-110 | one cleaned item per non-blank line, in order |
| Decision.ParseKeyFactors | tuJanalyst/src/dspy_modules/decision.py:98-110 | a decoded JSON list gives its factors; anything else gives the cleaned non-blank lines |
| Decision.ListFactorsOfClean | tuJanalyst/src/dspy_modules/decision.py:103 | a JSON list of stripped non-empty strings is returned as it is |
| Decision.Bullets | tuJanalyst/src/dspy_modules/decision.py:107 | each item prefixed by "- ", in order |
| Decision.StripBulletPrefix | tuJanalyst/src/dspy_modules/decision.py:107 | stripping "-" and " " off a bullet prefix leaves the clean item |
| Decision.CleanBullet | tuJanalyst/src/dspy_modules/decision.py:107 | "- item" is a non-blank line that cleans to the item |
| Decision.LineFactorsOfBullets | tuJanalyst/src/dspy_modules/decision.py:107-110 | bullet lines clean back to their items |
| Decision.BulletListRoundTrip | tuJanalyst/src/dspy_modules/decision.py:98-110 | a bulleted list of clean items, one per line, parses back to its items |
| Assessor.PreviousRecommendation | tuJanalyst/src/pipeline/layer4_decision/assessor.py:127-131 | the position's current recommendation, NONE without a position |
| Assessor.InvestigationIds | tuJanalyst/src/pipeline/layer4_decision/assessor.py:154-155 | the investigations' ids, in order |
| Assessor.BuildAssessment | tuJanalyst/src/pipeline/layer4_decision/assessor.py:115-160 | changed exactly when the module asks for a change to a recommendation other than the previous one; the previous date and basis come from the position; the decision's fields are copied, the red flags are both factors against and risks, and the consulted ids are listed in order |
| Assessor.DerivePosition | tuJanalyst/src/pipeline/layer4_decision/assessor.py:162-202 | the basis is the first 1000 characters of the reasoning; a first position takes the new recommendation with one investigation and no history; an existing one counts one more investigation and, only when the recommendation changed, appends the prior recommendation, date and assessment id and takes the new ones |
| Assessor.View | tuJanalyst/src/pipeline/orchestrator.py:145-150 | the orchestrator reads the new recommendation's value, which parses back to that recommendation |
| Assessor.DeriveKeepsHistoryBounded | tuJanalyst/src/pipeline/layer4_decision/assessor.py:169-199 | a position's history never holds more entries than its investigations after the first |
| Assessor.AssessThenDerive | tuJanalyst/src/pipeline/layer4_decision/assessor.py:97-111 | after assessing and deriving, the recommendation is the decision's when the module asked for a change and the previous one otherwise, a first position taking the decision's; the history grows by one exactly when the recommendation changed, keeping its old entries |
| Assessor.SameRecommendationNoChange | tuJanalyst/src/pipeline/layer4_decision/assessor.py:132-199 | a decision repeating the current recommendation changes only the investigation count and date, the basis and updated_at |
| Assessor.HistoryOnlyGrows | tuJanalyst/src/pipeline/layer4_decision/assessor.py:186-193 | every history entry of a position survives a derivation unchanged at its index |
| ReportGenerator.ClampConfidence | tuJanalyst/src/pipeline/layer5_report/generator.py:258-263 | the result is in [0, 1]: values inside kept, values below 0 give 0, above 1 give 1 |
| ReportGenerator.ClampIdempotentMonotone | tuJanalyst/src/pipeline/layer5_report/generator.py:258-263 | clamping twice is clamping once, and clamping keeps order |
| ReportGenerator.RecommendationSummary | tuJanalyst/src/pipeline/layer5_report/generator.py:113-118 | the summary opens with the upper-cased recommendation and a space and closes with the timeframe and ")" |
| ReportGenerator.Rationale | tuJanalyst/src/pipeline/layer5_report/generator.py:128-136 | the stripped reasoning when it fits 220 characters; otherwise its first 217 characters and "..."; the default text when blank |
| ReportGenerator.ExecutiveSummary | tuJanalyst/src/pipeline/layer5_report/generator.py:120-137 | the summary opens with "Current recommendation is " and the upper-cased recommendation and closes with the rationale |
| ReportGenerator.Cleaned | tuJanalyst/src/pipeline/layer5_report/generator.py:242 | the stripped non-blank items, every one of them, none empty |
| ReportGenerator.FormatBullets | tuJanalyst/src/pipeline/layer5_report/generator.py:241-245 | "- None noted." when nothing is left after cleaning; otherwise the text opens with "- " and the first cleaned item |
| ReportGenerator.BulletsReadBack | tuJanalyst/src/pipeline/layer5_report/generator.py:241-245 | the bullet list reads back through the decision module's free-text parser as the cleaned items |
| ReportGenerator.Urls | tuJanalyst/src/pipeline/layer5_report/generator.py:190-205 | the rows' urls, in order |
| ReportGenerator.Candidates | tuJanalyst/src/pipeline/layer5_report/generator.py:193-203 | each web-search result with its title, source and query stripped, in order |
| ReportGenerator.KeepFirstPerUrl | tuJanalyst/src/pipeline/layer5_report/generator.py:190-205 | the kept rows have distinct non-empty urls, all come from the candidates, and every non-empty url is kept |
| ReportGenerator.KeepFirstIsFirstRows | tuJanalyst/src/pipeline/layer5_report/generator.py:190-205 | the seen-set loop keeps exactly the candidates that are first to carry their url, in order |
| ReportGenerator.PayloadRowsClean | tuJanalyst/src/pipeline/layer5_report/generator.py:194-203 | every payload row has a non-empty stripped url and a stripped title |
| ReportGenerator.SourceLine | tuJanalyst/src/pipeline/layer5_report/generator.py:233-238 | a row with a url becomes a "- [title](url)" link line |
| ReportGenerator.SourceLines | tuJanalyst/src/pipeline/layer5_report/generator.py:232-238 | one line per row, in order |
| ReportGenerator.FormatSources | tuJanalyst/src/pipeline/layer5_report/generator.py:228-239 | "- No external sources captured." for no rows; otherwise the lines from the first row's to the last row's |
| ReportGenerator.UntitledLink | tuJanalyst/src/pipeline/layer5_report/generator.py:233-236 | a row with a blank title is linked as "Source" |
| ReportGenerator.ContextDetail | tuJanalyst/src/pipeline/layer5_report/generator.py:215-225 | a detail line starts with "- " |
| ReportGenerator.ContextDetailPresent | tuJanalyst/src/pipeline/layer5_report/generator.py:221-224 | the "[significance]" stamp keeps the detail non-empty, so no row is skipped |
| ReportGenerator.ContextDetails | tuJanalyst/src/pipeline/layer5_report/generator.py:212-225 | at most one line per row |
| ReportGenerator.ContextDetailsAll | tuJanalyst/src/pipeline/layer5_report/generator.py:212-225 | every row yields its detail line, in order |
| ReportGenerator.FormatHistoricalContext | tuJanalyst/src/pipeline/layer5_report/generator.py:207-226 | the first-investigation text for no context or no past investigations; otherwise the count line followed by the details of the first three rows |
| ReportGenerator.HistoricalContextLines | tuJanalyst/src/pipeline/layer5_report/generator.py:211-226 | a context with past investigations shows the header and one line for each of at most three rows |
| ReportGenerator.EmptyContextIsFirst | tuJanalyst/src/pipeline/layer5_report/generator.py:208-209 | the analyzer's empty context reads as a first investigation |
| ReportGenerator.SectionBlocks | tuJanalyst/src/pipeline/layer5_report/generator.py:148-186 | one block per heading |
| ReportGenerator.SectionLines | tuJanalyst/src/pipeline/layer5_report/generator.py:155-185 | each section is a blank line, its heading and its block |
| ReportGenerator.BodyLines | tuJanalyst/src/pipeline/layer5_report/generator.py:155-187 | the heading line, the nine sections in order, a blank line and the disclaimer |
| ReportGenerator.FallbackBody | tuJanalyst/src/pipeline/layer5_report/generator.py:139-188 | the lines joined by newlines, opening with the heading and closing with the disclaimer; the final strip removes nothing |
| ReportGenerator.Generate | tuJanalyst/src/pipeline/layer5_report/generator.py:34-111 | generate raises exactly when the module call or the save fails, with that failure; otherwise each empty module output is replaced by its fallback, and the report carries the ids and names, status GENERATED and no delivery |
| ReportGenerator.GeneratedTextsFilled | tuJanalyst/src/pipeline/layer5_report/generator.py:63-87 | a generated report never has an empty title, summary or body |
| ReportDelivery.Webhook | tuJanalyst/src/pipeline/layer5_report/deliverer.py:32 | the webhook is the given url stripped, empty when none is given |
| ReportDelivery.Deliver | tuJanalyst/src/pipeline/layer5_report/deliverer.py:37-66 | Slack is a channel exactly when a webhook is set and the post succeeds; email never is; a channel marks the report DELIVERED with the channels and time; an attempt without a channel marks DELIVERY_FAILED; with nothing configured the report is unchanged; the report is saved once when a repository exists and the save succeeds |
| ReportDelivery.DeliverEmail | tuJanalyst/src/pipeline/layer5_report/deliverer.py:80-82 | the email stub never delivers; ReportDelivery.Deliver states that email is therefore never a channel |
| ReportDelivery.DeliveryKeepsContent | tuJanalyst/src/pipeline/layer5_report/deliverer.py:53-58 | delivery changes only the three delivery fields |
| ReportDelivery.SaveFailureSwallowed | tuJanalyst/src/pipeline/layer5_report/deliverer.py:60-64 | a failed save changes neither the channels nor the report |
| ReportDelivery.OrchestratorReportsChannels | tuJanalyst/src/pipeline/orchestrator.py:171-186 | delivery never raises, so the run ends REPORTED, naming slack exactly when the post succeeded, and persists no delivery failure |
| ReportDelivery.WordEnd | tuJanalyst/src/pipeline/layer5_report/deliverer.py:85 | the first whitespace index from i, or the end |
| ReportDelivery.FirstWord | tuJanalyst/src/pipeline/layer5_report/deliverer.py:85 | the first word holds no whitespace and is empty exactly when the text is blank |
| ReportDelivery.FirstWordOf | tuJanalyst/src/pipeline/layer5_report/deliverer.py:85 | a text opening with a word and a space has that word first |
| ReportDelivery.WordEndAt | tuJanalyst/src/pipeline/layer5_report/deliverer.py:85 | a run of non-space characters ends at the first whitespace |
| ReportDelivery.SummaryBadge | tuJanalyst/src/pipeline/layer5_report/deliverer.py:85-86 | green, red and yellow exactly when the first word reads buy, sell and hold in any case; white otherwise |
| ReportDelivery.BuildSlackMessage | tuJanalyst/src/pipeline/layer5_report/deliverer.py:84-116 | the header is the badge, a space and the title; the recommendation is in asterisks; the summary and disclaimer are as given |
| ReportDelivery.UpperValueWord | tuJanalyst/src/pipeline/layer5_report/generator.py:115 | an upper-cased recommendation value is one word that lower-cases back |
| ReportDelivery.FallbackSummaryBadge | tuJanalyst/src/pipeline/layer5_report/deliverer.py:85-86 | a report whose summary is the generator's fallback gets the badge of its recommendation |
| VectorStore.Step | tuJanalyst/src/repositories/vector.py:127 | the step between chunk starts is positive and at most chunk_size |
| VectorStore.NewChunking | tuJanalyst/src/repositories/vector.py:25-30 | the sizes are accepted exactly when chunk_size > 0 and 0 <= chunk_overlap < chunk_size; otherwise the first failing check's message |
| VectorStore.ChunkCount | tuJanalyst/src/repositories/vector.py:131-134 | no chunk exactly for the empty text; otherwise the least count whose steps reach the end |
| VectorStore.ChunksLeftStep | tuJanalyst/src/repositories/vector.py:131-134 | taking one chunk leaves one fewer to come |
| VectorStore.ChunkText | tuJanalyst/src/repositories/vector.py:122-136 | one chunk per start below the length, chunk i being text[i*step : i*step+size] |
| VectorStore.ChunkOf | tuJanalyst/src/repositories/vector.py:131-134 | the chunk index of a character lies in the step window holding it |
| VectorStore.ChunkOfBelow | tuJanalyst/src/repositories/vector.py:131-134 | a character of the text lies in a chunk that exists |
| VectorStore.ChunkBounds | tuJanalyst/src/repositories/vector.py:133 | every chunk is non-empty and at most chunk_size long |
| VectorStore.ChunksCover | tuJanalyst/src/repositories/vector.py:122-136 | every character of the text appears in its chunk at its offset |
| VectorStore.ConsecutiveChunksOverlap | tuJanalyst/src/repositories/vector.py:127-134 | a full chunk and the next share exactly chunk_overlap characters |
| VectorStore.CleanOf | tuJanalyst/src/repositories/vector.py:140-156 | None is dropped; every other value is kept in its cleaned form |
| VectorStore.Sanitize | tuJanalyst/src/repositories/vector.py:138-158 | no more entries than the input |
| VectorStore.SanitizeFrom | tuJanalyst/src/repositories/vector.py:140-156 | every kept entry comes from an input entry under its key |
| VectorStore.SanitizeKeeps | tuJanalyst/src/repositories/vector.py:140-156 | every non-None entry is kept with its cleaned value |
| VectorStore.SanitizeDistinct | tuJanalyst/src/repositories/vector.py:138-158 | distinct keys stay distinct |
| VectorStore.SanitizeNoNone | tuJanalyst/src/repositories/vector.py:138-158 | metadata without None keeps every entry in place |
| VectorStore.ChunkIdsDistinct | tuJanalyst/src/repositories/vector.py:65 | different chunk indices give different ids |
| VectorStore.ChunkMetadata | tuJanalyst/src/repositories/vector.py:66-68 | the cleaned metadata with document_id and chunk_index set, every other entry kept, keys distinct, and no entry that is not one of those |
| VectorStore.AddDocument | tuJanalyst/src/repositories/vector.py:61-75 | one record per chunk in chunk order, each with its chunk id, its chunk text and exactly the chunk metadata of the sanitised input for its index; none for an empty text |
| TokenUsage.Truncate | tuJanalyst/src/utils/token_usage.py:55 | int() of a float truncates toward zero |
| TokenUsage.PairSumAppend | tuJanalyst/src/utils/token_usage.py:50-62 | the sum over two lists of entries is the sum of the sums |
| TokenUsage.SumTokensIsPairSum | tuJanalyst/src/utils/token_usage.py:50-62 | _sum_tokens adds, over every entry at any depth, its number when its key matches: nothing more and nothing twice |
| TokenUsage.SumEntriesIsPairSum | tuJanalyst/src/utils/token_usage.py:51-57 | a dictionary's entries from i on sum to their pair sum |
| TokenUsage.SumItemsIsPairSum | tuJanalyst/src/utils/token_usage.py:59-60 | a list's items from i on sum to their pair sum |
| TokenUsage.PairSumSplit | tuJanalyst/src/utils/token_usage.py:50-62 | summing for two disjoint key sets at once is summing for each |
| TokenUsage.SumTokensSplit | tuJanalyst/src/utils/token_usage.py:50-62 | the same for _sum_tokens on any payload |
| TokenUsage.NonNumbersIgnored | tuJanalyst/src/utils/token_usage.py:65-66 | booleans and non-numbers never count, whatever their key |
| TokenUsage.TokenKeysDisjoint | tuJanalyst/src/utils/token_usage.py:12-22 | the input, output and total key sets share no key |
| TokenUsage.ExtractTokenCounts | tuJanalyst/src/utils/token_usage.py:35-47 | nothing for an absent or empty map; otherwise the input and output sums, with total_tokens as output when both are zero |
| TokenUsage.CountsAddUp | tuJanalyst/src/utils/token_usage.py:35-47 | unless the fallback applies, the two totals add up to the sum over the union of the key sets |
| AppSettings.WithDefaults | tuJanalyst/src/config.py:38-65 | the defaults: anthropic, no web search, no notification, polling 300, 50 MB, 60 s extraction, 15 s search timeout, 5 results |
| AppSettings.ResolvedLlmApiKey | tuJanalyst/src/config.py:75-84 | the generic key when truthy; otherwise anthropic's key for anthropic, openai's for openai and azure, None for a local provider |
| AppSettings.Checks | tuJanalyst/src/config.py:89-119 | the ten checks in the order they run |
| AppSettings.ChecksMeanValid | tuJanalyst/src/config.py:87-121 | the settings are valid exactly when every one of the ten checks passes |
| AppSettings.FirstFailing | tuJanalyst/src/config.py:87-121 | the first failing check from k, with every earlier one passing |
| AppSettings.ValidateRuntime | tuJanalyst/src/config.py:87-121 | the settings come back unchanged exactly when valid; otherwise the message of the first failing check |
| AppSettings.PollingCheckedFirst | tuJanalyst/src/config.py:89-90 | a non-positive polling interval is the error reported, whatever else is wrong |
| AppSettings.RemoteProviderNeedsKey | tuJanalyst/src/config.py:104-107 | a remote provider with no resolved key is refused with the missing-key message once the numeric checks pass |
| AppSettings.ValidSettingsConfigureLm | tuJanalyst/src/dspy_modules/gate.py:29-31 | settings that validate configure the language model with the key they resolve |
| Companies.ValidateSector | tuJanalyst/src/models/company.py:23-27 | a sector is accepted exactly when it has a keyword, with the source's message otherwise |
| Companies.StripOpt | tuJanalyst/src/models/company.py:33-40 | an optional field stays absent or is stripped |
| Companies.NewCompany | tuJanalyst/src/models/company.py:30-51 | accepted exactly when the priority is "high" or "normal" as given, absent meaning "normal"; every string field stripped and the symbol then upper-cased; the flags kept |
| Companies.StripOptIdempotent | tuJanalyst/src/models/company.py:33 | stripping an optional field twice is stripping once |
| Companies.SymbolNormalized | tuJanalyst/src/models/company.py:48-51 | the validated symbol is stripped and upper-case |
| Companies.AliasesNormalized | tuJanalyst/src/models/company.py:33-45 | every validated alias is stripped |
| Companies.NewCompanyNormalizes | tuJanalyst/src/models/company.py:30-51 | validation produces a normalised company |
| Companies.NormalizedIsFixed | tuJanalyst/src/models/company.py:30-51 | a normalised company validates to itself |
| Companies.NewCompanyIdempotent | tuJanalyst/src/models/company.py:30-51 | writing a validated company back and validating again changes nothing |
| Companies.Symbols | tuJanalyst/src/models/company.py:69 | the companies' symbols, in order |
| Companies.RepeatedSymbols | tuJanalyst/src/models/company.py:70 | the symbols listed more than once, sorted, each once |
| Companies.RepeatedIffDuplicates | tuJanalyst/src/models/company.py:69-72 | a repeated symbol exists exactly when the list is not duplicate-free |
| Companies.AllSectorsValidCons | tuJanalyst/src/models/company.py:23-27 | every sector is valid exactly when the first and the rest are |
| Companies.AllCompaniesValidCons | tuJanalyst/src/models/company.py:43 | every company is valid exactly when the first and the rest are |
| Companies.Errors | tuJanalyst/src/models/company.py:23-27 | one keyword error per failing sector, none exactly when all are valid |
| Companies.CompanyErrors | tuJanalyst/src/models/company.py:43 | one priority error per failing company, each naming a value outside high and normal; none exactly when all are valid |
| Companies.NewCompanies | tuJanalyst/src/models/company.py:30-51 | one validated company per raw entry, in order |
| Companies.LoadWatchlist | tuJanalyst/src/models/company.py:54-74 | field errors are reported first, all of them in order; then no sectors, then no companies; success exactly when everything is valid, both lists are non-empty and the symbols are distinct, keeping the sectors, companies and keywords |
| Companies.DuplicateSymbolsReported | tuJanalyst/src/models/company.py:69-72 | repeated upper-cased symbols are refused with one message naming each repeated symbol once, sorted |
| Companies.NewPosition | tuJanalyst/src/models/company.py:82-101 | a new position has recommendation NONE, no history, no investigations, no basis and no dates |
| Investigations.NewInvestigation | tuJanalyst/src/models/investigation.py:101-133 | a new investigation is MEDIUM, not significant, without context, findings, flags, results or tokens |
| Notes.NormalizeSymbol | tuJanalyst/src/api/notes.py:49-53 | accepted exactly when the symbol is not blank, as its stripped upper-cased form; otherwise 400 "company_symbol is required" |
| Notes.SymbolIdempotent | tuJanalyst/src/api/notes.py:49-53 | a normalised symbol normalises to itself |
| Notes.NormalizeContent | tuJanalyst/src/api/notes.py:56-60 | accepted exactly when the content is not blank, stripped; otherwise 400 "content is required" |
| Notes.ContentIdempotent | tuJanalyst/src/api/notes.py:56-60 | normalised content normalises to itself |
| Notes.NormalizeOptional | tuJanalyst/src/api/notes.py:75-79 | None exactly for an absent or blank value; otherwise the stripped value |
| Notes.OptionalIdempotent | tuJanalyst/src/api/notes.py:75-79 | normalising twice is normalising once |
| Notes.TagForm | tuJanalyst/src/api/notes.py:67 | a tag is stripped and lower-case, empty exactly when the row is blank |
| Notes.TagForms | tuJanalyst/src/api/notes.py:66-67 | one tag form per row, in order |
| Notes.NormalizeTags | tuJanalyst/src/api/notes.py:63-72 | the kept tags are distinct, non-empty, stripped and lower-case, each is some row's tag form, and every non-blank row's form is kept |
| Notes.KeptTagIsForm | tuJanalyst/src/api/notes.py:66-71 | a kept tag is the tag form of some row |
| Notes.FormIsKept | tuJanalyst/src/api/notes.py:66-71 | the tag form of every non-blank row is kept |
| Notes.TagsStep | tuJanalyst/src/api/notes.py:66-71 | one more row appends its tag unless it is empty or already kept |
| Notes.TagFormsSnoc | tuJanalyst/src/api/notes.py:66-67 | one more row appends its tag form |
| Notes.NormalizeTagsLoop | tuJanalyst/src/api/notes.py:63-72 | the loop with its seen set computes exactly the tags above |
| Notes.CreateNote | tuJanalyst/src/api/notes.py:138-156 | a blank symbol is refused first, then blank content, then a missing database with 503; otherwise the note is appended with the normalised symbol, content, tags and optional fields, author "analyst" by default, and both times at the clock |
| Notes.BuildQuery | tuJanalyst/src/api/notes.py:168-172 | a given blank company is refused with 400; a company adds its normalised symbol and a tag its stripped lower-cased form |
| Notes.Window | tuJanalyst/src/api/notes.py:176 | skip then limit: at most limit notes, a contiguous slice, full when enough remain, empty past the end |
| Notes.ListNotes | tuJanalyst/src/api/notes.py:159-180 | limits outside [1, 200] or a negative offset are refused with 422; then the query and database errors; otherwise total counts every matching note and the items are the window of limit notes from offset in a newest-update-first ordering of the matching notes |
| Notes.PageOfMatching | tuJanalyst/src/api/notes.py:176-180 | a page of matching notes holds at most limit matching notes drawn from them, newest update first, full when enough remain, and is the window at offset of a newest-first arrangement of them |
| Notes.WindowOfSorted | tuJanalyst/src/api/notes.py:176 | a window of a sorted list is sorted and drawn from it |
| Notes.ListedWhenMatching | tuJanalyst/src/api/notes.py:175 | a listing counts every note matching its query |
| Notes.CreatedNoteListedBySymbol | tuJanalyst/src/api/notes.py:145-175 | a created note is found by its symbol in any case and padding |
| Notes.TaggedListed | tuJanalyst/src/api/notes.py:172-175 | a note carrying a tag's form is counted by that tag |
| Notes.CreatedLast | tuJanalyst/src/api/notes.py:154 | the created note is the collection's last |
| Notes.TagKept | tuJanalyst/src/api/notes.py:63-72 | a non-blank tag of the rows is kept in its tag form |
| Notes.CreatedNoteListedByTag | tuJanalyst/src/api/notes.py:148-175 | a created note is found by each non-blank tag it was given |
| Notes.BlankTagMatchesNothing | tuJanalyst/src/api/notes.py:171-172 | a whitespace-only tag asks for the empty tag, which no created note carries, so the listing is empty |
| Notes.FindNote | tuJanalyst/src/api/notes.py:190 | the first note with the id, or past the end |
| Notes.GetNote | tuJanalyst/src/api/notes.py:183-193 | 503 without a database; otherwise the first note with the id, and 404 exactly when none has it |
| Notes.UpdateNote | tuJanalyst/src/api/notes.py:196-222 | blank content is refused, then an empty update; otherwise, exactly when the note exists, the first note with the id gets the given content and tags normalised and the clock as update time, nothing else changing |
| Notes.FindNoteAt | tuJanalyst/src/api/notes.py:190 | the first note with an id is at the first position holding it |
| Notes.UpdateThenGet | tuJanalyst/src/api/notes.py:196-222 | the note an update returns is the one a later get reads, and every other note is unchanged |
| Notes.DeleteNote | tuJanalyst/src/api/notes.py:225-238 | 503 without a database; otherwise the first note with the id is removed, and 404 exactly when none has it |
| Notes.DeleteThenMissing | tuJanalyst/src/api/notes.py:225-238 | with distinct ids a deleted note is gone, a later get answers 404, and every other note remains |
| Notes.CoerceTime | tuJanalyst/src/api/notes.py:82-87 | a datetime is kept as a UTC instant; anything else gives the fallback |
| Notes.NoteTimes | tuJanalyst/src/api/notes.py:90-96 | a missing creation time is the clock and a missing update time is the creation time |
| Notes.IndexNote | tuJanalyst/src/api/notes.py:99-118 | no index means no calls; otherwise the note's chunks are deleted first, and when that succeeds the content is added with the tags joined by commas |
| Notes.IndexedTagsReadBack | tuJanalyst/src/api/notes.py:112 | the indexed tags text splits back into the tags when none holds a comma |
| ManualTrigger.OptionalEntry | tuJanalyst/src/dashboard/manual_trigger_utils.py:28-34 | a blank optional field adds nothing; any other adds its stripped value under its key |
| ManualTrigger.BuildPayload | tuJanalyst/src/dashboard/manual_trigger_utils.py:6-35 | a blank symbol is refused first, then a blank summary; otherwise the payload opens with the upper-cased stripped symbol and the stripped summary, keys are distinct, and each optional field is present exactly when not blank, stripped |
| ManualTrigger.OptionalGet | tuJanalyst/src/dashboard/manual_trigger_utils.py:34 | an optional key reads its stripped value, or nothing when blank |
| ManualTrigger.PayloadKeysDistinct | tuJanalyst/src/dashboard/manual_trigger_utils.py:23-33 | the six payload keys are distinct |
| ManualTrigger.AssembleFacts | tuJanalyst/src/dashboard/manual_trigger_utils.py:23-34 | the two required entries then the optional ones give distinct known keys, each optional key reading its own entry |
| ManualTrigger.ExtendShape | tuJanalyst/src/dashboard/manual_trigger_utils.py:34 | appending the next optional entry keeps the keys distinct and known |
| ManualTrigger.ExtendGets | tuJanalyst/src/dashboard/manual_trigger_utils.py:34 | the new key reads the new entry and the earlier keys are unchanged |
| ManualTrigger.PayloadAccepted | tuJanalyst/src/api/triggers.py:47-74 | the human-trigger route accepts every payload the form builds and stores a trigger with the normalised symbol and summary |
| Ranking.InferSignal | tuJanalyst/src/dashboard/recommendation_utils.py:31-40 | SELL, BUY and HOLD exactly when the lower-cased text mentions that word and no earlier one, NONE when it mentions none |
| Ranking.SignalIgnoresCase | tuJanalyst/src/dashboard/recommendation_utils.py:33 | the signal ignores letter case |
| Ranking.SignalWeight | tuJanalyst/src/dashboard/recommendation_utils.py:43-50 | the weight is 3 exactly for BUY or SELL, 2 exactly for HOLD and 1 for anything else, after upper-casing and stripping |
| Ranking.InferredWeight | tuJanalyst/src/dashboard/recommendation_utils.py:43-60 | an inferred signal weighs 3 for sell or buy, else 2 for hold, else 1 |
| Ranking.UpperAppend | tuJanalyst/src/dashboard/recommendation_utils.py:45 | upper-casing distributes over concatenation |
| Ranking.WeightIgnoresCaseAndPadding | tuJanalyst/src/dashboard/recommendation_utils.py:45 | the weight ignores the signal's letter case and surrounding whitespace |
| Ranking.PaddedNormalizes | tuJanalyst/src/dashboard/recommendation_utils.py:45 | upper-casing and stripping a padded lower-case signal gives the upper-cased signal |
| Ranking.UpperPadded | tuJanalyst/src/dashboard/recommendation_utils.py:45 | upper-casing padding leaves whitespace |
| Ranking.DigitRunEnd | tuJanalyst/src/dashboard/recommendation_utils.py:9 | the end of the digit run from i |
| Ranking.MatchAt | tuJanalyst/src/dashboard/recommendation_utils.py:9 | a match's digit group is one to three digits followed by more text |
| Ranking.ExtractConfidencePct | tuJanalyst/src/dashboard/recommendation_utils.py:22-28 | the result is between 0 and 100, and 50 when no match exists |
| Ranking.NatToStringShort | tuJanalyst/src/pipeline/layer5_report/generator.py:116 | a number up to 999 renders in at most three digits |
| Ranking.CapitalisedWord | tuJanalyst/src/pipeline/layer5_report/generator.py:116 | the generator's "Confidence" matches the pattern's word in any case |
| Ranking.MatchOfRendered | tuJanalyst/src/dashboard/recommendation_utils.py:9 | "Confidence: <d>%" at p is a match whose group is d |
| Ranking.RenderedChars | tuJanalyst/src/pipeline/layer5_report/generator.py:114-117 | where the pieces of a rendered summary sit |
| Ranking.NoWordNoMatch | tuJanalyst/src/dashboard/recommendation_utils.py:9 | no match starts where there is no c |
| Ranking.ExtractAt | tuJanalyst/src/dashboard/recommendation_utils.py:22-28 | the leftmost match's number, capped at 100 |
| Ranking.ConfidenceReadBack | tuJanalyst/src/dashboard/recommendation_utils.py:22-28 | a summary rendering "Confidence: n%" after text without a c reads back n capped at 100 |
| Ranking.SummaryPieces | tuJanalyst/src/pipeline/layer5_report/generator.py:114-117 | the generator's summary cut around its confidence |
| Ranking.DashboardReadsGeneratedConfidence | tuJanalyst/src/pipeline/layer5_report/generator.py:113-118 | the dashboard reads back the confidence the generator rendered as a whole percentage |
| Ranking.ReplaceZ | tuJanalyst/src/dashboard/recommendation_utils.py:17 | no "Z" remains, a text without one is unchanged, and nothing gets shorter |
| Ranking.ReplaceZAppend | tuJanalyst/src/dashboard/recommendation_utils.py:17 | replacing distributes over concatenation |
| Ranking.ParseCreatedAt | tuJanalyst/src/dashboard/recommendation_utils.py:12-19 | an empty value is datetime.min; a parsed instant is the one the replaced text names, and an unparsable one is datetime.min |
| Ranking.ZuluMeansUtc | tuJanalyst/src/dashboard/recommendation_utils.py:17 | a trailing "Z" parses as "+00:00" does |
| Ranking.ExpectedImpactScore | tuJanalyst/src/dashboard/recommendation_utils.py:53-65 | without a creation time the score is weight times 10000 plus confidence times 10 |
| Ranking.RecencyOutranksConfidence | tuJanalyst/src/dashboard/recommendation_utils.py:63-65 | with the same signal, a report created after September 2001 outranks one without a creation time that has up to 99 points more confidence |
| Ranking.RecencyOutranksConfidenceExample | tuJanalyst/src/dashboard/recommendation_utils.py:63-65 | a SELL at 55% from 25 February 2026 outranks an undated SELL at 95% |
| Ranking.NoZulu | tuJanalyst/src/dashboard/recommendation_utils.py:17 | a timestamp with an explicit offset is left as it is |
| Ranking.MentionsSell | tuJanalyst/src/dashboard/recommendation_utils.py:34 | a text starting "SELL" mentions sell |
| Ranking.RenderedSell | tuJanalyst/src/dashboard/recommendation_utils.py:31-50 | a SELL summary weighs 3 and reads back its confidence |
| Ranking.SellSummaryWeight | tuJanalyst/src/dashboard/recommendation_utils.py:43-50 | a SELL summary weighs 3 |
| Ranking.Squash | tuJanalyst/src/dashboard/recommendation_utils.py:63-64 | the squashed recency lies in [0, 1) and is 0 exactly for datetime.min |
| Ranking.HalfOverDecreasing | tuJanalyst/src/dashboard/recommendation_utils.py:64 | a helper inequality for the squash |
| Ranking.SquashStrict | tuJanalyst/src/dashboard/recommendation_utils.py:64 | a later instant squashes higher |
| Ranking.SquashOrder | tuJanalyst/src/dashboard/recommendation_utils.py:63-64 | the squash keeps the recency order both ways |
| Ranking.CorrectedScoreOrder | tuJanalyst/src/dashboard/recommendation_utils.py:53-65 | with recency squashed, one report scores above another exactly when its signal, then confidence, then recency rank it above |
| Ranking.SortedMeansRanked | tuJanalyst/src/dashboard/recommendation_utils.py:68-70 | a list sorted by the corrected score never has a report ranked above an earlier one |
| Ranking.SortReportsByImpact | tuJanalyst/src/dashboard/recommendation_utils.py:68-70 | sorting by the corrected score: the result is a permutation of the reports with non-increasing corrected score, in which no report ranks above one placed before it, and reports of equal score keep their input order, as Python's stable `sorted` keeps them |
| Ranking.CorrectedImpactScore | tuJanalyst/src/dashboard/recommendation_utils.py:53-65 | the score with recency squashed below one point; Ranking.CorrectedScoreOrder states that it orders reports by signal, then confidence, then recency |
| Ranking.SortReportsAsWritten | tuJanalyst/src/dashboard/recommendation_utils.py:68-70 | sorting by the score as written: a permutation of the reports with non-increasing expected impact score, reports of equal score keeping their input order |
| Ranking.AsWrittenSortPutsRecentFirst | tuJanalyst/src/dashboard/recommendation_utils.py:63-70 | in the setting of the recency finding, the sort as written places the dated report with less confidence before the undated one, although by signal and confidence the undated one should come first |
| Ranking.AsWrittenSortOfTwo | tuJanalyst/src/dashboard/recommendation_utils.py:68-70 | of two reports the one with the higher score as written comes first |
| Ranking.CorrectedSortPutsConfidentFirst | tuJanalyst/src/dashboard/recommendation_utils.py:53-70 | with the same signal, the corrected sort places the more confident report first whatever the creation times |
| Ranking.CorrectedSortOfTwo | tuJanalyst/src/dashboard/recommendation_utils.py:68-70 | of two reports the one with the higher corrected score comes first |
| Ranking.TwoElements | tuJanalyst/src/dashboard/recommendation_utils.py:68-70 | a permutation of two reports is one of their two orders |
| Ranking.CorrectedKey | tuJanalyst/src/dashboard/recommendation_utils.py:68-70 | the sort key is the corrected score of each report |
| Ranking.AsWrittenKey | tuJanalyst/src/dashboard/recommendation_utils.py:68-70 | the sort key is the score as written of each report |
| Collections.WithKey | tuJanalyst/src/dashboard/recommendation_utils.py:70 | the elements of one score, each having that score |
| Collections.InsertDescKeepsTies | tuJanalyst/src/dashboard/recommendation_utils.py:70 | inserting an element puts it first among those of its score and leaves every score's order otherwise alone |
| Collections.SortByKeyDescStable | tuJanalyst/src/dashboard/recommendation_utils.py:70 | sorting keeps the elements of each score in their input order |
| Collections.SortByKeyDescStableAll | tuJanalyst/src/dashboard/recommendation_utils.py:70 | the same for every score at once |
| DashboardApp.ParseTagList | tuJanalyst/src/dashboard/app.py:148-157 | the tags are distinct, non-empty, stripped, lower-case and comma-free, each the form of a part, and every non-blank part's form is kept |
| DashboardApp.TagsInFirstOccurrenceOrder | tuJanalyst/src/dashboard/app.py:151-156 | the tags come in the order of their first parts |
| DashboardApp.TagFormKeepsOut | tuJanalyst/src/dashboard/app.py:152 | a comma-free part has a comma-free tag |
| DashboardApp.TagListRoundTrip | tuJanalyst/src/dashboard/app.py:148-157 | distinct clean tags joined by commas parse back to themselves |
| DashboardApp.EmptyTagList | tuJanalyst/src/dashboard/app.py:148-157 | an empty field holds no tags |
| DashboardApp.ParseTagListIs | tuJanalyst/src/dashboard/app.py:148-157 | the parser is the notes' tag normalisation applied to the parts |
| DashboardApp.NormalizedTagsKept | tuJanalyst/src/dashboard/app.py:151-156 | distinct clean tags survive the normalisation unchanged |
| DashboardApp.TagFormOfTag | tuJanalyst/src/dashboard/app.py:152 | a clean tag is its own form |
| DashboardApp.FormatDatetime | tuJanalyst/src/dashboard/app.py:197-199 | "" for a false value; otherwise the first 19 characters of its text, all of it when shorter |
| DashboardApp.FormatIdempotent | tuJanalyst/src/dashboard/app.py:197-199 | formatting what was shown shows the same text |
| Costs.PricingForModel | tuJanalyst/src/api/costs.py:39-48 | haiku pricing exactly when the lower-cased name mentions haiku; opus exactly when it mentions opus but neither earlier name; sonnet otherwise |
| Costs.PricingIgnoresCase | tuJanalyst/src/api/costs.py:41 | the price ignores letter case |
| Costs.LlmCost | tuJanalyst/src/api/costs.py:51-53 | for non-negative tokens the cost lies between the haiku and opus prices |
| Costs.PriceBounds | tuJanalyst/src/api/costs.py:51-53 | a helper bound on the per-token prices |
| Costs.LlmCostAdds | tuJanalyst/src/api/costs.py:51-53 | the cost of two batches of one model is the cost of their combined tokens |
| Costs.WebSearchCostPerCall | tuJanalyst/src/api/costs.py:56-59 | half a cent exactly for brave and tavily, nothing otherwise |
| Costs.ConfiguredSearchCost | tuJanalyst/src/api/costs.py:56-59 | with settings, a search costs something exactly when a provider is configured |
| Costs.OneModelCost | tuJanalyst/src/api/costs.py:129-138 | rows of one model cost what their summed tokens cost |
| Costs.Summarize | tuJanalyst/src/api/costs.py:91-175 | with a database, fails exactly when one end of the window is offset-naive and the other aware (a TypeError, HTTP 500) or the window ends before it starts (400); without a database all counts are zero; otherwise the token sums, the cost sum, the search calls at the provider's price and the per-report share, the total being the sum of the two costs |
| Costs.WindowCosts | tuJanalyst/src/api/costs.py:118-175 | with a database, the token and cost sums of the usage rows, the search calls at the provider's price, the total as their sum and the per-report share of it, 0 without completed reports |
| Performance.PctChange | tuJanalyst/src/api/performance.py:84-89 | None exactly when a price is missing or the base is not positive; otherwise the move that takes the base to the latest price, positive exactly when the price rose and negative exactly when it fell |
| Performance.MoveSign | tuJanalyst/src/api/performance.py:89 | a relative move is positive exactly when the price rose and negative exactly when it fell |
| Performance.TimeframeDays | tuJanalyst/src/api/performance.py:14-18 | 30 days exactly for short term, 180 exactly for long term, 90 for medium term and anything else |
| Performance.StatusFor | tuJanalyst/src/api/performance.py:92-103 | within the timeframe exactly until the creation instant plus the timeframe's days, inclusive |
| Performance.ExpiredStaysExpired | tuJanalyst/src/api/performance.py:92-103 | an expired recommendation stays expired later |
| Performance.LongerTimeframesLast | tuJanalyst/src/api/performance.py:14-18 | a longer timeframe is within whenever a shorter one is, and an unknown one behaves as medium term |
| Performance.OutcomeFor | tuJanalyst/src/api/performance.py:106-119 | no return is unknown; with one, a buy wins exactly when it is positive and a sell exactly when it is negative, the other returns losing; a hold is neutral and anything else unknown |
| Performance.CallWinsWhenPriceMovesItsWay | tuJanalyst/src/api/performance.py:84-119 | a buy at a positive price wins exactly when the price rose since, a sell exactly when it fell |
| Performance.BuildRow | tuJanalyst/src/api/performance.py:217-252 | the recommendation defaults to "none" and the timeframe to "medium_term", both lower-cased; the symbol is upper-cased; the return is the change between the two prices and the outcome follows from it; a missing creation time is now, so within the timeframe |
| Performance.Mean | tuJanalyst/src/api/performance.py:330-331 | None exactly for no values; otherwise the mean times the count is the sum |
| Performance.ExtremeFrom | tuJanalyst/src/api/performance.py:307-308 | the scan ends at a row with a return that no row beats and that beats every earlier row with a return |
| Performance.BeatsChain | tuJanalyst/src/api/performance.py:307-308 | a row beating the best so far beats every earlier row |
| Performance.FirstWithReturn | tuJanalyst/src/api/performance.py:305 | the first row with a return from k on, or the end |
| Performance.ExtremeIndex | tuJanalyst/src/api/performance.py:305-308 | None exactly when no row has a return; otherwise the first row with a return that no row beats |
| Performance.Summarize | tuJanalyst/src/api/performance.py:288-334 | the total counts every row and the buy, sell and hold counts are the rows of each recommendation; the buy and sell averages are the means of those rows' returns; evaluated counts the actionable rows and wins those that won; the win rate is their share in [0, 1], 0 without evaluations; best and worst calls exist exactly when a row has a return, are rows' calls, and bound every return |
| Performance.RateBounded | tuJanalyst/src/api/performance.py:298 | a share of a positive count lies in [0, 1] |
| Performance.CallsAreFirstExtremes | tuJanalyst/src/api/performance.py:307-308 | as with max and min, the best and worst calls are the first rows with the extreme return |
| Performance.CountsBounded | tuJanalyst/src/api/performance.py:288-290 | the buy, sell and hold counts add up to at most the rows |
| Performance.FilterImplies | tuJanalyst/src/api/performance.py:288-296 | a test implied by another keeps no more rows |
| Performance.WinsAreRightCalls | tuJanalyst/src/api/performance.py:292-297 | over built rows the wins are the buy and sell calls whose price moved the way they called |
| Performance.WinIffRight | tuJanalyst/src/api/performance.py:106-119 | a built actionable row wins exactly when its price moved its way |
| Performance.FilterSame | tuJanalyst/src/api/performance.py:292-297 | two tests agreeing on every row keep the same rows |
| Performance.ReturnsBounded | tuJanalyst/src/api/performance.py:300-301 | bounds on every row's return hold in each list of returns |
| Performance.SumBounded | tuJanalyst/src/api/performance.py:330-331 | a sum lies between the count times each bound |
| Performance.MeanBounded | tuJanalyst/src/api/performance.py:330-331 | a mean lies between the bounds of its values |
| Performance.AveragesBetweenCalls | tuJanalyst/src/api/performance.py:300-331 | the average buy and sell returns lie between the worst and the best call |
| Performance.NoReturnsNoMeans | tuJanalyst/src/api/performance.py:300-301 | without any return the lists of returns are empty |
| WatchlistApi.ResolveSector | tuJanalyst/src/api/watchlist.py:97-102 | the company's own sector when it names one, else the only sector when there is one, else "Unassigned" |
| WatchlistApi.CountIn | tuJanalyst/src/api/watchlist.py:197 | at most the number of companies |
| WatchlistApi.TallyCounts | tuJanalyst/src/api/watchlist.py:192-197 | the loop's tally of a sector is the number of companies resolving to it |
| WatchlistApi.WatchlistOverview | tuJanalyst/src/api/watchlist.py:181-230 | 503 without a watchlist, then 503 without a database, success otherwise; one row per company in order with its upper-cased symbol, resolved sector, status and fields, and the defaults when a lookup lacks the symbol; one row per sector counting the companies that resolve to it |
| WatchlistApi.SectorNames | tuJanalyst/src/api/watchlist.py:213-219 | the sector names in order |
| WatchlistApi.HitsOnce | tuJanalyst/src/api/watchlist.py:217 | with distinct names a name is hit once or not at all |
| WatchlistApi.SumOverSnoc | tuJanalyst/src/api/watchlist.py:194-197 | one more company adds one for each name it resolves to |
| WatchlistApi.CountsCoverCompanies | tuJanalyst/src/api/watchlist.py:192-219 | with distinct sector names and every company in a listed sector, every company is counted once |
| WatchlistApi.SumOverEmpty | tuJanalyst/src/api/watchlist.py:192 | no companies count nothing |
| WatchlistApi.SumCountsIsSumOver | tuJanalyst/src/api/watchlist.py:213-219 | the sector rows' counts sum to their names' counts |
| WatchlistApi.OverviewCountsEveryCompany | tuJanalyst/src/api/watchlist.py:192-219 | with distinct sector names and every company in a listed sector, the overview's sector counts add up to the number of companies |
| WatchlistApi.GetValue | tuJanalyst/src/api/watchlist.py:116 | an absent key reads as None |
| WatchlistApi.Or | tuJanalyst/src/api/watchlist.py:113 | Python's or: the first value when truthy, else the second |
| WatchlistApi.AgentOf | tuJanalyst/src/api/watchlist.py:113 | the agent name is stripped |
| WatchlistApi.DomainOf | tuJanalyst/src/api/watchlist.py:122 | the domain is stripped and lower-case |
| WatchlistApi.Strs | tuJanalyst/src/api/watchlist.py:128 | each action stringified |
| WatchlistApi.ActionsOf | tuJanalyst/src/api/watchlist.py:125-128 | a non-list is no actions; the kept actions are non-empty, stripped and lower-case, each the form of some action, and every non-blank action is kept |
| WatchlistApi.PermissionRows | tuJanalyst/src/api/watchlist.py:119-129 | nothing for a non-dictionary or a blank domain; otherwise one row with the agent, the domain and the actions |
| WatchlistApi.PermissionsRowsShape | tuJanalyst/src/api/watchlist.py:119-129 | every row of an agent's permissions names that agent and has the permission shape, and there is at most one row per permission |
| WatchlistApi.RowsOfConcat | tuJanalyst/src/api/watchlist.py:129 | appending rows of one agent keeps their shape |
| WatchlistApi.EntryRows | tuJanalyst/src/api/watchlist.py:110-129 | nothing for a non-dictionary, a blank agent or permissions that are not a list; otherwise the rows of its permissions |
| WatchlistApi.EntriesWellFormed | tuJanalyst/src/api/watchlist.py:110-129 | every flattened row is well formed |
| WatchlistApi.EntryWellFormed | tuJanalyst/src/api/watchlist.py:110-129 | the rows of one entry are well formed |
| WatchlistApi.WellFormedConcat | tuJanalyst/src/api/watchlist.py:129 | appending well-formed rows keeps them well formed |
| WatchlistApi.EntriesRowsSnoc | tuJanalyst/src/api/watchlist.py:110 | the last entry's rows come last |
| WatchlistApi.FlattenPermissions | tuJanalyst/src/api/watchlist.py:105-130 | nothing unless the payload is a list; every row has a stripped non-empty agent and domain, the domain and actions lower-case, and no blank action |
| WatchlistApi.EntriesRowsAppend | tuJanalyst/src/api/watchlist.py:110 | flattening two lists of entries one after the other flattens each |
| WatchlistApi.ActionValues | tuJanalyst/src/api/watchlist.py:125 | each action written as a string |
| WatchlistApi.EntryRoundTrip | tuJanalyst/src/api/watchlist.py:110-129 | a well-formed row written as a policy entry flattens back to itself |
| WatchlistApi.CanonicalAgent | tuJanalyst/src/api/watchlist.py:113-116 | the canonical entry names the row's agent and lists one permission |
| WatchlistApi.CanonicalPermissionRow | tuJanalyst/src/api/watchlist.py:119-129 | the canonical permission gives back the row |
| WatchlistApi.CanonicalDomain | tuJanalyst/src/api/watchlist.py:122-125 | the canonical permission names the row's domain and lists its actions |
| WatchlistApi.ActionsRoundTrip | tuJanalyst/src/api/watchlist.py:128 | normalised actions written as strings read back unchanged |
| WatchlistApi.LookupSecond | tuJanalyst/src/api/watchlist.py:116 | the second of two distinct keys reads its own value |
| WatchlistApi.CanonicalPolicy | tuJanalyst/src/api/watchlist.py:105-110 | one canonical entry per row |
| WatchlistApi.PolicyRoundTrip | tuJanalyst/src/api/watchlist.py:105-130 | well-formed rows written as a policy, one entry each, flatten back to the same rows in the same order |

## Left out

- I/O of every kind is an input or an outcome: the feed HTTP fetch, document downloads, Slack posting, SMTP, MongoDB queries and aggregations, Chroma and the sentence-transformer embedder. The vector id an index returns is opaque.
- The store's `update_status` is taken never to raise. The orchestrator's error handling in pipeline/orchestrator.py:83-91 relies on that, and the model does too.
- Document saves in the extractor always succeed, because its repository calls report no failures. The fetcher's saves are scripted outcomes instead: `firstSave`, `resultSave` and `errorSave` of Fetcher.FetchScript may each fail, and a failing save raises out of `fetch` as Fetcher.Failure and Fetcher.Fetch state.
- The extraction timeout (`asyncio.wait_for`) is a boolean input saying whether the run timed out. Real time, sleeps, `to_thread` and asyncio scheduling are not modelled; the retry delays are a recorded list.
- Each orchestrator run, each note operation and each position derivation reads the clock once. The source reads it separately for `created_at` and `updated_at`, so those may differ by microseconds there. In Assessor.DerivePosition a first position's `updated_at` is the `now` passed in, where the source takes it from the `CompanyPosition` default factory, a separate clock reading.
- `urljoin`, SHA-256, `_parse_date`, `urlparse`, `datetime.fromisoformat`, `json.loads`, `float()`, `str()` of containers and `"%.0f"` are oracle parameters. Only the properties the code relies on are stated about them.
- Floating point is modelled as reals. NaN and infinities appear only in the confidence parser, where the NaN finding needs them, and `round(x, 4)`/`round(x, 6)` are not applied.
- `int()` of NaN or infinity in the token counter (it raises in Python) is not modelled; counted values are finite reals truncated toward zero.
- The `updated_at` that mongo.py:291 sets is dropped, because the model's RawDocument has no timestamps.
- `Lower` and `Upper` map ASCII letters only. Python's full Unicode case mapping is not modelled.
- Extractor.ResolveType: paths are taken in the canonical form the fetcher writes. `TrimTrail` drops trailing "/" and "/." as `Path` does, but ".." and repeated separators are not normalised.
- Extractor.Lines: unlike `str.splitlines()` it makes two pieces of "\r\n" and keeps a last empty piece. Only blank pieces differ, and the HTML routine drops those. BeautifulSoup's own text extraction is an oracle.
- The PDF and HTML libraries (pdfplumber, BeautifulSoup) are replaced by abstract page, table and text data.
- DSPy modules, signatures and the language model are inputs. `run_with_dspy_usage` becomes a prediction plus a usage map.
- `parse_decision_result` and `ParsedDecisionResult`, which the assessor imports, do not exist in dspy_modules/decision.py. The assessor's use of them is modelled as the parsed fields being inputs.
- `average_confidence_pct`, which dashboard/app.py imports, does not exist in recommendation_utils.py and is not modelled.
- `_load_yaml` and `load_watchlist_config` (YAML reading) are not modelled; the watchlist is given as parsed data.
- `Settings` field parsing from the environment is pydantic-settings behaviour and is not modelled. Only `resolved_llm_api_key` and `validate_runtime_configuration` are.
- The agent-policy YAML reading in api/watchlist.py is not modelled; `_flatten_permissions` works on the parsed payload.
- `_start_of_today_utc` and `datetime.now` are inputs to the cost summary and the performance rows.
- `_as_float` is not modelled. Prices, confidences and returns arrive as optional reals.
- The confidence regex of recommendation_utils.py:9 is written out as a hand-written matcher for "confidence", optional whitespace, ":" or "=", optional whitespace, one to three digits, optional whitespace and "%", case-insensitive. Regex backtracking beyond that is not modelled, and it cannot change the outcome because no run can give characters back to a later part.
- Ranking.MatchAt: a digit is an ASCII digit "0"-"9" and whitespace is ASCII whitespace. Python's `\d` and `\s` also match other Unicode digits and spaces, and `int()` accepts those digits, so a summary written with, say, Arabic-Indic digits is read by the source but not by the model.
- Mongo's sort on equal `updated_at` values may return either order; Notes.ListNotes states that the items are a window of some newest-first ordering of the matching notes, not which of two equal notes comes first.
- Notes.IndexNote: only the calls the index receives are modelled, not the chunk metadata the index stores.
- `_build_recommendation_rows` and the rest of the Streamlit rendering in dashboard/app.py are not modelled.
- Companies.NewCompany: a missing priority defaults to "normal", as the field default does. A given priority is compared exactly, without stripping, as the literal validator does.
- Analyzer.Analyze: the repository calls (`doc_repo.get` at analyzer.py:124, `get_by_company` at analyzer.py:134, `get_past_inconclusive` at analyzer.py:146 and `save` at analyzer.py:105) are taken never to raise. A database error there would propagate out of `analyze` in the source; the model raises only when the deep-analysis call does.
- Structured logging, the scheduler wiring and main.py are not modelled.

## Findings

| source | as written | input that shows it | evidently intended | confidence | as-written member | corrected member |
|---|---|---|---|---|---|---|
| tuJanalyst/src/dspy_modules/decision.py:87-96 | `float(value)` accepts "nan", and NaN fails both `< 0` and `> 1`, so it is returned unclamped | the model output "nan" | a confidence in [0, 1] for every input | not executed | Decision.ParseConfidenceAsWritten, Decision.ConfidenceNaNEscapes | Decision.ParseConfidence, Decision.ConfidenceAgreesOffNaN |
| tuJanalyst/src/pipeline/orchestrator.py:237-238 | `filter_result.get("passed")` is called on the `FilterResult` dataclass, which has no `get`, so it raises | any trigger that is not human-sourced | the filter's `passed` and `reason` decide the gate | not executed | GateWiring.FilterAsWritten, GateWiring.AsWrittenFilterFailsEveryTrigger | GateWiring.FilterGate, GateWiring.CorrectedFilterGate |
| tuJanalyst/src/dashboard/recommendation_utils.py:53-65 | recency is `timestamp / 1e6`, about 1772 in 2026, more than the whole confidence term (at most 1000), so recency is not a tie-breaker | a SELL at 55% dated 2026-02-25 against an undated SELL at 95% | signal first, then confidence, then recency | not executed | Ranking.ExpectedImpactScore, Ranking.RecencyOutranksConfidence, Ranking.RecencyOutranksConfidenceExample, Ranking.SortReportsAsWritten, Ranking.AsWrittenSortPutsRecentFirst | Ranking.CorrectedScoreOrder, Ranking.SortReportsByImpact, Ranking.CorrectedSortPutsConfidentFirst |

=== FILE: analyzer.dfy ===
/** The layer-3 deep analyzer (pipeline/layer3_analysis/analyzer.py). The
    repositories, the market-data and web-search tools and the two language
    model calls are an environment of scripted answers; each model call is
    given by the outcome of its `retry_in_thread` run. JSON decoding is an
    input: each `*_json` text arrives as the outcome of `json.loads`. */
module Analyzer {
  import opened Wrappers
  import opened Text
  import opened Json
  import opened Trigger
  import opened Documents
  import opened Investigations
  import Orchestrator
  import Collections

  const UnknownSymbol: string := "UNKNOWN"
  const UnknownCompany: string := "Unknown Company"
  const DocumentSeparator: string := "\n\n---\n\n"
  const SummaryChars: nat := 2000
  const MaxQueries: nat := 5
  const PastLimit: nat := 10
  const KeyFindingsPerPast: nat := 3
  const SimilarResults: nat := 5
  const WarningPrefix: string := "Pipeline warning: "

  /** A web-search row: `str()` of its `title`, `url` and `snippet` values,
      None for a key the row lacks. */
  datatype SearchRow = SearchRow(title: Option<string>, url: Option<string>, snippet: Option<string>)

  /** The query-generation call: the decoded `search_queries_json` (the
      decoding of "[]" when the attribute is missing) and its token counts. */
  datatype QueryGeneration = QueryGeneration(searchQueries: Attempt<Value>, inputTokens: int, outputTokens: int)

  /** The deep-analysis pipeline's prediction, its JSON fields decoded. */
  datatype DeepResult = DeepResult(
    metrics: Attempt<Value>,
    forwardStatements: Attempt<Value>,
    highlights: Attempt<Value>,
    synthesis: string,
    keyFindings: Attempt<Value>,
    redFlags: Attempt<Value>,
    positiveSignals: Attempt<Value>,
    significance: string,
    significanceReasoning: string,
    isSignificant: bool,
    errors: seq<string>)

  datatype PipelineRun = PipelineRun(result: DeepResult, inputTokens: int, outputTokens: int)

  /** The repository calls `_gather_historical_context` makes. */
  datatype RepoQuery = ByCompany(symbol: string, limit: nat) | PastInconclusive(symbol: string) | VectorSearch(query: string, limit: nat)

  datatype AnalysisEnv = AnalysisEnv(
    docs: string -> Option<RawDocument>,
    byCompany: (string, nat) -> seq<Investigation>,
    inconclusive: string -> seq<Investigation>,
    similar: string -> Attempt<seq<Value>>,
    marketData: string -> Attempt<Value>,
    queryGeneration: Attempt<QueryGeneration>,
    webSearch: string -> Attempt<seq<SearchRow>>,
    pipeline: Attempt<PipelineRun>,
    validMetric: Entries -> bool,
    validForward: Entries -> bool,
    containerStr: Value -> string,
    modelName: string)

  // ------------------------------------------------------------- identity

  /** `(trigger.company_symbol or "UNKNOWN").upper()`. */
  function InvestigationSymbol(symbol: Option<string>): (r: string)
    ensures Truthy(symbol) ==> r == Upper(symbol.value)
    ensures !Truthy(symbol) ==> r == UnknownSymbol
    ensures Upper(r) == r
  {
    UpperIdempotent(OrEmpty(symbol));
    Upper(if Truthy(symbol) then symbol.value else UnknownSymbol)
  }

  /** `trigger.company_name or "Unknown Company"`. */
  function InvestigationName(name: Option<string>): (r: string)
    ensures Truthy(name) ==> r == name.value
    ensures !Truthy(name) ==> r == UnknownCompany
    ensures r != []
  {
    if Truthy(name) then name.value else UnknownCompany
  }

  // -------------------------------------------------------- document text

  /** The non-empty extracted texts of the documents, in id order. */
  function DocTexts(ids: seq<string>, docs: string -> Option<RawDocument>): (r: seq<string>)
    ensures |r| <= |ids|
    ensures forall k | 0 <= k < |r| :: r[k] != []
    decreases |ids|
  {
    if |ids| == 0 then []
    else
      var d := docs(ids[|ids| - 1]);
      var init := DocTexts(ids[..|ids| - 1], docs);
      if d.Some? && Truthy(d.value.extractedText) then init + [d.value.extractedText.value] else init
  }

  /** Looking up one more document appends its text, if it has one. */
  lemma DocTextsSnoc(ids: seq<string>, id: string, docs: string -> Option<RawDocument>)
    ensures DocTexts(ids + [id], docs) ==
      DocTexts(ids, docs) + (if docs(id).Some? && Truthy(docs(id).value.extractedText) then [docs(id).value.extractedText.value] else [])
  {
    assert (ids + [id])[..|ids|] == ids;
  }

  /** Documents without text contribute nothing. */
  lemma {:induction false} NoTextNoTexts(ids: seq<string>, docs: string -> Option<RawDocument>)
    requires forall k | 0 <= k < |ids| :: docs(ids[k]).None? || !Truthy(docs(ids[k]).value.extractedText)
    ensures DocTexts(ids, docs) == []
    decreases |ids|
  {
    if |ids| > 0 {
      NoTextNoTexts(ids[..|ids| - 1], docs);
    }
  }

  /** `_collect_document_text`. */
  function CollectDocumentText(ids: seq<string>, rawContent: string, docs: string -> Option<RawDocument>): (r: string)
    ensures |ids| == 0 || DocTexts(ids, docs) == [] ==> r == rawContent
    ensures DocTexts(ids, docs) != [] ==> r == Join(DocTexts(ids, docs), DocumentSeparator)
  {
    if |ids| == 0 then rawContent
    else
      var texts := DocTexts(ids, docs);
      if texts == [] then rawContent else Join(texts, DocumentSeparator)
  }

  /** A single document with text is the whole analysis text. */
  lemma OneDocumentText(id: string, rawContent: string, docs: string -> Option<RawDocument>)
    requires docs(id).Some? && Truthy(docs(id).value.extractedText)
    ensures CollectDocumentText([id], rawContent, docs) == docs(id).value.extractedText.value
  {
    DocTextsSnoc([], id, docs);
    assert [] + [id] == [id];
  }

  // ---------------------------------------------------- historical context

  function PastRow(inv: Investigation): (r: PastInvestigation)
    ensures r.investigationId == inv.investigationId && r.date == inv.createdAt
    ensures r.significance == inv.significance
    ensures |r.keyFindings| == if |inv.keyFindings| <= KeyFindingsPerPast then |inv.keyFindings| else KeyFindingsPerPast
    ensures r.keyFindings == inv.keyFindings[..|r.keyFindings|]
  {
    PastInvestigation(inv.investigationId, inv.createdAt, inv.significance, Take(inv.keyFindings, KeyFindingsPerPast))
  }

  function PastRows(items: seq<Investigation>): (r: seq<PastInvestigation>)
    ensures |r| == |items|
    ensures forall k | 0 <= k < |items| :: r[k] == PastRow(items[k])
  {
    seq(|items|, k requires 0 <= k < |items| => PastRow(items[k]))
  }

  function Ids(items: seq<Investigation>): (r: seq<string>)
    ensures |r| == |items|
    ensures forall k | 0 <= k < |items| :: r[k] == items[k].investigationId
  {
    seq(|items|, k requires 0 <= k < |items| => items[k].investigationId)
  }

  datatype Gathered = Gathered(context: HistoricalContext, queries: seq<RepoQuery>)

  /** `_gather_historical_context(company_symbol)`: nothing is queried for an
      empty or "UNKNOWN" symbol; a failed similarity search leaves the
      similar documents empty. */
  function GatherHistoricalContext(symbol: string, env: AnalysisEnv): (r: Gathered)
    ensures symbol == [] || symbol == UnknownSymbol ==> r == Gathered(EmptyContext, [])
    ensures symbol != [] && symbol != UnknownSymbol ==>
      var past := env.byCompany(symbol, PastLimit);
      && r.queries == [ByCompany(symbol, PastLimit), PastInconclusive(symbol), VectorSearch(symbol, SimilarResults)]
      && r.context.totalPastInvestigations == |past|
      && r.context.pastInvestigations == PastRows(past)
      && r.context.pastRecommendations == Ids(env.inconclusive(symbol))
      && r.context.similarDocuments == (if env.similar(symbol).Ok? then env.similar(symbol).value else [])
  {
    if symbol == [] || symbol == UnknownSymbol then Gathered(EmptyContext, [])
    else
      var past := env.byCompany(symbol, PastLimit);
      var found := env.similar(symbol);
      Gathered(
        HistoricalContext(PastRows(past), Ids(env.inconclusive(symbol)), if found.Ok? then found.value else [], |past|),
        [ByCompany(symbol, PastLimit), PastInconclusive(symbol), VectorSearch(symbol, SimilarResults)])
  }

  /** A trigger whose symbol is missing, or spelled "unknown" in any case,
      is analysed without history: the repositories are not asked. */
  lemma UnknownSymbolNoHistory(symbol: Option<string>, env: AnalysisEnv)
    requires !Truthy(symbol) || Upper(symbol.value) == UnknownSymbol
    ensures GatherHistoricalContext(InvestigationSymbol(symbol), env) == Gathered(EmptyContext, [])
  {
  }

  // ------------------------------------------------------------ web search

  /** `_parse_json_list`: the decoded list, or nothing. */
  function JsonList(decoded: Attempt<Value>): (r: seq<Value>)
    ensures decoded.Ok? && decoded.value.List? ==> r == decoded.value.items
    ensures !(decoded.Ok? && decoded.value.List?) ==> r == []
  {
    if decoded.Ok? && decoded.value.List? then decoded.value.items else []
  }

  /** The queries of a query-generation call: the first five, or none when
      the call failed. */
  function SearchQueries(gen: Attempt<QueryGeneration>): (r: seq<Value>)
    ensures |r| <= MaxQueries
    ensures gen.Raise? ==> r == []
    ensures gen.Ok? ==> |r| <= |JsonList(gen.value.searchQueries)|
    ensures gen.Ok? ==> r == JsonList(gen.value.searchQueries)[..|r|]
  {
    if gen.Raise? then [] else Take(JsonList(gen.value.searchQueries), MaxQueries)
  }

  function OrEmptyText(o: Option<string>): string {
    if o.Some? then o.value else ""
  }

  /** A search row after `str(row.get(key, "")).strip()` of each field. */
  datatype CleanRow = CleanRow(title: string, url: string, snippet: string)

  function Clean(row: SearchRow): CleanRow {
    CleanRow(Strip(OrEmptyText(row.title)), Strip(OrEmptyText(row.url)), Strip(OrEmptyText(row.snippet)))
  }

  lemma CleanTrimmed(row: SearchRow)
    ensures Trimmed(Clean(row).title) && Trimmed(Clean(row).url) && Trimmed(Clean(row).snippet)
  {
  }

  function CleanAll(rows: seq<SearchRow>): (r: seq<CleanRow>)
    ensures |r| == |rows|
    ensures forall k | 0 <= k < |rows| :: r[k] == Clean(rows[k])
  {
    seq(|rows|, k requires 0 <= k < |rows| => Clean(rows[k]))
  }

  /** A row with a title and a URL after stripping is kept. */
  predicate Kept(c: CleanRow) {
    c.title != [] && c.url != []
  }

  function ResultOf(query: string, c: CleanRow): WebSearchResult {
    WebSearchResult(query, c.url, c.title, c.snippet, "medium", "neutral")
  }

  /** What every finding looks like: a clean, non-empty query, title and
      source, medium relevance and neutral sentiment. */
  predicate WellFormed(w: WebSearchResult) {
    && w.query != [] && Trimmed(w.query)
    && w.title != [] && Trimmed(w.title)
    && w.source != [] && Trimmed(w.source)
    && w.relevance == "medium" && w.sentiment == "neutral"
  }

  /** The findings for one query's rows: a result per kept row, in order. */
  function RowFindings(query: string, rows: seq<SearchRow>): (r: seq<WebSearchResult>)
    ensures |r| <= |rows|
    ensures forall i | 0 <= i < |r| :: r[i].query == query
  {
    var kept := Collections.Filter(CleanAll(rows), Kept);
    seq(|kept|, i requires 0 <= i < |kept| => ResultOf(query, kept[i]))
  }

  lemma RowFindingsWellFormed(query: string, rows: seq<SearchRow>)
    requires query != [] && Trimmed(query)
    ensures forall i | 0 <= i < |RowFindings(query, rows)| :: WellFormed(RowFindings(query, rows)[i])
  {
    var kept := Collections.Filter(CleanAll(rows), Kept);
    forall i | 0 <= i < |kept| ensures WellFormed(RowFindings(query, rows)[i]) {
      var c := kept[i];
      assert c in CleanAll(rows) && Kept(c);
      var k :| 0 <= k < |rows| && CleanAll(rows)[k] == c;
      CleanTrimmed(rows[k]);
      assert Trimmed(c.title) && Trimmed(c.url);
      assert RowFindings(query, rows)[i] == ResultOf(query, c);
    }
  }

  /** Every kept row yields its result. */
  lemma RowFindingsComplete(query: string, rows: seq<SearchRow>, j: nat)
    requires j < |rows| && Kept(Clean(rows[j]))
    ensures ResultOf(query, Clean(rows[j])) in RowFindings(query, rows)
  {
    var kept := Collections.Filter(CleanAll(rows), Kept);
    assert CleanAll(rows)[j] in kept;
    var m :| 0 <= m < |kept| && kept[m] == Clean(rows[j]);
    assert RowFindings(query, rows)[m] == ResultOf(query, kept[m]);
  }

  /** The stripped `str()` of a raw query. */
  function QueryText(raw: Value, env: AnalysisEnv): string {
    Strip(PyStr(raw, env.containerStr))
  }

  function QueryTexts(queries: seq<Value>, env: AnalysisEnv): (r: seq<string>)
    ensures |r| == |queries|
    ensures forall i | 0 <= i < |queries| :: r[i] == QueryText(queries[i], env)
  {
    seq(|queries|, i requires 0 <= i < |queries| => QueryText(queries[i], env))
  }

  lemma QueryTextsTrimmed(queries: seq<Value>, env: AnalysisEnv)
    ensures forall i | 0 <= i < |queries| :: Trimmed(QueryTexts(queries, env)[i])
  {
  }

  /** The findings for one stripped query: none for a blank query or a
      failed search. */
  function QueryFindings(query: string, env: AnalysisEnv): (r: seq<WebSearchResult>)
    ensures forall i | 0 <= i < |r| :: r[i].query == query
    ensures query == [] || env.webSearch(query).Raise? ==> r == []
  {
    if query == [] then []
    else
      match env.webSearch(query)
      case Raise(_) => []
      case Ok(rows) => RowFindings(query, rows)
  }

  /** Each stripped query's findings, in query order. */
  function PerQuery(queries: seq<string>, env: AnalysisEnv): (r: seq<seq<WebSearchResult>>)
    ensures |r| == |queries|
    ensures forall i | 0 <= i < |queries| :: r[i] == QueryFindings(queries[i], env)
  {
    seq(|queries|, i requires 0 <= i < |queries| => QueryFindings(queries[i], env))
  }

  /** The search loop over the stripped queries, in order. */
  function Findings(queries: seq<string>, env: AnalysisEnv): seq<WebSearchResult> {
    Collections.Flatten(PerQuery(queries, env))
  }

  /** Every finding is well formed. */
  lemma FindingsWellFormed(queries: seq<string>, env: AnalysisEnv)
    requires forall i | 0 <= i < |queries| :: Trimmed(queries[i])
    ensures forall k | 0 <= k < |Findings(queries, env)| :: WellFormed(Findings(queries, env)[k])
  {
    var ss := PerQuery(queries, env);
    forall k | 0 <= k < |Findings(queries, env)| ensures WellFormed(Findings(queries, env)[k]) {
      var i := Collections.PartOf(ss, k);
      var q := queries[i];
      if q != [] && env.webSearch(q).Ok? {
        RowFindingsWellFormed(q, env.webSearch(q).value);
      }
    }
  }

  /** Every kept row of every successful search is found. */
  lemma FindingsComplete(queries: seq<string>, env: AnalysisEnv, i: nat, rows: seq<SearchRow>, j: nat)
    requires i < |queries| && queries[i] != [] && env.webSearch(queries[i]) == Ok(rows)
    requires j < |rows| && Kept(Clean(rows[j]))
    ensures ResultOf(queries[i], Clean(rows[j])) in Findings(queries, env)
  {
    RowFindingsComplete(queries[i], rows, j);
    Collections.FlattenContains(PerQuery(queries, env), i, ResultOf(queries[i], Clean(rows[j])));
  }

  /** Every finding answers one of the queries. */
  lemma FindingsFromQueries(queries: seq<string>, env: AnalysisEnv, k: nat)
    requires k < |Findings(queries, env)|
    ensures Findings(queries, env)[k].query in queries
  {
    var i := Collections.PartOf(PerQuery(queries, env), k);
    var x := Findings(queries, env)[k];
    var m :| 0 <= m < |QueryFindings(queries[i], env)| && QueryFindings(queries[i], env)[m] == x;
  }

  datatype WebSearch = WebSearch(findings: seq<WebSearchResult>, inputTokens: int, outputTokens: int)

  /** `_run_web_search`: a failed query generation degrades to no queries
      and zero tokens. */
  function RunWebSearch(env: AnalysisEnv): (r: WebSearch)
    ensures r.findings == Findings(QueryTexts(SearchQueries(env.queryGeneration), env), env)
    ensures env.queryGeneration.Raise? ==> r == WebSearch([], 0, 0)
    ensures env.queryGeneration.Ok? ==>
      r.inputTokens == env.queryGeneration.value.inputTokens && r.outputTokens == env.queryGeneration.value.outputTokens
  {
    var queries := SearchQueries(env.queryGeneration);
    match env.queryGeneration
    case Raise(_) => WebSearch(Findings(QueryTexts(queries, env), env), 0, 0)
    case Ok(g) => WebSearch(Findings(QueryTexts(queries, env), env), g.inputTokens, g.outputTokens)
  }

  /** Every web-search result of an analysis is well formed. */
  lemma WebSearchWellFormed(env: AnalysisEnv)
    ensures forall i | 0 <= i < |RunWebSearch(env).findings| :: WellFormed(RunWebSearch(env).findings[i])
  {
    var queries := SearchQueries(env.queryGeneration);
    QueryTextsTrimmed(queries, env);
    FindingsWellFormed(QueryTexts(queries, env), env);
  }

  // --------------------------------------------------------- significance

  function SignificanceNamed(value: string): (r: Option<Significance>)
    ensures r.Some? ==> SignificanceValue(r.value) == value
    ensures r.None? ==> forall q: Significance :: SignificanceValue(q) != value
  {
    if value == "high" then Some(Significance.High)
    else if value == "medium" then Some(Significance.Medium)
    else if value == "low" then Some(Significance.Low)
    else if value == "noise" then Some(Significance.Noise)
    else None
  }

  /** `_parse_significance`: the member named by the trimmed, lower-cased
      text, and NOISE for anything else. */
  function ParseSignificance(text: string): (r: Significance)
    ensures SignificanceValue(r) == Lower(Strip(text))
            || (r == Significance.Noise && forall q: Significance :: SignificanceValue(q) != Lower(Strip(text)))
  {
    SignificanceNamed(Lower(Strip(text))).GetOr(Significance.Noise)
  }

  /** A level's own value reads back as the level. */
  lemma ParseSignificanceOfValue(s: Significance)
    ensures ParseSignificance(SignificanceValue(s)) == s
  {
    var v := SignificanceValue(s);
    StripOfStripped(v);
    assert Lower(v) == v;
  }

  // ------------------------------------------------------ pipeline result

  function StrItems(items: seq<Value>, containerStr: Value -> string): (r: seq<string>)
    ensures |r| == |items|
    ensures forall k | 0 <= k < |items| :: r[k] == PyStr(items[k], containerStr)
  {
    seq(|items|, k requires 0 <= k < |items| => PyStr(items[k], containerStr))
  }

  function Warnings(errors: seq<string>): (r: seq<string>)
    ensures |r| == |errors|
    ensures forall k | 0 <= k < |errors| :: r[k] == WarningPrefix + errors[k]
  {
    seq(|errors|, k requires 0 <= k < |errors| => WarningPrefix + errors[k])
  }

  predicate Validates(v: Value, valid: Entries -> bool) {
    v.Dict? && valid(v.entries)
  }

  /** The positions, from `i` on, of the decoded list's dictionaries that
      validate, in increasing order. */
  function ValidIndices(items: seq<Value>, valid: Entries -> bool, i: nat): (idx: seq<nat>)
    requires i <= |items|
    ensures forall k | 0 <= k < |idx| :: i <= idx[k] < |items| && items[idx[k]].Dict?
    decreases |items| - i
  {
    if i == |items| then []
    else
      var rest := ValidIndices(items, valid, i + 1);
      if Validates(items[i], valid) then [i] + rest else rest
  }

  /** The positions are exactly those of the validating dictionaries, each
      once, in increasing order. */
  lemma {:induction false} ValidIndicesSpec(items: seq<Value>, valid: Entries -> bool, i: nat)
    requires i <= |items|
    ensures var idx := ValidIndices(items, valid, i);
      && |idx| <= |items| - i
      && (forall k | 0 <= k < |idx| :: Validates(items[idx[k]], valid))
      && (forall a, b | 0 <= a < b < |idx| :: idx[a] < idx[b])
      && (forall j | i <= j < |items| && Validates(items[j], valid) :: j in idx)
    decreases |items| - i
  {
    if i < |items| {
      ValidIndicesSpec(items, valid, i + 1);
    }
  }

  /** `_parse_metrics` and `_parse_forward_statements`: the dictionaries of
      the decoded list that validate, in order. */
  function ValidRows(items: seq<Value>, valid: Entries -> bool): (r: seq<Entries>)
    ensures |r| == |ValidIndices(items, valid, 0)|
    ensures forall k | 0 <= k < |r| :: r[k] == items[ValidIndices(items, valid, 0)[k]].entries
    ensures |r| <= |items|
    ensures forall k | 0 <= k < |items| && Validates(items[k], valid) :: items[k].entries in r
    ensures forall k | 0 <= k < |r| :: valid(r[k])
  {
    var idx := ValidIndices(items, valid, 0);
    ValidIndicesSpec(items, valid, 0);
    var r := RowsAt(items, valid, 0);
    forall k | 0 <= k < |items| && Validates(items[k], valid) ensures items[k].entries in r {
      var m :| 0 <= m < |idx| && idx[m] == k;
      assert r[m] == items[k].entries;
    }
    r
  }

  /** The entries of the validating dictionaries from `i` on. */
  function RowsAt(items: seq<Value>, valid: Entries -> bool, i: nat): (r: seq<Entries>)
    requires i <= |items|
    ensures |r| == |ValidIndices(items, valid, i)|
    ensures forall k | 0 <= k < |r| :: r[k] == items[ValidIndices(items, valid, i)[k]].entries
    decreases |items| - i
  {
    if i == |items| then []
    else
      var rest := RowsAt(items, valid, i + 1);
      var later := ValidIndices(items, valid, i + 1);
      if Validates(items[i], valid) then
        assert ValidIndices(items, valid, i) == [i] + later;
        var r := [items[i].entries] + rest;
        assert forall k | 1 <= k < |r| :: r[k] == rest[k - 1] && ([i] + later)[k] == later[k - 1];
        r
      else
        assert ValidIndices(items, valid, i) == later;
        rest
  }

  /** `_apply_pipeline_result`. */
  function ApplyPipelineResult(inv: Investigation, d: DeepResult, env: AnalysisEnv): (r: Investigation)
    ensures r.synthesis == d.synthesis && r.isSignificant == d.isSignificant
    ensures r.significance == ParseSignificance(d.significance) && r.significanceReasoning == d.significanceReasoning
    ensures r.keyFindings == StrItems(JsonList(d.keyFindings), env.containerStr) + Warnings(d.errors)
    ensures r.redFlags == StrItems(JsonList(d.redFlags), env.containerStr)
    ensures r.positiveSignals == StrItems(JsonList(d.positiveSignals), env.containerStr)
    ensures r.managementHighlights == StrItems(JsonList(d.highlights), env.containerStr)
    ensures r.extractedMetrics == ValidRows(JsonList(d.metrics), env.validMetric)
    ensures r.forwardStatements == ValidRows(JsonList(d.forwardStatements), env.validForward)
    ensures r.investigationId == inv.investigationId && r.triggerId == inv.triggerId
    ensures r.companySymbol == inv.companySymbol && r.companyName == inv.companyName
    ensures r.webSearchResults == inv.webSearchResults && r.marketData == inv.marketData
    ensures r.historicalContext == inv.historicalContext && r.createdAt == inv.createdAt
  {
    inv.(
      extractedMetrics := ValidRows(JsonList(d.metrics), env.validMetric),
      forwardStatements := ValidRows(JsonList(d.forwardStatements), env.validForward),
      managementHighlights := StrItems(JsonList(d.highlights), env.containerStr),
      synthesis := d.synthesis,
      keyFindings := StrItems(JsonList(d.keyFindings), env.containerStr) + Warnings(d.errors),
      redFlags := StrItems(JsonList(d.redFlags), env.containerStr),
      positiveSignals := StrItems(JsonList(d.positiveSignals), env.containerStr),
      significance := ParseSignificance(d.significance),
      significanceReasoning := d.significanceReasoning,
      isSignificant := d.isSignificant)
  }

  // --------------------------------------------------------------- analyze

  /** The market snapshot: asked for with the trigger's own symbol, and only
      when it has one; a failure leaves it None. */
  function MarketSnapshot(symbol: Option<string>, env: AnalysisEnv): (r: Option<Value>)
    ensures !Truthy(symbol) ==> r == None
    ensures Truthy(symbol) ==> (r.Some? <==> env.marketData(symbol.value).Ok?)
    ensures r.Some? ==> r.value == env.marketData(symbol.value).value
  {
    if !Truthy(symbol) then None
    else
      match env.marketData(symbol.value)
      case Ok(v) => Some(v)
      case Raise(_) => None
  }

  /** `analyze(trigger)`: the investigation it saves and returns, or the
      failure of the deep-analysis call, which it does not catch. The new
      investigation's id and creation time are parameters. */
  function Analyze(t: TriggerEvent, env: AnalysisEnv, investigationId: string, createdAt: int): (r: Attempt<Investigation>)
    ensures r.Raise? <==> env.pipeline.Raise?
    ensures r.Raise? ==> r.message == env.pipeline.message
    ensures r.Ok? ==>
      && r.value.companySymbol == InvestigationSymbol(t.companySymbol)
      && r.value.companyName == InvestigationName(t.companyName)
      && r.value.triggerId == t.triggerId && r.value.investigationId == investigationId
      && r.value.historicalContext == Some(GatherHistoricalContext(InvestigationSymbol(t.companySymbol), env).context)
      && r.value.marketData == MarketSnapshot(t.companySymbol, env)
      && r.value.webSearchResults == RunWebSearch(env).findings
      && r.value.llmModelUsed == env.modelName
    ensures r.Ok? ==>
      && r.value.totalInputTokens == RunWebSearch(env).inputTokens + env.pipeline.value.inputTokens
      && r.value.totalOutputTokens == RunWebSearch(env).outputTokens + env.pipeline.value.outputTokens
      && r.value.significance == ParseSignificance(env.pipeline.value.result.significance)
      && r.value.isSignificant == env.pipeline.value.result.isSignificant
  {
    var base := NewInvestigation(investigationId, t.triggerId, InvestigationSymbol(t.companySymbol), InvestigationName(t.companyName), createdAt);
    var gathered := GatherHistoricalContext(base.companySymbol, env);
    var search := RunWebSearch(env);
    var prepared := base.(
      historicalContext := Some(gathered.context),
      marketData := MarketSnapshot(t.companySymbol, env),
      webSearchResults := search.findings);
    match env.pipeline
    case Raise(m) => Raise(m)
    case Ok(run) =>
      var applied := ApplyPipelineResult(prepared, run.result, env);
      Ok(applied.(
        llmModelUsed := env.modelName,
        totalInputTokens := search.inputTokens + run.inputTokens,
        totalOutputTokens := search.outputTokens + run.outputTokens))
  }

  /** The analysis text handed to query generation: the first 2000
      characters of the collected document text. */
  function QuerySummary(t: TriggerEvent, env: AnalysisEnv): (r: string)
    ensures |r| <= SummaryChars && |r| <= |CollectDocumentText(t.documentIds, t.rawContent, env.docs)|
    ensures r == CollectDocumentText(t.documentIds, t.rawContent, env.docs)[..|r|]
  {
    Take(CollectDocumentText(t.documentIds, t.rawContent, env.docs), SummaryChars)
  }

  /** What the orchestrator reads of an investigation: Python's `str()` of
      the significance member, and the significance flag. */
  function View(inv: Investigation): (r: Orchestrator.InvestigationView)
    ensures r.isSignificant == inv.isSignificant
    ensures r.significance == "SignificanceLevel." + SignificanceMember(inv.significance)
  {
    Orchestrator.InvestigationView("SignificanceLevel." + SignificanceMember(inv.significance), inv.isSignificant)
  }
}

=== FILE: assessor.dfy ===
/** The layer-4 decision assessor (pipeline/layer4_decision/assessor.py):
    the assessment built from an investigation, the company's existing
    position and the decision module's normalised result, and the position
    derived from it. The assessment id, the clock and the processing time
    are parameters; the repositories are left to the caller. */
module Assessor {
  import opened Wrappers
  import opened Text
  import opened Decision
  import opened Companies
  import opened Investigations
  import Orchestrator

  /** `recommendation_basis` keeps this many characters of the reasoning. */
  const BasisChars: nat := 1000

  /** `DecisionAssessment`. The model declares no token fields, so the token
      counts `_build_assessment` passes it are dropped. */
  datatype Assessment = Assessment(
    assessmentId: string,
    investigationId: string,
    triggerId: string,
    companySymbol: string,
    companyName: string,
    previousRecommendation: Recommendation,
    previousRecommendationDate: Option<int>,
    previousRecommendationBasis: string,
    recommendationChanged: bool,
    newRecommendation: Recommendation,
    timeframe: Timeframe,
    confidence: real,
    reasoning: string,
    keyFactorsFor: seq<string>,
    keyFactorsAgainst: seq<string>,
    risks: seq<string>,
    pastInvestigationsUsed: seq<string>,
    pastInconclusiveResurrected: seq<string>,
    llmModelUsed: string,
    processingTimeSeconds: real,
    createdAt: int)

  /** The recommendation a decision is measured against: the position's
      current one, or NONE when the company has no position yet. */
  function PreviousRecommendation(existing: Option<CompanyPosition>): (r: Recommendation)
    ensures existing.None? ==> r == NoRecommendation
    ensures existing.Some? ==> r == existing.value.currentRecommendation
  {
    if existing.Some? then existing.value.currentRecommendation else NoRecommendation
  }

  function InvestigationIds(items: seq<Investigation>): (r: seq<string>)
    ensures |r| == |items|
    ensures forall k | 0 <= k < |items| :: r[k] == items[k].investigationId
  {
    seq(|items|, k requires 0 <= k < |items| => items[k].investigationId)
  }

  /** `_build_assessment`: the decision recorded against the previous
      recommendation, the investigation's red flags as the factors against
      and the risks, and the ids of the investigations consulted. */
  function BuildAssessment(assessmentId: string, inv: Investigation, existing: Option<CompanyPosition>,
                           past: seq<Investigation>, inconclusive: seq<Investigation>,
                           decision: DecisionResult, modelName: string, processingTime: real, createdAt: int): (a: Assessment)
    ensures a.previousRecommendation == PreviousRecommendation(existing)
    ensures a.recommendationChanged <==> decision.shouldChange && decision.newRecommendation != PreviousRecommendation(existing)
    ensures a.previousRecommendationDate == (if existing.Some? then existing.value.recommendationDate else None)
    ensures a.previousRecommendationBasis == (if existing.Some? then existing.value.recommendationBasis else "")
    ensures a.newRecommendation == decision.newRecommendation && a.timeframe == decision.timeframe
    ensures a.confidence == decision.confidence && a.reasoning == decision.reasoning
    ensures a.keyFactorsFor == decision.keyFactors
    ensures a.keyFactorsAgainst == inv.redFlags && a.risks == inv.redFlags
    ensures |a.pastInvestigationsUsed| == |past| && |a.pastInconclusiveResurrected| == |inconclusive|
    ensures forall k | 0 <= k < |past| :: a.pastInvestigationsUsed[k] == past[k].investigationId
    ensures forall k | 0 <= k < |inconclusive| :: a.pastInconclusiveResurrected[k] == inconclusive[k].investigationId
    ensures a.investigationId == inv.investigationId && a.triggerId == inv.triggerId
    ensures a.companySymbol == inv.companySymbol && a.companyName == inv.companyName
    ensures a.assessmentId == assessmentId && a.llmModelUsed == modelName && a.createdAt == createdAt
  {
    var previous := PreviousRecommendation(existing);
    Assessment(
      assessmentId, inv.investigationId, inv.triggerId, inv.companySymbol, inv.companyName,
      previous,
      if existing.Some? then existing.value.recommendationDate else None,
      if existing.Some? then existing.value.recommendationBasis else "",
      decision.shouldChange && decision.newRecommendation != previous,
      decision.newRecommendation, decision.timeframe, decision.confidence, decision.reasoning,
      decision.keyFactors, inv.redFlags, inv.redFlags,
      InvestigationIds(past), InvestigationIds(inconclusive),
      modelName, processingTime, createdAt)
  }

  /** `_derive_position`: a first position for a company without one;
      otherwise a copy of the existing position with one more investigation,
      a new basis, and — when the recommendation changed — the prior
      recommendation moved into the history. Both the recommendation date
      and `updated_at` read the clock `now`. */
  function DerivePosition(existing: Option<CompanyPosition>, inv: Investigation, a: Assessment, now: int): (p: CompanyPosition)
    ensures |p.recommendationBasis| <= BasisChars && |p.recommendationBasis| <= |a.reasoning|
    ensures p.recommendationBasis == a.reasoning[..|p.recommendationBasis|]
    ensures |a.reasoning| <= BasisChars ==> p.recommendationBasis == a.reasoning
    ensures p.lastInvestigationDate == Some(inv.createdAt) && p.updatedAt == now
    ensures existing.None? ==>
      && p.companySymbol == inv.companySymbol && p.companyName == inv.companyName
      && p.currentRecommendation == a.newRecommendation
      && p.recommendationDate == Some(now) && p.recommendationAssessmentId == Some(a.assessmentId)
      && p.recommendationHistory == [] && p.totalInvestigations == 1
    ensures existing.Some? ==>
      var prior := existing.value;
      && p.companySymbol == prior.companySymbol && p.companyName == prior.companyName
      && p.totalInvestigations == prior.totalInvestigations + 1
    ensures existing.Some? && a.recommendationChanged ==>
      var prior := existing.value;
      && p.recommendationHistory ==
           prior.recommendationHistory + [HistoryEntry(prior.currentRecommendation, prior.recommendationDate, prior.recommendationAssessmentId)]
      && p.currentRecommendation == a.newRecommendation
      && p.recommendationDate == Some(now) && p.recommendationAssessmentId == Some(a.assessmentId)
    ensures existing.Some? && !a.recommendationChanged ==>
      var prior := existing.value;
      && p.recommendationHistory == prior.recommendationHistory
      && p.currentRecommendation == prior.currentRecommendation
      && p.recommendationDate == prior.recommendationDate
      && p.recommendationAssessmentId == prior.recommendationAssessmentId
  {
    var basis := Take(a.reasoning, BasisChars);
    if existing.None? then
      CompanyPosition(inv.companySymbol, inv.companyName, a.newRecommendation, Some(now), basis,
                      Some(a.assessmentId), [], 1, Some(inv.createdAt), now)
    else
      var prior := existing.value;
      var counted := prior.(totalInvestigations := prior.totalInvestigations + 1, lastInvestigationDate := Some(inv.createdAt));
      var updated :=
        if a.recommendationChanged then
          counted.(
            recommendationHistory := prior.recommendationHistory +
              [HistoryEntry(prior.currentRecommendation, prior.recommendationDate, prior.recommendationAssessmentId)],
            currentRecommendation := a.newRecommendation,
            recommendationDate := Some(now),
            recommendationBasis := basis,
            recommendationAssessmentId := Some(a.assessmentId))
        else
          counted.(recommendationBasis := basis);
      updated.(updatedAt := now)
  }

  /** What the orchestrator reads of an assessment: the new recommendation's
      value, which `use_enum_values` stores as a plain string. */
  function View(a: Assessment): (r: Orchestrator.AssessmentView)
    ensures RecommendationNamed(r.recommendation) == Some(a.newRecommendation)
    ensures ParseRecommendation(r.recommendation) == a.newRecommendation
  {
    var s := RecommendationToStr(Member(a.newRecommendation));
    RecommendationStrRoundTrip(a.newRecommendation);
    Orchestrator.AssessmentView(s)
  }

  // ----------------------------------------------------------- properties

  /** A position's history is never longer than the investigations that
      produced it allow: each change needs one investigation after the
      first. */
  predicate HistoryBounded(p: CompanyPosition) {
    |p.recommendationHistory| < p.totalInvestigations
  }

  /** Deriving a position keeps the bound, and a first position starts it. */
  lemma DeriveKeepsHistoryBounded(existing: Option<CompanyPosition>, inv: Investigation, a: Assessment, now: int)
    requires existing.Some? ==> HistoryBounded(existing.value)
    ensures HistoryBounded(DerivePosition(existing, inv, a, now))
  {
  }

  /** Assessing and then deriving: the position's recommendation afterwards
      is the decision's when the module asked for a change, and the previous
      one otherwise — except for a first position, which takes the decision's
      recommendation either way. The history grows by one entry exactly when
      the recommendation changed. */
  lemma AssessThenDerive(assessmentId: string, inv: Investigation, existing: Option<CompanyPosition>,
                         past: seq<Investigation>, inconclusive: seq<Investigation>,
                         decision: DecisionResult, modelName: string, processingTime: real, createdAt: int, now: int)
    ensures
      var a := BuildAssessment(assessmentId, inv, existing, past, inconclusive, decision, modelName, processingTime, createdAt);
      var p := DerivePosition(existing, inv, a, now);
      && (existing.None? ==> p.currentRecommendation == decision.newRecommendation)
      && (existing.Some? ==>
            && p.currentRecommendation == (if decision.shouldChange then decision.newRecommendation else existing.value.currentRecommendation)
            && |p.recommendationHistory| == |existing.value.recommendationHistory| + (if a.recommendationChanged then 1 else 0)
            && p.recommendationHistory[..|existing.value.recommendationHistory|] == existing.value.recommendationHistory)
  {
    var a := BuildAssessment(assessmentId, inv, existing, past, inconclusive, decision, modelName, processingTime, createdAt);
    var p := DerivePosition(existing, inv, a, now);
    if existing.Some? {
      var h := existing.value.recommendationHistory;
      if a.recommendationChanged {
        assert p.recommendationHistory[..|h|] == h;
      }
    }
  }

  /** A decision that repeats the current recommendation changes nothing but
      the counters and the basis, whether or not the module asked for a
      change. */
  lemma SameRecommendationNoChange(assessmentId: string, inv: Investigation, existing: Option<CompanyPosition>,
                                   past: seq<Investigation>, inconclusive: seq<Investigation>,
                                   decision: DecisionResult, modelName: string, processingTime: real, createdAt: int, now: int)
    requires existing.Some? && decision.newRecommendation == existing.value.currentRecommendation
    ensures !BuildAssessment(assessmentId, inv, existing, past, inconclusive, decision, modelName, processingTime, createdAt).recommendationChanged
    ensures
      var a := BuildAssessment(assessmentId, inv, existing, past, inconclusive, decision, modelName, processingTime, createdAt);
      var p := DerivePosition(existing, inv, a, now);
      p == existing.value.(totalInvestigations := existing.value.totalInvestigations + 1,
                           lastInvestigationDate := Some(inv.createdAt),
                           recommendationBasis := Take(decision.reasoning, BasisChars),
                           updatedAt := now)
  {
  }

  /** The history of a position keeps every recommendation it held, in
      order: each derivation only appends. */
  lemma HistoryOnlyGrows(existing: CompanyPosition, inv: Investigation, a: Assessment, now: int, k: nat)
    requires k < |existing.recommendationHistory|
    ensures k < |DerivePosition(Some(existing), inv, a, now).recommendationHistory|
    ensures DerivePosition(Some(existing), inv, a, now).recommendationHistory[k] == existing.recommendationHistory[k]
  {
  }
}

=== FILE: circuit_breaker.dfy ===
/** The consecutive-failure circuit breaker (utils/circuit_breaker.py). The
    injected clock becomes a `now` argument to every operation that reads it,
    and the mutable object a value each operation returns anew. */
module CircuitBreaker {
  import opened Wrappers

  datatype Breaker = Breaker(
    failureThreshold: int,
    recoverySeconds: real,
    consecutiveFailures: nat,
    openedUntil: Option<real>)

  /** The constructor's argument checks; a new breaker is closed. */
  function NewBreaker(failureThreshold: int, recoverySeconds: real): (r: Result<Breaker, string>)
    ensures r.Failure? <==> failureThreshold <= 0 || recoverySeconds <= 0.0
    ensures failureThreshold <= 0 ==> r == Failure("failure_threshold must be > 0")
    ensures failureThreshold > 0 && recoverySeconds <= 0.0 ==> r == Failure("recovery_seconds must be > 0")
    ensures r.Success? ==> r.value.failureThreshold == failureThreshold && r.value.recoverySeconds == recoverySeconds
    ensures r.Success? ==> r.value.consecutiveFailures == 0 && r.value.openedUntil.None?
  {
    if failureThreshold <= 0 then Failure("failure_threshold must be > 0")
    else if recoverySeconds <= 0.0 then Failure("recovery_seconds must be > 0")
    else Success(Breaker(failureThreshold, recoverySeconds, 0, None))
  }

  /** `is_open`: the answer and the breaker afterwards. Once the deadline has
      passed the breaker closes and forgets its failures; there is no
      half-open phase. */
  function IsOpen(b: Breaker, now: real): (r: (bool, Breaker))
    ensures r.0 <==> b.openedUntil.Some? && now < b.openedUntil.value
    ensures r.0 || b.openedUntil.None? ==> r.1 == b
    ensures !r.0 && b.openedUntil.Some? ==> r.1 == b.(consecutiveFailures := 0, openedUntil := None)
  {
    match b.openedUntil
    case None => (false, b)
    case Some(until) =>
      if now >= until then (false, b.(openedUntil := None, consecutiveFailures := 0))
      else (true, b)
  }

  /** `record_success`: closes the breaker at once, whatever the clock says. */
  function RecordSuccess(b: Breaker): (r: Breaker)
    ensures forall now: real :: !IsOpen(r, now).0
    ensures r.consecutiveFailures == 0
    ensures r.failureThreshold == b.failureThreshold && r.recoverySeconds == b.recoverySeconds
  {
    b.(consecutiveFailures := 0, openedUntil := None)
  }

  /** `record_failure`: counts the failure; from the threshold on, every
      failure (re)opens the breaker until `now + recovery_seconds`. */
  function RecordFailure(b: Breaker, now: real): (r: Breaker)
    ensures r.consecutiveFailures == b.consecutiveFailures + 1
    ensures r.consecutiveFailures >= b.failureThreshold ==> r.openedUntil == Some(now + b.recoverySeconds)
    ensures r.consecutiveFailures < b.failureThreshold ==> r.openedUntil == b.openedUntil
    ensures r.failureThreshold == b.failureThreshold && r.recoverySeconds == b.recoverySeconds
  {
    var failures := b.consecutiveFailures + 1;
    if failures >= b.failureThreshold then b.(consecutiveFailures := failures, openedUntil := Some(now + b.recoverySeconds))
    else b.(consecutiveFailures := failures)
  }

  /** `seconds_until_close`. */
  function SecondsUntilClose(b: Breaker, now: real): (r: real)
    ensures r >= 0.0
    ensures b.openedUntil.None? ==> r == 0.0
    ensures b.openedUntil.Some? ==> r == if b.openedUntil.value - now > 0.0 then b.openedUntil.value - now else 0.0
    ensures r > 0.0 <==> IsOpen(b, now).0
  {
    match b.openedUntil
    case None => 0.0
    case Some(until) =>
      var remaining := until - now;
      if remaining > 0.0 then remaining else 0.0
  }

  /** Consecutive failures recorded at the given clock readings. */
  function RecordFailures(b: Breaker, times: seq<real>): Breaker
    decreases |times|
  {
    if |times| == 0 then b else RecordFailures(RecordFailure(b, times[0]), times[1..])
  }

  /** After failures that reach the threshold, the last at time t, the
      breaker is open exactly while the clock reads less than
      t + recovery_seconds. */
  lemma {:induction false} OpensAfterThreshold(b: Breaker, times: seq<real>)
    requires |times| > 0 && b.consecutiveFailures + |times| >= b.failureThreshold
    ensures var r := RecordFailures(b, times);
            && r.consecutiveFailures == b.consecutiveFailures + |times|
            && r.openedUntil == Some(times[|times| - 1] + b.recoverySeconds)
            && forall now: real :: IsOpen(r, now).0 <==> now < times[|times| - 1] + b.recoverySeconds
    decreases |times|
  {
    var b1 := RecordFailure(b, times[0]);
    if |times| > 1 {
      OpensAfterThreshold(b1, times[1..]);
      assert times[1..][|times[1..]| - 1] == times[|times| - 1];
    }
  }

  /** Fewer failures than the threshold leave a closed breaker closed. */
  lemma {:induction false} StaysClosedBelowThreshold(b: Breaker, times: seq<real>)
    requires b.openedUntil.None? && b.consecutiveFailures + |times| < b.failureThreshold
    ensures RecordFailures(b, times).openedUntil.None?
    ensures RecordFailures(b, times).consecutiveFailures == b.consecutiveFailures + |times|
    decreases |times|
  {
    if |times| > 0 {
      StaysClosedBelowThreshold(RecordFailure(b, times[0]), times[1..]);
    }
  }

  /** A fresh breaker is closed and has nothing left to wait for. */
  lemma FreshIsClosed(failureThreshold: int, recoverySeconds: real, now: real)
    requires NewBreaker(failureThreshold, recoverySeconds).Success?
    ensures !IsOpen(NewBreaker(failureThreshold, recoverySeconds).value, now).0
    ensures SecondsUntilClose(NewBreaker(failureThreshold, recoverySeconds).value, now) == 0.0
  {
  }

  /** The deadline never lies more than `recovery_seconds` past the latest
      clock reading. */
  predicate Bounded(b: Breaker, clock: real) {
    b.openedUntil.Some? ==> b.openedUntil.value <= clock + b.recoverySeconds
  }

  /** Every operation keeps the deadline bound under a clock that never runs
      backwards. */
  lemma OperationsKeepBound(b: Breaker, clock: real, now: real)
    requires Bounded(b, clock) && clock <= now
    ensures Bounded(IsOpen(b, now).1, now)
    ensures Bounded(RecordSuccess(b), now)
    ensures Bounded(RecordFailure(b, now), now)
  {
  }

  /** Under a non-decreasing clock, the wait never exceeds `recovery_seconds`. */
  lemma WaitAtMostRecovery(b: Breaker, clock: real, now: real)
    requires Bounded(b, clock) && clock <= now
    ensures SecondsUntilClose(b, now) <= b.recoverySeconds || SecondsUntilClose(b, now) == 0.0
  {
  }
}

=== FILE: collections.dfy ===
/** Python collection behaviour several modules rely on: the code-point
    order of `str` comparison, `sorted(...)` on strings and on scored items,
    filtering, and assignment into an insertion-ordered `dict`. */
module Collections {
  import opened Wrappers
  import opened Text

  // ------------------------------------------------------------ string order

  /** Python's `a <= b` on strings: code-point lexicographic order, with a
      proper prefix ordered first. */
  predicate StrLe(a: string, b: string)
    decreases |a|
  {
    |a| == 0 || (|b| > 0 && (a[0] < b[0] || (a[0] == b[0] && StrLe(a[1..], b[1..]))))
  }

  lemma {:induction false} StrLeRefl(a: string)
    ensures StrLe(a, a)
    decreases |a|
  {
    if |a| > 0 {
      StrLeRefl(a[1..]);
    }
  }

  lemma {:induction false} StrLeTotal(a: string, b: string)
    ensures StrLe(a, b) || StrLe(b, a)
    decreases |a|
  {
    if |a| > 0 && |b| > 0 && a[0] == b[0] {
      StrLeTotal(a[1..], b[1..]);
    }
  }

  lemma {:induction false} StrLeTrans(a: string, b: string, c: string)
    requires StrLe(a, b) && StrLe(b, c)
    ensures StrLe(a, c)
    decreases |a|
  {
    if |a| > 0 && a[0] == b[0] && b[0] == c[0] {
      StrLeTrans(a[1..], b[1..], c[1..]);
    }
  }

  lemma {:induction false} StrLeAntisym(a: string, b: string)
    requires StrLe(a, b) && StrLe(b, a)
    ensures a == b
    decreases |a|
  {
    if |a| > 0 {
      StrLeAntisym(a[1..], b[1..]);
      assert a == [a[0]] + a[1..] && b == [b[0]] + b[1..];
    }
  }

  // ----------------------------------------------------------- sorted(strs)

  predicate SortedStr(xs: seq<string>) {
    forall i, j | 0 <= i < j < |xs| :: StrLe(xs[i], xs[j])
  }

  /** Insert `x` into a sorted list before the first element not below it. */
  function InsertStr(x: string, xs: seq<string>): (r: seq<string>)
    requires SortedStr(xs)
    ensures SortedStr(r)
    ensures multiset(r) == multiset(xs) + multiset{x}
    ensures r[0] == x || (|xs| > 0 && r[0] == xs[0])
    decreases |xs|
  {
    if |xs| == 0 then [x]
    else if StrLe(x, xs[0]) then
      forall j | 0 < j < |xs| ensures StrLe(x, xs[j]) {
        StrLeTrans(x, xs[0], xs[j]);
      }
      [x] + xs
    else
      StrLeTotal(x, xs[0]);
      var tail := InsertStr(x, xs[1..]);
      assert xs == [xs[0]] + xs[1..];
      assert StrLe(xs[0], tail[0]);
      forall j | 0 < j < |tail| ensures StrLe(xs[0], tail[j]) {
        StrLeTrans(xs[0], tail[0], tail[j]);
      }
      [xs[0]] + tail
  }

  /** Python `sorted(xs)` on strings. */
  function SortStrings(xs: seq<string>): (r: seq<string>)
    ensures SortedStr(r)
    ensures multiset(r) == multiset(xs)
    decreases |xs|
  {
    if |xs| == 0 then []
    else
      assert xs == [xs[0]] + xs[1..];
      InsertStr(xs[0], SortStrings(xs[1..]))
  }

  /** There is only one sorted arrangement of a multiset of strings, so the
      result of `sorted` does not depend on the order of its input. */
  lemma {:induction false} SortedUnique(a: seq<string>, b: seq<string>)
    requires SortedStr(a) && SortedStr(b) && multiset(a) == multiset(b)
    ensures a == b
    decreases |a|
  {
    assert |a| == |multiset(a)| == |multiset(b)| == |b|;
    if |a| > 0 {
      assert a[0] in multiset(b) && b[0] in multiset(a);
      SortedHeadFirst(b, a[0]);
      SortedHeadFirst(a, b[0]);
      StrLeAntisym(a[0], b[0]);
      TailMultiset(a);
      TailMultiset(b);
      SortedTail(a);
      SortedTail(b);
      SortedUnique(a[1..], b[1..]);
      assert a == [a[0]] + a[1..] && b == [b[0]] + b[1..];
    }
  }

  /** The head of a sorted list is below each of its elements. */
  lemma SortedHeadFirst(a: seq<string>, x: string)
    requires SortedStr(a) && x in a
    ensures StrLe(a[0], x)
  {
    var i :| 0 <= i < |a| && a[i] == x;
    if i == 0 {
      StrLeRefl(x);
    }
  }

  lemma TailMultiset<T>(a: seq<T>)
    requires |a| > 0
    ensures multiset(a[1..]) == multiset(a) - multiset{a[0]}
  {
    assert a == [a[0]] + a[1..];
  }

  lemma SortedTail(a: seq<string>)
    requires SortedStr(a) && |a| > 0
    ensures SortedStr(a[1..])
  {
    forall i, j | 0 <= i < j < |a| - 1 ensures StrLe(a[1..][i], a[1..][j]) {
      assert a[1..][i] == a[i + 1] && a[1..][j] == a[j + 1];
    }
  }

  /** In a sequence without duplicates every element occurs exactly once. */
  lemma {:induction false} DistinctMultiplicity<T>(xs: seq<T>, x: T)
    requires NoDuplicates(xs)
    ensures multiset(xs)[x] == if x in xs then 1 else 0
    decreases |xs|
  {
    if |xs| > 0 {
      DistinctInit(xs);
      DistinctMultiplicity(xs[..|xs| - 1], x);
      assert xs == xs[..|xs| - 1] + [xs[|xs| - 1]];
    }
  }

  /** Two duplicate-free sequences with the same elements are permutations. */
  lemma SameElementsSameMultiset<T>(a: seq<T>, b: seq<T>)
    requires NoDuplicates(a) && NoDuplicates(b)
    requires forall x :: x in a <==> x in b
    ensures multiset(a) == multiset(b)
  {
    forall x ensures multiset(a)[x] == multiset(b)[x] {
      DistinctMultiplicity(a, x);
      DistinctMultiplicity(b, x);
    }
  }

  /** An element at two positions occurs at least twice. */
  lemma RepeatedMultiplicity<T>(r: seq<T>, i: nat, j: nat)
    requires i < j < |r| && r[i] == r[j]
    ensures multiset(r)[r[i]] >= 2
  {
    assert r == r[..j] + [r[j]] + r[j + 1..];
    assert r[i] in r[..j];
    assert multiset(r) == multiset(r[..j]) + multiset{r[j]} + multiset(r[j + 1..]);
  }

  /** `sorted(set(xs))`: the distinct elements in ascending order. */
  function SortedSet(xs: seq<string>): (r: seq<string>)
    ensures SortedStr(r) && NoDuplicates(r)
    ensures forall x :: x in r <==> x in xs
  {
    var d := Dedup(xs);
    var r := SortStrings(d);
    assert forall x :: x in r <==> x in multiset(d);
    forall i, j | 0 <= i < j < |r| ensures r[i] != r[j] {
      DistinctMultiplicity(d, r[i]);
      if r[i] == r[j] {
        RepeatedMultiplicity(r, i, j);
      }
    }
    r
  }

  /** A set's sorted listing depends only on which elements it holds. */
  lemma SortedSetDeterministic(xs: seq<string>, ys: seq<string>)
    requires forall x :: x in xs <==> x in ys
    ensures SortedSet(xs) == SortedSet(ys)
  {
    var a := SortedSet(xs);
    var b := SortedSet(ys);
    SameElementsSameMultiset(a, b);
    SortedUnique(a, b);
  }

  // ------------------------------------------------------ sorted by a score

  predicate SortedDesc<T>(xs: seq<T>, key: T -> real) {
    forall i, j | 0 <= i < j < |xs| :: key(xs[i]) >= key(xs[j])
  }

  /** Insert `x` before the first element whose score is not above its own. */
  function InsertDesc<T>(x: T, xs: seq<T>, key: T -> real): (r: seq<T>)
    requires SortedDesc(xs, key)
    ensures SortedDesc(r, key)
    ensures multiset(r) == multiset(xs) + multiset{x}
    ensures r[0] == x || (|xs| > 0 && r[0] == xs[0])
    decreases |xs|
  {
    if |xs| == 0 then [x]
    else if key(xs[0]) <= key(x) then [x] + xs
    else
      var tail := InsertDesc(x, xs[1..], key);
      assert xs == [xs[0]] + xs[1..];
      assert key(xs[0]) >= key(tail[0]);
      forall j | 0 < j < |tail| ensures key(xs[0]) >= key(tail[j]) {
        assert key(tail[0]) >= key(tail[j]);
      }
      [xs[0]] + tail
  }

  /** Python `sorted(xs, key=key, reverse=True)`: a permutation of `xs`
      in non-increasing score order. */
  function SortByKeyDesc<T>(xs: seq<T>, key: T -> real): (r: seq<T>)
    ensures SortedDesc(r, key)
    ensures multiset(r) == multiset(xs)
    decreases |xs|
  {
    if |xs| == 0 then []
    else
      assert xs == [xs[0]] + xs[1..];
      InsertDesc(xs[0], SortByKeyDesc(xs[1..], key), key)
  }

  /** The elements whose score is `v`, in their order in `xs`. */
  function WithKey<T>(xs: seq<T>, key: T -> real, v: real): (r: seq<T>)
    ensures forall i | 0 <= i < |r| :: key(r[i]) == v
    decreases |xs|
  {
    if |xs| == 0 then []
    else if key(xs[0]) == v then [xs[0]] + WithKey(xs[1..], key, v)
    else WithKey(xs[1..], key, v)
  }

  /** Inserting `x` puts it before every element of equal score, and
      leaves the order among the others alone. */
  lemma {:induction false} InsertDescKeepsTies<T>(x: T, xs: seq<T>, key: T -> real, v: real)
    requires SortedDesc(xs, key)
    ensures WithKey(InsertDesc(x, xs, key), key, v) ==
            (if key(x) == v then [x] + WithKey(xs, key, v) else WithKey(xs, key, v))
    decreases |xs|
  {
    if |xs| == 0 {
      assert InsertDesc(x, xs, key) == [x];
      assert ([x] + [])[1..] == [];
    } else if key(xs[0]) <= key(x) {
      var r := [x] + xs;
      assert InsertDesc(x, xs, key) == r;
      assert r[1..] == xs;
    } else {
      var tail := InsertDesc(x, xs[1..], key);
      var r := [xs[0]] + tail;
      assert InsertDesc(x, xs, key) == r;
      assert r[1..] == tail;
      InsertDescKeepsTies(x, xs[1..], key, v);
      if key(xs[0]) == v {
        // xs[0] scores above x, so x is not in this group
        assert key(x) != v;
      }
    }
  }

  /** `sorted` is stable: the elements of each score keep their order. */
  lemma {:induction false} SortByKeyDescStable<T>(xs: seq<T>, key: T -> real, v: real)
    ensures WithKey(SortByKeyDesc(xs, key), key, v) == WithKey(xs, key, v)
    decreases |xs|
  {
    if |xs| > 0 {
      SortByKeyDescStable(xs[1..], key, v);
      InsertDescKeepsTies(xs[0], SortByKeyDesc(xs[1..], key), key, v);
    }
  }

  /** Stability for every score at once. */
  lemma SortByKeyDescStableAll<T>(xs: seq<T>, key: T -> real)
    ensures forall v :: WithKey(SortByKeyDesc(xs, key), key, v) == WithKey(xs, key, v)
  {
    forall v ensures WithKey(SortByKeyDesc(xs, key), key, v) == WithKey(xs, key, v) {
      SortByKeyDescStable(xs, key, v);
    }
  }

  // ------------------------------------------------------------- filtering

  /** `[x for x in xs if keep(x)]`. */
  function Filter<T>(xs: seq<T>, keep: T -> bool): (r: seq<T>)
    ensures |r| <= |xs|
    ensures forall i | 0 <= i < |r| :: r[i] in xs && keep(r[i])
    ensures forall i | 0 <= i < |xs| :: keep(xs[i]) ==> xs[i] in r
    ensures IsSubsequence(r, xs)
    decreases |xs|
  {
    if |xs| == 0 then []
    else if keep(xs[0]) then [xs[0]] + Filter(xs[1..], keep)
    else Filter(xs[1..], keep)
  }

  /** A non-empty sequence is its front followed by its last element. */
  lemma SplitLast<T>(xs: seq<T>)
    requires |xs| > 0
    ensures xs == xs[..|xs| - 1] + [xs[|xs| - 1]]
  {
  }

  /** Where each element lands when `x` is put in at position `k`. */
  lemma InsertAtShape<T>(xs: seq<T>, k: nat, x: T)
    requires k <= |xs|
    ensures var r := xs[..k] + [x] + xs[k..];
      && |r| == |xs| + 1 && r[k] == x
      && (forall i | 0 <= i < k :: r[i] == xs[i])
      && (forall i | k < i < |r| :: r[i] == xs[i - 1])
  {
  }

  lemma ConcatAssoc<T>(x: seq<T>, y: seq<T>, z: seq<T>)
    ensures (x + y) + z == x + (y + z)
  {
  }

  /** Filtering with a test every element passes changes nothing. */
  lemma {:induction false} FilterAll<T>(xs: seq<T>, keep: T -> bool)
    requires forall k | 0 <= k < |xs| :: keep(xs[k])
    ensures Filter(xs, keep) == xs
    decreases |xs|
  {
    if |xs| > 0 {
      FilterAll(xs[1..], keep);
      assert xs == [xs[0]] + xs[1..];
    }
  }

  /** Filtering with a test no element passes leaves nothing. */
  lemma {:induction false} FilterNone<T>(xs: seq<T>, keep: T -> bool)
    requires forall k | 0 <= k < |xs| :: !keep(xs[k])
    ensures Filter(xs, keep) == []
    decreases |xs|
  {
    if |xs| > 0 {
      FilterNone(xs[1..], keep);
    }
  }

  /** Filtering one element more appends it when it passes: the loop form
      of a filter. */
  lemma {:induction false} FilterSnoc<T>(xs: seq<T>, x: T, keep: T -> bool)
    ensures Filter(xs + [x], keep) == Filter(xs, keep) + (if keep(x) then [x] else [])
    decreases |xs|
  {
    if |xs| == 0 {
      assert xs + [x] == [x];
      assert [x][1..] == [];
    } else {
      assert (xs + [x])[0] == xs[0];
      assert (xs + [x])[1..] == xs[1..] + [x];
      FilterSnoc(xs[1..], x, keep);
    }
  }

  /** Filtering keeps the kept elements in the order they first occur. */
  lemma {:induction false} FilterKeepsFirstOrder<T>(xs: seq<T>, keep: T -> bool, x: T, y: T)
    requires x in xs && y in xs && keep(x) && keep(y)
    ensures x in Filter(xs, keep) && y in Filter(xs, keep)
    ensures FirstIndex(Filter(xs, keep), x) < FirstIndex(Filter(xs, keep), y) <==> FirstIndex(xs, x) < FirstIndex(xs, y)
    decreases |xs|
  {
    var f := Filter(xs, keep);
    assert x == xs[FirstIndex(xs, x)] && y == xs[FirstIndex(xs, y)];
    if xs[0] != x && xs[0] != y {
      var t := xs[1..];
      assert x in t && y in t by {
        assert x == t[FirstIndex(xs, x) - 1] && y == t[FirstIndex(xs, y) - 1];
      }
      FilterKeepsFirstOrder(t, keep, x, y);
      var ft := Filter(t, keep);
      if keep(xs[0]) {
        assert f == [xs[0]] + ft;
        assert FirstIndex(f, x) == FirstIndex(ft, x) + 1 && FirstIndex(f, y) == FirstIndex(ft, y) + 1 by {
          assert f[1..] == ft;
        }
      } else {
        assert f == ft;
      }
    } else {
      assert f[0] == xs[0];
    }
  }

  // ------------------------------------------------------------- flattening

  /** `[y for ys in ss for y in ys]`. */
  function Flatten<T>(ss: seq<seq<T>>): (r: seq<T>)
    decreases |ss|
  {
    if |ss| == 0 then [] else ss[0] + Flatten(ss[1..])
  }

  /** Whatever one of the parts holds, the flattening holds. */
  lemma {:induction false} FlattenContains<T>(ss: seq<seq<T>>, i: nat, x: T)
    requires i < |ss| && x in ss[i]
    ensures x in Flatten(ss)
    decreases i
  {
    assert Flatten(ss) == ss[0] + Flatten(ss[1..]);
    if i > 0 {
      assert ss[1..][i - 1] == ss[i];
      FlattenContains(ss[1..], i - 1, x);
      var m :| 0 <= m < |Flatten(ss[1..])| && Flatten(ss[1..])[m] == x;
      assert Flatten(ss)[|ss[0]| + m] == x;
    } else {
      var m :| 0 <= m < |ss[0]| && ss[0][m] == x;
      assert Flatten(ss)[m] == x;
    }
  }

  /** Every element of the flattening comes from one of the parts: the
      index of that part. */
  function PartOf<T>(ss: seq<seq<T>>, k: nat): (i: nat)
    requires k < |Flatten(ss)|
    ensures i < |ss| && Flatten(ss)[k] in ss[i]
    decreases |ss|
  {
    assert Flatten(ss) == ss[0] + Flatten(ss[1..]);
    if k < |ss[0]| then
      assert Flatten(ss)[k] == ss[0][k];
      0
    else
      var i := PartOf(ss[1..], k - |ss[0]|);
      assert Flatten(ss)[k] == Flatten(ss[1..])[k - |ss[0]|];
      assert ss[1..][i] == ss[i + 1];
      i + 1
  }

  /** The present values of a sequence of options, in order. */
  function Somes<T>(xs: seq<Option<T>>): (r: seq<T>)
    ensures |r| <= |xs|
    decreases |xs|
  {
    if |xs| == 0 then []
    else if xs[0].Some? then [xs[0].value] + Somes(xs[1..])
    else Somes(xs[1..])
  }

  /** When every option is present, nothing is dropped. */
  lemma {:induction false} SomesAll<T>(xs: seq<Option<T>>)
    requires forall k | 0 <= k < |xs| :: xs[k].Some?
    ensures |Somes(xs)| == |xs|
    ensures forall k | 0 <= k < |xs| :: Some(Somes(xs)[k]) == xs[k]
    decreases |xs|
  {
    if |xs| > 0 {
      SomesAll(xs[1..]);
      forall k | 1 <= k < |xs| ensures Some(Somes(xs)[k]) == xs[k] {
        assert xs[1..][k - 1] == xs[k];
      }
    }
  }

  // ------------------------------------------------- insertion-ordered dicts

  predicate DistinctKeys<V>(d: seq<(string, V)>) {
    forall i, j | 0 <= i < j < |d| :: d[i].0 != d[j].0
  }

  predicate HasKey<V>(d: seq<(string, V)>, k: string) {
    exists i | 0 <= i < |d| :: d[i].0 == k
  }

  /** Where key `k` sits in `d`, or `|d|` when it is absent. */
  function KeyIndex<V>(d: seq<(string, V)>, k: string, from: nat := 0): (i: nat)
    requires from <= |d|
    ensures from <= i <= |d|
    ensures i < |d| ==> d[i].0 == k
    ensures forall j | from <= j < i :: d[j].0 != k
    decreases |d| - from
  {
    if from == |d| || d[from].0 == k then from else KeyIndex(d, k, from + 1)
  }

  /** `d.get(k)`: the value under `k`, or None when absent. */
  function Get<V>(d: seq<(string, V)>, k: string): (r: Option<V>)
    ensures r.None? <==> !HasKey(d, k)
    ensures r.Some? ==> exists i | 0 <= i < |d| :: d[i] == (k, r.value)
  {
    var i := KeyIndex(d, k);
    if i < |d| then Some(d[i].1) else None
  }

  /** Looking a key up in two lists one after the other: the first list
      wins. */
  lemma GetAppend<V>(a: seq<(string, V)>, b: seq<(string, V)>, k: string)
    ensures Get(a + b, k) == if HasKey(a, k) then Get(a, k) else Get(b, k)
  {
    var i := KeyIndex(a + b, k);
    if HasKey(a, k) {
      var j := KeyIndex(a, k);
      assert (a + b)[j] == a[j];
      assert i == j by {
        assert forall m | 0 <= m < j :: (a + b)[m] == a[m];
      }
    } else {
      assert forall m | 0 <= m < |a| :: (a + b)[m].0 != k;
      if HasKey(b, k) {
        var j := KeyIndex(b, k);
        assert (a + b)[|a| + j] == b[j];
        assert forall m | 0 <= m < j :: (a + b)[|a| + m] == b[m];
        assert i == |a| + j;
      } else {
        assert forall m | 0 <= m < |b| :: (a + b)[|a| + m] == b[m];
      }
    }
  }

  /** `d[k] = v` on a Python dict: an existing key keeps its position and
      takes the new value; a new key goes last. */
  function Put<V>(d: seq<(string, V)>, k: string, v: V): (r: seq<(string, V)>)
    requires DistinctKeys(d)
    ensures HasKey(d, k) ==> |r| == |d|
    ensures !HasKey(d, k) ==> r == d + [(k, v)]
    ensures forall i | 0 <= i < |d| :: r[i] == if d[i].0 == k then (k, v) else d[i]
    ensures DistinctKeys(r)
  {
    var i := KeyIndex(d, k);
    if i < |d| then
      assert HasKey(d, k);
      d[i := (k, v)]
    else
      assert !HasKey(d, k);
      d + [(k, v)]
  }

  /** The keys of an association list, in order. */
  function Keys<V>(d: seq<(string, V)>): (r: seq<string>)
    ensures |r| == |d|
    ensures forall i | 0 <= i < |d| :: r[i] == d[i].0
  {
    seq(|d|, i requires 0 <= i < |d| => d[i].0)
  }

  /** `entries[j]` is the last entry written under its key. */
  predicate LastFor<V>(entries: seq<(string, V)>, j: int) {
    0 <= j < |entries| && forall m | j < m < |entries| :: entries[m].0 != entries[j].0
  }

  /** `{k: v for k, v in entries}`: the dict built by assigning each entry
      in turn. Its keys come in order of first assignment, and each key
      holds the value assigned to it last. */
  function PutAll<V>(entries: seq<(string, V)>): (r: seq<(string, V)>)
    ensures DistinctKeys(r)
    ensures forall i | 0 <= i < |r| :: r[i] in entries
    ensures forall j | LastFor(entries, j) :: entries[j] in r
    decreases |entries|
  {
    if |entries| == 0 then []
    else
      var n := |entries| - 1;
      var d := PutAll(entries[..n]);
      PutFrom(entries, d);
      PutLast(entries, d);
      Put(d, entries[n].0, entries[n].1)
  }

  /** The keys of `PutAll(entries)` come in order of first assignment. */
  lemma {:induction false} PutAllKeys<V>(entries: seq<(string, V)>)
    ensures Keys(PutAll(entries)) == Dedup(Keys(entries))
    decreases |entries|
  {
    if |entries| > 0 {
      PutAllKeys(entries[..|entries| - 1]);
      PutAllStep(entries, PutAll(entries[..|entries| - 1]));
    }
  }

  /** One assignment of `PutAll` keeps its keys the de-duplicated keys
      of the entries. */
  lemma PutAllStep<V>(entries: seq<(string, V)>, d: seq<(string, V)>)
    requires |entries| > 0 && DistinctKeys(d)
    requires Keys(d) == Dedup(Keys(entries[..|entries| - 1]))
    ensures Keys(Put(d, entries[|entries| - 1].0, entries[|entries| - 1].1)) == Dedup(Keys(entries))
  {
    var n := |entries| - 1;
    var k := entries[n].0;
    var ks := Keys(entries[..n]);
    assert Keys(entries) == ks + [k];
    DedupSnoc(ks, k);
    PutKeys(d, k, entries[n].1);
    assert k in Keys(d) <==> k in ks by {
      if k in ks {
        var i :| 0 <= i < |ks| && ks[i] == k;
      }
    }
  }

  lemma PutFrom<V>(entries: seq<(string, V)>, d: seq<(string, V)>)
    requires |entries| > 0 && DistinctKeys(d)
    requires forall i | 0 <= i < |d| :: d[i] in entries[..|entries| - 1]
    ensures var r := Put(d, entries[|entries| - 1].0, entries[|entries| - 1].1);
      forall i | 0 <= i < |r| :: r[i] in entries
  {
    var n := |entries| - 1;
    var r := Put(d, entries[n].0, entries[n].1);
    forall i | 0 <= i < |r| ensures r[i] in entries {
      if i < |d| && d[i].0 != entries[n].0 {
        assert r[i] == d[i] && d[i] in entries[..n];
      } else {
        assert r[i] == entries[n];
      }
    }
  }

  lemma PutLast<V>(entries: seq<(string, V)>, d: seq<(string, V)>)
    requires |entries| > 0 && DistinctKeys(d)
    requires forall j | LastFor(entries[..|entries| - 1], j) :: entries[j] in d
    ensures var r := Put(d, entries[|entries| - 1].0, entries[|entries| - 1].1);
      forall j | LastFor(entries, j) :: entries[j] in r
  {
    var n := |entries| - 1;
    var k := entries[n].0;
    var r := Put(d, k, entries[n].1);
    forall j | LastFor(entries, j) ensures entries[j] in r {
      if j < n {
        assert LastFor(entries[..n], j);
        var i :| 0 <= i < |d| && d[i] == entries[j];
        assert r[i] == d[i];
      } else {
        PutHolds(d, k, entries[n].1);
      }
    }
  }

  /** Assigning a key adds it after the others, or keeps the key order. */
  lemma PutKeys<V>(d: seq<(string, V)>, k: string, v: V)
    requires DistinctKeys(d)
    ensures Keys(Put(d, k, v)) == if k in Keys(d) then Keys(d) else Keys(d) + [k]
  {
    var r := Put(d, k, v);
    if k in Keys(d) {
      assert HasKey(d, k);
      assert forall i | 0 <= i < |d| :: Keys(r)[i] == Keys(d)[i];
    } else {
      assert !HasKey(d, k);
    }
  }

  /** After `d[k] = v` the dict holds the pair `(k, v)`. */
  lemma PutHolds<V>(d: seq<(string, V)>, k: string, v: V)
    requires DistinctKeys(d)
    ensures (k, v) in Put(d, k, v)
  {
    if HasKey(d, k) {
      var i :| 0 <= i < |d| && d[i].0 == k;
      assert Put(d, k, v)[i] == (k, v);
    }
  }

  /** The position of the first element that passes `keep`, from `from`
      on, or `|xs|` when there is none. */
  function FirstMatch<T>(xs: seq<T>, keep: T -> bool, from: nat := 0): (i: nat)
    requires from <= |xs|
    ensures from <= i <= |xs|
    ensures i < |xs| ==> keep(xs[i])
    ensures forall j | from <= j < i :: !keep(xs[j])
    decreases |xs| - from
  {
    if from == |xs| || keep(xs[from]) then from else FirstMatch(xs, keep, from + 1)
  }

  /** The first position from `i` on, below `n`, that satisfies `p`, or
      `n`: a search over positions rather than elements. */
  function FirstWhere(p: nat -> bool, i: nat, n: nat): (j: nat)
    requires i <= n
    ensures i <= j <= n
    ensures j < n ==> p(j)
    decreases n - i
  {
    if i == n || p(i) then i else FirstWhere(p, i + 1, n)
  }

  /** No position before the one found satisfies `p`. */
  lemma {:induction false} FirstWhereIsFirst(p: nat -> bool, i: nat, n: nat, k: nat)
    requires i <= k < n && k < FirstWhere(p, i, n)
    ensures !p(k)
    decreases n - i
  {
    if k > i {
      FirstWhereIsFirst(p, i + 1, n, k);
    }
  }

  /** The first position that satisfies `p` is the one found. */
  lemma FirstWhereIs(p: nat -> bool, i: nat, n: nat, j: nat)
    requires i <= j < n && p(j)
    requires forall k | i <= k < j :: !p(k)
    ensures FirstWhere(p, i, n) == j
  {
    if FirstWhere(p, i, n) > j {
      FirstWhereIsFirst(p, i, n, j);
    }
  }
}

=== FILE: company.dfy ===
/** Watchlist configuration (models/company.py): sectors with their trigger
    keywords, companies with a normalised symbol, the collection-level
    checks of a loaded watchlist, and the per-company position record. */
module Companies {
  import opened Wrappers
  import opened Text
  import opened Collections
  import opened Decision

  datatype Sector = Sector(name: string, keywords: seq<string>, nseIndustryCode: Option<string>, bseIndustryCode: Option<string>)

  /** A company entry as written in the watchlist file: the priority may be
      absent. */
  datatype RawCompany = RawCompany(
    symbol: string,
    name: string,
    sector: Option<string>,
    industry: Option<string>,
    marketCapCategory: Option<string>,
    bseCode: Option<string>,
    nseListed: bool,
    bseListed: bool,
    priority: Option<string>,
    monitoringActive: bool,
    aliases: seq<string>)

  /** A validated company. */
  datatype Company = Company(
    symbol: string,
    name: string,
    sector: Option<string>,
    industry: Option<string>,
    marketCapCategory: Option<string>,
    bseCode: Option<string>,
    nseListed: bool,
    bseListed: bool,
    priority: string,
    monitoringActive: bool,
    aliases: seq<string>)

  datatype WatchlistConfig = WatchlistConfig(sectors: seq<Sector>, companies: seq<Company>, globalKeywords: seq<string>)

  /** Why a watchlist is refused. */
  datatype ConfigError =
    | SectorWithoutKeywords(sectorName: string)
    | BadPriority(value: string)
    | NoSectors
    | NoCompanies
    | DuplicateSymbols(symbols: seq<string>)

  /** The message pydantic reports for each error: a `ValueError` raised in
      a validator is prefixed with "Value error, "; the literal check has
      its own text. */
  function ErrorMessage(e: ConfigError): string {
    match e
    case SectorWithoutKeywords(n) => "Value error, Sector '" + n + "' must define at least one keyword"
    case BadPriority(_) => "Input should be 'high' or 'normal'"
    case NoSectors => "Value error, Watchlist config must define at least one sector"
    case NoCompanies => "Value error, Watchlist config must define at least one company"
    case DuplicateSymbols(ds) => "Value error, Duplicate company symbols in watchlist: " + Join(ds, ", ")
  }

  /** `Sector.validate_keywords`: a sector must name at least one keyword. */
  function ValidateSector(s: Sector): (r: Result<Sector, ConfigError>)
    ensures r.Success? <==> |s.keywords| > 0
    ensures r.Success? ==> r.value == s
    ensures r.Failure? ==> r.error == SectorWithoutKeywords(s.name)
  {
    if |s.keywords| == 0 then Failure(SectorWithoutKeywords(s.name)) else Success(s)
  }

  function StripOpt(o: Option<string>): (r: Option<string>)
    ensures r.None? <==> o.None?
    ensures o.Some? ==> r.value == Strip(o.value)
  {
    match o
    case None => None
    case Some(s) => Some(Strip(s))
  }

  const Priorities: seq<string> := ["high", "normal"]

  /** The priority as given, or the field default "normal". */
  function GivenPriority(raw: RawCompany): string {
    match raw.priority
    case Some(p) => p
    case None => "normal"
  }

  /** The literal check on `priority` compares the value exactly as given:
      whitespace stripping applies to plain `str` fields only. */
  predicate ValidCompany(raw: RawCompany) {
    GivenPriority(raw) in Priorities
  }

  /** `Company(...)`: every string field is stripped (`str_strip_whitespace`),
      the priority must be exactly "high" or "normal" (absent means
      "normal"), and the symbol is then upper-cased. */
  function NewCompany(raw: RawCompany): (r: Result<Company, ConfigError>)
    ensures r.Success? <==> ValidCompany(raw)
    ensures r.Failure? ==> r.error == BadPriority(GivenPriority(raw))
    ensures raw.priority.None? ==> r.Success? && r.value.priority == "normal"
    ensures r.Success? ==> var c := r.value;
      && c.symbol == Upper(Strip(raw.symbol))
      && c.name == Strip(raw.name)
      && c.priority == GivenPriority(raw)
      && |c.aliases| == |raw.aliases|
      && (forall k | 0 <= k < |raw.aliases| :: c.aliases[k] == Strip(raw.aliases[k]))
      && c.sector == StripOpt(raw.sector) && c.industry == StripOpt(raw.industry)
      && c.marketCapCategory == StripOpt(raw.marketCapCategory) && c.bseCode == StripOpt(raw.bseCode)
      && c.nseListed == raw.nseListed && c.bseListed == raw.bseListed
      && c.monitoringActive == raw.monitoringActive
  {
    var priority := GivenPriority(raw);
    if priority !in Priorities then Failure(BadPriority(priority))
    else
      Success(Company(
        Upper(Strip(raw.symbol)), Strip(raw.name), StripOpt(raw.sector), StripOpt(raw.industry),
        StripOpt(raw.marketCapCategory), StripOpt(raw.bseCode), raw.nseListed, raw.bseListed,
        priority, raw.monitoringActive, StripAll(raw.aliases)))
  }

  /** A validated company written back as a watchlist entry. */
  function AsRaw(c: Company): RawCompany {
    RawCompany(c.symbol, c.name, c.sector, c.industry, c.marketCapCategory, c.bseCode,
      c.nseListed, c.bseListed, Some(c.priority), c.monitoringActive, c.aliases)
  }

  /** A normalised company: stripped fields and an upper-case symbol. */
  predicate Normalized(c: Company) {
    && Strip(c.symbol) == c.symbol && Upper(c.symbol) == c.symbol
    && Strip(c.name) == c.name && c.priority in Priorities
    && (forall k | 0 <= k < |c.aliases| :: Strip(c.aliases[k]) == c.aliases[k])
    && StripOpt(c.sector) == c.sector && StripOpt(c.industry) == c.industry
    && StripOpt(c.marketCapCategory) == c.marketCapCategory && StripOpt(c.bseCode) == c.bseCode
  }

  lemma StripOptIdempotent(o: Option<string>)
    ensures StripOpt(StripOpt(o)) == StripOpt(o)
  {
    if o.Some? {
      StripIdempotent(o.value);
    }
  }

  /** The validated symbol is stripped and upper-case. */
  lemma SymbolNormalized(raw: string)
    ensures var u := Upper(Strip(raw)); Strip(u) == u && Upper(u) == u
  {
    UpperOfStripped(Strip(raw));
    StripOfStripped(Upper(Strip(raw)));
    UpperIdempotent(Strip(raw));
  }

  lemma AliasesNormalized(aliases: seq<string>)
    ensures var r := StripAll(aliases); forall k | 0 <= k < |r| :: Strip(r[k]) == r[k]
  {
    forall k | 0 <= k < |aliases| ensures Strip(Strip(aliases[k])) == Strip(aliases[k]) {
      StripIdempotent(aliases[k]);
    }
  }

  /** Validation produces a normalised company. */
  lemma NewCompanyNormalizes(raw: RawCompany)
    requires ValidCompany(raw)
    ensures Normalized(NewCompany(raw).value)
  {
    SymbolNormalized(raw.symbol);
    StripIdempotent(raw.name);
    AliasesNormalized(raw.aliases);
    StripOptIdempotent(raw.sector);
    StripOptIdempotent(raw.industry);
    StripOptIdempotent(raw.marketCapCategory);
    StripOptIdempotent(raw.bseCode);
  }

  /** A normalised company is a fixed point of validation. */
  lemma NormalizedIsFixed(c: Company)
    requires Normalized(c)
    ensures NewCompany(AsRaw(c)) == Success(c)
  {
    var aliases := StripAll(c.aliases);
    assert aliases == c.aliases;
    assert StripOpt(c.sector) == c.sector;
  }

  /** Writing a validated company back and loading it again changes
      nothing. */
  lemma NewCompanyIdempotent(raw: RawCompany)
    requires ValidCompany(raw)
    ensures NewCompany(AsRaw(NewCompany(raw).value)) == NewCompany(raw)
  {
    NewCompanyNormalizes(raw);
    NormalizedIsFixed(NewCompany(raw).value);
  }

  function Symbols(cs: seq<Company>): (r: seq<string>)
    ensures |r| == |cs|
    ensures forall k | 0 <= k < |cs| :: r[k] == cs[k].symbol
  {
    seq(|cs|, k requires 0 <= k < |cs| => cs[k].symbol)
  }

  /** The symbols listed more than once, sorted, each once. */
  function RepeatedSymbols(symbols: seq<string>): (r: seq<string>)
    ensures SortedStr(r) && NoDuplicates(r)
    ensures forall s :: s in r <==> multiset(symbols)[s] > 1
  {
    var repeated := Filter(symbols, s => multiset(symbols)[s] > 1);
    SortedSet(repeated)
  }

  /** A list has a repeated element exactly when it is not duplicate-free. */
  lemma RepeatedIffDuplicates(symbols: seq<string>)
    ensures RepeatedSymbols(symbols) == [] <==> NoDuplicates(symbols)
  {
    if !NoDuplicates(symbols) {
      var i, j :| 0 <= i < j < |symbols| && symbols[i] == symbols[j];
      RepeatedMultiplicity(symbols, i, j);
      assert symbols[i] in RepeatedSymbols(symbols);
    } else {
      forall s | s in RepeatedSymbols(symbols) ensures false {
        DistinctMultiplicity(symbols, s);
      }
    }
  }

  predicate AllSectorsValid(sectors: seq<Sector>) {
    forall k | 0 <= k < |sectors| :: |sectors[k].keywords| > 0
  }

  predicate AllCompaniesValid(raws: seq<RawCompany>) {
    forall k | 0 <= k < |raws| :: ValidCompany(raws[k])
  }

  lemma AllSectorsValidCons(sectors: seq<Sector>)
    requires |sectors| > 0
    ensures AllSectorsValid(sectors) <==> |sectors[0].keywords| > 0 && AllSectorsValid(sectors[1..])
  {
    if |sectors[0].keywords| > 0 && AllSectorsValid(sectors[1..]) {
      forall k | 1 <= k < |sectors| ensures |sectors[k].keywords| > 0 {
        assert sectors[k] == sectors[1..][k - 1];
      }
    }
  }

  lemma AllCompaniesValidCons(raws: seq<RawCompany>)
    requires |raws| > 0
    ensures AllCompaniesValid(raws) <==> ValidCompany(raws[0]) && AllCompaniesValid(raws[1..])
  {
    if ValidCompany(raws[0]) && AllCompaniesValid(raws[1..]) {
      forall k | 1 <= k < |raws| ensures ValidCompany(raws[k]) {
        assert raws[k] == raws[1..][k - 1];
      }
    }
  }

  /** The keyword errors of the sectors, in order. */
  function Errors(sectors: seq<Sector>): (r: seq<ConfigError>)
    ensures forall k | 0 <= k < |r| :: r[k].SectorWithoutKeywords?
    ensures r == [] <==> AllSectorsValid(sectors)
    decreases |sectors|
  {
    if |sectors| == 0 then []
    else
      AllSectorsValidCons(sectors);
      var rest := Errors(sectors[1..]);
      match ValidateSector(sectors[0])
      case Failure(e) => [e] + rest
      case Success(_) => rest
  }

  /** The priority errors of the companies, in order. */
  function CompanyErrors(raws: seq<RawCompany>): (r: seq<ConfigError>)
    ensures forall k | 0 <= k < |r| :: r[k].BadPriority? && r[k].value !in Priorities
    ensures r == [] <==> AllCompaniesValid(raws)
    decreases |raws|
  {
    if |raws| == 0 then []
    else
      AllCompaniesValidCons(raws);
      var rest := CompanyErrors(raws[1..]);
      match NewCompany(raws[0])
      case Failure(e) => [e] + rest
      case Success(_) => rest
  }

  function NewCompanies(raws: seq<RawCompany>): (r: seq<Company>)
    requires AllCompaniesValid(raws)
    ensures |r| == |raws|
    ensures forall k | 0 <= k < |raws| :: NewCompany(raws[k]) == Success(r[k])
  {
    seq(|raws|, k requires 0 <= k < |raws| => NewCompany(raws[k]).value)
  }

  /** Loading a watchlist: field validation first (every failing sector and
      company reports, in order), then the collection checks in the order
      the model validator runs them. */
  function LoadWatchlist(sectors: seq<Sector>, raws: seq<RawCompany>, globalKeywords: seq<string>): (r: Result<WatchlistConfig, seq<ConfigError>>)
    ensures r.Success? ==> AllSectorsValid(sectors) && AllCompaniesValid(raws)
    ensures r.Success? <==>
      && AllSectorsValid(sectors) && AllCompaniesValid(raws)
      && |sectors| > 0 && |raws| > 0
      && NoDuplicates(Symbols(NewCompanies(raws)))
    ensures r.Success? ==>
      (r.value.sectors == sectors && r.value.companies == NewCompanies(raws) && r.value.globalKeywords == globalKeywords)
    ensures r.Failure? ==> |r.error| > 0
    ensures !(AllSectorsValid(sectors) && AllCompaniesValid(raws)) ==> r == Failure(Errors(sectors) + CompanyErrors(raws))
    ensures AllSectorsValid(sectors) && AllCompaniesValid(raws) && |sectors| == 0 ==> r == Failure([NoSectors])
    ensures AllSectorsValid(sectors) && AllCompaniesValid(raws) && |sectors| > 0 && |raws| == 0 ==> r == Failure([NoCompanies])
  {
    var fieldErrors := Errors(sectors) + CompanyErrors(raws);
    if fieldErrors != [] then Failure(fieldErrors)
    else if |sectors| == 0 then Failure([NoSectors])
    else if |raws| == 0 then Failure([NoCompanies])
    else
      var companies := NewCompanies(raws);
      var duplicates := RepeatedSymbols(Symbols(companies));
      RepeatedIffDuplicates(Symbols(companies));
      if duplicates != [] then Failure([DuplicateSymbols(duplicates)])
      else Success(WatchlistConfig(sectors, companies, globalKeywords))
  }

  /** A watchlist whose fields are valid but whose upper-cased symbols
      repeat is refused with one message naming each repeated symbol once,
      in sorted order. */
  lemma DuplicateSymbolsReported(sectors: seq<Sector>, raws: seq<RawCompany>, globalKeywords: seq<string>)
    requires AllSectorsValid(sectors) && AllCompaniesValid(raws)
    requires |sectors| > 0 && |raws| > 0
    requires !NoDuplicates(Symbols(NewCompanies(raws)))
    ensures var r := LoadWatchlist(sectors, raws, globalKeywords);
      && r.Failure? && |r.error| == 1 && r.error[0].DuplicateSymbols?
      && SortedStr(r.error[0].symbols) && NoDuplicates(r.error[0].symbols)
      && (forall s :: s in r.error[0].symbols <==> multiset(Symbols(NewCompanies(raws)))[s] > 1)
  {
    assert Errors(sectors) + CompanyErrors(raws) == [];
    RepeatedIffDuplicates(Symbols(NewCompanies(raws)));
  }

  /** A change of recommendation recorded in a position's history. */
  datatype HistoryEntry = HistoryEntry(recommendation: Recommendation, date: Option<int>, assessmentId: Option<string>)

  /** `CompanyPosition`: the current recommendation state of one company.
      Dates are clock readings. */
  datatype CompanyPosition = CompanyPosition(
    companySymbol: string,
    companyName: string,
    currentRecommendation: Recommendation,
    recommendationDate: Option<int>,
    recommendationBasis: string,
    recommendationAssessmentId: Option<string>,
    recommendationHistory: seq<HistoryEntry>,
    totalInvestigations: int,
    lastInvestigationDate: Option<int>,
    updatedAt: int)

  /** A position built from a symbol and a name only. */
  function NewPosition(symbol: string, name: string, now: int): (p: CompanyPosition)
    ensures p.currentRecommendation == NoRecommendation && p.recommendationHistory == []
    ensures p.totalInvestigations == 0 && p.recommendationBasis == ""
    ensures p.recommendationDate == None && p.recommendationAssessmentId == None && p.lastInvestigationDate == None
    ensures p.companySymbol == symbol && p.companyName == name && p.updatedAt == now
  {
    CompanyPosition(symbol, name, NoRecommendation, None, "", None, [], 0, None, now)
  }
}

=== FILE: costs.dfy ===
/** Estimated API costs (api/costs.py): the price of a model's tokens, the
    price of a web search, and the summary over a time window. Instants are
    seconds since the epoch; amounts in US dollars are reals. The three
    database aggregations are inputs: the per-model token rows, the web
    search calls and the completed reports of the window. */
module Costs {
  import opened Wrappers
  import opened Text
  import TriggersApi
  import AppSettings

  type ApiError = TriggersApi.ApiError

  /** Dollars per million input and per million output tokens. */
  datatype Pricing = Pricing(inputPerMillion: real, outputPerMillion: real)

  const HaikuPricing := Pricing(0.8, 4.0)
  const SonnetPricing := Pricing(3.0, 15.0)
  const OpusPricing := Pricing(15.0, 75.0)

  /** `_pricing_for_model`: the first of haiku, sonnet and opus the
      lower-cased name mentions sets the price; any other model is priced as
      sonnet. */
  function PricingForModel(modelName: string): (p: Pricing)
    ensures p == HaikuPricing || p == SonnetPricing || p == OpusPricing
    ensures p == HaikuPricing <==> Contains(Lower(modelName), "haiku")
    ensures p == OpusPricing <==> (!Contains(Lower(modelName), "haiku") && !Contains(Lower(modelName), "sonnet") && Contains(Lower(modelName), "opus"))
  {
    var normalized := Lower(modelName);
    if Contains(normalized, "haiku") then HaikuPricing
    else if Contains(normalized, "sonnet") then SonnetPricing
    else if Contains(normalized, "opus") then OpusPricing
    else SonnetPricing
  }

  /** The price ignores the letter case of the name. */
  lemma PricingIgnoresCase(modelName: string)
    ensures PricingForModel(Upper(modelName)) == PricingForModel(modelName)
    ensures PricingForModel(Lower(modelName)) == PricingForModel(modelName)
  {
    LowerOfUpper(modelName);
    LowerIdempotent(modelName);
  }

  /** `_estimate_llm_cost_usd`. */
  function LlmCost(modelName: string, inputTokens: int, outputTokens: int): (c: real)
    ensures inputTokens >= 0 && outputTokens >= 0 ==>
      c >= (inputTokens as real * 0.8 + outputTokens as real * 4.0) / 1000000.0 &&
      c <= (inputTokens as real * 15.0 + outputTokens as real * 75.0) / 1000000.0
  {
    var p := PricingForModel(modelName);
    var i, o := inputTokens as real, outputTokens as real;
    assert p.inputPerMillion >= 0.8 && p.outputPerMillion >= 4.0;
    assert p.inputPerMillion <= 15.0 && p.outputPerMillion <= 75.0;
    PriceBounds(i, o, p);
    i * p.inputPerMillion / 1000000.0 + o * p.outputPerMillion / 1000000.0
  }

  lemma PriceBounds(i: real, o: real, p: Pricing)
    requires 0.8 <= p.inputPerMillion <= 15.0 && 4.0 <= p.outputPerMillion <= 75.0
    ensures i >= 0.0 && o >= 0.0 ==>
      i * p.inputPerMillion / 1000000.0 + o * p.outputPerMillion / 1000000.0 >= (i * 0.8 + o * 4.0) / 1000000.0 &&
      i * p.inputPerMillion / 1000000.0 + o * p.outputPerMillion / 1000000.0 <= (i * 15.0 + o * 75.0) / 1000000.0
  {
    if i >= 0.0 && o >= 0.0 {
      assert i * p.inputPerMillion >= i * 0.8 && o * p.outputPerMillion >= o * 4.0;
      assert i * p.inputPerMillion <= i * 15.0 && o * p.outputPerMillion <= o * 75.0;
    }
  }

  /** Pricing is per token: the cost of two batches of one model is the
      cost of their combined tokens. */
  lemma LlmCostAdds(modelName: string, in1: int, out1: int, in2: int, out2: int)
    ensures LlmCost(modelName, in1 + in2, out1 + out2) == LlmCost(modelName, in1, out1) + LlmCost(modelName, in2, out2)
  {
    var p := PricingForModel(modelName);
    assert (in1 + in2) as real * p.inputPerMillion == in1 as real * p.inputPerMillion + in2 as real * p.inputPerMillion;
    assert (out1 + out2) as real * p.outputPerMillion == out1 as real * p.outputPerMillion + out2 as real * p.outputPerMillion;
  }

  const SearchCostPerCall: real := 0.005

  /** `_estimate_web_search_cost_per_call`: the configured provider's name,
      "none" when there are no settings or the name is empty; brave and
      tavily cost half a cent a call, anything else nothing. */
  function WebSearchCostPerCall(provider: Option<string>): (c: real)
    ensures c == SearchCostPerCall <==> Truthy(provider) && (provider.value == "brave" || provider.value == "tavily")
    ensures c == 0.0 <==> c != SearchCostPerCall
  {
    var name := if Truthy(provider) then provider.value else "none";
    if name == "brave" || name == "tavily" then SearchCostPerCall else 0.0
  }

  /** With settings, a search costs something exactly when a search
      provider is configured. */
  lemma ConfiguredSearchCost(p: AppSettings.WebSearchProvider)
    ensures WebSearchCostPerCall(Some(AppSettings.SearchProviderName(p))) > 0.0 <==> p != AppSettings.NoWebSearch
  {
  }

  /** A row of `_aggregate_llm_usage`: one model's token totals. */
  datatype UsageRow = UsageRow(model: string, inputTokens: int, outputTokens: int)

  function SumInput(rows: seq<UsageRow>): int
    decreases |rows|
  {
    if |rows| == 0 then 0 else SumInput(rows[..|rows| - 1]) + rows[|rows| - 1].inputTokens
  }

  function SumOutput(rows: seq<UsageRow>): int
    decreases |rows|
  {
    if |rows| == 0 then 0 else SumOutput(rows[..|rows| - 1]) + rows[|rows| - 1].outputTokens
  }

  /** The sum of the rows' estimated costs. */
  function SumCost(rows: seq<UsageRow>): real
    decreases |rows|
  {
    if |rows| == 0 then 0.0
    else
      var r := rows[|rows| - 1];
      SumCost(rows[..|rows| - 1]) + LlmCost(r.model, r.inputTokens, r.outputTokens)
  }

  /** Rows that all name one model cost what their summed tokens cost. */
  lemma {:induction false} OneModelCost(rows: seq<UsageRow>, modelName: string)
    requires forall k | 0 <= k < |rows| :: rows[k].model == modelName
    ensures SumCost(rows) == LlmCost(modelName, SumInput(rows), SumOutput(rows))
    decreases |rows|
  {
    if |rows| > 0 {
      var init := rows[..|rows| - 1];
      var r := rows[|rows| - 1];
      OneModelCost(init, modelName);
      LlmCostAdds(modelName, SumInput(init), SumOutput(init), r.inputTokens, r.outputTokens);
    }
  }

  datatype CostSummary = CostSummary(
    windowStart: real,
    windowEnd: real,
    llmInputTokens: int,
    llmOutputTokens: int,
    llmEstimatedCostUsd: real,
    webSearchCalls: int,
    webSearchEstimatedCostUsd: real,
    totalEstimatedCostUsd: real,
    completedReports: nat,
    costPerCompletedReportUsd: real)

  const WindowMessage: string := "'until' must be greater than or equal to 'since'"

  /** A query-string datetime: its instant and whether it carries a UTC
      offset. The start of today and now are always offset-aware. */
  datatype Stamp = Stamp(seconds: real, aware: bool)

  /** Python's message when a naive and an aware datetime are compared. */
  const NaiveAwareMessage: string := "can't compare offset-naive and offset-aware datetimes"

  /** Whether the window's ends differ in awareness, a missing end being
      replaced by an aware default. */
  predicate MixedAwareness(since: Option<Stamp>, until: Option<Stamp>) {
    (since.None? || since.value.aware) != (until.None? || until.value.aware)
  }

  /** The total is the sum of the two costs, and the per-report share times
      the completed reports is the total (0 when there are none). */
  predicate SharesConsistent(s: CostSummary) {
    && s.totalEstimatedCostUsd == s.llmEstimatedCostUsd + s.webSearchEstimatedCostUsd
    && (s.completedReports == 0 ==> s.costPerCompletedReportUsd == 0.0)
    && (s.completedReports > 0 ==> s.costPerCompletedReportUsd * s.completedReports as real == s.totalEstimatedCostUsd)
  }

  /** `cost_summary`. Without a database the window is reported with zero
      costs, whatever its order; with one, the window's two ends are
      compared, which raises `TypeError` (an HTTP 500) when exactly one of
      them is offset-naive, and a window ending before it starts is refused
      with 400; otherwise the costs of the window's usage rows, web search
      calls and completed reports are summed. The start defaults to the
      start of today and the end to now, both offset-aware. */
  function Summarize(hasDb: bool, since: Option<Stamp>, until: Option<Stamp>, startOfToday: real, now: real,
                     usage: seq<UsageRow>, webSearchCalls: int, completedReports: nat,
                     provider: Option<string>): (r: Result<CostSummary, ApiError>)
    ensures r.Failure? <==>
      && hasDb
      && (|| MixedAwareness(since, until)
          || (if until.Some? then until.value.seconds else now) < (if since.Some? then since.value.seconds else startOfToday))
    ensures r.Failure? && MixedAwareness(since, until) ==> r.error == TriggersApi.Raised(NaiveAwareMessage)
    ensures r.Failure? && !MixedAwareness(since, until) ==>
      r.error == TriggersApi.HttpError(400, WindowMessage)
    ensures r.Success? ==>
      var s := r.value;
      && s.windowStart == (if since.Some? then since.value.seconds else startOfToday)
      && s.windowEnd == (if until.Some? then until.value.seconds else now)
      && SharesConsistent(s)
    ensures r.Success? && !hasDb ==>
      r.value.llmInputTokens == 0 && r.value.llmOutputTokens == 0 && r.value.webSearchCalls == 0 &&
      r.value.totalEstimatedCostUsd == 0.0 && r.value.completedReports == 0
    ensures r.Success? && hasDb ==>
      && r.value.llmInputTokens == SumInput(usage) && r.value.llmOutputTokens == SumOutput(usage)
      && r.value.llmEstimatedCostUsd == SumCost(usage)
      && r.value.webSearchCalls == webSearchCalls
      && r.value.webSearchEstimatedCostUsd == webSearchCalls as real * WebSearchCostPerCall(provider)
      && r.value.completedReports == completedReports
  {
    var start := if since.Some? then since.value.seconds else startOfToday;
    var end := if until.Some? then until.value.seconds else now;
    if !hasDb then
      Success(CostSummary(start, end, 0, 0, 0.0, 0, 0.0, 0.0, 0, 0.0))
    else if MixedAwareness(since, until) then
      Failure(TriggersApi.Raised(NaiveAwareMessage))
    else if end < start then
      Failure(TriggersApi.HttpError(400, WindowMessage))
    else
      Success(WindowCosts(start, end, usage, webSearchCalls, completedReports, provider))
  }

  /** The summary of a window with a database: the usage rows' tokens and
      cost, the search calls at the provider's price, their total, and its
      share per completed report. */
  function WindowCosts(start: real, end: real, usage: seq<UsageRow>, webSearchCalls: int, completedReports: nat,
                       provider: Option<string>): (s: CostSummary)
    ensures s.windowStart == start && s.windowEnd == end
    ensures SharesConsistent(s)
    ensures s.llmInputTokens == SumInput(usage) && s.llmOutputTokens == SumOutput(usage)
    ensures s.llmEstimatedCostUsd == SumCost(usage)
    ensures s.webSearchCalls == webSearchCalls
    ensures s.webSearchEstimatedCostUsd == webSearchCalls as real * WebSearchCostPerCall(provider)
    ensures s.completedReports == completedReports
  {
    var llm := SumCost(usage);
    var web := webSearchCalls as real * WebSearchCostPerCall(provider);
    var total := llm + web;
    var perReport := if completedReports > 0 then total / completedReports as real else 0.0;
    CostSummary(start, end, SumInput(usage), SumOutput(usage), llm, webSearchCalls, web, total,
                completedReports, perReport)
  }
}

=== FILE: dashboard_app.dfy ===
/** The dashboard's text helpers (dashboard/app.py): the tag list a user
    types into the notes form, and the timestamp shown in tables. The
    Streamlit rendering around them is not part of this model. */
module DashboardApp {
  import opened Wrappers
  import opened Text
  import opened Collections
  import opened Json
  import Notes

  /** `_parse_tag_list`: the comma-separated parts, each stripped and
      lower-cased, blanks dropped, each tag once in the order it first
      appears. It is the notes routes' own tag normalisation applied to the
      parts. */
  function ParseTagList(value: string): (tags: seq<string>)
    ensures NoDuplicates(tags)
    ensures forall k | 0 <= k < |tags| :: tags[k] != [] && Trimmed(tags[k]) && Lower(tags[k]) == tags[k] && ',' !in tags[k]
    ensures forall k | 0 <= k < |tags| :: tags[k] in Notes.TagForms(Split(value, ','))
    ensures forall j | 0 <= j < |Split(value, ',')| :: !IsBlank(Split(value, ',')[j]) ==> Notes.TagForm(Split(value, ',')[j]) in tags
  {
    var parts := Split(value, ',');
    var forms := Notes.TagForms(parts);
    var tags := Notes.NormalizeTags(Some(parts));
    assert Notes.Rows(Some(parts)) == parts;
    forall k | 0 <= k < |tags| ensures tags[k] in forms && ',' !in tags[k] {
      var j :| 0 <= j < |forms| && forms[j] == tags[k];
      TagFormKeepsOut(parts[j]);
    }
    tags
  }

  /** The tags come in the order their first parts do. */
  lemma TagsInFirstOccurrenceOrder(value: string, i: nat, j: nat)
    requires i < j < |ParseTagList(value)|
    ensures var forms := Notes.TagForms(Split(value, ','));
      var tags := ParseTagList(value);
      FirstIndex(forms, tags[i]) < FirstIndex(forms, tags[j])
  {
    var forms := Notes.TagForms(Split(value, ','));
    var tags := ParseTagList(value);
    var kept := Filter(forms, Notes.NonEmptyTag);
    assert tags == Dedup(kept);
    FilterKeepsFirstOrder(forms, Notes.NonEmptyTag, tags[i], tags[j]);
  }

  /** A part without a comma has a tag form without one. */
  lemma TagFormKeepsOut(part: string)
    requires ',' !in part
    ensures ',' !in Notes.TagForm(part)
  {
    var s := Strip(part);
    assert Notes.TagForm(part) == Lower(s);
    forall i | 0 <= i < |s| ensures Lower(s)[i] != ',' {
      assert s[i] == part[StripStart(part) + i];
    }
  }

  /** Tags already in the form the parser returns, joined with commas, parse
      back to themselves: the order and the contents survive. */
  lemma TagListRoundTrip(tags: seq<string>)
    requires NoDuplicates(tags)
    requires forall k | 0 <= k < |tags| :: tags[k] != [] && Trimmed(tags[k]) && Lower(tags[k]) == tags[k] && ',' !in tags[k]
    ensures ParseTagList(Join(tags, ",")) == tags
  {
    if tags == [] {
      EmptyTagList();
    } else {
      var v := Join(tags, ",");
      assert Split(v, ',') == tags by {
        SplitJoin(tags, ',');
      }
      ParseTagListIs(v);
      NormalizedTagsKept(tags);
    }
  }

  /** An empty field holds no tags. */
  lemma EmptyTagList()
    ensures ParseTagList("") == []
  {
    var forms := Notes.TagForms([""]);
    assert forms[0] == [];
    FilterNone(forms, Notes.NonEmptyTag);
    ParseTagListIs("");
  }

  /** The parser is the three steps of the notes' normalisation. */
  lemma ParseTagListIs(value: string)
    ensures ParseTagList(value) == Dedup(Filter(Notes.TagForms(Split(value, ',')), Notes.NonEmptyTag))
  {
  }

  /** Normalised, distinct tags survive the three steps unchanged. */
  lemma NormalizedTagsKept(tags: seq<string>)
    requires NoDuplicates(tags)
    requires forall k | 0 <= k < |tags| :: tags[k] != [] && Trimmed(tags[k]) && Lower(tags[k]) == tags[k]
    ensures Dedup(Filter(Notes.TagForms(tags), Notes.NonEmptyTag)) == tags
  {
    var forms := Notes.TagForms(tags);
    forall k | 0 <= k < |tags| ensures forms[k] == tags[k] {
      TagFormOfTag(tags[k]);
    }
    assert forms == tags;
    FilterAll(forms, Notes.NonEmptyTag);
    DedupOfDistinct(tags);
  }

  /** A stripped, lower-case tag is its own tag form. */
  lemma TagFormOfTag(t: string)
    requires Trimmed(t) && Lower(t) == t
    ensures Notes.TagForm(t) == t
  {
    StripOfStripped(t);
  }

  /** `_format_datetime`: "" for a false value, otherwise the first 19
      characters of `str(value)` (an ISO timestamp without its fraction and
      offset). */
  function FormatDatetime(v: Value, containerStr: Value -> string): (r: string)
    ensures !IsTruthy(v) ==> r == ""
    ensures IsTruthy(v) ==>
      var text := PyStr(v, containerStr);
      |r| == (if |text| < 19 then |text| else 19) && r == text[..|r|]
  {
    var text := if IsTruthy(v) then PyStr(v, containerStr) else "";
    if text == [] then "" else Take(text, 19)
  }

  /** Formatting what was shown again shows the same text. */
  lemma FormatIdempotent(v: Value, containerStr: Value -> string)
    ensures FormatDatetime(Str(FormatDatetime(v, containerStr)), containerStr) == FormatDatetime(v, containerStr)
  {
  }
}

=== FILE: decision.dfy ===
/** Layer 4 decision values (models/decision.py) and the normalisation of
    the decision module's raw prediction fields (dspy_modules/decision.py).

    The prediction itself comes from a language model the model does not
    see; each parser takes the text Python's `str()` gives for the predicted
    value, or the outcome of the foreign conversion the code applies
    (`float(value)`, `json.loads(raw)`). */
module Decision {
  import opened Wrappers
  import opened Text
  import opened Json
  import opened Collections

  datatype Recommendation = Buy | Sell | Hold | NoRecommendation

  function RecommendationValue(r: Recommendation): string {
    match r
    case Buy => "buy"
    case Sell => "sell"
    case Hold => "hold"
    case NoRecommendation => "none"
  }

  datatype Timeframe = ShortTerm | MediumTerm | LongTerm

  function TimeframeValue(t: Timeframe): string {
    match t
    case ShortTerm => "short_term"
    case MediumTerm => "medium_term"
    case LongTerm => "long_term"
  }

  /** `Recommendation(value)`: the member whose value is `value`, if any. */
  function RecommendationNamed(value: string): (r: Option<Recommendation>)
    ensures r.Some? ==> RecommendationValue(r.value) == value
    ensures r.None? ==> forall q: Recommendation :: RecommendationValue(q) != value
  {
    if value == "buy" then Some(Buy)
    else if value == "sell" then Some(Sell)
    else if value == "hold" then Some(Hold)
    else if value == "none" then Some(NoRecommendation)
    else None
  }

  /** `RecommendationTimeframe(value)`: the member whose value is `value`, if any. */
  function TimeframeNamed(value: string): (r: Option<Timeframe>)
    ensures r.Some? ==> TimeframeValue(r.value) == value
    ensures r.None? ==> forall q: Timeframe :: TimeframeValue(q) != value
  {
    if value == "short_term" then Some(ShortTerm)
    else if value == "medium_term" then Some(MediumTerm)
    else if value == "long_term" then Some(LongTerm)
    else None
  }

  /** `_parse_recommendation(value)`, given `text == str(value)`: the member
      named by the trimmed, lower-cased text, and NONE for anything else. */
  function ParseRecommendation(text: string): (r: Recommendation)
    ensures RecommendationValue(r) == Lower(Strip(text))
            || (r == NoRecommendation && forall q: Recommendation :: RecommendationValue(q) != Lower(Strip(text)))
  {
    RecommendationNamed(Lower(Strip(text))).GetOr(NoRecommendation)
  }

  /** `_parse_timeframe(value)`, given `text == str(value)`: the member named
      by the trimmed, lower-cased text, and MEDIUM_TERM for anything else. */
  function ParseTimeframe(text: string): (r: Timeframe)
    ensures TimeframeValue(r) == Lower(Strip(text))
            || (r == MediumTerm && forall q: Timeframe :: TimeframeValue(q) != Lower(Strip(text)))
  {
    TimeframeNamed(Lower(Strip(text))).GetOr(MediumTerm)
  }

  /** The argument of `_recommendation_to_str`: an enum member or any other value. */
  datatype RecommendationArg = Member(r: Recommendation) | Other(text: string)

  /** `_recommendation_to_str`: the member's value, or `str(x)` (here `text`). */
  function RecommendationToStr(a: RecommendationArg): (s: string)
    ensures a.Member? ==> RecommendationNamed(s) == Some(a.r)
    ensures a.Other? ==> s == a.text
  {
    match a
    case Member(r) => RecommendationValue(r)
    case Other(t) => t
  }

  predicate LowerWord(v: string) {
    forall i | 0 <= i < |v| :: 'a' <= v[i] <= 'z' || v[i] == '_'
  }

  lemma LowerUpperWord(v: string)
    requires LowerWord(v)
    ensures Lower(Upper(v)) == v && Lower(v) == v
    ensures forall i | 0 <= i < |v| :: !IsSpace(Upper(v)[i]) && !IsSpace(v[i])
  {
    var u := Upper(v);
    assert forall i | 0 <= i < |v| :: Lower(u)[i] == v[i];
    assert forall i | 0 <= i < |v| :: Lower(v)[i] == v[i];
  }

  lemma NamedOfValue(r: Recommendation)
    ensures RecommendationNamed(RecommendationValue(r)) == Some(r)
  {
  }

  lemma TimeframeNamedOfValue(t: Timeframe)
    ensures TimeframeNamed(TimeframeValue(t)) == Some(t)
  {
  }

  /** A lower-case word in any letter case, padded with any whitespace,
      reads back as the word. */
  lemma NormalizedWord(v: string, a: string, b: string)
    requires v != [] && LowerWord(v) && AllSpace(a) && AllSpace(b)
    ensures Lower(Strip(a + Upper(v) + b)) == v
    ensures Lower(Strip(a + v + b)) == v
  {
    LowerUpperWord(v);
    var u := Upper(v);
    assert !IsSpace(u[0]) && !IsSpace(u[|u| - 1]);
    StripPadded(a, u, b);
    assert !IsSpace(v[0]) && !IsSpace(v[|v| - 1]);
    StripPadded(a, v, b);
  }

  /** A recommendation written in any letter case with any whitespace
      padding parses back to itself. */
  lemma ParseRecommendationPadded(r: Recommendation, a: string, b: string)
    requires AllSpace(a) && AllSpace(b)
    ensures ParseRecommendation(a + Upper(RecommendationValue(r)) + b) == r
    ensures ParseRecommendation(a + RecommendationValue(r) + b) == r
  {
    NormalizedWord(RecommendationValue(r), a, b);
    NamedOfValue(r);
  }

  lemma ParseTimeframePadded(t: Timeframe, a: string, b: string)
    requires AllSpace(a) && AllSpace(b)
    ensures ParseTimeframe(a + Upper(TimeframeValue(t)) + b) == t
    ensures ParseTimeframe(a + TimeframeValue(t) + b) == t
  {
    NormalizedWord(TimeframeValue(t), a, b);
    TimeframeNamedOfValue(t);
  }

  /** What `_recommendation_to_str` sends to the module, `_parse_recommendation`
      reads back as the same member. */
  lemma RecommendationStrRoundTrip(r: Recommendation)
    ensures ParseRecommendation(RecommendationToStr(Member(r))) == r
  {
    var v := RecommendationValue(r);
    LowerUpperWord(v);
    StripOfStripped(v);
    NamedOfValue(r);
  }

  // --------------------------------------------------------------- confidence

  /** A Python float. */
  datatype PyFloat = Finite(x: real) | PosInf | NegInf | NaN

  /** `f < c` for a Python float; every comparison with NaN is false. */
  predicate Below(f: PyFloat, c: real) {
    match f
    case Finite(x) => x < c
    case NegInf => true
    case _ => false
  }

  /** `f > c` for a Python float. */
  predicate Above(f: PyFloat, c: real) {
    match f
    case Finite(x) => x > c
    case PosInf => true
    case _ => false
  }

  predicate InUnitInterval(f: PyFloat) {
    f.Finite? && 0.0 <= f.x <= 1.0
  }

  /** `_parse_confidence` as written; `parsed` is `float(value)`, None when
      the conversion raised. Out-of-range values are clamped, but NaN fails
      both comparisons and is returned as it is. */
  function ParseConfidenceAsWritten(parsed: Option<PyFloat>): (r: PyFloat)
    ensures parsed.Some? && parsed.value != NaN ==> InUnitInterval(r)
    ensures parsed.None? ==> r == Finite(0.0)
  {
    match parsed
    case None => Finite(0.0)
    case Some(f) =>
      if Below(f, 0.0) then Finite(0.0)
      else if Above(f, 1.0) then Finite(1.0)
      else f
  }

  /** `float("nan")` passes through the clamp: the result is not a
      confidence in [0, 1]. */
  lemma ConfidenceNaNEscapes()
    ensures !InUnitInterval(ParseConfidenceAsWritten(Some(NaN)))
  {
  }

  /** `_parse_confidence` as intended: every input yields a confidence in
      [0, 1]; values inside the range are kept, values outside are clamped,
      and anything that is not a number (NaN included) gives 0. */
  function ParseConfidence(parsed: Option<PyFloat>): (r: real)
    ensures 0.0 <= r <= 1.0
    ensures parsed.Some? && InUnitInterval(parsed.value) ==> r == parsed.value.x
    ensures parsed.Some? && Above(parsed.value, 1.0) ==> r == 1.0
    ensures parsed.Some? && Below(parsed.value, 0.0) ==> r == 0.0
    ensures parsed.None? || parsed == Some(NaN) ==> r == 0.0
  {
    match parsed
    case None => 0.0
    case Some(f) =>
      match f
      case Finite(x) => if x < 0.0 then 0.0 else if x > 1.0 then 1.0 else x
      case PosInf => 1.0
      case NegInf => 0.0
      case NaN => 0.0
  }

  /** Away from NaN the corrected parser agrees with the code as written. */
  lemma ConfidenceAgreesOffNaN(parsed: Option<PyFloat>)
    requires parsed != Some(NaN)
    ensures ParseConfidenceAsWritten(parsed) == Finite(ParseConfidence(parsed))
  {
  }

  // -------------------------------------------------------------- key factors

  const BulletChars: seq<char> := "- "

  /** One kept line of free-text factors: '-' and ' ' trimmed at both ends,
      then whitespace. */
  function CleanLine(line: string): string {
    Strip(StripChars(line, BulletChars))
  }

  predicate NonBlank(s: string) {
    !IsBlank(s)
  }

  /** Each item of a JSON list stringified and stripped. */
  function StrippedItems(items: seq<Value>, containerStr: Value -> string): (r: seq<string>)
    ensures |r| == |items|
    ensures forall k | 0 <= k < |items| :: r[k] == Strip(PyStr(items[k], containerStr))
    ensures forall k | 0 <= k < |items| :: Strip(r[k]) == r[k]
    ensures forall k | 0 <= k < |items| :: r[k] == [] <==> IsBlank(PyStr(items[k], containerStr))
  {
    var r := seq(|items|, k requires 0 <= k < |items| => Strip(PyStr(items[k], containerStr)));
    forall k | 0 <= k < |items| ensures Strip(r[k]) == r[k] {
      StripOfStripped(r[k]);
    }
    r
  }

  predicate NotEmpty(s: string) {
    s != []
  }

  /** The factors of a JSON list: each item stringified and stripped, blanks dropped. */
  function ListFactors(items: seq<Value>, containerStr: Value -> string): (r: seq<string>)
    ensures forall k | 0 <= k < |r| :: r[k] != [] && Strip(r[k]) == r[k]
    ensures IsSubsequence(r, StrippedItems(items, containerStr))
    ensures forall k | 0 <= k < |items| :: !IsBlank(PyStr(items[k], containerStr)) ==> StrippedItems(items, containerStr)[k] in r
  {
    var all := StrippedItems(items, containerStr);
    StrippedKept(all);
    Filter(all, NotEmpty)
  }

  lemma StrippedKept(all: seq<string>)
    requires forall k | 0 <= k < |all| :: Strip(all[k]) == all[k]
    ensures var r := Filter(all, NotEmpty);
            forall k | 0 <= k < |r| :: r[k] != [] && Strip(r[k]) == r[k]
  {
    var r := Filter(all, NotEmpty);
    forall k | 0 <= k < |r| ensures r[k] != [] && Strip(r[k]) == r[k] {
      assert r[k] in all && NotEmpty(r[k]);
    }
  }

  /** The factors of free text: one cleaned item per non-blank line. */
  function LineFactors(lines: seq<string>): (r: seq<string>)
    ensures |r| == |Filter(lines, NonBlank)|
    ensures forall k | 0 <= k < |r| :: r[k] == CleanLine(Filter(lines, NonBlank)[k])
  {
    var kept := Filter(lines, NonBlank);
    seq(|kept|, k requires 0 <= k < |kept| => CleanLine(kept[k]))
  }

  /** `_parse_key_factors(value)` with `raw == str(value)` and `loaded` the
      outcome of `json.loads(raw)` (None when it raised). */
  function ParseKeyFactors(raw: string, loaded: Option<Value>, containerStr: Value -> string): (r: seq<string>)
    ensures loaded.Some? && loaded.value.List? ==> r == ListFactors(loaded.value.items, containerStr)
    ensures !(loaded.Some? && loaded.value.List?) ==> r == LineFactors(SplitLines(raw))
  {
    if loaded.Some? && loaded.value.List? then ListFactors(loaded.value.items, containerStr)
    else LineFactors(SplitLines(raw))
  }

  /** A JSON list of strings that are already stripped and non-empty is
      returned as it is. */
  lemma ListFactorsOfClean(strs: seq<string>, containerStr: Value -> string)
    requires forall k | 0 <= k < |strs| :: strs[k] != [] && !IsSpace(strs[k][0]) && !IsSpace(strs[k][|strs[k]| - 1])
    ensures ListFactors(seq(|strs|, k requires 0 <= k < |strs| => Str(strs[k])), containerStr) == strs
  {
    var items := seq(|strs|, k requires 0 <= k < |strs| => Str(strs[k]));
    var all := StrippedItems(items, containerStr);
    forall k | 0 <= k < |strs| ensures all[k] == strs[k] {
      StripOfStripped(strs[k]);
    }
    assert all == strs;
    FilterAll(strs, NotEmpty);
  }

  predicate CleanItem(x: string) {
    x != [] && x[0] !in BulletChars && x[|x| - 1] !in BulletChars
    && !IsSpace(x[0]) && !IsSpace(x[|x| - 1])
    && forall j | 0 <= j < |x| :: !IsLineBreak(x[j])
  }

  function Bullets(items: seq<string>): (r: seq<string>)
    ensures |r| == |items|
    ensures forall k | 0 <= k < |items| :: r[k] == "- " + items[k]
  {
    seq(|items|, k requires 0 <= k < |items| => "- " + items[k])
  }

  lemma {:induction false} StripBulletPrefix(p: string, x: string)
    requires forall j | 0 <= j < |p| :: p[j] in BulletChars
    requires CleanItem(x)
    ensures StripChars(p + x, BulletChars) == x
    decreases |p|
  {
    if |p| > 0 {
      assert (p + x)[1..] == p[1..] + x;
      StripBulletPrefix(p[1..], x);
    } else {
      assert p + x == x;
    }
  }

  lemma CleanBullet(x: string)
    requires CleanItem(x)
    ensures NonBlank("- " + x) && CleanLine("- " + x) == x
  {
    assert ("- " + x)[0] == '-';
    StripBulletPrefix("- ", x);
    StripOfStripped(x);
  }

  lemma LineFactorsOfBullets(items: seq<string>)
    requires forall k | 0 <= k < |items| :: CleanItem(items[k])
    ensures LineFactors(Bullets(items)) == items
  {
    var b := Bullets(items);
    forall k | 0 <= k < |b| ensures NonBlank(b[k]) && CleanLine(b[k]) == items[k] {
      CleanBullet(items[k]);
    }
    FilterAll(b, NonBlank);
  }

  /** A bulleted list, one "- item" per line, parses back to its items:
      one factor per non-blank line. */
  lemma BulletListRoundTrip(items: seq<string>, loaded: Option<Value>, containerStr: Value -> string)
    requires |items| >= 1
    requires forall k | 0 <= k < |items| :: CleanItem(items[k])
    requires !(loaded.Some? && loaded.value.List?)
    ensures ParseKeyFactors(Join(Bullets(items), "\n"), loaded, containerStr) == items
  {
    var b := Bullets(items);
    forall k | 0 <= k < |b| ensures forall j | 0 <= j < |b[k]| :: !IsLineBreak(b[k][j]) {
      assert b[k] == "- " + items[k];
    }
    SplitLinesJoin(b);
    LineFactorsOfBullets(items);
  }

  /** The normalised output of the decision module (`DecisionModuleResult`). */
  datatype DecisionResult = DecisionResult(
    shouldChange: bool,
    newRecommendation: Recommendation,
    timeframe: Timeframe,
    confidence: real,
    reasoning: string,
    keyFactors: seq<string>)
}

=== FILE: deliverer.dfy ===
/** Layer 5 report delivery (pipeline/layer5_report/deliverer.py): a Slack
    webhook post, an e-mail stub that never succeeds, the delivery status
    written onto the report, and one save of the report when a repository
    is configured. The webhook post, the clock and the save are parameters. */
module ReportDelivery {
  import opened Wrappers
  import opened Text
  import opened Decision
  import opened Reports
  import ReportGenerator
  import Orchestrator
  import Trigger

  const Slack: string := "slack"
  const Email: string := "email"

  /** The channels in the order `deliver` tries them. */
  const ChannelOrder: seq<string> := [Slack, Email]

  /** The deliverer's configuration: the webhook as given, whether the SMTP
      dictionary is non-empty, and whether a report repository is present. */
  datatype DelivererConfig = DelivererConfig(slackWebhookUrl: Option<string>, smtpConfigured: bool, hasRepo: bool)

  /** The webhook `__init__` keeps: the given URL stripped, or empty. */
  function Webhook(cfg: DelivererConfig): (w: string)
    ensures Trimmed(w)
    ensures cfg.slackWebhookUrl.None? ==> w == []
  {
    StripIdempotent(OrEmpty(cfg.slackWebhookUrl));
    Strip(OrEmpty(cfg.slackWebhookUrl))
  }

  /** What `deliver` returns and leaves behind: the channels that succeeded,
      the report with its delivery status, and the saves that went through. */
  datatype Delivery = Delivery(channels: seq<string>, report: AnalysisReport, saved: seq<AnalysisReport>)

  /** Whether any channel is configured, so that a delivery was attempted. */
  predicate Attempted(cfg: DelivererConfig) {
    Webhook(cfg) != [] || cfg.smtpConfigured
  }

  /** `_deliver_email`: the stub logs and reports failure. */
  function DeliverEmail(report: AnalysisReport): bool {
    false
  }

  /** `deliver(report)`. `slackPost` is the outcome of the webhook POST
      together with `raise_for_status`; it is consulted only when a webhook
      is configured, and any failure of it makes the Slack channel fail.
      `save` is the repository's answer, whose failure is logged and
      swallowed. */
  function Deliver(cfg: DelivererConfig, report: AnalysisReport, slackPost: Outcome, save: Outcome, now: int): (d: Delivery)
    ensures Slack in d.channels <==> Webhook(cfg) != [] && slackPost.Done?
    ensures Email !in d.channels
    ensures IsSubsequence(d.channels, ChannelOrder)
    ensures d.channels != [] ==>
      d.report == report.(deliveryStatus := Delivered, deliveredVia := d.channels, deliveredAt := Some(now))
    ensures d.channels == [] && Attempted(cfg) ==> d.report == report.(deliveryStatus := DeliveryFailed)
    ensures !Attempted(cfg) ==> d.report == report
    ensures d.saved == (if cfg.hasRepo && save.Done? then [d.report] else [])
  {
    var slackOk := Webhook(cfg) != [] && slackPost.Done?;
    var emailOk := cfg.smtpConfigured && DeliverEmail(report);
    var channels := (if slackOk then [Slack] else []) + (if emailOk then [Email] else []);
    assert IsSubsequence([Slack], ChannelOrder) by {
      assert ChannelOrder[..1] == [Slack];
    }
    assert IsSubsequence([], ChannelOrder);
    var updated :=
      if channels != [] then report.(deliveryStatus := Delivered, deliveredVia := channels, deliveredAt := Some(now))
      else if Attempted(cfg) then report.(deliveryStatus := DeliveryFailed)
      else report;
    Delivery(channels, updated, if cfg.hasRepo && save.Done? then [updated] else [])
  }

  /** The report's content is never touched by delivery: only its three
      delivery fields may change. */
  lemma DeliveryKeepsContent(cfg: DelivererConfig, report: AnalysisReport, slackPost: Outcome, save: Outcome, now: int)
    ensures var d := Deliver(cfg, report, slackPost, save, now).report;
      d.(deliveryStatus := report.deliveryStatus, deliveredVia := report.deliveredVia, deliveredAt := report.deliveredAt) == report
  {
  }

  /** A failed save changes neither the channels nor the report: it only
      leaves nothing persisted. */
  lemma SaveFailureSwallowed(cfg: DelivererConfig, report: AnalysisReport, slackPost: Outcome, message: string, now: int)
    ensures var ok := Deliver(cfg, report, slackPost, Done, now);
      var failed := Deliver(cfg, report, slackPost, Fails(message), now);
      && failed.channels == ok.channels && failed.report == ok.report && failed.saved == []
      && (cfg.hasRepo ==> ok.saved == [ok.report])
  {
  }

  /** Delivery never raises, so the orchestrator always receives the
      channels: its run ends REPORTED with the Slack channel named exactly
      when the post succeeded, and it persists no failure copy. */
  lemma OrchestratorReportsChannels(e: Orchestrator.Effects, report: AnalysisReport, cfg: Orchestrator.Config,
                                    sc: Orchestrator.Script, now: int,
                                    dc: DelivererConfig, slackPost: Outcome, save: Outcome, clock: int)
    requires sc.deliver == Ok(Deliver(dc, report, slackPost, save, clock).channels)
    ensures Orchestrator.Delivery(e, report, cfg, sc, now).effects.reportSaves == e.reportSaves
    ensures Orchestrator.Delivery(e, report, cfg, sc, now).effects.steps ==
      e.steps + [Trigger.Step(Trigger.Reported,
                   if Webhook(dc) != [] && slackPost.Done? then "Report generated and delivered via slack"
                   else "Report generated", now)]
  {
    var d := Deliver(dc, report, slackPost, save, clock);
    if Webhook(dc) != [] && slackPost.Done? {
      assert d.channels == [Slack];
      assert Join(d.channels, ", ") == Slack;
      assert Orchestrator.ReportedReason(d.channels) == "Report generated and delivered via slack";
    } else {
      assert d.channels == [];
    }
  }

  // ---------------------------------------------------------- slack message

  /** The badge the Slack header opens with. */
  datatype Badge = GreenCircle | RedCircle | YellowCircle | WhiteCircle

  function BadgeText(b: Badge): string {
    match b
    case GreenCircle => "\U{1F7E2}"
    case RedCircle => "\U{1F534}"
    case YellowCircle => "\U{1F7E1}"
    case WhiteCircle => "\U{26AA}"
  }

  const SlackDisclaimer: string := "Decision support only - not an automated trade instruction."

  /** The first index from `i` on that holds whitespace, or `|s|`. */
  function WordEnd(s: string, i: nat): (r: nat)
    requires i <= |s|
    ensures i <= r <= |s|
    ensures forall k | i <= k < r :: !IsSpace(s[k])
    ensures r < |s| ==> IsSpace(s[r])
    decreases |s| - i
  {
    if i < |s| && !IsSpace(s[i]) then WordEnd(s, i + 1) else i
  }

  /** `(s.split() or [""])[0]`: the first whitespace-separated word, or the
      empty string for a blank text. */
  function FirstWord(s: string): (w: string)
    ensures forall k | 0 <= k < |w| :: !IsSpace(w[k])
    ensures IsBlank(s) <==> w == []
  {
    var i := SkipSpace(s, 0);
    var j := WordEnd(s, i);
    if i < |s| then
      assert !IsSpace(s[i]);
      s[i..j]
    else
      assert forall k | 0 <= k < |s| :: IsSpace(s[k]);
      s[i..j]
  }

  /** A text that opens with a word and a space has that word first. */
  lemma FirstWordOf(s: string, w: string)
    requires w != [] && forall k | 0 <= k < |w| :: !IsSpace(w[k])
    requires StartsWith(s, w + " ")
    ensures FirstWord(s) == w
  {
    assert s[0] == w[0];
    assert SkipSpace(s, 0) == 0;
    assert s[|w|] == ' ';
    WordEndAt(s, 0, |w|);
    assert s[..|w|] == w;
  }

  lemma {:induction false} WordEndAt(s: string, i: nat, j: nat)
    requires i <= j < |s|
    requires forall k | i <= k < j :: !IsSpace(s[k])
    requires IsSpace(s[j])
    ensures WordEnd(s, i) == j
    decreases j - i
  {
    if i < j {
      WordEndAt(s, i + 1, j);
    }
  }

  /** The badge of a recommendation summary: green, red and yellow for a
      first word reading buy, sell and hold in any ASCII case, white
      otherwise. */
  function SummaryBadge(summary: string): (b: Badge)
    ensures b == GreenCircle <==> Lower(FirstWord(summary)) == "buy"
    ensures b == RedCircle <==> Lower(FirstWord(summary)) == "sell"
    ensures b == YellowCircle <==> Lower(FirstWord(summary)) == "hold"
  {
    var word := Lower(FirstWord(summary));
    if word == "buy" then GreenCircle
    else if word == "sell" then RedCircle
    else if word == "hold" then YellowCircle
    else WhiteCircle
  }

  /** The texts of the Slack message's blocks, in order: header, the
      summary in bold, the executive summary, the report id, the
      disclaimer. The divider carries no text. */
  datatype SlackMessage = SlackMessage(header: string, recommendation: string, summary: string,
                                       reportRef: string, disclaimer: string)

  /** `_build_slack_message(report)`. */
  function BuildSlackMessage(report: AnalysisReport): (m: SlackMessage)
    ensures StartsWith(m.header, BadgeText(SummaryBadge(report.recommendationSummary)) + " ")
    ensures EndsWith(m.header, report.title)
    ensures m.recommendation == "*" + report.recommendationSummary + "*"
    ensures m.summary == report.executiveSummary
    ensures m.disclaimer == SlackDisclaimer
  {
    var badge := BadgeText(SummaryBadge(report.recommendationSummary)) + " ";
    var header := badge + report.title;
    assert header[..|badge|] == badge;
    assert header[|header| - |report.title|..] == report.title;
    SlackMessage(header, "*" + report.recommendationSummary + "*", report.executiveSummary,
                 "Report ID: `" + report.reportId + "`", SlackDisclaimer)
  }

  /** The recommendation a badge stands for. */
  function BadgeOf(rec: Recommendation): Badge {
    match rec
    case Buy => GreenCircle
    case Sell => RedCircle
    case Hold => YellowCircle
    case NoRecommendation => WhiteCircle
  }

  /** A recommendation's upper-cased value is one word that lower-cases
      back to the value. */
  lemma UpperValueWord(rec: Recommendation)
    ensures var w := Upper(RecommendationValue(rec));
      && w != [] && (forall k | 0 <= k < |w| :: !IsSpace(w[k]))
      && Lower(w) == RecommendationValue(rec)
  {
    var w := Upper(RecommendationValue(rec));
    match rec
    case Buy => assert w == "BUY";
    case Sell => assert w == "SELL";
    case Hold => assert w == "HOLD";
    case NoRecommendation => assert w == "NONE";
  }

  /** A report whose summary is the generator's fallback carries the badge
      of its recommendation in the Slack header. */
  lemma FallbackSummaryBadge(rec: Recommendation, confidence: real, tf: Timeframe, f: ReportGenerator.Formats)
    ensures SummaryBadge(ReportGenerator.RecommendationSummary(rec, confidence, tf, f)) == BadgeOf(rec)
  {
    var s := ReportGenerator.RecommendationSummary(rec, confidence, tf, f);
    UpperValueWord(rec);
    FirstWordOf(s, Upper(RecommendationValue(rec)));
  }
}

=== FILE: documents.dfy ===
/** Raw documents tracked through download, extraction and embedding
    (models/document.py). */
module Documents {
  import opened Wrappers

  datatype DocumentType = Pdf | Html | Excel | TextDoc | UnknownType

  function DocumentTypeValue(d: DocumentType): string {
    match d
    case Pdf => "pdf"
    case Html => "html"
    case Excel => "excel"
    case TextDoc => "text"
    case UnknownType => "unknown"
  }

  datatype ProcessingStatus =
    | PsPending | Downloading | Downloaded | Extracting | Extracted | Embedding | Complete | PsError

  datatype RawDocument = RawDocument(
    documentId: string,
    triggerId: string,
    sourceUrl: string,
    filePath: Option<string>,
    documentType: DocumentType,
    contentType: Option<string>,
    fileSizeBytes: Option<int>,
    extractedText: Option<string>,
    extractionMethod: Option<string>,
    extractionMetadata: seq<(string, int)>,
    companySymbol: Option<string>,
    companyName: Option<string>,
    processingStatus: ProcessingStatus,
    processingErrors: seq<string>,
    vectorId: Option<string>)

  /** A new document as the model's defaults build it: type UNKNOWN, status
      PENDING, no file, no text and no errors. The id stands for `uuid4()`. */
  function NewDocument(documentId: string, triggerId: string, sourceUrl: string, companySymbol: Option<string>): RawDocument {
    RawDocument(documentId, triggerId, sourceUrl, None, UnknownType, None, None, None, None, [],
                companySymbol, None, PsPending, [], None)
  }
}

=== FILE: extractor.dfy ===
/** Text extraction for downloaded documents
    (pipeline/layer1_triggers/text_extractor.py).

    pdfplumber, BeautifulSoup and file reading are not modelled: a PDF is
    the page and table data pdfplumber would report, an HTML file is the
    text BeautifulSoup's `get_text("\n")` returns after the script, style,
    nav and footer tags are removed, and a plain file is its decoded text.
    Whether the file exists, whether the worker thread overran the timeout
    and how `:g` prints the timeout are parameters. The document repository
    is a map from document id to its stored snapshot whose saves succeed. */
module Extractor {
  import opened Wrappers
  import opened Text
  import opened Documents

  // ---------------------------------------------------------- constructor

  /** `TextExtractor.__init__`: a timeout must be positive or absent. */
  function NewExtractor(timeoutSeconds: Option<real>): (r: Result<Option<real>, string>)
    ensures r.Failure? <==> timeoutSeconds.Some? && timeoutSeconds.value <= 0.0
    ensures r.Success? ==> r.value == timeoutSeconds
    ensures r.Failure? ==> r.error == "extraction_timeout_seconds must be > 0 or None"
  {
    if timeoutSeconds.Some? && timeoutSeconds.value <= 0.0 then
      Failure("extraction_timeout_seconds must be > 0 or None")
    else Success(timeoutSeconds)
  }

  // ---------------------------------------------------------- type choice

  /** The path without the trailing separators and "." components that
      `Path(...)` drops when it normalises. */
  function TrimTrail(path: string): (r: string)
    ensures |r| <= |path| && r == path[..|r|]
    ensures r == [] || (r[|r| - 1] != '/' && r != "." && !EndsWith(r, "/."))
    decreases |path|
  {
    if |path| > 0 && path[|path| - 1] == '/' then TrimTrail(path[..|path| - 1])
    else if path == "." then ""
    else if EndsWith(path, "/.") then TrimTrail(path[..|path| - 2])
    else path
  }

  /** The text after the last '/'. */
  function LastComponent(path: string): (r: string)
    ensures '/' !in r
    ensures |r| <= |path| && r == path[|path| - |r|..]
    ensures |r| < |path| ==> path[|path| - |r| - 1] == '/'
  {
    if |path| == 0 then ""
    else if path[|path| - 1] == '/' then ""
    else LastComponent(path[..|path| - 1]) + [path[|path| - 1]]
  }

  /** `PurePath.name`: the last component of the normalised path. */
  function BaseName(path: string): (r: string)
    ensures '/' !in r && r != "."
  {
    var t := TrimTrail(path);
    var r := LastComponent(t);
    assert r != "." by {
      if |r| == 1 && |t| > 1 {
        assert t[|t| - 2..] == [t[|t| - 2], t[|t| - 1]];
      }
    }
    r
  }

  /** A trailing separator or "/." does not change the name. */
  lemma BaseNameTrailing(path: string)
    ensures BaseName(path + "/") == BaseName(path)
    ensures BaseName(path + "/.") == BaseName(path)
  {
    var p := path + "/";
    assert p[..|p| - 1] == path;
    var q := path + "/.";
    assert q[..|q| - 2] == path;
    assert q != ".";
    assert EndsWith(q, "/.");
  }

  /** The name of "<dir>/<name>" is `name` when `name` is a proper
      component. */
  lemma BaseNameJoin(dir: string, name: string)
    requires name != "" && name != "." && '/' !in name
    ensures BaseName(dir + "/" + name) == name
  {
    var p := dir + "/" + name;
    assert p[|p| - 1] == name[|name| - 1];
    assert p != "." by { assert |p| >= 2; }
    assert !EndsWith(p, "/.") by {
      if |name| == 1 {
        assert p[|p| - 1] == name[0];
      } else {
        assert p[|p| - 2] == name[|name| - 2];
      }
    }
    assert TrimTrail(p) == p;
    LastComponentJoin(dir, name);
  }

  lemma {:induction false} LastComponentJoin(dir: string, name: string)
    requires '/' !in name
    ensures LastComponent(dir + "/" + name) == name
    decreases |name|
  {
    var p := dir + "/" + name;
    if |name| == 0 {
      assert p[|p| - 1] == '/';
    } else {
      var init := name[..|name| - 1];
      assert p[..|p| - 1] == dir + "/" + init;
      LastComponentJoin(dir, init);
      assert name == init + [name[|name| - 1]];
    }
  }

  /** Position of the last '.' in `s`, or -1. */
  function LastDot(s: string): (i: int)
    ensures -1 <= i < |s|
    ensures i >= 0 ==> s[i] == '.' && '.' !in s[i + 1..]
    ensures i == -1 ==> '.' !in s
  {
    if |s| == 0 then -1
    else if s[|s| - 1] == '.' then |s| - 1
    else LastDot(s[..|s| - 1])
  }

  /** `PurePath.suffix`: the final component's text from its last dot, when
      that dot is neither its first nor its last character; "" otherwise. */
  function Suffix(path: string): (r: string)
    ensures r == [] || (r[0] == '.' && '.' !in r[1..] && '/' !in r && |r| >= 2)
    ensures r != [] ==> EndsWith(BaseName(path), r)
  {
    var name := BaseName(path);
    var i := LastDot(name);
    if 0 < i < |name| - 1 then
      assert name[i..][1..] == name[i + 1..];
      name[i..]
    else ""
  }

  /** `_resolve_document_type`: a known type is kept; an UNKNOWN one is read
      off the lower-cased suffix. */
  function ResolveType(stored: DocumentType, path: string): (r: DocumentType)
    ensures stored != UnknownType ==> r == stored
    ensures stored == UnknownType ==>
              (r == Pdf <==> Lower(Suffix(path)) == ".pdf")
              && (r == Html <==> Lower(Suffix(path)) == ".html" || Lower(Suffix(path)) == ".htm")
              && (r == TextDoc <==> Lower(Suffix(path)) == ".txt" || Lower(Suffix(path)) == ".md")
              && r != Excel
  {
    if stored != UnknownType then stored
    else
      var suffix := Lower(Suffix(path));
      if suffix == ".pdf" then Pdf
      else if suffix == ".html" || suffix == ".htm" then Html
      else if suffix == ".txt" || suffix == ".md" then TextDoc
      else UnknownType
  }

  /** The three extraction routines. */
  datatype Method = PdfMethod | HtmlMethod | PlainMethod

  function MethodName(m: Method): string {
    match m
    case PdfMethod => "pdfplumber"
    case HtmlMethod => "beautifulsoup"
    case PlainMethod => "plain_text"
  }

  /** `_extract_by_type`: PDF and HTML have their own routine, every other
      type, Excel and UNKNOWN included, is read as plain text. */
  function MethodFor(d: DocumentType): (r: Method)
    ensures r == PdfMethod <==> d == Pdf
    ensures r == HtmlMethod <==> d == Html
    ensures r == PlainMethod <==> d != Pdf && d != Html
  {
    if d == Pdf then PdfMethod
    else if d == Html then HtmlMethod
    else PlainMethod
  }

  // ---------------------------------------------------------- PDF assembly

  /** A table row: each cell is `str(cell)`, or None. */
  type Row = seq<Option<string>>

  /** One PDF page: `extract_text()` and `extract_tables()`, either of
      which may come back None; a table itself may be None. */
  datatype Page = Page(text: Option<string>, tables: Option<seq<Option<seq<Row>>>>)

  function CellText(c: Option<string>): string {
    if c.Some? then Strip(c.value) else ""
  }

  function RowText(row: Row): string {
    Join(seq(|row|, k requires 0 <= k < |row| => CellText(row[k])), " | ")
  }

  function TableText(table: Option<seq<Row>>): string {
    var rows := table.GetOr([]);
    Strip(Join(seq(|rows|, k requires 0 <= k < |rows| => RowText(rows[k])), "\n"))
  }

  function TablesOf(p: Page): seq<Option<seq<Row>>> {
    p.tables.GetOr([])
  }

  /** The stripped text of a page; `extract_text()` returning None counts as "". */
  function PageText(p: Page): string {
    Strip(OrEmpty(p.text))
  }

  /** What a page offers the assembly: its stripped text and the text of
      each of its tables, in order. */
  datatype Blocks = Blocks(text: string, tableTexts: seq<string>)

  function PageBlocks(p: Page): Blocks {
    Blocks(PageText(p), TableTexts(TablesOf(p)))
  }

  function TableTexts(tables: seq<Option<seq<Row>>>): (r: seq<string>)
    ensures |r| == |tables|
    ensures forall j | 0 <= j < |tables| :: r[j] == TableText(tables[j])
  {
    seq(|tables|, j requires 0 <= j < |tables| => TableText(tables[j]))
  }

  function AllBlocks(pages: seq<Page>): (bs: seq<Blocks>)
    ensures |bs| == |pages|
    ensures forall k | 0 <= k < |pages| :: bs[k] == PageBlocks(pages[k])
  {
    seq(|pages|, k requires 0 <= k < |pages| => PageBlocks(pages[k]))
  }

  /** The parts the tables contribute: a block for each table whose text is
      non-empty, in order. */
  function TableParts(texts: seq<string>): seq<string> {
    if |texts| == 0 then []
    else
      var rest := TableParts(texts[1..]);
      if texts[0] == "" then rest else ["[TABLE]\n" + texts[0] + "\n[/TABLE]"] + rest
  }

  function PageHeader(index: nat): string {
    "[PAGE " + NatToString(index) + "]\n"
  }

  /** The parts of one page numbered `index`: its text, then its tables. */
  function PageParts(index: nat, b: Blocks): seq<string> {
    (if b.text == "" then [] else [PageHeader(index) + b.text]) + TableParts(b.tableTexts)
  }

  /** The parts of the pages from number `index` on, in page order. */
  function PdfParts(bs: seq<Blocks>, index: nat): seq<string> {
    if |bs| == 0 then [] else PageParts(index, bs[0]) + PdfParts(bs[1..], index + 1)
  }

  /** The number of tables pdfplumber reported, empty ones included. */
  function TableCount(pages: seq<Page>): nat {
    if |pages| == 0 then 0 else |TablesOf(pages[0])| + TableCount(pages[1..])
  }

  /** A part as the assembly produces it: it starts with '[' and ends with
      a non-whitespace character. */
  predicate Delimited(part: string) {
    |part| > 0 && part[0] == '[' && !IsSpace(part[|part| - 1])
  }

  predicate AllDelimited(parts: seq<string>) {
    forall k | 0 <= k < |parts| :: Delimited(parts[k])
  }

  /** A page text as `strip()` leaves it: empty or ending in a non-space. */
  predicate TextTrimmed(b: Blocks) {
    b.text == "" || !IsSpace(b.text[|b.text| - 1])
  }

  lemma {:induction false} TablePartsDelimited(texts: seq<string>)
    ensures AllDelimited(TableParts(texts))
    decreases |texts|
  {
    if |texts| > 0 {
      TablePartsDelimited(texts[1..]);
      var t := texts[0];
      if t != "" {
        var part := "[TABLE]\n" + t + "\n[/TABLE]";
        assert part[|part| - 1] == ']';
        assert Delimited(part);
      }
    }
  }

  lemma PagePartsDelimited(index: nat, b: Blocks)
    requires TextTrimmed(b)
    ensures AllDelimited(PageParts(index, b))
  {
    TablePartsDelimited(b.tableTexts);
    if b.text != "" {
      var part := PageHeader(index) + b.text;
      assert part[|part| - 1] == b.text[|b.text| - 1];
      assert Delimited(part);
    }
  }

  lemma {:induction false} PdfPartsDelimited(bs: seq<Blocks>, index: nat)
    requires forall k | 0 <= k < |bs| :: TextTrimmed(bs[k])
    ensures AllDelimited(PdfParts(bs, index))
    decreases |bs|
  {
    if |bs| > 0 {
      PagePartsDelimited(index, bs[0]);
      assert forall k | 0 <= k < |bs[1..]| :: bs[1..][k] == bs[k + 1];
      PdfPartsDelimited(bs[1..], index + 1);
    }
  }

  lemma AllBlocksTextTrimmed(pages: seq<Page>)
    ensures forall k | 0 <= k < |pages| :: TextTrimmed(AllBlocks(pages)[k])
  {
    forall k | 0 <= k < |pages| ensures TextTrimmed(AllBlocks(pages)[k]) {
      var t := PageText(pages[k]);
      assert t == [] || !IsSpace(t[|t| - 1]);
    }
  }

  /** The result of one extraction routine: text, method and metadata. */
  datatype Extraction = Extraction(text: string, routine: Method, metadata: seq<(string, int)>)

  /** `_extract_pdf`: the parts joined by blank lines and stripped, with the
      page and table counts. */
  function ExtractPdf(pages: seq<Page>): Extraction {
    Extraction(Strip(Join(PdfParts(AllBlocks(pages), 1), "\n\n")), PdfMethod,
               [("page_count", |pages|), ("table_count", TableCount(pages))])
  }

  /** The final `strip()` of the PDF text changes nothing: the joined parts
      already start with '[' and end with a non-whitespace character. */
  lemma PdfTextIsJoinedParts(pages: seq<Page>)
    ensures ExtractPdf(pages).text == Join(PdfParts(AllBlocks(pages), 1), "\n\n")
  {
    var parts := PdfParts(AllBlocks(pages), 1);
    var j := Join(parts, "\n\n");
    AllBlocksTextTrimmed(pages);
    PdfPartsDelimited(AllBlocks(pages), 1);
    if parts != [] {
      assert Delimited(parts[0]) && Delimited(parts[|parts| - 1]);
      JoinFirst(parts, "\n\n");
      JoinLast(parts, "\n\n");
      StripOfStripped(j);
    }
  }

  /** A page adds no part when its text is blank and all its tables are. */
  predicate BlankPage(p: Page) {
    PageText(p) == "" && forall j | 0 <= j < |TablesOf(p)| :: TableText(TablesOf(p)[j]) == ""
  }

  predicate BlankBlocks(b: Blocks) {
    b.text == "" && forall j | 0 <= j < |b.tableTexts| :: b.tableTexts[j] == ""
  }

  lemma {:induction false} TablePartsEmptyIff(texts: seq<string>)
    ensures TableParts(texts) == [] <==> forall j | 0 <= j < |texts| :: texts[j] == ""
    decreases |texts|
  {
    if |texts| > 0 {
      TablePartsEmptyIff(texts[1..]);
      assert forall j | 1 <= j < |texts| :: texts[1..][j - 1] == texts[j];
    }
  }

  lemma {:induction false} PdfPartsEmptyIff(bs: seq<Blocks>, index: nat)
    ensures PdfParts(bs, index) == [] <==> forall k | 0 <= k < |bs| :: BlankBlocks(bs[k])
    decreases |bs|
  {
    if |bs| > 0 {
      PdfPartsEmptyIff(bs[1..], index + 1);
      TablePartsEmptyIff(bs[0].tableTexts);
      assert forall k | 1 <= k < |bs| :: bs[1..][k - 1] == bs[k];
    }
  }

  lemma BlankPagesBlank(pages: seq<Page>)
    ensures (forall k | 0 <= k < |pages| :: BlankBlocks(AllBlocks(pages)[k]))
            <==> (forall k | 0 <= k < |pages| :: BlankPage(pages[k]))
  {
    forall k | 0 <= k < |pages|
      ensures BlankBlocks(AllBlocks(pages)[k]) <==> BlankPage(pages[k])
    {
      PageBlank(pages[k]);
    }
  }

  lemma PageBlank(p: Page)
    ensures BlankBlocks(PageBlocks(p)) <==> BlankPage(p)
  {
    var tables := TablesOf(p);
    var texts := TableTexts(tables);
    assert PageBlocks(p) == Blocks(PageText(p), texts);
    assert (forall j | 0 <= j < |texts| :: texts[j] == "") <==> (forall j | 0 <= j < |tables| :: TableText(tables[j]) == "");
  }

  /** The PDF text is empty exactly when every page is blank: no page has
      non-blank text and no table has non-empty text. */
  lemma PdfTextEmptyIff(pages: seq<Page>)
    ensures ExtractPdf(pages).text == "" <==> forall k | 0 <= k < |pages| :: BlankPage(pages[k])
  {
    var bs := AllBlocks(pages);
    PdfTextIsJoinedParts(pages);
    AllBlocksTextTrimmed(pages);
    PdfPartsDelimited(bs, 1);
    JoinEmpty(PdfParts(bs, 1), "\n\n");
    PdfPartsEmptyIff(bs, 1);
    BlankPagesBlank(pages);
  }

  /** Every page whose text is non-blank contributes a block marked with its
      number: page `k` of pages numbered from `index` is page `index + k`. */
  lemma {:induction false} MarkedBlockPresent(bs: seq<Blocks>, index: nat, k: nat)
    requires k < |bs| && bs[k].text != ""
    ensures PageHeader(index + k) + bs[k].text in PdfParts(bs, index)
    decreases k
  {
    var tail := PdfParts(bs[1..], index + 1);
    assert PdfParts(bs, index) == PageParts(index, bs[0]) + tail;
    if k == 0 {
      assert PageParts(index, bs[0])[0] == PageHeader(index) + bs[0].text;
    } else {
      assert bs[1..][k - 1] == bs[k];
      MarkedBlockPresent(bs[1..], index + 1, k - 1);
      assert index + 1 + (k - 1) == index + k;
    }
  }

  /** A page with non-blank text appears as "[PAGE n]" and that text, with
      its 1-based number n. */
  lemma NonBlankPageMarked(pages: seq<Page>, k: nat)
    requires k < |pages| && PageText(pages[k]) != ""
    ensures PageHeader(k + 1) + PageText(pages[k]) in PdfParts(AllBlocks(pages), 1)
  {
    var bs := AllBlocks(pages);
    assert bs[k] == PageBlocks(pages[k]);
    assert bs[k].text == PageText(pages[k]);
    MarkedBlockPresent(bs, 1, k);
  }

  /** There are at most as many parts as pages plus tables: `table_count`
      counts every table, the blank ones that add no part included. */
  lemma {:induction false} PartsBounded(pages: seq<Page>)
    ensures |PdfParts(AllBlocks(pages), 1)| <= |pages| + TableCount(pages)
  {
    BlocksPartsBounded(AllBlocks(pages), 1);
    TableCountIsBlocks(pages);
  }

  function TableTextCount(bs: seq<Blocks>): nat {
    if |bs| == 0 then 0 else |bs[0].tableTexts| + TableTextCount(bs[1..])
  }

  lemma TableCountIsBlocks(pages: seq<Page>)
    ensures TableTextCount(AllBlocks(pages)) == TableCount(pages)
  {
    var bs := AllBlocks(pages);
    forall k | 0 <= k < |pages| ensures |bs[k].tableTexts| == |TablesOf(pages[k])| {
      assert bs[k].tableTexts == TableTexts(TablesOf(pages[k]));
    }
    TableCountsAgree(bs, pages);
  }

  /** Blocks with as many table texts as their pages have tables count the
      same tables. */
  lemma {:induction false} TableCountsAgree(bs: seq<Blocks>, pages: seq<Page>)
    requires |bs| == |pages|
    requires forall k | 0 <= k < |pages| :: |bs[k].tableTexts| == |TablesOf(pages[k])|
    ensures TableTextCount(bs) == TableCount(pages)
    decreases |pages|
  {
    if |pages| > 0 {
      assert forall k | 0 <= k < |pages| - 1 :: bs[1..][k] == bs[k + 1] && pages[1..][k] == pages[k + 1];
      TableCountsAgree(bs[1..], pages[1..]);
    }
  }

  lemma {:induction false} BlocksPartsBounded(bs: seq<Blocks>, index: nat)
    ensures |PdfParts(bs, index)| <= |bs| + TableTextCount(bs)
    decreases |bs|
  {
    if |bs| > 0 {
      BlocksPartsBounded(bs[1..], index + 1);
      TablePartsBounded(bs[0].tableTexts);
    }
  }

  lemma {:induction false} TablePartsBounded(texts: seq<string>)
    ensures |TableParts(texts)| <= |texts|
    decreases |texts|
  {
    if |texts| > 0 {
      TablePartsBounded(texts[1..]);
    }
  }

  // ---------------------------------------------------------- HTML and text

  /** The text cut at every line boundary. Unlike `splitlines()` it makes two
      pieces of "\r\n" and keeps a last empty piece, but only blank pieces
      differ and the HTML routine drops those. */
  function Lines(s: string): (r: seq<string>)
    ensures |r| >= 1
    ensures forall k | 0 <= k < |r| :: NoBreak(r[k])
  {
    if |s| == 0 then [""]
    else
      var rest := Lines(s[1..]);
      if IsLineBreak(s[0]) then [""] + rest
      else [[s[0]] + rest[0]] + rest[1..]
  }

  predicate NoBreak(line: string) {
    forall i | 0 <= i < |line| :: !IsLineBreak(line[i])
  }

  /** The stripped non-blank lines, in order. */
  function KeptLines(lines: seq<string>): (r: seq<string>)
    requires forall k | 0 <= k < |lines| :: NoBreak(lines[k])
    ensures |r| <= |lines|
    ensures forall k | 0 <= k < |r| :: r[k] != "" && r[k] == Strip(r[k]) && '\n' !in r[k]
  {
    if |lines| == 0 then []
    else
      var rest := KeptLines(lines[1..]);
      var line := Strip(lines[0]);
      if line == "" then rest
      else
        StripOfStripped(line);
        assert '\n' !in line by {
          var a := StripStart(lines[0]);
          assert NoBreak(lines[0]);
          forall i | 0 <= i < |line| ensures line[i] != '\n' {
            assert line[i] == lines[0][a + i];
            assert !IsLineBreak(lines[0][a + i]);
          }
        }
        [line] + rest
  }

  /** `_extract_html` on the text BeautifulSoup returns. */
  function ExtractHtml(soupText: string): (r: Extraction)
    ensures r.routine == HtmlMethod
    ensures r.metadata == [("char_count", |r.text|)]
  {
    var text := Join(KeptLines(Lines(soupText)), "\n");
    Extraction(text, HtmlMethod, [("char_count", |text|)])
  }

  /** The HTML text is its kept lines one per line: splitting it on "\n"
      gives back exactly the stripped, non-blank lines of the page text. */
  lemma HtmlLinesRoundTrip(soupText: string)
    ensures var kept := KeptLines(Lines(soupText));
            kept != [] ==> Split(ExtractHtml(soupText).text, '\n') == kept
    ensures KeptLines(Lines(soupText)) == [] <==> ExtractHtml(soupText).text == ""
  {
    var kept := KeptLines(Lines(soupText));
    if kept != [] {
      SplitJoin(kept, '\n');
    }
    JoinEmpty(kept, "\n");
  }

  /** `_extract_text`. */
  function ExtractPlain(fileText: string): (r: Extraction)
    ensures r.routine == PlainMethod && r.text == Strip(fileText)
    ensures r.metadata == [("char_count", |r.text|)]
  {
    var text := Strip(fileText);
    Extraction(text, PlainMethod, [("char_count", |text|)])
  }

  // ---------------------------------------------------------------- extract

  /** What the file holds for each routine, and whether reading or parsing it
      raises. */
  datatype FileContent = FileContent(pdf: Attempt<seq<Page>>, soupText: Attempt<string>, plainText: Attempt<string>)

  /** `_extract_by_type` run on the file. */
  function RunExtraction(d: DocumentType, file: FileContent): (r: Attempt<Extraction>)
    ensures r.Ok? ==> r.value.routine == MethodFor(d)
  {
    match MethodFor(d)
    case PdfMethod => (match file.pdf case Ok(pages) => Ok(ExtractPdf(pages)) case Raise(m) => Raise(m))
    case HtmlMethod => (match file.soupText case Ok(t) => Ok(ExtractHtml(t)) case Raise(m) => Raise(m))
    case PlainMethod => (match file.plainText case Ok(t) => Ok(ExtractPlain(t)) case Raise(m) => Raise(m))
  }

  /** Everything outside the model one `extract` call depends on. */
  datatype Environment = Environment(
    fileExists: string -> bool,
    content: FileContent,
    timedOut: bool,
    formatSeconds: real -> string,
    hasVectorRepo: bool,
    addDocument: Attempt<string>)

  type Docs = map<string, RawDocument>

  /** The repository holds each document under its own id. */
  predicate WellKeyed(docs: Docs) {
    forall k | k in docs :: docs[k].documentId == k
  }

  function Save(docs: Docs, d: RawDocument): (r: Docs)
    ensures WellKeyed(docs) ==> WellKeyed(r)
  {
    docs[d.documentId := d]
  }

  /** `update_extracted_text`: an update of a stored document, or nothing. */
  function UpdateExtractedText(docs: Docs, id: string, x: Extraction): (r: Docs)
    ensures WellKeyed(docs) ==> WellKeyed(r)
    ensures r.Keys == docs.Keys
    ensures id !in docs ==> r == docs
    ensures id in docs ==>
      && r[id].extractedText == Some(x.text) && r[id].extractionMethod == Some(MethodName(x.routine))
      && r[id].extractionMetadata == x.metadata && r[id].processingStatus == Extracted
      && r[id].documentId == docs[id].documentId && r[id].processingErrors == docs[id].processingErrors
    ensures forall k | k in docs && k != id :: r[k] == docs[k]
  {
    if id in docs then
      docs[id := docs[id].(extractedText := Some(x.text), extractionMethod := Some(MethodName(x.routine)),
                           extractionMetadata := x.metadata, processingStatus := Extracted)]
    else docs
  }

  datatype ExtractRun = ExtractRun(docs: Docs, result: Option<RawDocument>)

  /** The except handler of `extract`: status ERROR, message appended, saved. */
  function ExtractFailure(docs: Docs, d: RawDocument, message: string): (r: ExtractRun)
    ensures r.result == Some(d.(processingStatus := PsError, processingErrors := d.processingErrors + [message]))
    ensures r.docs == Save(docs, r.result.value)
  {
    var e := d.(processingStatus := PsError, processingErrors := d.processingErrors + [message]);
    ExtractRun(Save(docs, e), Some(e))
  }

  /** `_embed_document`: EMBEDDING, then COMPLETE with the vector id, or
      ERROR with "Embedding error: " and the message; the text stays. */
  function EmbedDocument(docs: Docs, d: RawDocument, addDocument: Attempt<string>): (r: Docs)
    ensures WellKeyed(docs) ==> WellKeyed(r)
    ensures r.Keys == docs.Keys + {d.documentId}
    ensures forall k | k in docs && k != d.documentId :: r[k] == docs[k]
    ensures r[d.documentId].extractedText == d.extractedText
    ensures addDocument.Ok? ==>
      && r[d.documentId].processingStatus == Complete && r[d.documentId].vectorId == Some(addDocument.value)
      && r[d.documentId].processingErrors == d.processingErrors
    ensures addDocument.Raise? ==>
      && r[d.documentId].processingStatus == PsError
      && r[d.documentId].processingErrors == d.processingErrors + ["Embedding error: " + addDocument.message]
  {
    var docs1 := Save(docs, d.(processingStatus := Embedding));
    match addDocument
    case Ok(v) => Save(docs1, d.(vectorId := Some(v), processingStatus := Complete))
    case Raise(m) => Save(docs1, d.(processingStatus := PsError, processingErrors := d.processingErrors + ["Embedding error: " + m]))
  }

  function TimeoutMessage(seconds: real, env: Environment): string {
    "Text extraction exceeded " + env.formatSeconds(seconds) + "s timeout."
  }

  /** `TextExtractor.extract`. */
  function Extract(docs: Docs, id: string, timeoutSeconds: Option<real>, env: Environment): (r: ExtractRun)
    requires WellKeyed(docs)
    ensures WellKeyed(r.docs)
    ensures id !in docs <==> r.result == None
    ensures id !in docs ==> r.docs == docs
    ensures r.result.Some? ==> r.result.value.documentId == id && id in r.docs
  {
    if id !in docs then ExtractRun(docs, None)
    else
      var d := docs[id].(processingStatus := Extracting);
      var docs1 := Save(docs, d);
      if !Truthy(d.filePath) then ExtractFailure(docs1, d, "Document has no file_path")
      else
        var path := d.filePath.value;
        if !env.fileExists(path) then ExtractFailure(docs1, d, "File not found: " + path)
        else if timeoutSeconds.Some? && env.timedOut then
          ExtractFailure(docs1, d, TimeoutMessage(timeoutSeconds.value, env))
        else
          match RunExtraction(ResolveType(d.documentType, path), env.content)
          case Raise(m) => ExtractFailure(docs1, d, m)
          case Ok(x) =>
            var docs2 := UpdateExtractedText(docs1, id, x);
            var updated := docs2[id];
            if env.hasVectorRepo && Truthy(updated.extractedText) then
              var docs3 := EmbedDocument(docs2, updated, env.addDocument);
              ExtractRun(docs3, Some(docs3[id]))
            else ExtractRun(docs2, Some(updated))
  }

  /** The error branch: a missing path, a missing file, an overrun timeout or
      a failing routine leaves the document ERROR with exactly that message
      appended, stores it, and returns it rather than raising. */
  lemma ExtractErrorBranch(docs: Docs, id: string, timeoutSeconds: Option<real>, env: Environment)
    requires WellKeyed(docs) && id in docs
    ensures var d := docs[id];
            var r := Extract(docs, id, timeoutSeconds, env);
            var path := d.filePath.GetOr("");
            var failed := !Truthy(d.filePath) || !env.fileExists(path) || (timeoutSeconds.Some? && env.timedOut)
                          || RunExtraction(ResolveType(d.documentType, path), env.content).Raise?;
            failed ==>
              r.result.value.processingStatus == PsError
              && |r.result.value.processingErrors| == |d.processingErrors| + 1
              && r.result.value.processingErrors[..|d.processingErrors|] == d.processingErrors
              && r.result.value.extractedText == d.extractedText
              && r.docs[id] == r.result.value
    ensures var d := docs[id];
            var r := Extract(docs, id, timeoutSeconds, env);
            !Truthy(d.filePath) ==> r.result.value.processingErrors == d.processingErrors + ["Document has no file_path"]
  {
  }

  /** On success the stored document carries the routine's text, method
      name and metadata, and is EXTRACTED unless it was then embedded. */
  lemma ExtractSuccess(docs: Docs, id: string, timeoutSeconds: Option<real>, env: Environment)
    requires WellKeyed(docs) && id in docs
    requires Truthy(docs[id].filePath) && env.fileExists(docs[id].filePath.value)
    requires !(timeoutSeconds.Some? && env.timedOut)
    requires RunExtraction(ResolveType(docs[id].documentType, docs[id].filePath.value), env.content).Ok?
    ensures var x := RunExtraction(ResolveType(docs[id].documentType, docs[id].filePath.value), env.content).value;
            var r := Extract(docs, id, timeoutSeconds, env);
            var doc := r.result.value;
            doc.extractedText == Some(x.text) && doc.extractionMethod == Some(MethodName(x.routine))
            && doc.extractionMetadata == x.metadata
            && doc.processingErrors[..|docs[id].processingErrors|] == docs[id].processingErrors
            && (if env.hasVectorRepo && x.text != "" then
                  (env.addDocument.Ok? ==> doc.processingStatus == Complete && doc.vectorId == Some(env.addDocument.value))
                  && (env.addDocument.Raise? ==>
                        (doc.processingStatus == PsError
                         && doc.processingErrors == docs[id].processingErrors + ["Embedding error: " + env.addDocument.message]))
                else doc.processingStatus == Extracted && doc.processingErrors == docs[id].processingErrors)
  {
    var path := docs[id].filePath.value;
    var x := RunExtraction(ResolveType(docs[id].documentType, path), env.content).value;
    var d := docs[id].(processingStatus := Extracting);
    var docs1 := Save(docs, d);
    var docs2 := UpdateExtractedText(docs1, id, x);
    var updated := docs2[id];
    assert updated == d.(extractedText := Some(x.text), extractionMethod := Some(MethodName(x.routine)),
                         extractionMetadata := x.metadata, processingStatus := Extracted);
    var r := Extract(docs, id, timeoutSeconds, env);
    if env.hasVectorRepo && x.text != "" {
      var docs3 := EmbedDocument(docs2, updated, env.addDocument);
      assert r == ExtractRun(docs3, Some(docs3[id]));
    } else {
      assert r == ExtractRun(docs2, Some(updated));
    }
  }

  /** Documents other than the one extracted are untouched. */
  lemma ExtractTouchesOnlyItsDocument(docs: Docs, id: string, timeoutSeconds: Option<real>, env: Environment, other: string)
    requires WellKeyed(docs) && other != id
    ensures var r := Extract(docs, id, timeoutSeconds, env);
            (other in r.docs <==> other in docs) && (other in docs ==> r.docs[other] == docs[other])
  {
  }
}

=== FILE: fetcher.dfy ===
/** Document download (pipeline/layer1_triggers/document_fetcher.py).

    The HTTP request, the file write and the document repository's saves are
    scripted outcomes; `urlparse(url).path` is an oracle, the directory is the
    string form of the configured download directory, and the document id
    stands for the `uuid4()` the model does not draw. What the model keeps is
    the order of the saves, the type detection, the size limit and the
    status every branch leaves on the document. */
module Fetcher {
  import opened Wrappers
  import opened Text
  import opened Documents

  // ------------------------------------------------------- type detection

  predicate PdfHint(contentType: string, path: string) {
    PdfContent(Lower(contentType)) || EndsWith(Lower(path), ".pdf")
  }

  predicate HtmlHint(contentType: string, path: string) {
    HtmlContent(Lower(contentType)) || EndsWith(Lower(path), ".html") || EndsWith(Lower(path), ".htm")
  }

  predicate ExcelHint(contentType: string, path: string) {
    ExcelContent(Lower(contentType)) || EndsWith(Lower(path), ".xlsx") || EndsWith(Lower(path), ".xls")
  }

  predicate TextHint(contentType: string, path: string) {
    TextContent(Lower(contentType)) || EndsWith(Lower(path), ".txt")
  }

  predicate PdfContent(ct: string) { StartsWith(ct, "application/pdf") }
  predicate HtmlContent(ct: string) { Contains(ct, "text/html") }
  predicate ExcelContent(ct: string) { Contains(ct, "spreadsheet") }
  predicate TextContent(ct: string) { StartsWith(ct, "text/plain") }

  /** An absent content type (the header's default "") hints at nothing. */
  lemma EmptyContentType()
    ensures Lower("") == ""
    ensures !PdfContent("") && !HtmlContent("") && !ExcelContent("") && !TextContent("")
  {
    assert Lower("") == "";
  }

  /** `_detect_type`: the first hint that holds, in the order PDF, HTML,
      Excel, text; UNKNOWN when none does. */
  function DetectType(contentType: string, path: string): (r: DocumentType)
    ensures r == Pdf <==> PdfHint(contentType, path)
    ensures r == Html <==> !PdfHint(contentType, path) && HtmlHint(contentType, path)
    ensures r == Excel <==> !PdfHint(contentType, path) && !HtmlHint(contentType, path) && ExcelHint(contentType, path)
    ensures r == TextDoc <==> !PdfHint(contentType, path) && !HtmlHint(contentType, path) && !ExcelHint(contentType, path)
                              && TextHint(contentType, path)
    ensures r == UnknownType <==> !PdfHint(contentType, path) && !HtmlHint(contentType, path) && !ExcelHint(contentType, path)
                                  && !TextHint(contentType, path)
  {
    if PdfHint(contentType, path) then Pdf
    else if HtmlHint(contentType, path) then Html
    else if ExcelHint(contentType, path) then Excel
    else if TextHint(contentType, path) then TextDoc
    else UnknownType
  }

  /** `_type_to_extension`. */
  function Extension(d: DocumentType): (r: string)
    ensures 3 <= |r| <= 4 && '.' !in r && '/' !in r
  {
    match d
    case Pdf => "pdf"
    case Html => "html"
    case Excel => "xlsx"
    case TextDoc => "txt"
    case UnknownType => "bin"
  }

  /** Distinct types get distinct extensions. */
  lemma ExtensionInjective(a: DocumentType, b: DocumentType)
    requires Extension(a) == Extension(b)
    ensures a == b
  {
  }

  /** Lower-casing commutes with taking a suffix. */
  lemma LowerSuffix(s: string, k: nat)
    requires k <= |s|
    ensures Lower(s)[|s| - k..] == Lower(s[|s| - k..])
  {
  }

  lemma SuffixOfConcat<T>(a: seq<T>, b: seq<T>, k: nat)
    requires k <= |b|
    ensures (a + b)[|a + b| - k..] == b[|b| - k..]
  {
  }

  predicate IsLowerText(s: string) {
    forall i | 0 <= i < |s| :: LowerChar(s[i]) == s[i]
  }

  /** A path whose tail is already lower-case ends, after lower-casing, in
      exactly the short suffixes that tail ends in, whatever comes before it. */
  lemma PathEndsWith(stem: string, tail: string, suffix: string)
    requires |suffix| <= |tail| && IsLowerText(tail)
    ensures EndsWith(Lower(stem + tail), suffix) <==> EndsWith(tail, suffix)
  {
    var p := stem + tail;
    var k := |suffix|;
    LowerSuffix(p, k);
    SuffixOfConcat(stem, tail, k);
    var t := tail[|tail| - k..];
    assert forall i | 0 <= i < |t| :: t[i] == tail[|tail| - k + i];
    assert Lower(t) == t;
  }

  /** A path ending in a dot and three letters never ends in a
      five-character suffix whose second character is not a dot. */
  lemma LongSuffixMismatch(stem: string, tail: string, suffix: string)
    requires |tail| == 4 && tail[0] == '.' && |suffix| == 5 && suffix[1] != '.'
    ensures !EndsWith(Lower(stem + tail), suffix)
  {
  }

  /** A tail of the form `.xyz` or `.wxyz` in lower case. */
  predicate ExtensionTail(tail: string) {
    (|tail| == 4 || |tail| == 5) && tail[0] == '.' && IsLowerText(tail)
  }

  /** A five-character suffix whose second character is not a dot ends a
      path with such a tail exactly when it ends the tail. */
  lemma LongSuffixByTail(stem: string, tail: string, suffix: string)
    requires ExtensionTail(tail) && |suffix| == 5 && suffix[1] != '.'
    ensures EndsWith(Lower(stem + tail), suffix) <==> EndsWith(tail, suffix)
  {
    if |tail| == 5 {
      PathEndsWith(stem, tail, suffix);
    } else {
      LongSuffixMismatch(stem, tail, suffix);
    }
  }

  lemma PdfByTail(stem: string, tail: string)
    requires ExtensionTail(tail)
    ensures PdfHint("", stem + tail) <==> EndsWith(tail, ".pdf")
  {
    EmptyContentType();
    PathEndsWith(stem, tail, ".pdf");
  }

  lemma HtmlByTail(stem: string, tail: string)
    requires ExtensionTail(tail)
    ensures HtmlHint("", stem + tail) <==> EndsWith(tail, ".html") || EndsWith(tail, ".htm")
  {
    EmptyContentType();
    PathEndsWith(stem, tail, ".htm");
    LongSuffixByTail(stem, tail, ".html");
  }

  lemma ExcelByTail(stem: string, tail: string)
    requires ExtensionTail(tail)
    ensures ExcelHint("", stem + tail) <==> EndsWith(tail, ".xlsx") || EndsWith(tail, ".xls")
  {
    EmptyContentType();
    PathEndsWith(stem, tail, ".xls");
    LongSuffixByTail(stem, tail, ".xlsx");
  }

  lemma TextByTail(stem: string, tail: string)
    requires ExtensionTail(tail)
    ensures TextHint("", stem + tail) <==> EndsWith(tail, ".txt")
  {
    EmptyContentType();
    PathEndsWith(stem, tail, ".txt");
  }

  /** The extension the fetcher writes leads `_detect_type` back to the
      type it came from, whatever the file's stem: with no content type to
      go on, the stored path alone re-detects the document's type. */
  lemma ExtensionDetectsBack(stem: string, d: DocumentType)
    ensures DetectType("", stem + "." + Extension(d)) == d
  {
    var tail := "." + Extension(d);
    assert stem + "." + Extension(d) == stem + tail;
    assert ExtensionTail(tail);
    DetectsTail(stem, tail);
    TailDecides(d);
  }

  /** The path tests of `_detect_type` alone, in their order. */
  function SuffixType(tail: string): DocumentType {
    if EndsWith(tail, ".pdf") then Pdf
    else if EndsWith(tail, ".html") || EndsWith(tail, ".htm") then Html
    else if EndsWith(tail, ".xlsx") || EndsWith(tail, ".xls") then Excel
    else if EndsWith(tail, ".txt") then TextDoc
    else UnknownType
  }

  /** On the tails the fetcher writes, the suffix tests pick the type back. */
  lemma TailDecides(d: DocumentType)
    ensures SuffixType("." + Extension(d)) == d
  {
    match d
    case Pdf => assert "." + Extension(d) == ".pdf";
    case Html => assert "." + Extension(d) == ".html";
    case Excel => assert "." + Extension(d) == ".xlsx";
    case TextDoc => assert "." + Extension(d) == ".txt";
    case UnknownType => assert "." + Extension(d) == ".bin";
  }

  /** `_detect_type` of a path with an extension tail and no content type,
      decided on the tail alone. */
  lemma DetectsTail(stem: string, tail: string)
    requires ExtensionTail(tail)
    ensures DetectType("", stem + tail) == SuffixType(tail)
  {
    PdfByTail(stem, tail);
    HtmlByTail(stem, tail);
    ExcelByTail(stem, tail);
    TextByTail(stem, tail);
  }

  // --------------------------------------------------------------- fetch

  /** What the HTTP response contributes: its content-type header, if sent,
      and the length of its body. */
  datatype Response = Response(contentType: Option<string>, size: nat)

  /** Scripted collaborators of one `fetch` call, in the order they can
      happen. */
  datatype FetchScript = FetchScript(
    firstSave: Outcome,
    download: Attempt<Response>,
    write: Outcome,
    resultSave: Outcome,
    errorSave: Outcome)

  /** The snapshots the repository accepted, in order, and what `fetch`
      returned or raised. */
  datatype Fetched = Fetched(saved: seq<RawDocument>, result: Attempt<RawDocument>)

  /** `self.download_dir / f"{document_id}.{extension}"` as a string. */
  function FilePath(dir: string, documentId: string, d: DocumentType): string {
    dir + "/" + documentId + "." + Extension(d)
  }

  function TooLargeMessage(size: nat, limit: int): string {
    "File too large: " + NatToString(size) + " bytes (limit=" + IntToString(limit) + ")"
  }

  /** The except handler: status ERROR, the message appended, one more save. */
  function Failure(saved: seq<RawDocument>, d: RawDocument, message: string, errorSave: Outcome): (r: Fetched)
    ensures r.result.Ok? <==> errorSave.Done?
    ensures r.result.Raise? ==> r.saved == saved
    ensures r.result.Ok? ==> r.saved == saved + [r.result.value]
                             && r.result.value == d.(processingStatus := PsError, processingErrors := d.processingErrors + [message])
  {
    var e := d.(processingStatus := PsError, processingErrors := d.processingErrors + [message]);
    match errorSave
    case Done => Fetched(saved + [e], Ok(e))
    case Fails(m) => Fetched(saved, Raise(m))
  }

  /** The save at the end of the try block; its failure goes to the handler. */
  function Finish(saved: seq<RawDocument>, d: RawDocument, sc: FetchScript): (r: Fetched)
    ensures r.result.Ok? ==> r.saved == saved + [r.result.value]
    ensures sc.resultSave.Done? ==> r == Fetched(saved + [d], Ok(d))
    ensures sc.resultSave.Fails? ==> r == Failure(saved, d, sc.resultSave.message, sc.errorSave)
  {
    match sc.resultSave
    case Done => Fetched(saved + [d], Ok(d))
    case Fails(m) => Failure(saved, d, m, sc.errorSave)
  }

  /** The document `fetch` saves before it downloads anything. */
  function DownloadingDocument(documentId: string, triggerId: string, url: string, companySymbol: Option<string>): RawDocument {
    NewDocument(documentId, triggerId, url, companySymbol).(processingStatus := Downloading)
  }

  /** `DocumentFetcher.fetch` with `max_size_bytes = max_size_mb * 1024 * 1024`. */
  function Fetch(dir: string, maxSizeMb: int, documentId: string, triggerId: string, url: string,
                 companySymbol: Option<string>, urlPath: string -> string, sc: FetchScript): (r: Fetched)
    // the first save precedes the download, and is of a bare DOWNLOADING document
    ensures r.saved == [] <==> sc.firstSave.Fails?
    ensures r.saved != [] ==> r.saved[0] == DownloadingDocument(documentId, triggerId, url, companySymbol)
    // the download's own failures never escape: only a failing save raises
    ensures r.result.Raise? ==> sc.firstSave.Fails? || sc.errorSave.Fails?
    // the returned document is the last snapshot saved, with the same identity
    ensures r.result.Ok? ==> |r.saved| >= 2 && r.saved[|r.saved| - 1] == r.result.value
    ensures r.result.Ok? ==> var d := r.result.value;
              d.documentId == documentId && d.triggerId == triggerId && d.sourceUrl == url
              && d.companySymbol == companySymbol
              && (d.processingStatus == Downloaded || d.processingStatus == PsError)
  {
    var doc := DownloadingDocument(documentId, triggerId, url, companySymbol);
    match sc.firstSave
    case Fails(m) => Fetched([], Raise(m))
    case Done =>
      match sc.download
      case Raise(m) => Failure([doc], doc, m, sc.errorSave)
      case Ok(resp) =>
        var contentType := resp.contentType.GetOr("");
        var typed := doc.(contentType := Some(contentType),
                          documentType := DetectType(contentType, urlPath(url)),
                          fileSizeBytes := Some(resp.size));
        var limit := maxSizeMb * 1024 * 1024;
        if resp.size > limit then
          Finish([doc], typed.(processingStatus := PsError, processingErrors := [TooLargeMessage(resp.size, limit)]), sc)
        else
          match sc.write
          case Fails(m) => Failure([doc], typed, m, sc.errorSave)
          case Done =>
            Finish([doc], typed.(filePath := Some(FilePath(dir, documentId, typed.documentType)),
                                 processingStatus := Downloaded), sc)
  }

  /** The document ends DOWNLOADED exactly when every step succeeded and the
      body is within the limit; it then sits at `<dir>/<id>.<ext>`, with the
      extension of its detected type, and carries no error. */
  lemma DownloadedExactly(dir: string, maxSizeMb: int, documentId: string, triggerId: string, url: string,
                          companySymbol: Option<string>, urlPath: string -> string, sc: FetchScript)
    ensures var r := Fetch(dir, maxSizeMb, documentId, triggerId, url, companySymbol, urlPath, sc);
            (r.result.Ok? && r.result.value.processingStatus == Downloaded)
            <==> (sc.firstSave.Done? && sc.download.Ok? && sc.download.value.size <= maxSizeMb * 1024 * 1024
                  && sc.write.Done? && sc.resultSave.Done?)
    ensures var r := Fetch(dir, maxSizeMb, documentId, triggerId, url, companySymbol, urlPath, sc);
            r.result.Ok? && r.result.value.processingStatus == Downloaded ==>
              var d := r.result.value;
              var ct := sc.download.value.contentType.GetOr("");
              d.documentType == DetectType(ct, urlPath(url))
              && d.filePath == Some(dir + "/" + documentId + "." + Extension(d.documentType))
              && d.fileSizeBytes == Some(sc.download.value.size)
              && d.processingErrors == []
  {
  }

  /** A body strictly larger than the limit is rejected: ERROR, no file, and
      a first error that starts "File too large". The rejection is saved
      unless that save fails, in which case the handler appends its message. */
  lemma OversizeRejected(dir: string, maxSizeMb: int, documentId: string, triggerId: string, url: string,
                         companySymbol: Option<string>, urlPath: string -> string, sc: FetchScript)
    requires sc.firstSave.Done? && sc.download.Ok? && sc.download.value.size > maxSizeMb * 1024 * 1024
    ensures var r := Fetch(dir, maxSizeMb, documentId, triggerId, url, companySymbol, urlPath, sc);
            r.result.Ok? ==>
              var d := r.result.value;
              d.processingStatus == PsError && d.filePath == None
              && |d.processingErrors| >= 1 && StartsWith(d.processingErrors[0], "File too large")
              && d.fileSizeBytes == Some(sc.download.value.size)
    ensures var r := Fetch(dir, maxSizeMb, documentId, triggerId, url, companySymbol, urlPath, sc);
            sc.resultSave.Done? ==> r.result.Ok? && |r.result.value.processingErrors| == 1
  {
    var limit := maxSizeMb * 1024 * 1024;
    var msg := TooLargeMessage(sc.download.value.size, limit);
    assert StartsWith(msg, "File too large") by {
      assert msg[..|"File too large"|] == "File too large";
    }
  }

  /** A failed download leaves an ERROR document whose only error is the
      exception's message, saved by the handler, and `fetch` returns it. */
  lemma DownloadFailureRecorded(dir: string, maxSizeMb: int, documentId: string, triggerId: string, url: string,
                                companySymbol: Option<string>, urlPath: string -> string, sc: FetchScript)
    requires sc.firstSave.Done? && sc.download.Raise? && sc.errorSave.Done?
    ensures var r := Fetch(dir, maxSizeMb, documentId, triggerId, url, companySymbol, urlPath, sc);
            r.result.Ok? && r.result.value.processingStatus == PsError
            && r.result.value.processingErrors == [sc.download.message]
            && r.result.value.filePath == None
            && |r.saved| == 2
  {
  }

  /** The stored path of a downloaded document re-detects its type. */
  lemma StoredPathKeepsType(dir: string, maxSizeMb: int, documentId: string, triggerId: string, url: string,
                            companySymbol: Option<string>, urlPath: string -> string, sc: FetchScript)
    ensures var r := Fetch(dir, maxSizeMb, documentId, triggerId, url, companySymbol, urlPath, sc);
            r.result.Ok? && r.result.value.processingStatus == Downloaded ==>
              DetectType("", r.result.value.filePath.value) == r.result.value.documentType
  {
    var r := Fetch(dir, maxSizeMb, documentId, triggerId, url, companySymbol, urlPath, sc);
    if r.result.Ok? && r.result.value.processingStatus == Downloaded {
      DownloadedExactly(dir, maxSizeMb, documentId, triggerId, url, companySymbol, urlPath, sc);
      var d := r.result.value;
      assert d.filePath.value == (dir + "/" + documentId) + "." + Extension(d.documentType);
      ExtensionDetectsBack(dir + "/" + documentId, d.documentType);
    }
  }
}

=== FILE: gate_classifier.dfy ===
/** The layer-2 LLM gate (pipeline/layer2_gate/gate_classifier.py): the
    announcement is truncated, blank company and sector become "Unknown",
    the gate module is called under `retry_sync` with three attempts, and
    any failure that escapes the retries passes the trigger (fail-open).
    The gate module is a script: `gate(input, k)` is what its (k+1)-th
    call returns or raises for that input. Logging and timing are left out. */
module GateClassifier {
  import opened Wrappers
  import opened Text
  import opened Trigger
  import LmConfig
  import Retry

  const DefaultProvider: string := "anthropic"
  const DefaultMaxInputChars: int := 2000
  const UnknownLabel: string := "Unknown"
  const NoReason: string := "No reason provided"
  const FailOpenPrefix: string := "Gate classifier failure, passed by fail-open policy: "
  const LlmMethod: string := "llm_classification"
  const FallthroughMethod: string := "error_fallthrough"
  const Attempts: int := 3
  const BaseDelay: real := 0.2

  /** The gate module's answer: `is_worth_investigating` and `reason`. */
  datatype Prediction = Prediction(isWorthInvestigating: bool, reason: string)

  /** What the gate module is called with. */
  datatype GateInput = GateInput(text: string, company: string, sector: string)

  datatype Classifier = Classifier(model: string, provider: string, maxInputChars: int)

  /** `_truncate`: the text when it fits, else `text[:max_input_chars]`. */
  function Truncate(text: string, maxChars: int): (r: string)
    ensures |r| <= |text| && r == text[..|r|]
    ensures |text| <= maxChars ==> r == text
    ensures 0 <= maxChars ==> |r| == if |text| <= maxChars then |text| else maxChars
    ensures maxChars < 0 ==> |r| == if |text| + maxChars >= 0 then |text| + maxChars else 0
  {
    if |text| <= maxChars then text else SliceTo(text, maxChars)
  }

  /** With a non-negative bound, truncating twice is truncating once. */
  lemma TruncateIdempotent(text: string, maxChars: int)
    requires maxChars >= 0
    ensures Truncate(Truncate(text, maxChars), maxChars) == Truncate(text, maxChars)
  {
  }

  /** `(s or "").strip() or default`. */
  function StripOr(s: string, default: string): (r: string)
    ensures IsBlank(s) ==> r == default
    ensures !IsBlank(s) ==> r == Strip(s) && r != [] && Trimmed(r)
  {
    var t := Strip(s);
    if t == [] then default else t
  }

  /** With a clean default, a cleaned value cleans to itself. */
  lemma StripOrIdempotent(s: string, default: string)
    requires default != [] && Trimmed(default)
    ensures StripOr(StripOr(s, default), default) == StripOr(s, default)
  {
    var r := StripOr(s, default);
    StripOfStripped(r);
  }

  lemma LabelsTrimmed()
    ensures UnknownLabel != [] && Trimmed(UnknownLabel)
    ensures NoReason != [] && Trimmed(NoReason)
  {
  }

  /** The arguments `classify` hands the gate module. */
  function ModuleInput(c: Classifier, text: string, company: string, sector: string): (r: GateInput)
    ensures |r.text| <= |text| && r.text == text[..|r.text|]
    ensures 0 <= c.maxInputChars ==> |r.text| <= c.maxInputChars
    ensures |text| <= c.maxInputChars ==> r.text == text
    ensures IsBlank(company) ==> r.company == UnknownLabel
    ensures !IsBlank(company) ==> r.company == Strip(company)
    ensures IsBlank(sector) ==> r.sector == UnknownLabel
    ensures !IsBlank(sector) ==> r.sector == Strip(sector)
  {
    GateInput(Truncate(text, c.maxInputChars), StripOr(company, UnknownLabel), StripOr(sector, UnknownLabel))
  }

  /** The gate module's call under `retry_sync(attempts=3,
      base_delay_seconds=0.2, should_retry=is_transient_error)`. */
  function ModuleRun(input: GateInput, gate: (GateInput, nat) -> Retry.Outcome<Prediction>): (r: Retry.RetryRun<Prediction>)
    ensures 1 <= r.calls <= Attempts && r.result == gate(input, r.calls - 1)
    ensures forall k | 0 <= k < r.calls - 1 :: gate(input, k).Throws? && Retry.IsTransientError(gate(input, k).error)
    ensures r.result.Throws? ==> r.calls == Attempts || !Retry.IsTransientError(r.result.error)
  {
    Retry.RetrySync(k => gate(input, k), Attempts, BaseDelay, Retry.IsTransientError)
  }

  /** The dictionary `classify` returns for the retried call's outcome. */
  function Decide(c: Classifier, outcome: Retry.Outcome<Prediction>): (r: GateResult)
    ensures r.model == Some(c.model) && r.reason != []
    ensures outcome.Returns? ==> r.gateMethod == LlmMethod && r.passed == outcome.value.isWorthInvestigating
    ensures outcome.Returns? ==> r.reason == StripOr(outcome.value.reason, NoReason)
    ensures outcome.Throws? ==> r.gateMethod == FallthroughMethod && r.passed
    ensures outcome.Throws? ==> r.reason == FailOpenPrefix + outcome.error.message
  {
    match outcome
    case Returns(p) => GateResult(p.isWorthInvestigating, StripOr(p.reason, NoReason), LlmMethod, Some(c.model))
    case Throws(e) => GateResult(true, FailOpenPrefix + e.message, FallthroughMethod, Some(c.model))
  }

  /** `classify(announcement_text, company_name, sector)`: it never raises;
      only the gate module's own verdict can reject. */
  function Classify(c: Classifier, text: string, company: string, sector: string,
                    gate: (GateInput, nat) -> Retry.Outcome<Prediction>): (r: GateResult)
    ensures r.model == Some(c.model) && r.reason != []
    ensures r.gateMethod == LlmMethod <==> ModuleRun(ModuleInput(c, text, company, sector), gate).result.Returns?
    ensures r.gateMethod == FallthroughMethod <==> ModuleRun(ModuleInput(c, text, company, sector), gate).result.Throws?
    ensures !r.passed ==> r.gateMethod == LlmMethod
  {
    assert LlmMethod != FallthroughMethod by { assert LlmMethod[0] != FallthroughMethod[0]; }
    Decide(c, ModuleRun(ModuleInput(c, text, company, sector), gate).result)
  }

  /** Calls 1 to k-1 fail transiently and call k answers: that answer
      decides, after exactly k calls. */
  lemma SucceedsAfterTransientFailures(c: Classifier, text: string, company: string, sector: string,
                                       gate: (GateInput, nat) -> Retry.Outcome<Prediction>, k: nat)
    requires 1 <= k <= Attempts
    requires forall j | 0 <= j < k - 1 ::
      gate(ModuleInput(c, text, company, sector), j).Throws? &&
      Retry.IsTransientError(gate(ModuleInput(c, text, company, sector), j).error)
    requires gate(ModuleInput(c, text, company, sector), k - 1).Returns?
    ensures ModuleRun(ModuleInput(c, text, company, sector), gate).calls == k
    ensures Classify(c, text, company, sector, gate) ==
      Decide(c, gate(ModuleInput(c, text, company, sector), k - 1))
  {
    var input := ModuleInput(c, text, company, sector);
    Retry.SucceedsOnCall(k => gate(input, k), Attempts, BaseDelay, Retry.IsTransientError, k);
  }

  /** Three transient failures: the trigger passes with the last error as
      the reason. */
  lemma FailsOpenAfterThreeTransientFailures(c: Classifier, text: string, company: string, sector: string,
                                             gate: (GateInput, nat) -> Retry.Outcome<Prediction>)
    requires forall j | 0 <= j < Attempts ::
      gate(ModuleInput(c, text, company, sector), j).Throws? &&
      Retry.IsTransientError(gate(ModuleInput(c, text, company, sector), j).error)
    ensures ModuleRun(ModuleInput(c, text, company, sector), gate).calls == Attempts
    ensures Classify(c, text, company, sector, gate).passed
    ensures Classify(c, text, company, sector, gate).gateMethod == FallthroughMethod
    ensures Classify(c, text, company, sector, gate).reason ==
      FailOpenPrefix + gate(ModuleInput(c, text, company, sector), Attempts - 1).error.message
  {
    var input := ModuleInput(c, text, company, sector);
    Retry.AllFailRaisesLast(k => gate(input, k), Attempts, BaseDelay, Retry.IsTransientError);
  }

  /** A failure that is not transient is not retried: one call, then
      fail-open with that failure. */
  lemma NonTransientFailureFailsOpenAtOnce(c: Classifier, text: string, company: string, sector: string,
                                           gate: (GateInput, nat) -> Retry.Outcome<Prediction>)
    requires gate(ModuleInput(c, text, company, sector), 0).Throws?
    requires !Retry.IsTransientError(gate(ModuleInput(c, text, company, sector), 0).error)
    ensures ModuleRun(ModuleInput(c, text, company, sector), gate).calls == 1
    ensures Classify(c, text, company, sector, gate) ==
      GateResult(true, FailOpenPrefix + gate(ModuleInput(c, text, company, sector), 0).error.message,
                 FallthroughMethod, Some(c.model))
  {
    var input := ModuleInput(c, text, company, sector);
    Retry.NonRetryableStops(k => gate(input, k), Attempts, BaseDelay, Retry.IsTransientError);
  }

  /** The classifier sees its inputs only as cleaned: cleaning them first
      changes nothing. */
  lemma ClassifyOfCleanedInput(c: Classifier, text: string, company: string, sector: string,
                               gate: (GateInput, nat) -> Retry.Outcome<Prediction>)
    requires c.maxInputChars >= 0
    ensures ModuleInput(c, Truncate(text, c.maxInputChars), StripOr(company, UnknownLabel), StripOr(sector, UnknownLabel)) ==
      ModuleInput(c, text, company, sector)
    ensures Classify(c, Truncate(text, c.maxInputChars), StripOr(company, UnknownLabel), StripOr(sector, UnknownLabel), gate) ==
      Classify(c, text, company, sector, gate)
  {
    LabelsTrimmed();
    StripOrIdempotent(company, UnknownLabel);
    StripOrIdempotent(sector, UnknownLabel);
    TruncateIdempotent(text, c.maxInputChars);
  }

  /** The constructor: `configure_dspy_lm` runs, and may raise, only when
      `configure_lm` is set. */
  function NewClassifier(model: string, provider: string, apiKey: Option<string>, baseUrl: Option<string>,
                         maxInputChars: int, configureLm: bool): (r: Result<Classifier, string>)
    ensures r.Failure? <==> configureLm && LmConfig.ConfigureLm(provider, model, apiKey, baseUrl).Failure?
    ensures r.Failure? ==> r.error == LmConfig.ConfigureLm(provider, model, apiKey, baseUrl).error
    ensures r.Success? ==> r.value.model == model && r.value.provider == provider && r.value.maxInputChars == maxInputChars
  {
    if configureLm && LmConfig.ConfigureLm(provider, model, apiKey, baseUrl).Failure? then
      Failure(LmConfig.ConfigureLm(provider, model, apiKey, baseUrl).error)
    else Success(Classifier(model, provider, maxInputChars))
  }
}

=== FILE: gate_wiring.dfy ===
/** How the orchestrator's gate consumes the watchlist filter
    (pipeline/orchestrator.py:237-239). `_run_gate` reads the filter's
    answer with `.get("passed")`, as if it were a dict, but `check` returns
    a frozen `FilterResult` dataclass, which has no `get`. */
module GateWiring {
  import opened Wrappers
  import opened Text
  import opened Trigger
  import opened Orchestrator
  import opened OrchestratorProperties
  import opened WatchlistFilter
  import GateClassifier
  import Retry

  /** The `AttributeError` message Python raises for `.get` on the dataclass. */
  const NoGetMessage: string := "'FilterResult' object has no attribute 'get'"

  /** The filter step as written: `check` returns normally, and the `.get`
      on its result raises, whatever the result is. */
  function FilterAsWritten(wf: WatchFilter, t: TriggerEvent): Attempt<GateResult> {
    Raise(NoGetMessage)
  }

  /** With the filter as written, every trigger that is not human-sourced
      ends in ERROR, whatever the watchlist says about it — even one whose
      symbol is watched. */
  lemma AsWrittenFilterFailsEveryTrigger(e: Effects, t: TriggerEvent, cfg: Config, sc: Script, now: int, wf: WatchFilter)
    requires t.source != Human
    requires forall u :: sc.filter(u) == FilterAsWritten(wf, u)
    ensures RunGate(e, t, sc).result == Raise(NoGetMessage)
    ensures AfterGate(t, RunGate(e, t, sc), cfg, sc, now).result == PipelineError(NoGetMessage)
    ensures AfterGate(t, RunGate(e, t, sc), cfg, sc, now).effects.steps ==
      RunGate(e, t, sc).effects.steps + [Step(Error, "Pipeline error: " + NoGetMessage, now)]
  {
    var g := RunGate(e, t, sc);
    assert sc.filter(t) == Raise(NoGetMessage);
    GateRaises(t, g, cfg, sc, now, NoGetMessage);
  }

  /** The filter's result read field by field, as the gate evidently
      intends: `passed`, `reason` and `method` carried over, no model. */
  function FilterGate(wf: WatchFilter, t: TriggerEvent): (r: Attempt<GateResult>)
    ensures r.Ok?
    ensures r.value.passed == Check(wf, t).passed && r.value.reason == Check(wf, t).reason
    ensures r.value.gateMethod == MethodName(Check(wf, t).filterMethod) && r.value.model == None
  {
    var checked := Check(wf, t);
    Ok(GateResult(checked.passed, checked.reason, MethodName(checked.filterMethod), None))
  }

  /** With the filter read field by field, a trigger the watchlist rejects
      ends FILTERED_OUT with the filter's reason and the classifier is not
      consulted; one it passes goes to the classifier with its content,
      name and sector. */
  lemma CorrectedFilterGate(e: Effects, t: TriggerEvent, cfg: Config, sc: Script, now: int, wf: WatchFilter)
    requires t.source != Human
    requires forall u :: sc.filter(u) == FilterGate(wf, u)
    ensures !Check(wf, t).passed ==> RunGate(e, t, sc) == Gated(Called(e, Filter), FilterGate(wf, t))
    ensures !Check(wf, t).passed ==>
      AfterGate(t, RunGate(e, t, sc), cfg, sc, now).effects.steps ==
        e.steps + [Step(FilteredOut, Check(wf, t).reason, now)]
    ensures Check(wf, t).passed ==>
      RunGate(e, t, sc).result == sc.classify(t.rawContent, OrEmpty(t.companyName), OrEmpty(t.sector))
  {
    var f := FilterGate(wf, t).value;
    assert sc.filter(t) == Ok(f);
    if !f.passed {
      FilterRejects(e, t, sc, f);
      GateRejection(t, RunGate(e, t, sc), cfg, sc, now, f);
    } else {
      ClassifierArguments(e, t, sc, f);
    }
  }

  /** With the corrected filter and the classifier behind it, the gate of a
      trigger the watchlist passes never raises: it ends in the classifier's
      own decision, which is fail-open. */
  lemma ClassifierGateNeverRaises(e: Effects, t: TriggerEvent, sc: Script, wf: WatchFilter,
                                  c: GateClassifier.Classifier,
                                  gate: (GateClassifier.GateInput, nat) -> Retry.Outcome<GateClassifier.Prediction>)
    requires t.source != Human
    requires forall u :: sc.filter(u) == FilterGate(wf, u)
    requires forall x, y, z :: sc.classify(x, y, z) == Ok(GateClassifier.Classify(c, x, y, z, gate))
    requires Check(wf, t).passed
    ensures RunGate(e, t, sc).result.Ok?
    ensures RunGate(e, t, sc).result.value ==
      GateClassifier.Classify(c, t.rawContent, OrEmpty(t.companyName), OrEmpty(t.sector), gate)
    ensures !RunGate(e, t, sc).result.value.passed ==> RunGate(e, t, sc).result.value.gateMethod == GateClassifier.LlmMethod
  {
    var f := FilterGate(wf, t).value;
    assert sc.filter(t) == Ok(f);
    ClassifierArguments(e, t, sc, f);
  }
}

=== FILE: generator.dfy ===
/** The layer-5 report generator (pipeline/layer5_report/generator.py): the
    report assembled from an investigation, its assessment and the report
    module's output, with a deterministic fallback for every text the module
    leaves empty. The module call is given by the outcome of its
    `retry_in_thread` run; `%.0f` formatting of the confidence percentage and
    `isoformat()` of a date are oracle parameters. */
module ReportGenerator {
  import opened Wrappers
  import opened Text
  import opened Decision
  import opened Investigations
  import opened Reports
  import Collections
  import Json
  import Assessor

  const FirstInvestigation: string := "First recorded investigation for this company."
  const NoSources: string := "- No external sources captured."
  const NoneNoted: string := "- None noted."
  const UntitledSource: string := "Source"
  const DefaultRationale: string := "Evidence from the latest trigger and investigation context."
  const NoTrigger: string := "Trigger context unavailable."
  const Disclaimer: string := "_Decision support only - not an automated trade instruction._"
  const RationaleLimit: nat := 220
  const RationaleKeep: nat := 217
  const Ellipsis: string := "..."
  const ContextRows: nat := 3
  const FindingsPerRow: nat := 2

  /** The section headings of the fallback body, in order. */
  const Headings: seq<string> := [
    "## Executive Summary", "## Trigger", "## Findings", "## Positive Signals", "## Context",
    "## Recommendation", "## Risks", "## Red Flags", "## Sources"]

  /** `ReportModuleResult`. */
  datatype ModuleResult = ModuleResult(title: string, executiveSummary: string, reportBody: string, recommendationSummary: string)

  /** Formatting oracles: `f"{x:.0f}"` and `datetime.isoformat()`. */
  datatype Formats = Formats(percent: real -> string, isoDate: int -> string)

  // ------------------------------------------------------------ confidence

  /** `_clamp_confidence`. */
  function ClampConfidence(c: real): (r: real)
    ensures 0.0 <= r <= 1.0
    ensures 0.0 <= c <= 1.0 ==> r == c
    ensures c < 0.0 ==> r == 0.0
    ensures c > 1.0 ==> r == 1.0
  {
    if c < 0.0 then 0.0 else if c > 1.0 then 1.0 else c
  }

  /** Clamping twice is clamping once, and clamping keeps order. */
  lemma ClampIdempotentMonotone(c: real, d: real)
    ensures ClampConfidence(ClampConfidence(c)) == ClampConfidence(c)
    ensures c <= d ==> ClampConfidence(c) <= ClampConfidence(d)
  {
  }

  function Percent(confidence: real, f: Formats): string {
    f.percent(ClampConfidence(confidence) * 100.0)
  }

  // --------------------------------------------------------------- summaries

  /** `_build_recommendation_summary`, with the recommendation and timeframe
      values `_enum_to_str` gives. */
  function RecommendationSummary(rec: Recommendation, confidence: real, tf: Timeframe, f: Formats): (r: string)
    ensures StartsWith(r, Upper(RecommendationValue(rec)) + " ")
    ensures EndsWith(r, TimeframeValue(tf) + ")")
  {
    var head := Upper(RecommendationValue(rec)) + " ";
    var tail := TimeframeValue(tf) + ")";
    var mid := "(Confidence: " + Percent(confidence, f) + "%, Timeframe: ";
    var r := head + mid + tail;
    assert r[..|head|] == head;
    assert r[|r| - |tail|..] == tail;
    r
  }

  /** The rationale of the executive summary: the stripped reasoning, cut
      to 217 characters and an ellipsis when longer than 220, or the
      default text when blank. */
  function Rationale(reasoning: string): (r: string)
    ensures 0 < |r| <= RationaleLimit
    ensures Strip(reasoning) == [] ==> r == DefaultRationale
    ensures 0 < |Strip(reasoning)| <= RationaleLimit ==> r == Strip(reasoning)
    ensures |Strip(reasoning)| > RationaleLimit ==>
      |r| == RationaleLimit && r[..RationaleKeep] == Strip(reasoning)[..RationaleKeep] && r[RationaleKeep..] == Ellipsis
  {
    var s := Strip(reasoning);
    var short := if |s| > RationaleLimit then s[..RationaleKeep] + Ellipsis else s;
    if short == [] then DefaultRationale else short
  }

  const SummaryOpening: string := "Current recommendation is "

  /** `_build_executive_summary`: opens with the upper-cased recommendation
      and closes with the rationale. */
  function ExecutiveSummary(rec: Recommendation, confidence: real, tf: Timeframe, reasoning: string, f: Formats): (r: string)
    ensures StartsWith(r, SummaryOpening + Upper(RecommendationValue(rec)))
    ensures EndsWith(r, Rationale(reasoning))
  {
    var head := SummaryOpening + Upper(RecommendationValue(rec));
    var readable := ReplaceChar(TimeframeValue(tf), '_', ' ');
    var mid := " with " + Percent(confidence, f) + "% confidence for a " + readable + " horizon. Primary rationale: ";
    var tail := Rationale(reasoning);
    var r := head + mid + tail;
    assert r[..|head|] == head;
    assert r[|r| - |tail|..] == tail;
    r
  }

  // ------------------------------------------------------------- bullets

  predicate Filled(s: string) {
    s != []
  }

  /** `[str(item).strip() for item in items if str(item).strip()]`. */
  function Cleaned(items: seq<string>): (r: seq<string>)
    ensures forall k | 0 <= k < |r| :: r[k] != [] && Trimmed(r[k])
    ensures forall k | 0 <= k < |items| :: !IsBlank(items[k]) ==> Strip(items[k]) in r
    ensures |r| <= |items|
  {
    var all := StripAll(items);
    var r := Collections.Filter(all, Filled);
    forall k | 0 <= k < |r| ensures r[k] != [] && Trimmed(r[k]) {
      assert r[k] in all;
    }
    forall k | 0 <= k < |items| && !IsBlank(items[k]) ensures Strip(items[k]) in r {
      assert Filled(all[k]);
    }
    r
  }

  /** `_format_bullets`. */
  function FormatBullets(items: seq<string>): (r: string)
    ensures r != []
    ensures Cleaned(items) == [] ==> r == NoneNoted
    ensures Cleaned(items) != [] ==> StartsWith(r, "- " + Cleaned(items)[0])
  {
    var cleaned := Cleaned(items);
    if cleaned == [] then NoneNoted
    else
      var lines := Bullets(cleaned);
      JoinStartsWith(lines, "\n");
      Join(lines, "\n")
  }

  /** The bullet list the fallback body shows reads back, through the
      decision module's free-text factor parser, as the cleaned items: one
      factor per "- item" line. */
  lemma BulletsReadBack(items: seq<string>, loaded: Option<Json.Value>, containerStr: Json.Value -> string)
    requires Cleaned(items) != []
    requires forall k | 0 <= k < |Cleaned(items)| :: CleanItem(Cleaned(items)[k])
    requires !(loaded.Some? && loaded.value.List?)
    ensures ParseKeyFactors(FormatBullets(items), loaded, containerStr) == Cleaned(items)
  {
    BulletListRoundTrip(Cleaned(items), loaded, containerStr);
  }

  // ------------------------------------------------------------- sources

  /** One row of the sources payload: `{"title", "url", "query"}`. */
  datatype SourceRow = SourceRow(title: string, url: string, query: string)

  function Urls(rows: seq<SourceRow>): (r: seq<string>)
    ensures |r| == |rows|
    ensures forall k | 0 <= k < |rows| :: r[k] == rows[k].url
  {
    seq(|rows|, k requires 0 <= k < |rows| => rows[k].url)
  }

  /** Every web-search result as a candidate row: title, source and query
      stripped. */
  function Candidates(results: seq<WebSearchResult>): (r: seq<SourceRow>)
    ensures |r| == |results|
    ensures forall k | 0 <= k < |results| ::
      r[k] == SourceRow(Strip(results[k].title), Strip(results[k].source), Strip(results[k].query))
  {
    seq(|results|, k requires 0 <= k < |results| =>
      SourceRow(Strip(results[k].title), Strip(results[k].source), Strip(results[k].query)))
  }

  /** The loop of `_build_sources_payload` over candidate rows: a row is
      kept when its URL is non-empty and not seen before. */
  function KeepFirstPerUrl(cands: seq<SourceRow>): (r: seq<SourceRow>)
    ensures NoDuplicates(Urls(r))
    ensures forall k | 0 <= k < |r| :: r[k].url != [] && r[k] in cands
    ensures forall i | 0 <= i < |cands| :: cands[i].url != [] ==> cands[i].url in Urls(r)
    decreases |cands|
  {
    if |cands| == 0 then []
    else
      var init := cands[..|cands| - 1];
      var c := cands[|cands| - 1];
      var p := KeepFirstPerUrl(init);
      assert forall i | 0 <= i < |init| :: init[i] == cands[i];
      if c.url == [] || c.url in Urls(p) then p
      else
        var r := p + [c];
        assert Urls(r) == Urls(p) + [c.url];
        r
  }

  /** Candidate `i` is the first to carry its non-empty URL. */
  predicate FirstOfUrl(cands: seq<SourceRow>, i: nat)
    requires i < |cands|
  {
    cands[i].url != [] && forall j | 0 <= j < i :: cands[j].url != cands[i].url
  }

  /** The reference selection: the candidates that are first to carry
      their URL, in candidate order. */
  function FirstRows(cands: seq<SourceRow>): seq<SourceRow>
    decreases |cands|
  {
    if |cands| == 0 then []
    else
      var n := |cands| - 1;
      FirstRows(cands[..n]) + (if FirstOfUrl(cands, n) then [cands[n]] else [])
  }

  /** The seen-set loop keeps exactly the candidates that are first to
      carry their URL. */
  lemma {:induction false} KeepFirstIsFirstRows(cands: seq<SourceRow>)
    ensures KeepFirstPerUrl(cands) == FirstRows(cands)
    decreases |cands|
  {
    if |cands| > 0 {
      var n := |cands| - 1;
      var init := cands[..n];
      var c := cands[n];
      var p := KeepFirstPerUrl(init);
      KeepFirstIsFirstRows(init);
      if c.url != [] {
        if c.url in Urls(p) {
          var k :| 0 <= k < |p| && p[k].url == c.url;
          var j :| 0 <= j < |init| && init[j] == p[k];
          assert cands[j].url == c.url;
        } else {
          forall j | 0 <= j < n ensures cands[j].url != c.url {
            assert init[j] == cands[j];
            if init[j].url != [] {
              assert init[j].url in Urls(p);
            }
          }
        }
      }
    }
  }

  /** `_build_sources_payload(investigation)`. */
  function SourcesPayload(inv: Investigation): seq<SourceRow> {
    KeepFirstPerUrl(Candidates(inv.webSearchResults))
  }

  /** Every payload row carries a clean, non-empty URL and a clean title. */
  lemma PayloadRowsClean(inv: Investigation)
    ensures forall k | 0 <= k < |SourcesPayload(inv)| ::
      var row := SourcesPayload(inv)[k];
      row.url != [] && Trimmed(row.url) && Trimmed(row.title)
  {
    var cands := Candidates(inv.webSearchResults);
    var r := SourcesPayload(inv);
    forall k | 0 <= k < |r| ensures r[k].url != [] && Trimmed(r[k].url) && Trimmed(r[k].title) {
      var i :| 0 <= i < |cands| && cands[i] == r[k];
      var w := inv.webSearchResults[i];
      assert r[k].url == Strip(w.source) && r[k].title == Strip(w.title);
    }
  }

  /** One line of `_format_sources`. */
  function SourceLine(row: SourceRow): (r: string)
    ensures Strip(row.url) != [] ==> StartsWith(r, "- [")
  {
    var title := if Strip(row.title) != [] then Strip(row.title) else UntitledSource;
    var url := Strip(row.url);
    if url != [] then "- [" + title + "](" + url + ")" else "- " + title
  }

  function SourceLines(rows: seq<SourceRow>): (r: seq<string>)
    ensures |r| == |rows|
    ensures forall k | 0 <= k < |rows| :: r[k] == SourceLine(rows[k])
  {
    seq(|rows|, k requires 0 <= k < |rows| => SourceLine(rows[k]))
  }

  /** `_format_sources`. */
  function FormatSources(rows: seq<SourceRow>): (r: string)
    ensures rows == [] ==> r == NoSources
    ensures rows != [] ==> StartsWith(r, SourceLine(rows[0])) && EndsWith(r, SourceLine(rows[|rows| - 1]))
  {
    if rows == [] then NoSources
    else
      JoinStartsWith(SourceLines(rows), "\n");
      JoinEndsWith(SourceLines(rows), "\n");
      Join(SourceLines(rows), "\n")
  }

  /** A payload row with an empty title is linked as "Source". */
  lemma UntitledLink(row: SourceRow)
    requires Trimmed(row.url) && row.url != [] && IsBlank(row.title)
    ensures SourceLine(row) == "- [" + UntitledSource + "](" + row.url + ")"
  {
    StripOfStripped(row.url);
  }

  // ---------------------------------------------------- historical context

  /** One detail line of `_format_historical_context`, or None when it is
      empty. */
  function ContextDetail(row: PastInvestigation, f: Formats): (r: Option<string>)
    ensures r.Some? ==> StartsWith(r.value, "- ")
  {
    var date := Strip(f.isoDate(row.date));
    var significance := Strip(SignificanceValue(row.significance));
    var summary := Join(Cleaned(Take(row.keyFindings, FindingsPerRow)), ", ");
    var stamp := Strip(date + " [" + significance + "]");
    var detail := if summary != [] then (if stamp != [] then stamp + ": " + summary else summary) else stamp;
    if detail != [] then Some("- " + detail) else None
  }

  /** The date-and-significance stamp always holds its '[', so no row is
      ever skipped. */
  lemma ContextDetailPresent(row: PastInvestigation, f: Formats)
    ensures ContextDetail(row, f).Some?
  {
    var date := Strip(f.isoDate(row.date));
    var significance := Strip(SignificanceValue(row.significance));
    var raw := date + " [" + significance + "]";
    assert raw[|date| + 1] == '[';
    assert !IsSpace('[');
  }

  /** The detail lines of the rows, in order, skipping empty ones. */
  function ContextDetails(rows: seq<PastInvestigation>, f: Formats): (r: seq<string>)
    ensures |r| <= |rows|
  {
    Collections.Somes(seq(|rows|, k requires 0 <= k < |rows| => ContextDetail(rows[k], f)))
  }

  /** Every row yields its detail line. */
  lemma ContextDetailsAll(rows: seq<PastInvestigation>, f: Formats)
    ensures |ContextDetails(rows, f)| == |rows|
    ensures forall k | 0 <= k < |rows| :: Some(ContextDetails(rows, f)[k]) == ContextDetail(rows[k], f)
  {
    var details := seq(|rows|, k requires 0 <= k < |rows| => ContextDetail(rows[k], f));
    forall k | 0 <= k < |rows| ensures details[k].Some? {
      ContextDetailPresent(rows[k], f);
    }
    Collections.SomesAll(details);
  }

  function ContextHeader(total: int): string {
    IntToString(total) + " prior investigations available."
  }

  /** `_format_historical_context`. */
  function FormatHistoricalContext(ctx: Option<HistoricalContext>, f: Formats): (r: string)
    ensures ctx.None? || ctx.value.totalPastInvestigations <= 0 ==> r == FirstInvestigation
    ensures ctx.Some? && ctx.value.totalPastInvestigations > 0 ==>
      r == Join([ContextHeader(ctx.value.totalPastInvestigations)] + ContextDetails(Take(ctx.value.pastInvestigations, ContextRows), f), "\n")
  {
    if ctx.None? || ctx.value.totalPastInvestigations <= 0 then FirstInvestigation
    else
      var lines := [ContextHeader(ctx.value.totalPastInvestigations)] + ContextDetails(Take(ctx.value.pastInvestigations, ContextRows), f);
      Join(lines, "\n")
  }

  /** A context with past investigations is the header and one line for
      each of the first three of them. */
  lemma HistoricalContextLines(ctx: HistoricalContext, f: Formats)
    requires ctx.totalPastInvestigations > 0
    ensures var details := ContextDetails(Take(ctx.pastInvestigations, ContextRows), f);
      && |details| == (if |ctx.pastInvestigations| < ContextRows then |ctx.pastInvestigations| else ContextRows)
      && FormatHistoricalContext(Some(ctx), f) == Join([ContextHeader(ctx.totalPastInvestigations)] + details, "\n")
  {
    ContextDetailsAll(Take(ctx.pastInvestigations, ContextRows), f);
  }

  /** The context the analyzer records for an unknown company reads as a
      first investigation. */
  lemma EmptyContextIsFirst(f: Formats)
    ensures FormatHistoricalContext(Some(EmptyContext), f) == FirstInvestigation
  {
  }

  // ---------------------------------------------------------- fallback body

  function ReportHeading(inv: Investigation): string {
    "# " + inv.companyName + " (" + inv.companySymbol + ")"
  }

  /** The blocks under the nine headings, in order. */
  function SectionBlocks(inv: Investigation, a: Assessor.Assessment, recSummary: string, execSummary: string,
                         sources: seq<SourceRow>, f: Formats): (r: seq<string>)
    ensures |r| == |Headings|
  {
    [ execSummary,
      if inv.synthesis != [] then inv.synthesis else NoTrigger,
      FormatBullets(inv.keyFindings),
      FormatBullets(inv.positiveSignals),
      FormatHistoricalContext(inv.historicalContext, f),
      recSummary,
      FormatBullets(if a.risks != [] then a.risks else inv.redFlags),
      FormatBullets(inv.redFlags),
      FormatSources(sources) ]
  }

  /** Each section as three lines: a blank line, its heading, its block. */
  function SectionLines(heads: seq<string>, blocks: seq<string>): (r: seq<string>)
    requires |heads| == |blocks|
    ensures |r| == 3 * |heads|
    ensures forall i | 0 <= i < |heads| :: r[3 * i] == "" && r[3 * i + 1] == heads[i] && r[3 * i + 2] == blocks[i]
  {
    if heads == [] then []
    else ["", heads[0], blocks[0]] + SectionLines(heads[1..], blocks[1..])
  }

  /** The lines the fallback body joins: the heading line, the sections,
      then a blank line and the disclaimer. */
  function BodyLines(heading: string, blocks: seq<string>): (r: seq<string>)
    requires |blocks| == |Headings|
    ensures |r| == 3 * |Headings| + 3
    ensures r[0] == heading && r[|r| - 1] == Disclaimer && r[|r| - 2] == ""
    ensures forall i | 0 <= i < |Headings| :: r[3 * i + 1] == "" && r[3 * i + 2] == Headings[i] && r[3 * i + 3] == blocks[i]
  {
    [heading] + SectionLines(Headings, blocks) + ["", Disclaimer]
  }

  /** `_build_fallback_report_body`: the lines joined by newlines; the final
      `strip()` removes nothing, since the text opens with '#' and closes
      with the disclaimer's '_'. */
  function FallbackBody(inv: Investigation, a: Assessor.Assessment, recSummary: string, execSummary: string,
                        sources: seq<SourceRow>, f: Formats): (r: string)
    ensures r == Join(BodyLines(ReportHeading(inv), SectionBlocks(inv, a, recSummary, execSummary, sources, f)), "\n")
    ensures StartsWith(r, ReportHeading(inv)) && EndsWith(r, Disclaimer)
  {
    var lines := BodyLines(ReportHeading(inv), SectionBlocks(inv, a, recSummary, execSummary, sources, f));
    var joined := Join(lines, "\n");
    JoinStartsWith(lines, "\n");
    JoinEndsWith(lines, "\n");
    JoinFirst(lines, "\n");
    JoinLast(lines, "\n");
    assert ReportHeading(inv)[0] == '#';
    assert Disclaimer[|Disclaimer| - 1] == '_';
    StripOfStripped(joined);
    Strip(joined)
  }

  // --------------------------------------------------------------- generate

  function Or(given: string, fallback: string): string {
    if given != [] then given else fallback
  }

  function DefaultTitle(inv: Investigation): string {
    inv.companyName + " (" + inv.companySymbol + ") Analysis Report"
  }

  /** `generate(investigation, assessment)`: the failure of the module call
      or of the report save, which it does not catch, or the saved report.
      The report's id is a parameter. */
  function Generate(inv: Investigation, a: Assessor.Assessment, output: Attempt<ModuleResult>, save: Outcome,
                    reportId: string, f: Formats): (r: Attempt<AnalysisReport>)
    ensures r.Raise? <==> output.Raise? || save.Fails?
    ensures output.Raise? ==> r == Raise(output.message)
    ensures output.Ok? && save.Fails? ==> r == Raise(save.message)
    ensures r.Ok? ==>
      var m := output.value;
      var rep := r.value;
      var recSummary := Or(m.recommendationSummary, RecommendationSummary(a.newRecommendation, a.confidence, a.timeframe, f));
      var execSummary := Or(m.executiveSummary, ExecutiveSummary(a.newRecommendation, a.confidence, a.timeframe, a.reasoning, f));
      && rep.recommendationSummary == recSummary
      && rep.executiveSummary == execSummary
      && rep.title == Or(m.title, DefaultTitle(inv))
      && rep.reportBody == Or(m.reportBody, FallbackBody(inv, a, recSummary, execSummary, SourcesPayload(inv), f))
    ensures r.Ok? ==>
      && r.value.reportId == reportId && r.value.assessmentId == a.assessmentId
      && r.value.investigationId == inv.investigationId && r.value.triggerId == inv.triggerId
      && r.value.companySymbol == inv.companySymbol && r.value.companyName == inv.companyName
      && r.value.deliveryStatus == Generated && r.value.deliveredVia == [] && r.value.deliveredAt == None
  {
    match output
    case Raise(m) => Raise(m)
    case Ok(m) =>
      var recSummary := Or(m.recommendationSummary, RecommendationSummary(a.newRecommendation, a.confidence, a.timeframe, f));
      var execSummary := Or(m.executiveSummary, ExecutiveSummary(a.newRecommendation, a.confidence, a.timeframe, a.reasoning, f));
      var title := Or(m.title, DefaultTitle(inv));
      var body := Or(m.reportBody, FallbackBody(inv, a, recSummary, execSummary, SourcesPayload(inv), f));
      var report := AnalysisReport(reportId, a.assessmentId, inv.investigationId, inv.triggerId,
                                   inv.companySymbol, inv.companyName, title, execSummary, body, recSummary,
                                   Generated, [], None);
      match save
      case Fails(e) => Raise(e)
      case Done => Ok(report)
  }

  /** A generated report never has an empty title, summary or body: each
      empty module output is replaced by a non-empty fallback. */
  lemma GeneratedTextsFilled(inv: Investigation, a: Assessor.Assessment, output: Attempt<ModuleResult>, save: Outcome,
                             reportId: string, f: Formats)
    requires Generate(inv, a, output, save, reportId, f).Ok?
    ensures var rep := Generate(inv, a, output, save, reportId, f).value;
      rep.title != [] && rep.executiveSummary != [] && rep.reportBody != [] && rep.recommendationSummary != []
  {
    var m := output.value;
    var recSummary := Or(m.recommendationSummary, RecommendationSummary(a.newRecommendation, a.confidence, a.timeframe, f));
    var execSummary := Or(m.executiveSummary, ExecutiveSummary(a.newRecommendation, a.confidence, a.timeframe, a.reasoning, f));
    var body := FallbackBody(inv, a, recSummary, execSummary, SourcesPayload(inv), f);
    assert |Disclaimer| > 0;
  }
}

=== FILE: investigation.dfy ===
/** Layer 3 investigation records (models/investigation.py). Metrics and
    forward statements are kept as the decoded dictionaries that validated;
    the market snapshot and similar documents as decoded values. Dates are
    clock readings. */
module Investigations {
  import opened Wrappers
  import opened Json

  datatype Significance = High | Medium | Low | Noise

  function SignificanceValue(s: Significance): string {
    match s
    case High => "high"
    case Medium => "medium"
    case Low => "low"
    case Noise => "noise"
  }

  /** The member's name, as Python's `str()` of a `(str, Enum)` member shows it. */
  function SignificanceMember(s: Significance): string {
    match s
    case High => "HIGH"
    case Medium => "MEDIUM"
    case Low => "LOW"
    case Noise => "NOISE"
  }

  datatype WebSearchResult = WebSearchResult(
    query: string, source: string, title: string, summary: string, relevance: string, sentiment: string)

  /** One row of `past_investigations` in a historical context. */
  datatype PastInvestigation = PastInvestigation(
    investigationId: string, date: int, significance: Significance, keyFindings: seq<string>)

  datatype HistoricalContext = HistoricalContext(
    pastInvestigations: seq<PastInvestigation>,
    pastRecommendations: seq<string>,   // ids of inconclusive investigations
    similarDocuments: seq<Value>,
    totalPastInvestigations: int)

  const EmptyContext: HistoricalContext := HistoricalContext([], [], [], 0)

  datatype Investigation = Investigation(
    investigationId: string,
    triggerId: string,
    companySymbol: string,
    companyName: string,
    extractedMetrics: seq<Entries>,
    forwardStatements: seq<Entries>,
    managementHighlights: seq<string>,
    webSearchResults: seq<WebSearchResult>,
    marketData: Option<Value>,
    historicalContext: Option<HistoricalContext>,
    synthesis: string,
    keyFindings: seq<string>,
    redFlags: seq<string>,
    positiveSignals: seq<string>,
    significance: Significance,
    significanceReasoning: string,
    isSignificant: bool,
    llmModelUsed: string,
    totalInputTokens: int,
    totalOutputTokens: int,
    createdAt: int)

  /** An investigation as the model's defaults build it from its identity. */
  function NewInvestigation(investigationId: string, triggerId: string, symbol: string, name: string, createdAt: int): (r: Investigation)
    ensures r.significance == Medium && !r.isSignificant && r.historicalContext == None
    ensures r.keyFindings == [] && r.redFlags == [] && r.webSearchResults == []
    ensures r.totalInputTokens == 0 && r.totalOutputTokens == 0
  {
    Investigation(investigationId, triggerId, symbol, name, [], [], [], [], None, None,
                  "", [], [], [], Medium, "", false, "", 0, 0, createdAt)
  }
}

=== FILE: json.dfy ===
/** Decoded payload values: what `json.loads`, a feed parser or an LLM's
    structured output hands to the Python code. Decoding itself is not part
    of the model; payloads are inputs. A float carries Python's `str()` of
    itself, which the model does not compute. Lists, tuples and sets are all
    `List`. A dictionary is its entries in insertion order with distinct
    keys. */
module Json {
  import opened Wrappers
  import opened Text

  datatype Value =
    | Null
    | Bool(b: bool)
    | Int(i: int)
    | Float(x: real, repr: string)
    | Str(s: string)
    | List(items: seq<Value>)
    | Dict(entries: seq<(string, Value)>)

  type Entries = seq<(string, Value)>

  /** `d.get(key)`: the value stored under `key`, or None when absent. */
  function Lookup(d: Entries, key: string): (r: Option<Value>)
    ensures r.None? <==> forall i | 0 <= i < |d| :: d[i].0 != key
    ensures r.Some? ==> exists i | 0 <= i < |d| :: d[i] == (key, r.value)
  {
    if |d| == 0 then None
    else if d[0].0 == key then Some(d[0].1)
    else Lookup(d[1..], key)
  }

  /** `isinstance(v, (int, float))`: a bool is an int in Python. */
  predicate IsNumber(v: Value) {
    v.Bool? || v.Int? || v.Float?
  }

  /** Python truthiness: `None`, `False`, zero, and empty strings, lists and
      dictionaries are false. */
  predicate IsTruthy(v: Value) {
    match v
    case Null => false
    case Bool(b) => b
    case Int(i) => i != 0
    case Float(x, _) => x != 0.0
    case Str(s) => s != []
    case List(items) => items != []
    case Dict(entries) => entries != []
  }

  /** Python `str(v)`. Lists and dicts are rendered by `containerStr`
      (Python's repr of nested values), which the model does not compute. */
  function PyStr(v: Value, containerStr: Value -> string): string {
    match v
    case Null => "None"
    case Bool(b) => if b then "True" else "False"
    case Int(i) => IntToString(i)
    case Float(_, repr) => repr
    case Str(s) => s
    case _ => containerStr(v)
  }
}

=== FILE: lm_config.dfy ===
/** Provider-agnostic language-model configuration (dspy_modules/gate.py):
    the `<provider>/<model>` identifier and the keyword arguments handed to
    the model client. Creating the client and installing it globally are
    effects outside this model; `ConfigureLm` returns what would be passed. */
module LmConfig {
  import opened Wrappers
  import opened Text

  /** Providers that refuse to be configured without an API key. */
  const KeyedProviders: set<string> := {"anthropic", "openai", "azure"}

  /** The client's constructor arguments: the identifier and the two
      optional keyword arguments `api_key` and `api_base`. */
  datatype LmSettings = LmSettings(identifier: string, apiKey: Option<string>, apiBase: Option<string>)

  /** `build_dspy_model_identifier(provider, model)`. */
  function BuildIdentifier(provider: string, model: string): (r: string)
    ensures '/' in r
    ensures EndsWith(r, Strip(model))
    ensures '/' in Strip(model) ==> r == Strip(model)
    ensures '/' !in Strip(model) ==>
      r[..|r| - |Strip(model)|] == Lower(Strip(provider)) + "/"
  {
    var providerClean := Lower(Strip(provider));
    var modelClean := Strip(model);
    if '/' in modelClean then modelClean
    else
      var r := providerClean + "/" + modelClean;
      assert r[..|r| - |modelClean|] == providerClean + "/";
      assert r[|r| - |modelClean|..] == modelClean;
      r
  }

  /** An identifier carries no surrounding whitespace. */
  lemma IdentifierTrimmed(provider: string, model: string)
    ensures Trimmed(BuildIdentifier(provider, model))
  {
    var m := Strip(model);
    var r := BuildIdentifier(provider, model);
    if '/' !in m {
      var p := Lower(Strip(provider));
      assert r == p + "/" + m;
      if p != [] {
        LowerOfStripped(Strip(provider));
        assert r[0] == p[0];
      } else {
        assert r[0] == '/';
      }
      if m != [] {
        assert r[|r| - 1] == m[|m| - 1];
      } else {
        assert r[|r| - 1] == '/';
      }
    }
  }

  /** Building an identifier from an identifier gives it back, whatever the
      provider: it already holds a `/`. */
  lemma IdentifierIdempotent(provider: string, other: string, model: string)
    ensures BuildIdentifier(other, BuildIdentifier(provider, model)) == BuildIdentifier(provider, model)
  {
    var r := BuildIdentifier(provider, model);
    IdentifierTrimmed(provider, model);
    StripOfStripped(r);
  }

  /** Cleaning the provider before building, as `configure_dspy_lm` does,
      changes nothing. */
  lemma CleanProviderSameIdentifier(provider: string, model: string)
    ensures BuildIdentifier(Lower(Strip(provider)), model) == BuildIdentifier(provider, model)
  {
    var p := Lower(Strip(provider));
    LowerOfStripped(Strip(provider));
    StripOfStripped(p);
    LowerIdempotent(Strip(provider));
  }

  function MissingKeyMessage(providerClean: string): string {
    "API key is required for provider '" + providerClean + "'"
  }

  /** `configure_dspy_lm(provider=…, model=…, api_key=…, base_url=…)`: the
      `ValueError` for a keyed provider without a key, or the client's
      arguments. */
  function ConfigureLm(provider: string, model: string, apiKey: Option<string>, baseUrl: Option<string>): (r: Result<LmSettings, string>)
    ensures r.Failure? <==> Lower(Strip(provider)) in KeyedProviders && !Truthy(apiKey)
    ensures r.Failure? ==> r.error == MissingKeyMessage(Lower(Strip(provider)))
    ensures r.Success? ==> r.value.identifier == BuildIdentifier(provider, model)
    ensures r.Success? ==> (r.value.apiKey.Some? <==> Truthy(apiKey)) && (r.value.apiKey.Some? ==> r.value.apiKey == apiKey)
    ensures r.Success? ==> (r.value.apiBase.Some? <==> Truthy(baseUrl)) && (r.value.apiBase.Some? ==> r.value.apiBase == baseUrl)
  {
    var providerClean := Lower(Strip(provider));
    if providerClean in KeyedProviders && !Truthy(apiKey) then Failure(MissingKeyMessage(providerClean))
    else
      CleanProviderSameIdentifier(provider, model);
      Success(LmSettings(
        BuildIdentifier(providerClean, model),
        if Truthy(apiKey) then apiKey else None,
        if Truthy(baseUrl) then baseUrl else None))
  }

  /** A provider outside the keyed three, such as a local one, is configured
      with or without a key. */
  lemma UnkeyedProviderConfigures(provider: string, model: string, baseUrl: Option<string>)
    requires Lower(Strip(provider)) !in KeyedProviders
    ensures ConfigureLm(provider, model, None, baseUrl).Success?
    ensures ConfigureLm(provider, model, None, baseUrl).value.apiKey == None
  {
  }

  /** A provider and model given already clean are joined as they are. */
  lemma CleanIdentifier(provider: string, model: string)
    requires Trimmed(provider) && Lower(provider) == provider
    requires Trimmed(model) && '/' !in model
    ensures BuildIdentifier(provider, model) == provider + "/" + model
  {
    StripOfStripped(provider);
    StripOfStripped(model);
  }

  /** Anthropic without a key is refused. */
  lemma AnthropicNeedsKey(model: string)
    ensures ConfigureLm("anthropic", model, None, None) == Failure(MissingKeyMessage("anthropic"))
  {
    StripOfStripped("anthropic");
    assert Lower("anthropic") == "anthropic";
  }
}

=== FILE: manual_trigger.dfy ===
/** The dashboard's manual-trigger form (dashboard/manual_trigger_utils.py):
    the body it posts to the human-trigger route, built from the form's
    text fields. A `ValueError` is the `Failure` carrying its message. */
module ManualTrigger {
  import opened Wrappers
  import opened Text
  import opened Collections
  import TriggersApi
  import TriggerStore

  const SymbolRequired: string := "Company symbol is required"
  const SummaryRequired: string := "Event summary is required"

  /** The optional fields, in the order the payload lists them. */
  const OptionalKeys: seq<string> := ["company_name", "source_url", "triggered_by", "notes"]

  /** Every key a payload may hold. */
  const PayloadKeys: seq<string> := ["company_symbol", "content"] + OptionalKeys

  /** The entry an optional field contributes: its stripped value, or
      nothing when it is blank. */
  function OptionalEntry(key: string, raw: string): (r: seq<(string, string)>)
    ensures r == [] <==> IsBlank(raw)
    ensures r != [] ==> r == [(key, Strip(raw))] && Strip(raw) != []
  {
    var v := Strip(raw);
    if v == [] then [] else [(key, v)]
  }

  /** `build_manual_trigger_payload`: the symbol is checked before the
      summary; the payload holds the stripped, upper-cased symbol and the
      stripped summary, then each optional field that is not blank, stripped. */
  function BuildPayload(companySymbol: string, eventSummary: string, companyName: string,
                        sourceUrl: string, triggeredBy: string, notes: string): (r: Result<seq<(string, string)>, string>)
    ensures IsBlank(companySymbol) ==> r == Failure(SymbolRequired)
    ensures !IsBlank(companySymbol) && IsBlank(eventSummary) ==> r == Failure(SummaryRequired)
    ensures r.Success? <==> !IsBlank(companySymbol) && !IsBlank(eventSummary)
    ensures r.Success? ==>
      var p := r.value;
      && |p| >= 2
      && p[0] == ("company_symbol", Upper(Strip(companySymbol))) && p[0].1 != []
      && p[1] == ("content", Strip(eventSummary)) && p[1].1 != []
      && DistinctKeys(p)
      && (forall i | 0 <= i < |p| :: p[i].0 in PayloadKeys && p[i].1 != [])
      && Get(p, "company_name") == (if IsBlank(companyName) then None else Some(Strip(companyName)))
      && Get(p, "source_url") == (if IsBlank(sourceUrl) then None else Some(Strip(sourceUrl)))
      && Get(p, "triggered_by") == (if IsBlank(triggeredBy) then None else Some(Strip(triggeredBy)))
      && Get(p, "notes") == (if IsBlank(notes) then None else Some(Strip(notes)))
  {
    var symbol := Upper(Strip(companySymbol));
    var summary := Strip(eventSummary);
    if symbol == [] then Failure(SymbolRequired)
    else if summary == [] then Failure(SummaryRequired)
    else
      var a := OptionalEntry("company_name", companyName);
      var b := OptionalEntry("source_url", sourceUrl);
      var c := OptionalEntry("triggered_by", triggeredBy);
      var d := OptionalEntry("notes", notes);
      OptionalGet("company_name", companyName);
      OptionalGet("source_url", sourceUrl);
      OptionalGet("triggered_by", triggeredBy);
      OptionalGet("notes", notes);
      PayloadKeysDistinct();
      AssembleFacts(PayloadKeys, [("company_symbol", symbol), ("content", summary)], a, b, c, d);
      Success([("company_symbol", symbol), ("content", summary)] + a + b + c + d)
  }

  lemma OptionalGet(key: string, raw: string)
    ensures Get(OptionalEntry(key, raw), key) == if IsBlank(raw) then None else Some(Strip(raw))
  {
    if !IsBlank(raw) {
      assert KeyIndex(OptionalEntry(key, raw), key) == 0;
    }
  }

  lemma PayloadKeysDistinct()
    ensures NoDuplicates(PayloadKeys)
  {
    var k := PayloadKeys;
    assert k[0][1] == 'o' && k[1][1] == 'o' && k[2][1] == 'o' && k[3][1] == 'o' && k[4][1] == 'r' && k[5][1] == 'o';
    assert k[0][2] == 'm' && k[1][2] == 'n' && k[2][2] == 'm' && k[3][2] == 'u' && k[5][2] == 't';
    assert k[0][8] == 's' && k[2][8] == 'n';
  }

  /** An optional entry for key `k`: nothing, or that key with a
      non-empty value. */
  predicate EntryFor(e: seq<(string, string)>, k: string) {
    e == [] || (|e| == 1 && e[0].0 == k && e[0].1 != [])
  }

  /** The payload of a valid form, for distinct keys `K`: the two required
      entries, then the optional ones in their order. Its keys are distinct
      and among `K`, and each optional key reads its own entry. */
  lemma AssembleFacts(K: seq<string>, p1: seq<(string, string)>, a: seq<(string, string)>, b: seq<(string, string)>,
                      c: seq<(string, string)>, d: seq<(string, string)>)
    requires |K| == 6 && NoDuplicates(K)
    requires |p1| == 2 && p1[0].0 == K[0] && p1[1].0 == K[1] && p1[0].1 != [] && p1[1].1 != []
    requires EntryFor(a, K[2]) && EntryFor(b, K[3]) && EntryFor(c, K[4]) && EntryFor(d, K[5])
    ensures var p := p1 + a + b + c + d;
      && |p| >= 2 && p[0] == p1[0] && p[1] == p1[1]
      && DistinctKeys(p)
      && (forall i | 0 <= i < |p| :: p[i].0 in K && p[i].1 != [])
      && Get(p, K[2]) == Get(a, K[2])
      && Get(p, K[3]) == Get(b, K[3])
      && Get(p, K[4]) == Get(c, K[4])
      && Get(p, K[5]) == Get(d, K[5])
  {
    var p2 := p1 + a;
    var p3 := p2 + b;
    var p4 := p3 + c;
    var p5 := p4 + d;
    assert forall i, m | 0 <= i < |p1| && 2 <= m < 6 :: p1[i].0 != K[m];
    ExtendShape(K, p1, 2, a);
    ExtendGets(K, p1, 2, a);
    ExtendShape(K, p2, 3, b);
    ExtendGets(K, p2, 3, b);
    ExtendShape(K, p3, 4, c);
    ExtendGets(K, p3, 4, c);
    ExtendShape(K, p4, 5, d);
    ExtendGets(K, p4, 5, d);
  }

  /** Appending the entry of the `n`-th key of `K` to a payload that holds
      none of the keys from `n` on keeps the keys distinct and known. */
  lemma ExtendShape(K: seq<string>, p: seq<(string, string)>, n: nat, e: seq<(string, string)>)
    requires |K| == 6 && NoDuplicates(K)
    requires 2 <= n < 6 && EntryFor(e, K[n])
    requires DistinctKeys(p) && forall i | 0 <= i < |p| :: p[i].0 in K && p[i].1 != []
    requires forall i, m | 0 <= i < |p| && n <= m < 6 :: p[i].0 != K[m]
    ensures var q := p + e;
      && DistinctKeys(q)
      && (forall i | 0 <= i < |q| :: q[i].0 in K && q[i].1 != [])
      && (forall i, m | 0 <= i < |q| && n + 1 <= m < 6 :: q[i].0 != K[m])
  {
    var q := p + e;
    forall i | 0 <= i < |q| ensures q[i].0 in K && q[i].1 != [] {
      if i < |p| {
        assert q[i] == p[i];
      }
    }
    forall i, m | 0 <= i < |q| && n + 1 <= m < 6 ensures q[i].0 != K[m] {
      if i < |p| {
        assert q[i] == p[i];
      }
    }
  }

  /** ... and the new key reads the new entry, while the earlier keys read
      what they read before. */
  lemma ExtendGets(K: seq<string>, p: seq<(string, string)>, n: nat, e: seq<(string, string)>)
    requires |K| == 6 && NoDuplicates(K)
    requires 2 <= n < 6 && EntryFor(e, K[n])
    requires forall i, m | 0 <= i < |p| && n <= m < 6 :: p[i].0 != K[m]
    ensures var q := p + e;
      && Get(q, K[n]) == Get(e, K[n])
      && (forall m | 0 <= m < n :: Get(q, K[m]) == Get(p, K[m]))
  {
    var q := p + e;
    assert !HasKey(p, K[n]);
    GetAppend(p, e, K[n]);
    forall m | 0 <= m < n ensures Get(q, K[m]) == Get(p, K[m]) {
      GetAppend(p, e, K[m]);
    }
  }

  /** The request the human-trigger route parses from a payload. */
  function ToRequest(p: seq<(string, string)>): TriggersApi.HumanTriggerRequest {
    TriggersApi.HumanTriggerRequest(
      if Get(p, "content").Some? then Get(p, "content").value else [],
      Get(p, "company_symbol"), Get(p, "company_name"), Get(p, "source_url"),
      Get(p, "triggered_by"), Get(p, "notes"))
  }

  /** The route accepts every payload the form builds: the content is never
      empty, so it is not refused with 422, and the trigger it stores
      carries the normalised symbol and summary. */
  lemma PayloadAccepted(companySymbol: string, eventSummary: string, companyName: string,
                        sourceUrl: string, triggeredBy: string, notes: string,
                        st: TriggerStore.Store, id: string, now: int)
    requires BuildPayload(companySymbol, eventSummary, companyName, sourceUrl, triggeredBy, notes).Success?
    requires TriggerStore.Valid(st) && !TriggerStore.HasId(st.items, id)
    ensures var req := ToRequest(BuildPayload(companySymbol, eventSummary, companyName, sourceUrl, triggeredBy, notes).value);
      var r := TriggersApi.CreateHumanTrigger(st, req, id, now);
      && r.Success?
      && TriggerStore.Get(r.value.0, id).Some?
      && TriggerStore.Get(r.value.0, id).value.companySymbol == Some(Upper(Strip(companySymbol)))
      && TriggerStore.Get(r.value.0, id).value.rawContent == Strip(eventSummary)
  {
    var p := BuildPayload(companySymbol, eventSummary, companyName, sourceUrl, triggeredBy, notes).value;
    assert Get(p, "content") == Some(Strip(eventSummary)) by {
      assert KeyIndex(p, "content") == 1;
    }
    assert Get(p, "company_symbol") == Some(Upper(Strip(companySymbol))) by {
      assert KeyIndex(p, "company_symbol") == 0;
    }
  }
}

=== FILE: notes.dfy ===
/** The shared-notes routes of the HTTP API (api/notes.py): input
    normalisation, and create, list, get, update and delete over the notes
    collection. The collection is a sequence of notes in insertion order;
    the database is absent when none is configured. The vector index the
    routes refresh is modelled by the calls it receives. */
module Notes {
  import opened Wrappers
  import opened Text
  import opened Collections
  import TriggersApi

  type ApiError = TriggersApi.ApiError

  /** An `AnalysisNote`; times are instants in UTC. */
  datatype AnalysisNote = AnalysisNote(
    noteId: string,
    companySymbol: string,
    companyName: string,
    content: string,
    tags: seq<string>,
    investigationId: Option<string>,
    reportId: Option<string>,
    createdBy: string,
    createdAt: int,
    updatedAt: int)

  const SymbolRequired: string := "company_symbol is required"
  const ContentRequired: string := "content is required"
  const NothingToUpdate: string := "At least one field must be provided"
  const NoDatabase: string := "Database is not configured"
  const NotFound: string := "Note not found"
  const DefaultAuthor: string := "analyst"

  // ---------------------------------------------------------- normalising

  /** `_normalize_symbol`: stripped and upper-cased, refused with 400 when
      nothing is left. */
  function NormalizeSymbol(value: string): (r: Result<string, ApiError>)
    ensures r.Success? <==> !IsBlank(value)
    ensures r.Success? ==> r.value == Upper(Strip(value)) && r.value != [] && Trimmed(r.value)
    ensures r.Failure? ==> r.error == TriggersApi.HttpError(400, SymbolRequired)
  {
    var s := Strip(value);
    UpperOfStripped(s);
    var normalized := Upper(s);
    if normalized == [] then Failure(TriggersApi.HttpError(400, SymbolRequired)) else Success(normalized)
  }

  /** A normalised symbol normalises to itself. */
  lemma SymbolIdempotent(value: string)
    requires NormalizeSymbol(value).Success?
    ensures NormalizeSymbol(NormalizeSymbol(value).value) == NormalizeSymbol(value)
  {
    var u := NormalizeSymbol(value).value;
    StripOfStripped(u);
    UpperIdempotent(Strip(value));
  }

  /** `_normalize_content`: stripped, refused with 400 when blank. */
  function NormalizeContent(value: string): (r: Result<string, ApiError>)
    ensures r.Success? <==> !IsBlank(value)
    ensures r.Success? ==> r.value == Strip(value) && r.value != []
    ensures r.Failure? ==> r.error == TriggersApi.HttpError(400, ContentRequired)
  {
    var normalized := Strip(value);
    if normalized == [] then Failure(TriggersApi.HttpError(400, ContentRequired)) else Success(normalized)
  }

  lemma ContentIdempotent(value: string)
    requires NormalizeContent(value).Success?
    ensures NormalizeContent(NormalizeContent(value).value) == NormalizeContent(value)
  {
    StripIdempotent(value);
  }

  /** `_normalize_optional`: None stays None; a value is stripped, and
      becomes None when nothing is left. */
  function NormalizeOptional(value: Option<string>): (r: Option<string>)
    ensures r.None? <==> value.None? || IsBlank(value.value)
    ensures r.Some? ==> r.value == Strip(value.value) && r.value != [] && Trimmed(r.value)
  {
    if value.None? then None
    else
      var normalized := Strip(value.value);
      StripIdempotent(value.value);
      if normalized == [] then None else Some(normalized)
  }

  lemma OptionalIdempotent(value: Option<string>)
    ensures NormalizeOptional(NormalizeOptional(value)) == NormalizeOptional(value)
  {
    if value.Some? {
      StripIdempotent(value.value);
    }
  }

  /** One tag as `_normalize_tags` writes it: stripped, then lower-cased. */
  function TagForm(row: string): (t: string)
    ensures t == [] <==> IsBlank(row)
    ensures Trimmed(t) && Lower(t) == t
  {
    var s := Strip(row);
    StripIdempotent(row);
    LowerOfStripped(s);
    LowerIdempotent(s);
    Lower(s)
  }

  predicate NonEmptyTag(t: string) {
    t != []
  }

  /** `value or []`. */
  function Rows(value: Option<seq<string>>): seq<string> {
    if value.None? then [] else value.value
  }

  function TagForms(rows: seq<string>): (r: seq<string>)
    ensures |r| == |rows|
    ensures forall k | 0 <= k < |rows| :: r[k] == TagForm(rows[k])
  {
    seq(|rows|, k requires 0 <= k < |rows| => TagForm(rows[k]))
  }

  /** The tags `_normalize_tags` keeps: each row's tag form, blanks
      dropped, each tag once, in the order of its first occurrence. */
  function NormalizeTags(value: Option<seq<string>>): (tags: seq<string>)
    ensures NoDuplicates(tags)
    ensures forall k | 0 <= k < |tags| :: tags[k] != [] && Trimmed(tags[k]) && Lower(tags[k]) == tags[k]
    ensures forall k | 0 <= k < |tags| :: tags[k] in TagForms(Rows(value))
    ensures forall j | 0 <= j < |Rows(value)| :: !IsBlank(Rows(value)[j]) ==> TagForm(Rows(value)[j]) in tags
  {
    var tags := Dedup(Filter(TagForms(Rows(value)), NonEmptyTag));
    forall k | 0 <= k < |tags|
      ensures tags[k] != [] && Trimmed(tags[k]) && Lower(tags[k]) == tags[k]
      ensures tags[k] in TagForms(Rows(value))
    {
      KeptTagIsForm(Rows(value), tags[k]);
    }
    forall j | 0 <= j < |Rows(value)| && !IsBlank(Rows(value)[j]) ensures TagForm(Rows(value)[j]) in tags {
      FormIsKept(Rows(value), j);
    }
    tags
  }

  /** A kept tag is the tag form of some row. */
  lemma KeptTagIsForm(rows: seq<string>, t: string)
    requires t in Dedup(Filter(TagForms(rows), NonEmptyTag))
    ensures t != [] && Trimmed(t) && Lower(t) == t && t in TagForms(rows)
  {
    var forms := TagForms(rows);
    var kept := Filter(forms, NonEmptyTag);
    var m :| 0 <= m < |kept| && kept[m] == t;
    var j :| 0 <= j < |forms| && forms[j] == kept[m];
    assert t == TagForm(rows[j]);
  }

  /** The tag form of every non-blank row is kept. */
  lemma FormIsKept(rows: seq<string>, j: nat)
    requires j < |rows| && !IsBlank(rows[j])
    ensures TagForm(rows[j]) in Dedup(Filter(TagForms(rows), NonEmptyTag))
  {
    var forms := TagForms(rows);
    var kept := Filter(forms, NonEmptyTag);
    assert forms[j] in kept;
    var m :| 0 <= m < |kept| && kept[m] == forms[j];
  }

  /** One row more for `_normalize_tags`: its tag is appended unless it is
      empty or already kept. */
  lemma TagsStep(rows: seq<string>, i: nat)
    requires i < |rows|
    ensures var tags := Dedup(Filter(TagForms(rows[..i]), NonEmptyTag));
      var tag := TagForm(rows[i]);
      Dedup(Filter(TagForms(rows[..i + 1]), NonEmptyTag)) ==
        if tag == [] || tag in tags then tags else tags + [tag]
  {
    var tag := TagForm(rows[i]);
    var forms := TagForms(rows[..i]);
    var before := Filter(forms, NonEmptyTag);
    TagFormsSnoc(rows, i);
    FilterSnoc(forms, tag, NonEmptyTag);
    if tag != [] {
      assert Filter(TagForms(rows[..i + 1]), NonEmptyTag) == before + [tag];
      DedupSnoc(before, tag);
      DedupHas(before, tag);
    } else {
      assert Filter(TagForms(rows[..i + 1]), NonEmptyTag) == before;
    }
  }

  lemma TagFormsSnoc(rows: seq<string>, i: nat)
    requires i < |rows|
    ensures TagForms(rows[..i + 1]) == TagForms(rows[..i]) + [TagForm(rows[i])]
  {
    var a := TagForms(rows[..i + 1]);
    var b := TagForms(rows[..i]) + [TagForm(rows[i])];
    assert |a| == |b|;
    forall k | 0 <= k < |a| ensures a[k] == b[k] {
      assert rows[..i + 1][k] == rows[k];
      if k < i {
        assert rows[..i][k] == rows[k];
      }
    }
  }

  /** The loop `_normalize_tags` runs, with its `seen` set, computes
      exactly the tags above. */
  method NormalizeTagsLoop(value: Option<seq<string>>) returns (tags: seq<string>)
    ensures tags == NormalizeTags(value)
  {
    var rows := Rows(value);
    var seen: set<string> := {};
    tags := [];
    for i := 0 to |rows|
      invariant tags == Dedup(Filter(TagForms(rows[..i]), NonEmptyTag))
      invariant forall t :: t in seen <==> t in tags
    {
      var tag := TagForm(rows[i]);
      TagsStep(rows, i);
      if tag == [] || tag in seen {
        continue;
      }
      seen := seen + {tag};
      tags := tags + [tag];
    }
    assert rows[..|rows|] == rows;
  }

  // -------------------------------------------------------------- creating

  datatype NoteCreateRequest = NoteCreateRequest(
    companySymbol: string,
    content: string,
    companyName: Option<string>,
    tags: seq<string>,
    investigationId: Option<string>,
    reportId: Option<string>,
    createdBy: Option<string>)

  /** The notes collection, or None when no database is configured. */
  type NoteDb = Option<seq<AnalysisNote>>

  /** `POST /api/v1/notes/`: the symbol is normalised first and the
      content second, so a request with both blank is refused for its
      symbol; the database is consulted only for a valid request. The new
      note is appended. `id` is the fresh identifier the model would draw,
      `now` the clock. */
  function CreateNote(db: NoteDb, payload: NoteCreateRequest, id: string, now: int): (r: Result<(seq<AnalysisNote>, AnalysisNote), ApiError>)
    ensures IsBlank(payload.companySymbol) ==> r == Failure(TriggersApi.HttpError(400, SymbolRequired))
    ensures !IsBlank(payload.companySymbol) && IsBlank(payload.content) ==>
              r == Failure(TriggersApi.HttpError(400, ContentRequired))
    ensures !IsBlank(payload.companySymbol) && !IsBlank(payload.content) && db.None? ==>
              r == Failure(TriggersApi.HttpError(503, NoDatabase))
    ensures r.Success? <==> !IsBlank(payload.companySymbol) && !IsBlank(payload.content) && db.Some?
    ensures r.Success? ==>
      var n := r.value.1;
      && r.value.0 == db.value + [n]
      && n.noteId == id && n.createdAt == now && n.updatedAt == now
      && n.companySymbol == Upper(Strip(payload.companySymbol))
      && n.content == Strip(payload.content)
      && n.tags == NormalizeTags(Some(payload.tags))
      && n.companyName == (if Truthy(NormalizeOptional(payload.companyName)) then Strip(payload.companyName.value) else [])
      && n.createdBy == (if Truthy(NormalizeOptional(payload.createdBy)) then Strip(payload.createdBy.value) else DefaultAuthor)
      && n.investigationId == NormalizeOptional(payload.investigationId)
      && n.reportId == NormalizeOptional(payload.reportId)
  {
    match NormalizeSymbol(payload.companySymbol)
    case Failure(e) => Failure(e)
    case Success(symbol) =>
      match NormalizeContent(payload.content)
      case Failure(e) => Failure(e)
      case Success(content) =>
        var author := NormalizeOptional(payload.createdBy);
        var note := AnalysisNote(id, symbol, OrEmpty(NormalizeOptional(payload.companyName)), content,
                                 NormalizeTags(Some(payload.tags)),
                                 NormalizeOptional(payload.investigationId), NormalizeOptional(payload.reportId),
                                 if Truthy(author) then author.value else DefaultAuthor, now, now);
        if db.None? then Failure(TriggersApi.HttpError(503, NoDatabase)) else Success((db.value + [note], note))
  }

  // --------------------------------------------------------------- listing

  /** The filter `list_notes` sends: an exact symbol and a tag the note's
      tags must contain. */
  datatype NoteQuery = NoteQuery(company: Option<string>, tag: Option<string>)

  predicate Matches(q: NoteQuery, n: AnalysisNote) {
    && (q.company.None? || n.companySymbol == q.company.value)
    && (q.tag.None? || q.tag.value in n.tags)
  }

  /** The query for the given parameters; an empty parameter adds nothing,
      a blank symbol is refused. */
  function BuildQuery(company: Option<string>, tag: Option<string>): (r: Result<NoteQuery, ApiError>)
    ensures r.Failure? <==> Truthy(company) && IsBlank(company.value)
    ensures r.Failure? ==> r.error == TriggersApi.HttpError(400, SymbolRequired)
    ensures r.Success? ==> r.value.company == (if Truthy(company) then Some(Upper(Strip(company.value))) else None)
    ensures r.Success? ==> r.value.tag == (if Truthy(tag) then Some(TagForm(tag.value)) else None)
  {
    var tagFilter := if Truthy(tag) then Some(TagForm(tag.value)) else None;
    if Truthy(company) then
      match NormalizeSymbol(company.value)
      case Failure(e) => Failure(e)
      case Success(symbol) => Success(NoteQuery(Some(symbol), tagFilter))
    else Success(NoteQuery(None, tagFilter))
  }

  datatype NoteList = NoteList(items: seq<AnalysisNote>, total: nat)

  function UpdatedKey(n: AnalysisNote): real {
    n.updatedAt as real
  }

  /** `s[offset:offset + limit]` for a non-negative offset and limit. */
  function Window<T>(s: seq<T>, offset: nat, limit: nat): (r: seq<T>)
    ensures |r| <= limit
    ensures offset <= |s| ==> offset + |r| <= |s| && r == s[offset..offset + |r|]
    ensures offset + limit <= |s| ==> |r| == limit
    ensures offset >= |s| ==> r == []
  {
    var lo := if offset <= |s| then offset else |s|;
    var hi := if offset + limit <= |s| then offset + limit else |s|;
    s[lo..hi]
  }

  /** `GET /api/v1/notes/`: the limit must lie in [1, 200] and the offset
      must not be negative (HTTP 422); then the query is built and the
      database consulted. `total` counts every matching note; `items` is
      the page at `offset` of the matching notes, newest update first. */
  function ListNotes(db: NoteDb, company: Option<string>, tag: Option<string>, limit: int, offset: int): (r: Result<NoteList, ApiError>)
    ensures !(1 <= limit <= 200 && offset >= 0) ==> r.Failure? && r.error.HttpError? && r.error.code == 422
    ensures 1 <= limit <= 200 && offset >= 0 ==>
      match BuildQuery(company, tag)
      case Failure(e) => r == Failure(e)
      case Success(q) =>
        if db.None? then r == Failure(TriggersApi.HttpError(503, NoDatabase))
        else
          var matching := Filter(db.value, (n: AnalysisNote) => Matches(q, n));
          && r.Success?
          && r.value.total == |matching|
          && |r.value.items| <= limit
          && (forall k | 0 <= k < |r.value.items| :: Matches(q, r.value.items[k]))
          && SortedDesc(r.value.items, UpdatedKey)
          && multiset(r.value.items) <= multiset(matching)
          && (offset + limit <= |matching| ==> |r.value.items| == limit)
          && (exists s :: SortedDesc(s, UpdatedKey) && multiset(s) == multiset(matching) &&
                r.value.items == Window(s, offset, limit))
  {
    if !(1 <= limit <= 200) then Failure(TriggersApi.HttpError(422, "limit must lie between 1 and 200"))
    else if offset < 0 then Failure(TriggersApi.HttpError(422, "offset must not be negative"))
    else
      match BuildQuery(company, tag)
      case Failure(e) => Failure(e)
      case Success(q) =>
        if db.None? then Failure(TriggersApi.HttpError(503, NoDatabase))
        else
          var matching := Filter(db.value, (n: AnalysisNote) => Matches(q, n));
          var items := Page(matching, offset, limit);
          PageOfMatching(q, matching, offset, limit);
          Success(NoteList(items, |matching|))
  }

  /** The page at `offset` of the notes, newest update first. */
  function Page(notes: seq<AnalysisNote>, offset: nat, limit: nat): seq<AnalysisNote> {
    Window(SortByKeyDesc(notes, UpdatedKey), offset, limit)
  }

  /** A page of matching notes holds only matching notes, sorted, drawn
      from the notes, and is a window of a sorted arrangement of them. */
  lemma PageOfMatching(q: NoteQuery, matching: seq<AnalysisNote>, offset: nat, limit: nat)
    requires forall k | 0 <= k < |matching| :: Matches(q, matching[k])
    ensures var items := Page(matching, offset, limit);
      && |items| <= limit
      && (forall k | 0 <= k < |items| :: Matches(q, items[k]))
      && SortedDesc(items, UpdatedKey)
      && multiset(items) <= multiset(matching)
      && (offset + limit <= |matching| ==> |items| == limit)
      && (exists s :: SortedDesc(s, UpdatedKey) && multiset(s) == multiset(matching) && items == Window(s, offset, limit))
  {
    var sorted := SortByKeyDesc(matching, UpdatedKey);
    var items := Window(sorted, offset, limit);
    WindowOfSorted(sorted, offset, limit, UpdatedKey);
    forall k | 0 <= k < |items| ensures Matches(q, items[k]) {
      assert items[k] in multiset(sorted);
      assert items[k] in multiset(matching);
    }
    assert |sorted| == |matching| by {
      assert |multiset(sorted)| == |multiset(matching)|;
    }
    assert SortedDesc(sorted, UpdatedKey) && multiset(sorted) == multiset(matching) &&
      items == Window(sorted, offset, limit);
  }

  lemma WindowOfSorted<T>(s: seq<T>, offset: nat, limit: nat, key: T -> real)
    requires SortedDesc(s, key)
    ensures SortedDesc(Window(s, offset, limit), key)
    ensures multiset(Window(s, offset, limit)) <= multiset(s)
  {
    var w := Window(s, offset, limit);
    if offset <= |s| {
      var hi := offset + |w|;
      assert s == s[..offset] + w + s[hi..];
      forall i, j | 0 <= i < j < |w| ensures key(w[i]) >= key(w[j]) {
        assert w[i] == s[offset + i] && w[j] == s[offset + j];
      }
    }
  }

  /** A listing counts every note that matches its query. */
  lemma ListedWhenMatching(db: seq<AnalysisNote>, company: Option<string>, tag: Option<string>, q: NoteQuery, k: nat)
    requires BuildQuery(company, tag) == Success(q)
    requires k < |db| && Matches(q, db[k])
    ensures ListNotes(Some(db), company, tag, 200, 0).value.total >= 1
  {
    var matching := Filter(db, (n: AnalysisNote) => Matches(q, n));
    assert db[k] in matching;
  }

  /** A created note is found by its own symbol, in any case and padding. */
  lemma CreatedNoteListedBySymbol(db: NoteDb, payload: NoteCreateRequest, id: string, now: int, company: string)
    requires CreateNote(db, payload, id, now).Success?
    requires NormalizeSymbol(company) == NormalizeSymbol(payload.companySymbol)
    ensures ListNotes(Some(CreateNote(db, payload, id, now).value.0), Some(company), None, 200, 0).value.total >= 1
  {
    var after := CreateNote(db, payload, id, now).value;
    var last := |after.0| - 1;
    assert after.0[last] == after.1;
    var q := NoteQuery(Some(after.1.companySymbol), None);
    assert company != [];
    assert BuildQuery(Some(company), None) == Success(q);
    ListedWhenMatching(after.0, Some(company), None, q, last);
  }

  lemma TaggedListed(notes: seq<AnalysisNote>, tag: string, k: nat)
    requires k < |notes| && TagForm(tag) in notes[k].tags
    ensures ListNotes(Some(notes), None, Some(tag), 200, 0).value.total >= 1
  {
    var q := NoteQuery(None, if tag != [] then Some(TagForm(tag)) else None);
    assert BuildQuery(None, Some(tag)) == Success(q);
    ListedWhenMatching(notes, None, Some(tag), q, k);
  }

  /** The created note is the collection's last. */
  lemma CreatedLast(db: NoteDb, payload: NoteCreateRequest, id: string, now: int) returns (last: nat)
    requires CreateNote(db, payload, id, now).Success?
    ensures var r := CreateNote(db, payload, id, now).value;
      && last < |r.0| && r.0[last].tags == NormalizeTags(Some(payload.tags))
  {
    var r := CreateNote(db, payload, id, now).value;
    last := |r.0| - 1;
    assert r.0[last] == r.1;
  }

  lemma TagKept(rows: seq<string>, tag: string)
    requires tag in rows && !IsBlank(tag)
    ensures TagForm(tag) in NormalizeTags(Some(rows))
  {
    var j :| 0 <= j < |rows| && rows[j] == tag;
    assert Rows(Some(rows))[j] == tag;
  }

  /** A created note is found by each of the tags it was given. */
  lemma CreatedNoteListedByTag(db: NoteDb, payload: NoteCreateRequest, id: string, now: int, tag: string)
    requires CreateNote(db, payload, id, now).Success?
    requires tag in payload.tags && !IsBlank(tag)
    ensures ListNotes(Some(CreateNote(db, payload, id, now).value.0), None, Some(tag), 200, 0).value.total >= 1
  {
    var notes := CreateNote(db, payload, id, now).value.0;
    var last := CreatedLast(db, payload, id, now);
    TagKept(payload.tags, tag);
    TaggedListed(notes, tag, last);
  }

  /** A tag parameter made of whitespace asks for the empty tag, which no
      note created through these routes carries: such a listing is empty. */
  lemma BlankTagMatchesNothing(db: seq<AnalysisNote>, tag: string)
    requires forall k | 0 <= k < |db| :: [] !in db[k].tags
    requires tag != [] && IsBlank(tag)
    ensures ListNotes(Some(db), None, Some(tag), 200, 0).value.total == 0
  {
    var q := BuildQuery(None, Some(tag)).value;
    assert q.tag == Some([]);
    FilterNone(db, (n: AnalysisNote) => Matches(q, n));
  }

  // ------------------------------------------------- get, update, delete

  function FindNote(notes: seq<AnalysisNote>, id: string): (i: nat)
    ensures i <= |notes|
    ensures i < |notes| ==> notes[i].noteId == id
    ensures forall j | 0 <= j < i :: notes[j].noteId != id
  {
    FirstMatch(notes, (n: AnalysisNote) => n.noteId == id)
  }

  /** `GET /api/v1/notes/{note_id}`: the first note with that id, or 404. */
  function GetNote(db: NoteDb, id: string): (r: Result<AnalysisNote, ApiError>)
    ensures db.None? ==> r == Failure(TriggersApi.HttpError(503, NoDatabase))
    ensures db.Some? ==> (r.Success? <==> exists k | 0 <= k < |db.value| :: db.value[k].noteId == id)
    ensures r.Success? ==> r.value.noteId == id && r.value in db.value
    ensures db.Some? && r.Failure? ==> r.error == TriggersApi.HttpError(404, NotFound)
  {
    if db.None? then Failure(TriggersApi.HttpError(503, NoDatabase))
    else
      var i := FindNote(db.value, id);
      if i < |db.value| then Success(db.value[i]) else Failure(TriggersApi.HttpError(404, NotFound))
  }

  datatype NoteUpdateRequest = NoteUpdateRequest(content: Option<string>, tags: Option<seq<string>>)

  /** `PUT /api/v1/notes/{note_id}`: given content must not be blank, and
      something must be given; then the first note with that id has its
      given fields replaced and its update time set. Given tags replace the
      note's tags even when none survive normalisation. */
  function UpdateNote(db: NoteDb, id: string, payload: NoteUpdateRequest, now: int): (r: Result<(seq<AnalysisNote>, AnalysisNote), ApiError>)
    ensures payload.content.Some? && IsBlank(payload.content.value) ==>
              r == Failure(TriggersApi.HttpError(400, ContentRequired))
    ensures payload.content.None? && payload.tags.None? ==>
              r == Failure(TriggersApi.HttpError(400, NothingToUpdate))
    ensures r.Success? <==>
              && (payload.content.Some? || payload.tags.Some?)
              && (payload.content.Some? ==> !IsBlank(payload.content.value))
              && db.Some? && exists k | 0 <= k < |db.value| :: db.value[k].noteId == id
    ensures r.Success? ==>
      var i := FindNote(db.value, id);
      var prior := db.value[i];
      var n := r.value.1;
      && r.value.0 == db.value[i := n]
      && n == prior.(content := if payload.content.Some? then Strip(payload.content.value) else prior.content,
                   tags := if payload.tags.Some? then NormalizeTags(payload.tags) else prior.tags,
                   updatedAt := now)
  {
    var content: Result<Option<string>, ApiError> :=
      if payload.content.None? then Success(None)
      else match NormalizeContent(payload.content.value)
           case Failure(e) => Failure(e)
           case Success(c) => Success(Some(c));
    if content.Failure? then Failure(content.error)
    else if content.value.None? && payload.tags.None? then Failure(TriggersApi.HttpError(400, NothingToUpdate))
    else if db.None? then Failure(TriggersApi.HttpError(503, NoDatabase))
    else
      var i := FindNote(db.value, id);
      if i == |db.value| then Failure(TriggersApi.HttpError(404, NotFound))
      else
        var prior := db.value[i];
        var n := prior.(content := if content.value.Some? then content.value.value else prior.content,
                      tags := if payload.tags.Some? then NormalizeTags(payload.tags) else prior.tags,
                      updatedAt := now);
        Success((db.value[i := n], n))
  }

  /** The first note with an id is the one at the position that holds it
      and that no earlier note holds. */
  lemma FindNoteAt(notes: seq<AnalysisNote>, id: string, i: nat)
    requires i < |notes| && notes[i].noteId == id
    requires forall j | 0 <= j < i :: notes[j].noteId != id
    ensures FindNote(notes, id) == i
  {
  }

  /** The note an update returns is the one a later get reads back, and no
      other note changes. */
  lemma UpdateThenGet(db: NoteDb, id: string, payload: NoteUpdateRequest, now: int)
    requires UpdateNote(db, id, payload, now).Success?
    ensures GetNote(Some(UpdateNote(db, id, payload, now).value.0), id) == Success(UpdateNote(db, id, payload, now).value.1)
    ensures |UpdateNote(db, id, payload, now).value.0| == |db.value|
    ensures forall k | 0 <= k < |db.value| && k != FindNote(db.value, id) ::
              UpdateNote(db, id, payload, now).value.0[k] == db.value[k]
  {
    var r := UpdateNote(db, id, payload, now).value;
    var i := FindNote(db.value, id);
    assert r.0 == db.value[i := r.1];
    FindNoteAt(r.0, id, i);
  }

  datatype NoteDeleteResponse = NoteDeleteResponse(noteId: string, deleted: bool)

  /** `DELETE /api/v1/notes/{note_id}`: the first note with that id is
      removed, or 404 when there is none. */
  function DeleteNote(db: NoteDb, id: string): (r: Result<(seq<AnalysisNote>, NoteDeleteResponse), ApiError>)
    ensures db.None? ==> r == Failure(TriggersApi.HttpError(503, NoDatabase))
    ensures db.Some? ==> (r.Success? <==> exists k | 0 <= k < |db.value| :: db.value[k].noteId == id)
    ensures db.Some? && r.Failure? ==> r.error == TriggersApi.HttpError(404, NotFound)
    ensures r.Success? ==>
      var i := FindNote(db.value, id);
      && r.value.1 == NoteDeleteResponse(id, true)
      && r.value.0 == db.value[..i] + db.value[i + 1..]
  {
    if db.None? then Failure(TriggersApi.HttpError(503, NoDatabase))
    else
      var i := FindNote(db.value, id);
      if i == |db.value| then Failure(TriggersApi.HttpError(404, NotFound))
      else Success((db.value[..i] + db.value[i + 1..], NoteDeleteResponse(id, true)))
  }

  predicate DistinctIds(notes: seq<AnalysisNote>) {
    forall i, j | 0 <= i < j < |notes| :: notes[i].noteId != notes[j].noteId
  }

  /** With distinct ids, a deleted note is gone: a later get answers 404,
      and every other note is still there. */
  lemma DeleteThenMissing(db: seq<AnalysisNote>, id: string)
    requires DistinctIds(db)
    requires DeleteNote(Some(db), id).Success?
    ensures var after := DeleteNote(Some(db), id).value.0;
      && GetNote(Some(after), id) == Failure(TriggersApi.HttpError(404, NotFound))
      && |after| == |db| - 1
      && forall k | 0 <= k < |db| && db[k].noteId != id :: db[k] in after
  {
    var i := FindNote(db, id);
    var after := db[..i] + db[i + 1..];
    forall k | 0 <= k < |after| ensures after[k].noteId != id {
      if k < i {
        assert after[k] == db[k];
      } else {
        assert after[k] == db[k + 1];
      }
    }
    forall k | 0 <= k < |db| && db[k].noteId != id ensures db[k] in after {
      if k < i {
        assert after[k] == db[k];
      } else {
        assert k != i;
        assert after[k - 1] == db[k];
      }
    }
  }

  // ------------------------------------------------------- stored times

  /** A stored time field: a naive or an aware datetime (as its UTC
      instant) or anything else. */
  datatype StoredTime = NaiveTime(t: int) | AwareTime(t: int) | NotATime

  /** `_coerce_datetime`: a naive time is read as UTC, an aware one is
      converted to UTC, and anything else gives way to the fallback. */
  function CoerceTime(v: StoredTime, fallback: int): (t: int)
    ensures v.NotATime? ==> t == fallback
    ensures !v.NotATime? ==> t == v.t
  {
    match v
    case NaiveTime(t) => t
    case AwareTime(t) => t
    case NotATime => fallback
  }

  /** `_to_note`'s two times: a missing creation time is the clock, and a
      missing update time is the creation time. */
  function NoteTimes(created: StoredTime, updated: StoredTime, now: int): (r: (int, int))
    ensures r.0 == CoerceTime(created, now) && r.1 == CoerceTime(updated, r.0)
    ensures created.NotATime? && updated.NotATime? ==> r == (now, now)
  {
    var c := CoerceTime(created, now);
    (c, CoerceTime(updated, c))
  }

  // ---------------------------------------------------------- the index

  /** A call the vector index receives. */
  datatype IndexCall = DeleteFromIndex(documentId: string) | AddToIndex(documentId: string, text: string, tagsText: string)

  /** `_index_note`: without an index nothing happens; otherwise the
      note's old chunks are deleted and its content added under its id,
      with the tags joined by commas. A failing delete ends the attempt
      silently. */
  function IndexNote(hasIndex: bool, deleteOk: bool, n: AnalysisNote): (calls: seq<IndexCall>)
    ensures !hasIndex ==> calls == []
    ensures hasIndex ==> |calls| >= 1 && calls[0] == DeleteFromIndex(n.noteId)
    ensures hasIndex && deleteOk ==> calls == [DeleteFromIndex(n.noteId), AddToIndex(n.noteId, n.content, Join(n.tags, ","))]
  {
    if !hasIndex then []
    else if !deleteOk then [DeleteFromIndex(n.noteId)]
    else [DeleteFromIndex(n.noteId), AddToIndex(n.noteId, n.content, Join(n.tags, ","))]
  }

  /** The indexed tags text splits back into the note's tags when no tag
      holds a comma. */
  lemma IndexedTagsReadBack(n: AnalysisNote)
    requires n.tags != []
    requires forall k | 0 <= k < |n.tags| :: ',' !in n.tags[k]
    ensures Split(IndexNote(true, true, n)[1].tagsText, ',') == n.tags
  {
    SplitJoin(n.tags, ',');
  }
}

=== FILE: orchestrator.dfy ===
/** The pipeline orchestrator (pipeline/orchestrator.py) as a state machine.
    Every collaborator call is replaced by a scripted outcome (`Ok(v)` or
    `Raise(message)`, or `Done`/`Fails` for calls that return nothing), and
    the run records what it did: the status updates it sent to the trigger
    store, the collaborator calls it made, and the document and report saves
    that went through. The store itself is changed only through
    `update_status`, exactly as in the source. */
module Orchestrator {
  import opened Wrappers
  import opened Text
  import opened Trigger
  import opened TriggerStore
  import opened Documents
  import opened Reports

  /** The parts of a Layer 3 investigation the orchestrator reads; the
      significance is the text the source interpolates into its reason. */
  datatype InvestigationView = InvestigationView(significance: string, isSignificant: bool)

  /** The part of a Layer 4 assessment the orchestrator reads: the value
      of its new recommendation. */
  datatype AssessmentView = AssessmentView(recommendation: string)

  /** Scripted outcomes of the embedding sequence: save, add to the vector
      store, save again, and the save in the error handler. */
  datatype EmbedScript = EmbedScript(firstSave: Outcome, addDocument: Attempt<string>, secondSave: Outcome, errorSave: Outcome)

  /** Scripted collaborators for one trigger. The filter sees the trigger
      after document ingestion; the classifier sees (text, company, sector). */
  datatype Script = Script(
    fetch: Attempt<Option<RawDocument>>,
    extract: Attempt<Option<RawDocument>>,
    embed: EmbedScript,
    filter: TriggerEvent -> Attempt<GateResult>,
    classify: (string, string, string) -> Attempt<GateResult>,
    analyze: Attempt<InvestigationView>,
    assess: Attempt<AssessmentView>,
    generate: Attempt<AnalysisReport>,
    deliver: Attempt<seq<string>>,
    reportSave: Outcome)

  /** Which optional collaborators are configured, and which of the deliverer
      and generator carries a report repository. */
  datatype Config = Config(
    hasAnalyzer: bool, hasAssessor: bool, hasGenerator: bool, hasDeliverer: bool,
    delivererRepo: bool, generatorRepo: bool)

  datatype Call =
    | Fetch | Extract | AddVector
    | Filter | Classify(text: string, company: string, sector: string)
    | Analyze | Assess | Generate | Deliver

  /** Which part of the run a call belongs to. */
  datatype CallKind = IngestKind | GateKind | StageKind

  function Kind(c: Call): CallKind {
    match c
    case Fetch => IngestKind
    case Extract => IngestKind
    case AddVector => IngestKind
    case Filter => GateKind
    case Classify(_, _, _) => GateKind
    case _ => StageKind
  }

  datatype ReportRepo = DelivererRepo | GeneratorRepo

  /** What one run did, in order. Status updates are the steps applied to
      the stored trigger through `update_status`. */
  datatype Effects = Effects(
    steps: seq<Step>,
    calls: seq<Call>,
    docSaves: seq<RawDocument>,
    reportSaves: seq<(ReportRepo, AnalysisReport)>)

  const NoEffects: Effects := Effects([], [], [], [])

  function Record(e: Effects, status: TriggerStatus, reason: string, now: int): Effects {
    e.(steps := e.steps + [Step(status, reason, now)])
  }

  function Called(e: Effects, c: Call): Effects {
    e.(calls := e.calls + [c])
  }

  function SavedDoc(e: Effects, d: RawDocument): Effects {
    e.(docSaves := e.docSaves + [d])
  }

  /** Effects so far, plus the message of an exception that escaped, if any. */
  datatype Partial = Partial(effects: Effects, raised: Option<string>)

  // ---------------------------------------------------------------- documents

  function EmbedFailure(e: Effects, d: RawDocument, message: string, script: EmbedScript): (r: Partial)
    ensures r.raised.None? ==>
              r.effects == SavedDoc(e, d.(processingStatus := PsError,
                                          processingErrors := d.processingErrors + ["Embedding error: " + message]))
    ensures r.raised.Some? ==> r.effects == e && script.errorSave == Fails(r.raised.value)
  {
    var failed := d.(processingStatus := PsError,
                     processingErrors := d.processingErrors + ["Embedding error: " + message]);
    match script.errorSave
    case Done => Partial(SavedDoc(e, failed), None)
    case Fails(m) => Partial(e, Some(m))
  }

  /** `_ensure_document_embedded`. */
  function EnsureEmbedded(e: Effects, d: RawDocument, script: EmbedScript): (r: Partial)
    ensures r.effects.steps == e.steps && r.effects.reportSaves == e.reportSaves
    ensures r.effects.calls == e.calls || r.effects.calls == e.calls + [AddVector]
  {
    if !Truthy(d.extractedText) || Truthy(d.vectorId) then Partial(e, None)
    else
      var d1 := d.(processingStatus := Embedding);
      match script.firstSave
      case Fails(m) => EmbedFailure(e, d1, m, script)
      case Done =>
        var e1 := Called(SavedDoc(e, d1), AddVector);
        match script.addDocument
        case Raise(m) => EmbedFailure(e1, d1, m, script)
        case Ok(vid) =>
          var d2 := d1.(vectorId := Some(vid), processingStatus := Complete);
          match script.secondSave
          case Fails(m) => EmbedFailure(e1, d2, m, script)
          case Done => Partial(SavedDoc(e1, d2), None)
  }

  /** The calls `b` made after those of `a`, all satisfying `kind`. */
  predicate ExtendsWith(a: seq<Call>, b: seq<Call>, kind: CallKind) {
    |a| <= |b| && b[..|a|] == a && forall i | |a| <= i < |b| :: Kind(b[i]) == kind
  }

  /** Effects and the in-memory trigger after a stage, plus an escaped exception. */
  datatype Ingested = Ingested(effects: Effects, trigger: TriggerEvent, raised: Option<string>)

  /** `_process_documents`. */
  function ProcessDocuments(e: Effects, t: TriggerEvent, sc: Script): (r: Ingested)
    ensures r.effects.steps == e.steps && r.effects.reportSaves == e.reportSaves
    ensures ExtendsWith(e.calls, r.effects.calls, IngestKind)
    ensures r.trigger.(documentIds := t.documentIds, rawContent := t.rawContent) == t
    ensures r.trigger.documentIds == t.documentIds
            || (sc.fetch.Ok? && sc.fetch.value.Some? && r.trigger.documentIds == t.documentIds + [sc.fetch.value.value.documentId])
  {
    if !Truthy(t.sourceUrl) || |t.documentIds| > 0 then Ingested(e, t, None)
    else
      var e1 := Called(e, Fetch);
      match sc.fetch
      case Raise(m) => Ingested(e1, t, Some(m))
      case Ok(None) => Ingested(e1, t, None)
      case Ok(Some(fetched)) =>
        var t1 := t.(documentIds := t.documentIds + [fetched.documentId]);
        if fetched.processingStatus == PsError then Ingested(e1, t1, None)
        else
          var e2 := Called(e1, Extract);
          match sc.extract
          case Raise(m) => Ingested(e2, t1, Some(m))
          case Ok(None) => Ingested(e2, t1, None)
          case Ok(Some(extracted)) =>
            var t2 := if Truthy(extracted.extractedText)
                      then t1.(rawContent := Strip(t1.rawContent + "\n\n" + extracted.extractedText.value))
                      else t1;
            var p := EnsureEmbedded(e2, extracted, sc.embed);
            Ingested(p.effects, t2, p.raised)
  }

  // --------------------------------------------------------------------- gate

  const HumanBypass: GateResult :=
    GateResult(true, "Human trigger bypasses Layer 2 gate", "human_bypass", Some("n/a"))

  datatype Gated = Gated(effects: Effects, result: Attempt<GateResult>)

  /** `_run_gate`: human bypass, then the watchlist filter, then the classifier. */
  function RunGate(e: Effects, t: TriggerEvent, sc: Script): (r: Gated)
    ensures r.effects.steps == e.steps && r.effects.reportSaves == e.reportSaves
    ensures ExtendsWith(e.calls, r.effects.calls, GateKind)
    ensures t.source == Human ==> r == Gated(e, Ok(HumanBypass))
  {
    if t.source == Human then Gated(e, Ok(HumanBypass))
    else
      var e1 := Called(e, Filter);
      match sc.filter(t)
      case Raise(m) => Gated(e1, Raise(m))
      case Ok(f) =>
        if !f.passed then Gated(e1, Ok(f))
        else
          var company := OrEmpty(t.companyName);
          var sector := OrEmpty(t.sector);
          Gated(Called(e1, Classify(t.rawContent, company, sector)), sc.classify(t.rawContent, company, sector))
  }

  // ---------------------------------------------------------- layers 3 to 5

  /** The final reason of a delivered report. */
  function ReportedReason(channels: seq<string>): (r: string)
    ensures StartsWith(r, "Report generated")
    ensures r == "Report generated" <==> channels == []
  {
    if |channels| == 0 then "Report generated"
    else "Report generated and delivered via " + Join(channels, ", ")
  }

  /** `_persist_delivery_failure`: mark the report failed and save it through
      the deliverer's repository, else the generator's; save errors are
      swallowed. */
  function PersistDeliveryFailure(e: Effects, report: AnalysisReport, cfg: Config, save: Outcome): (r: Effects)
    ensures r.(reportSaves := e.reportSaves) == e
    ensures r.reportSaves == e.reportSaves + FailureSaves(report, cfg, save)
  {
    var failed := report.(deliveryStatus := DeliveryFailed, deliveredVia := []);
    if !cfg.delivererRepo && !cfg.generatorRepo then e
    else
      var repo := if cfg.delivererRepo then DelivererRepo else GeneratorRepo;
      match save
      case Done => e.(reportSaves := e.reportSaves + [(repo, failed)])
      case Fails(_) => e
  }

  /** The saves a delivery failure leaves: one DELIVERY_FAILED copy of the
      report with no channels, through the first repository available, when
      there is one and its save succeeds. */
  function FailureSaves(report: AnalysisReport, cfg: Config, save: Outcome): (r: seq<(ReportRepo, AnalysisReport)>)
    ensures |r| == 1 <==> (cfg.delivererRepo || cfg.generatorRepo) && save == Done
    ensures |r| <= 1
    ensures |r| == 1 ==>
      && (r[0].0 == DelivererRepo <==> cfg.delivererRepo)
      && r[0].1.deliveryStatus == DeliveryFailed && r[0].1.deliveredVia == []
      && r[0].1.(deliveryStatus := report.deliveryStatus, deliveredVia := report.deliveredVia) == report
  {
    if (cfg.delivererRepo || cfg.generatorRepo) && save == Done
    then [(if cfg.delivererRepo then DelivererRepo else GeneratorRepo,
           report.(deliveryStatus := DeliveryFailed, deliveredVia := []))]
    else []
  }

  /** Every call a stage adds is a Layer 3-5 call, and it only appends status updates. */
  predicate StageFrame(e: Effects, r: Partial) {
    |e.steps| <= |r.effects.steps| && r.effects.steps[..|e.steps|] == e.steps
    && ExtendsWith(e.calls, r.effects.calls, StageKind)
  }

  /** `_run_post_gate_pipeline`: Layer 3, when an analyzer is configured. */
  function PostGate(e: Effects, cfg: Config, sc: Script, now: int): (r: Partial)
    ensures StageFrame(e, r)
  {
    if !cfg.hasAnalyzer then Partial(e, None)
    else
      var e1 := Called(Record(e, Analyzing, "Starting deep analysis", now), Analyze);
      FrameAnnounce(e, Analyzing, "Starting deep analysis", now, Analyze);
      match sc.analyze
      case Raise(m) => Partial(e1, Some("Layer 3 analysis failed: " + m))
      case Ok(inv) =>
        var e2 := Record(e1, Analyzed, "Analysis complete. Significance: " + inv.significance, now);
        var r := AfterAnalysis(e2, inv, cfg, sc, now);
        FrameRecord(e1, Analyzed, "Analysis complete. Significance: " + inv.significance, now);
        FrameTrans(e, e1, e2);
        FrameTrans(e, e2, r.effects);
        r
  }

  /** Layer 4, for a significant investigation when Layers 4 and 5 are configured. */
  function AfterAnalysis(e: Effects, inv: InvestigationView, cfg: Config, sc: Script, now: int): (r: Partial)
    ensures StageFrame(e, r)
  {
    if !inv.isSignificant then Partial(e, None)
    else if !cfg.hasAssessor || !cfg.hasGenerator || !cfg.hasDeliverer then Partial(e, None)
    else
      var e1 := Called(Record(e, Assessing, "Starting decision assessment", now), Assess);
      FrameAnnounce(e, Assessing, "Starting decision assessment", now, Assess);
      match sc.assess
      case Raise(m) => Partial(e1, Some("Layer 4 assessment failed: " + m))
      case Ok(a) =>
        var e2 := Called(Record(e1, Assessed, "Assessment complete. Recommendation: " + a.recommendation, now), Generate);
        var r := AfterAssessment(e2, cfg, sc, now);
        FrameAnnounce(e1, Assessed, "Assessment complete. Recommendation: " + a.recommendation, now, Generate);
        FrameTrans(e, e1, e2);
        FrameTrans(e, e2, r.effects);
        r
  }

  lemma FrameAnnounce(e: Effects, status: TriggerStatus, reason: string, now: int, c: Call)
    requires Kind(c) == StageKind
    ensures StageFrame(e, Partial(Called(Record(e, status, reason, now), c), None))
  {
  }

  lemma FrameRecord(e: Effects, status: TriggerStatus, reason: string, now: int)
    ensures StageFrame(e, Partial(Record(e, status, reason, now), None))
  {
  }

  lemma FrameTrans(a: Effects, b: Effects, c: Effects)
    requires StageFrame(a, Partial(b, None)) && StageFrame(b, Partial(c, None))
    ensures StageFrame(a, Partial(c, None))
  {
    assert c.steps[..|a.steps|] == c.steps[..|b.steps|][..|a.steps|];
    assert c.calls[..|a.calls|] == c.calls[..|b.calls|][..|a.calls|];
    forall i | |a.calls| <= i < |c.calls| ensures Kind(c.calls[i]) == StageKind {
      if i < |b.calls| {
        assert c.calls[i] == c.calls[..|b.calls|][i];
      }
    }
  }

  /** Layer 5: generate the report, then deliver it. */
  function AfterAssessment(e: Effects, cfg: Config, sc: Script, now: int): (r: Partial)
    ensures StageFrame(e, r)
  {
    match sc.generate
    case Raise(m) => Partial(e, Some("Layer 5 report generation failed: " + m))
    case Ok(report) => Delivery(Called(e, Deliver), report, cfg, sc, now)
  }

  /** Delivery never raises: a failure is persisted on the report and still ends REPORTED. */
  function Delivery(e: Effects, report: AnalysisReport, cfg: Config, sc: Script, now: int): (r: Partial)
    ensures r.raised.None?
    ensures StageFrame(e, r)
  {
    match sc.deliver
    case Raise(m) =>
      Partial(Record(PersistDeliveryFailure(e, report, cfg, sc.reportSave), Reported, "Report generated but delivery failed: " + m, now), None)
    case Ok(channels) =>
      Partial(Record(e, Reported, ReportedReason(channels), now), None)
  }

  // ------------------------------------------------------------ process_trigger

  /** The outcome of `process_trigger`: what it did, the in-memory trigger
      afterwards, and the returned gate result. */
  datatype Processed = Processed(effects: Effects, trigger: TriggerEvent, result: GateResult)

  const PipelineErrorPrefix: string := "Pipeline error: "

  /** The result `process_trigger` returns after an exception: never
      passed, and the message recoverable after the prefix. */
  function PipelineError(message: string): (g: GateResult)
    ensures !g.passed && g.gateMethod == "pipeline_error" && g.model == Some("n/a")
    ensures StartsWith(g.reason, PipelineErrorPrefix) && g.reason[|PipelineErrorPrefix|..] == message
  {
    GateResult(false, "Pipeline error: " + message, "pipeline_error", Some("n/a"))
  }

  /** The exception handler of `process_trigger`: one ERROR entry whose
      reason is the returned result's, and nothing else changed. */
  function Failed(e: Effects, t: TriggerEvent, message: string, now: int): (r: Processed)
    ensures r.trigger == t && r.result == PipelineError(message)
    ensures r.effects.(steps := e.steps) == e
    ensures |r.effects.steps| == |e.steps| + 1 && r.effects.steps[..|e.steps|] == e.steps
    ensures r.effects.steps[|e.steps|] == Step(Error, r.result.reason, now)
  {
    Processed(Record(e, Error, "Pipeline error: " + message, now), t, PipelineError(message))
  }

  /** `process_trigger`, with one clock reading for the whole call. */
  function ProcessTrigger(t: TriggerEvent, cfg: Config, sc: Script, now: int): (r: Processed)
    ensures |r.effects.steps| >= 1
    ensures r.effects.steps[0].status in {GatePassed, FilteredOut, Error}
    ensures r.trigger.(documentIds := t.documentIds, rawContent := t.rawContent, gateResult := t.gateResult) == t
  {
    AfterIngestion(ProcessDocuments(NoEffects, t, sc), cfg, sc, now)
  }

  /** The rest of `process_trigger` once ingestion has run. */
  function AfterIngestion(d: Ingested, cfg: Config, sc: Script, now: int): (r: Processed)
    ensures d.raised.Some? ==> r == Failed(d.effects, d.trigger, d.raised.value, now)
    ensures |r.effects.steps| > |d.effects.steps| && r.effects.steps[..|d.effects.steps|] == d.effects.steps
    ensures r.effects.steps[|d.effects.steps|].status in {GatePassed, FilteredOut, Error}
    ensures r.trigger.(gateResult := d.trigger.gateResult) == d.trigger
  {
    if d.raised.Some? then Failed(d.effects, d.trigger, d.raised.value, now)
    else AfterGate(d.trigger, RunGate(d.effects, d.trigger, sc), cfg, sc, now)
  }

  /** The rest of `process_trigger` once the gate has decided (or raised). */
  function AfterGate(t: TriggerEvent, g: Gated, cfg: Config, sc: Script, now: int): (r: Processed)
    ensures |r.effects.steps| > |g.effects.steps| && r.effects.steps[..|g.effects.steps|] == g.effects.steps
    ensures g.result.Raise? ==> r == Failed(g.effects, t, g.result.message, now)
    ensures g.result.Ok? ==>
      && r.trigger == t.(gateResult := Some(g.result.value))
      && r.effects.steps[|g.effects.steps|] ==
           Step(if g.result.value.passed then GatePassed else FilteredOut, g.result.value.reason, now)
    ensures g.result.Ok? && !g.result.value.passed ==>
      r.result == g.result.value && |r.effects.steps| == |g.effects.steps| + 1
    ensures g.result.Ok? && g.result.value.passed ==>
      r.result == g.result.value || r.result.gateMethod == "pipeline_error"
  {
    match g.result
    case Raise(m) => Failed(g.effects, t, m, now)
    case Ok(gr) =>
      var t1 := t.(gateResult := Some(gr));
      if gr.passed then AfterPass(g.effects, t1, gr, cfg, sc, now)
      else Processed(Record(g.effects, FilteredOut, gr.reason, now), t1, gr)
  }

  /** A passing gate: GATE_PASSED is recorded, then Layers 3 to 5 run. */
  function AfterPass(e: Effects, t: TriggerEvent, gr: GateResult, cfg: Config, sc: Script, now: int): (r: Processed)
    ensures |r.effects.steps| > |e.steps| && r.effects.steps[..|e.steps|] == e.steps
    ensures r.effects.steps[|e.steps|] == Step(GatePassed, gr.reason, now)
    ensures r.trigger == t
    ensures r.result == gr || r.result.gateMethod == "pipeline_error"
  {
    var e1 := Record(e, GatePassed, gr.reason, now);
    var p := PostGate(e1, cfg, sc, now);
    PrefixOfPrefix(e.steps, e1.steps, p.effects.steps);
    var r := Finish(t, gr, p, now);
    PrefixOfPrefix(e.steps, p.effects.steps, r.effects.steps);
    assert r.effects.steps[|e.steps|] == e1.steps[|e.steps|] by {
      assert r.effects.steps[..|e1.steps|] == e1.steps;
    }
    r
  }

  /** The end of `process_trigger` after the gate passed: the gate's result,
      or the pipeline error of whatever a later stage raised. */
  function Finish(t: TriggerEvent, gr: GateResult, p: Partial, now: int): (r: Processed)
    ensures r.trigger == t
    ensures p.raised.None? ==> r.effects == p.effects && r.result == gr
    ensures p.raised.Some? ==> r == Failed(p.effects, t, p.raised.value, now)
  {
    if p.raised.Some? then Failed(p.effects, t, p.raised.value, now)
    else Processed(p.effects, t, gr)
  }

  lemma PrefixOfPrefix<T>(a: seq<T>, b: seq<T>, c: seq<T>)
    requires |a| <= |b| && b[..|a|] == a
    requires |b| <= |c| && c[..|b|] == b
    ensures c[..|a|] == a
  {
    assert c[..|a|] == c[..|b|][..|a|];
  }

  /** The status updates of a run, applied one after another to the store. */
  function Replay(st: Store, id: string, steps: seq<Step>): Store
    decreases |steps|
  {
    if |steps| == 0 then st
    else Replay(UpdateStatus(st, id, steps[0].status, steps[0].reason, steps[0].at), id, steps[1..])
  }

  /** `process_pending_triggers`: process each pending trigger in turn. */
  function ProcessAll(st: Store, ts: seq<TriggerEvent>, cfg: Config, scripts: string -> Script, now: int): (r: (Store, seq<Processed>))
    ensures |r.1| == |ts|
    decreases |ts|
  {
    if |ts| == 0 then (st, [])
    else
      var p := ProcessTrigger(ts[0], cfg, scripts(ts[0].triggerId), now);
      var rest := ProcessAll(Replay(st, ts[0].triggerId, p.effects.steps), ts[1..], cfg, scripts, now);
      (rest.0, [p] + rest.1)
  }

  /** `process_pending_triggers(limit)`: the count is the number of pending
      triggers, or `limit` of them when a positive limit is smaller. */
  function ProcessPending(st: Store, limit: nat, cfg: Config, scripts: string -> Script, now: int): (r: (Store, nat))
    ensures r.1 == if limit == 0 || limit >= |Pendings(st.items)| then |Pendings(st.items)| else limit
  {
    var pending := GetPending(st, limit);
    (ProcessAll(st, pending, cfg, scripts, now).0, |pending|)
  }
}

=== FILE: orchestrator_props.dfy ===
/** What `process_trigger` and `process_pending_triggers` guarantee, stated
    over the scripted state machine of module Orchestrator. */
module OrchestratorProperties {
  import opened Wrappers
  import opened Text
  import opened Trigger
  import opened TriggerStore
  import opened Documents
  import opened Reports
  import opened Orchestrator

  function Statuses(steps: seq<Step>): (r: seq<TriggerStatus>)
    ensures |r| == |steps|
    ensures forall i | 0 <= i < |steps| :: r[i] == steps[i].status
  {
    seq(|steps|, i requires 0 <= i < |steps| => steps[i].status)
  }

  /** The full pipeline, in order. */
  const FullRun: seq<TriggerStatus> := [GatePassed, Analyzing, Analyzed, Assessing, Assessed, Reported]

  /** Every status sequence one call can leave behind: rejection, an error
      before the gate decision, a stop after the gate, after analysis or
      after reporting, or an error after one of the stage announcements. */
  predicate IsRunShape(ss: seq<TriggerStatus>) {
    || ss == [FilteredOut]
    || ss == [Error]
    || ss == [GatePassed]
    || ss == [GatePassed, Analyzing, Analyzed]
    || ss == FullRun
    || ss == [GatePassed, Analyzing, Error]
    || ss == [GatePassed, Analyzing, Analyzed, Assessing, Error]
    || ss == [GatePassed, Analyzing, Analyzed, Assessing, Assessed, Error]
  }

  lemma StatusesAppend(a: seq<Step>, b: seq<Step>)
    ensures Statuses(a + b) == Statuses(a) + Statuses(b)
  {
  }

  function NewestStep(r: Processed): Step
    requires |r.effects.steps| > 0
  {
    r.effects.steps[|r.effects.steps| - 1]
  }

  /** Ingestion is skipped when there is no source URL or documents are
      already attached. */
  lemma IngestionSkipped(t: TriggerEvent, sc: Script)
    requires !Truthy(t.sourceUrl) || |t.documentIds| > 0
    ensures ProcessDocuments(NoEffects, t, sc) == Ingested(NoEffects, t, None)
  {
  }

  /** Once ingestion attached a document, running it again fetches nothing. */
  lemma IngestionIdempotent(t: TriggerEvent, sc: Script, sc2: Script)
    requires ProcessDocuments(NoEffects, t, sc).trigger.documentIds != t.documentIds
    ensures var t1 := ProcessDocuments(NoEffects, t, sc).trigger;
            ProcessDocuments(NoEffects, t1, sc2) == Ingested(NoEffects, t1, None)
  {
    var t1 := ProcessDocuments(NoEffects, t, sc).trigger;
    assert |t1.documentIds| > 0;
  }

  /** Extraction is asked for only after a fetch that produced a document
      whose status is not ERROR, and that document's id was attached. */
  lemma ExtractOnlyAfterGoodFetch(t: TriggerEvent, sc: Script)
    requires Extract in ProcessDocuments(NoEffects, t, sc).effects.calls
    ensures sc.fetch.Ok? && sc.fetch.value.Some? && sc.fetch.value.value.processingStatus != PsError
    ensures ProcessDocuments(NoEffects, t, sc).trigger.documentIds == t.documentIds + [sc.fetch.value.value.documentId]
  {
  }

  /** Non-empty extracted text is appended after a blank line and the result
      stripped; otherwise the content is left alone. */
  lemma ExtractedTextAppended(t: TriggerEvent, sc: Script, fetched: RawDocument, extracted: RawDocument)
    requires Truthy(t.sourceUrl) && t.documentIds == []
    requires sc.fetch == Ok(Some(fetched)) && fetched.processingStatus != PsError
    requires sc.extract == Ok(Some(extracted))
    ensures ProcessDocuments(NoEffects, t, sc).trigger.documentIds == [fetched.documentId]
    ensures ProcessDocuments(NoEffects, t, sc).trigger.rawContent ==
              (if Truthy(extracted.extractedText) then Strip(t.rawContent + "\n\n" + extracted.extractedText.value)
               else t.rawContent)
  {
  }

  /** A failed embedding marks the document ERROR with an "Embedding error: "
      message and saves it; nothing escapes unless that last save fails. */
  lemma EmbeddingFailureRecorded(e: Effects, d: RawDocument, script: EmbedScript, m: string)
    requires Truthy(d.extractedText) && !Truthy(d.vectorId)
    requires script.firstSave == Done && script.addDocument == Raise(m) && script.errorSave == Done
    ensures EnsureEmbedded(e, d, script).raised == None
    ensures EnsureEmbedded(e, d, script).effects.docSaves ==
              e.docSaves + [d.(processingStatus := Embedding),
                            d.(processingStatus := PsError, processingErrors := d.processingErrors + ["Embedding error: " + m])]
  {
  }

  /** A successful embedding saves the document twice, EMBEDDING then
      COMPLETE with the vector id. */
  lemma EmbeddingSuccess(e: Effects, d: RawDocument, script: EmbedScript, vid: string)
    requires Truthy(d.extractedText) && !Truthy(d.vectorId)
    requires script.firstSave == Done && script.addDocument == Ok(vid) && script.secondSave == Done
    ensures EnsureEmbedded(e, d, script).raised == None
    ensures EnsureEmbedded(e, d, script).effects.docSaves ==
              e.docSaves + [d.(processingStatus := Embedding), d.(processingStatus := Complete, vectorId := Some(vid))]
    ensures EnsureEmbedded(e, d, script).effects.calls == e.calls + [AddVector]
  {
  }

  // --------------------------------------------------------------------- gate

  /** A filter rejection is returned as the gate's decision, and the
      classifier is not consulted. */
  lemma FilterRejects(e: Effects, t: TriggerEvent, sc: Script, f: GateResult)
    requires t.source != Human && sc.filter(t) == Ok(f) && !f.passed
    ensures RunGate(e, t, sc) == Gated(Called(e, Filter), Ok(f))
  {
  }

  /** A passing filter hands the classifier the content, and the company
      name and sector with a missing value replaced by "", and the
      classifier's answer (or exception) is the gate's. */
  lemma ClassifierArguments(e: Effects, t: TriggerEvent, sc: Script, f: GateResult)
    requires t.source != Human && sc.filter(t) == Ok(f) && f.passed
    ensures var args := (t.rawContent, OrEmpty(t.companyName), OrEmpty(t.sector));
            RunGate(e, t, sc) == Gated(e.(calls := e.calls + [Filter, Classify(args.0, args.1, args.2)]), sc.classify(args.0, args.1, args.2))
  {
  }

  // ------------------------------------------------------ after the gate

  /** A rejected trigger ends FILTERED_OUT with the gate's reason, and the
      gate's decision is both stored on the trigger and returned. */
  lemma GateRejection(t: TriggerEvent, g: Gated, cfg: Config, sc: Script, now: int, f: GateResult)
    requires g.result == Ok(f) && !f.passed
    ensures AfterGate(t, g, cfg, sc, now) == Processed(Record(g.effects, FilteredOut, f.reason, now), t.(gateResult := Some(f)), f)
  {
  }

  /** An exception from the gate ends the run in ERROR. */
  lemma GateRaises(t: TriggerEvent, g: Gated, cfg: Config, sc: Script, now: int, m: string)
    requires g.result == Raise(m)
    ensures AfterGate(t, g, cfg, sc, now) == Processed(Record(g.effects, Error, "Pipeline error: " + m, now), t, PipelineError(m))
  {
  }

  /** With no analyzer the trigger stays at GATE_PASSED and no stage runs. */
  lemma StopWithoutAnalyzer(t: TriggerEvent, g: Gated, cfg: Config, sc: Script, now: int, gr: GateResult)
    requires g.result == Ok(gr) && gr.passed && !cfg.hasAnalyzer
    ensures AfterGate(t, g, cfg, sc, now) == Processed(Record(g.effects, GatePassed, gr.reason, now), t.(gateResult := Some(gr)), gr)
  {
  }

  /** A non-significant investigation, or a missing assessor, generator or
      deliverer, stops the run at ANALYZED after the analysis call only. */
  lemma StopAfterAnalysis(t: TriggerEvent, g: Gated, cfg: Config, sc: Script, now: int, gr: GateResult, inv: InvestigationView)
    requires g.result == Ok(gr) && gr.passed && cfg.hasAnalyzer && sc.analyze == Ok(inv)
    requires !inv.isSignificant || !cfg.hasAssessor || !cfg.hasGenerator || !cfg.hasDeliverer
    ensures var r := AfterGate(t, g, cfg, sc, now);
            && r.effects.steps == g.effects.steps + [Step(GatePassed, gr.reason, now),
                                                     Step(Analyzing, "Starting deep analysis", now),
                                                     Step(Analyzed, "Analysis complete. Significance: " + inv.significance, now)]
            && r.effects.calls == g.effects.calls + [Analyze]
            && r.result == gr && r.trigger == t.(gateResult := Some(gr))
  {
  }

  /** An analyzer exception is re-raised as "Layer 3 analysis failed: …" and
      ends the run in ERROR right after ANALYZING. */
  lemma AnalysisErrorWrapped(t: TriggerEvent, g: Gated, cfg: Config, sc: Script, now: int, gr: GateResult, m: string)
    requires g.result == Ok(gr) && gr.passed && cfg.hasAnalyzer && sc.analyze == Raise(m)
    ensures var r := AfterGate(t, g, cfg, sc, now);
            && r.effects.steps == g.effects.steps + [Step(GatePassed, gr.reason, now),
                                                     Step(Analyzing, "Starting deep analysis", now),
                                                     Step(Error, "Pipeline error: " + ("Layer 3 analysis failed: " + m), now)]
            && r.effects.calls == g.effects.calls + [Analyze]
            && r.result == PipelineError("Layer 3 analysis failed: " + m)
  {
  }

  /** An assessor exception is re-raised as "Layer 4 assessment failed: …";
      neither the generator nor the deliverer is called. */
  lemma AssessmentErrorWrapped(t: TriggerEvent, g: Gated, cfg: Config, sc: Script, now: int, gr: GateResult, inv: InvestigationView, m: string)
    requires g.result == Ok(gr) && gr.passed
    requires cfg.hasAnalyzer && cfg.hasAssessor && cfg.hasGenerator && cfg.hasDeliverer
    requires sc.analyze == Ok(inv) && inv.isSignificant && sc.assess == Raise(m)
    ensures var r := AfterGate(t, g, cfg, sc, now);
            && r.effects.steps == g.effects.steps + [Step(GatePassed, gr.reason, now),
                                                     Step(Analyzing, "Starting deep analysis", now),
                                                     Step(Analyzed, "Analysis complete. Significance: " + inv.significance, now),
                                                     Step(Assessing, "Starting decision assessment", now),
                                                     Step(Error, "Pipeline error: " + ("Layer 4 assessment failed: " + m), now)]
            && r.effects.calls == g.effects.calls + [Analyze, Assess]
            && r.result == PipelineError("Layer 4 assessment failed: " + m)
  {
  }

  /** A generator exception is re-raised as "Layer 5 report generation
      failed: …" after ASSESSED; the deliverer is not called. */
  lemma GenerationErrorWrapped(t: TriggerEvent, g: Gated, cfg: Config, sc: Script, now: int, gr: GateResult,
                               inv: InvestigationView, a: AssessmentView, m: string)
    requires g.result == Ok(gr) && gr.passed
    requires cfg.hasAnalyzer && cfg.hasAssessor && cfg.hasGenerator && cfg.hasDeliverer
    requires sc.analyze == Ok(inv) && inv.isSignificant && sc.assess == Ok(a) && sc.generate == Raise(m)
    ensures var r := AfterGate(t, g, cfg, sc, now);
            && r.effects.steps == g.effects.steps + [Step(GatePassed, gr.reason, now),
                                                     Step(Analyzing, "Starting deep analysis", now),
                                                     Step(Analyzed, "Analysis complete. Significance: " + inv.significance, now),
                                                     Step(Assessing, "Starting decision assessment", now),
                                                     Step(Assessed, "Assessment complete. Recommendation: " + a.recommendation, now),
                                                     Step(Error, "Pipeline error: " + ("Layer 5 report generation failed: " + m), now)]
            && r.effects.calls == g.effects.calls + [Analyze, Assess, Generate]
            && r.result == PipelineError("Layer 5 report generation failed: " + m)
  {
  }

  /** Every stage succeeds: the five statuses after the gate in order, a
      final reason naming the delivery channels, no report save, and the
      gate's decision returned. */
  lemma FullPipeline(t: TriggerEvent, g: Gated, cfg: Config, sc: Script, now: int, gr: GateResult,
                     inv: InvestigationView, a: AssessmentView, report: AnalysisReport, channels: seq<string>)
    requires g.result == Ok(gr) && gr.passed
    requires cfg.hasAnalyzer && cfg.hasAssessor && cfg.hasGenerator && cfg.hasDeliverer
    requires sc.analyze == Ok(inv) && inv.isSignificant
    requires sc.assess == Ok(a) && sc.generate == Ok(report) && sc.deliver == Ok(channels)
    ensures var r := AfterGate(t, g, cfg, sc, now);
            && r.effects.steps == g.effects.steps + [Step(GatePassed, gr.reason, now),
                                                     Step(Analyzing, "Starting deep analysis", now),
                                                     Step(Analyzed, "Analysis complete. Significance: " + inv.significance, now),
                                                     Step(Assessing, "Starting decision assessment", now),
                                                     Step(Assessed, "Assessment complete. Recommendation: " + a.recommendation, now),
                                                     Step(Reported, ReportedReason(channels), now)]
            && r.effects.calls == g.effects.calls + [Analyze, Assess, Generate, Deliver]
            && r.effects.reportSaves == g.effects.reportSaves
            && r.result == gr
  {
  }

  lemma ReportedReasonShape(channels: seq<string>)
    ensures channels == [] ==> ReportedReason(channels) == "Report generated"
    ensures channels != [] ==> ReportedReason(channels) == "Report generated and delivered via " + Join(channels, ", ")
  {
  }

  /** A delivery exception still ends REPORTED, with the exception in the
      reason; the report is saved DELIVERY_FAILED with no channels through the
      deliverer's repository, else the generator's, and a failing save is
      swallowed. */
  lemma DeliveryFailure(t: TriggerEvent, g: Gated, cfg: Config, sc: Script, now: int, gr: GateResult,
                        inv: InvestigationView, a: AssessmentView, report: AnalysisReport, m: string)
    requires g.result == Ok(gr) && gr.passed
    requires cfg.hasAnalyzer && cfg.hasAssessor && cfg.hasGenerator && cfg.hasDeliverer
    requires sc.analyze == Ok(inv) && inv.isSignificant
    requires sc.assess == Ok(a) && sc.generate == Ok(report) && sc.deliver == Raise(m)
    ensures var r := AfterGate(t, g, cfg, sc, now);
            && r.effects.steps == g.effects.steps + [Step(GatePassed, gr.reason, now),
                                                     Step(Analyzing, "Starting deep analysis", now),
                                                     Step(Analyzed, "Analysis complete. Significance: " + inv.significance, now),
                                                     Step(Assessing, "Starting decision assessment", now),
                                                     Step(Assessed, "Assessment complete. Recommendation: " + a.recommendation, now),
                                                     Step(Reported, "Report generated but delivery failed: " + m, now)]
            && r.effects.reportSaves == g.effects.reportSaves + FailureSaves(report, cfg, sc.reportSave)
            && r.result == gr
  {
  }

  /** What every run guarantees about the entries it adds after `before`:
      at least one, in one of the shapes of `IsRunShape`, and an ERROR entry
      comes with the pipeline_error result carrying the same reason. */
  predicate WellEnded(before: seq<Step>, r: Processed) {
    && |before| < |r.effects.steps|
    && r.effects.steps[..|before|] == before
    && IsRunShape(Statuses(r.effects.steps[|before|..]))
    && (NewestStep(r).status == Error ==>
          && StartsWith(NewestStep(r).reason, "Pipeline error: ")
          && r.result == GateResult(false, NewestStep(r).reason, "pipeline_error", Some("n/a")))
  }

  lemma WellEndedIntro(before: seq<Step>, added: seq<TriggerStatus>, reasons: seq<string>, now: int, r: Processed)
    requires |added| == |reasons| > 0 && IsRunShape(added)
    requires r.effects.steps == before + seq(|added|, i requires 0 <= i < |added| => Step(added[i], reasons[i], now))
    requires added[|added| - 1] == Error ==>
               exists m :: reasons[|added| - 1] == "Pipeline error: " + m && r.result == PipelineError(m)
    ensures WellEnded(before, r)
  {
    var steps := r.effects.steps;
    assert steps[|before|..] == seq(|added|, i requires 0 <= i < |added| => Step(added[i], reasons[i], now));
    assert Statuses(steps[|before|..]) == added;
    if added[|added| - 1] == Error {
      var m :| reasons[|added| - 1] == "Pipeline error: " + m && r.result == PipelineError(m);
      assert NewestStep(r).reason == "Pipeline error: " + m;
      assert ("Pipeline error: " + m)[..|"Pipeline error: "|] == "Pipeline error: ";
    }
  }

  /** Every run after a passing gate with an analyzer ends well. */
  lemma AnalyzedOutcome(t: TriggerEvent, g: Gated, cfg: Config, sc: Script, now: int, gr: GateResult)
    requires g.result == Ok(gr) && gr.passed && cfg.hasAnalyzer
    ensures WellEnded(g.effects.steps, AfterGate(t, g, cfg, sc, now))
  {
    var r := AfterGate(t, g, cfg, sc, now);
    var before := g.effects.steps;
    var r0 := "Starting deep analysis";
    match sc.analyze
    case Raise(m) =>
      AnalysisErrorWrapped(t, g, cfg, sc, now, gr, m);
      var msg := "Layer 3 analysis failed: " + m;
      WellEndedIntro(before, [GatePassed, Analyzing, Error], [gr.reason, r0, "Pipeline error: " + msg], now, r);
    case Ok(inv) =>
      var r1 := "Analysis complete. Significance: " + inv.significance;
      if !inv.isSignificant || !cfg.hasAssessor || !cfg.hasGenerator || !cfg.hasDeliverer {
        StopAfterAnalysis(t, g, cfg, sc, now, gr, inv);
        WellEndedIntro(before, [GatePassed, Analyzing, Analyzed], [gr.reason, r0, r1], now, r);
      } else {
        AssessedOutcome(t, g, cfg, sc, now, gr, inv);
      }
  }

  /** Every run that reaches Layer 4 ends well. */
  lemma AssessedOutcome(t: TriggerEvent, g: Gated, cfg: Config, sc: Script, now: int, gr: GateResult, inv: InvestigationView)
    requires g.result == Ok(gr) && gr.passed
    requires cfg.hasAnalyzer && cfg.hasAssessor && cfg.hasGenerator && cfg.hasDeliverer
    requires sc.analyze == Ok(inv) && inv.isSignificant
    ensures WellEnded(g.effects.steps, AfterGate(t, g, cfg, sc, now))
  {
    var r := AfterGate(t, g, cfg, sc, now);
    var before := g.effects.steps;
    var r0 := "Starting deep analysis";
    var r1 := "Analysis complete. Significance: " + inv.significance;
    var r2 := "Starting decision assessment";
    match sc.assess
    case Raise(m) =>
      AssessmentErrorWrapped(t, g, cfg, sc, now, gr, inv, m);
      var msg := "Layer 4 assessment failed: " + m;
      WellEndedIntro(before, [GatePassed, Analyzing, Analyzed, Assessing, Error], [gr.reason, r0, r1, r2, "Pipeline error: " + msg], now, r);
    case Ok(a) =>
      var r3 := "Assessment complete. Recommendation: " + a.recommendation;
      match sc.generate
      case Raise(m) =>
        GenerationErrorWrapped(t, g, cfg, sc, now, gr, inv, a, m);
        var msg := "Layer 5 report generation failed: " + m;
        WellEndedIntro(before, [GatePassed, Analyzing, Analyzed, Assessing, Assessed, Error], [gr.reason, r0, r1, r2, r3, "Pipeline error: " + msg], now, r);
      case Ok(report) =>
        match sc.deliver
        case Raise(m) =>
          DeliveryFailure(t, g, cfg, sc, now, gr, inv, a, report, m);
          WellEndedIntro(before, FullRun, [gr.reason, r0, r1, r2, r3, "Report generated but delivery failed: " + m], now, r);
        case Ok(channels) =>
          FullPipeline(t, g, cfg, sc, now, gr, inv, a, report, channels);
          WellEndedIntro(before, FullRun, [gr.reason, r0, r1, r2, r3, ReportedReason(channels)], now, r);
  }

  /** After the gate, every run ends well. */
  lemma AfterGateOutcome(t: TriggerEvent, g: Gated, cfg: Config, sc: Script, now: int)
    ensures WellEnded(g.effects.steps, AfterGate(t, g, cfg, sc, now))
  {
    var r := AfterGate(t, g, cfg, sc, now);
    var before := g.effects.steps;
    match g.result
    case Raise(m) =>
      GateRaises(t, g, cfg, sc, now, m);
      WellEndedIntro(before, [Error], ["Pipeline error: " + m], now, r);
    case Ok(gr) =>
      if !gr.passed {
        GateRejection(t, g, cfg, sc, now, gr);
        WellEndedIntro(before, [FilteredOut], [gr.reason], now, r);
      } else if !cfg.hasAnalyzer {
        StopWithoutAnalyzer(t, g, cfg, sc, now, gr);
        WellEndedIntro(before, [GatePassed], [gr.reason], now, r);
      } else {
        AnalyzedOutcome(t, g, cfg, sc, now, gr);
      }
  }

  // -------------------------------------------------------- process_trigger

  /** How `process_trigger` composes ingestion, the gate and the rest; neither
      ingestion nor the gate records a status (a proof helper). */
  lemma ProcessTriggerStages(t: TriggerEvent, cfg: Config, sc: Script, now: int)
    ensures var d := ProcessDocuments(NoEffects, t, sc);
            && d.effects.steps == []
            && (d.raised.Some? ==> ProcessTrigger(t, cfg, sc, now) == Failed(d.effects, d.trigger, d.raised.value, now))
            && (d.raised.None? ==>
                  && RunGate(d.effects, d.trigger, sc).effects.steps == []
                  && ProcessTrigger(t, cfg, sc, now) == AfterGate(d.trigger, RunGate(d.effects, d.trigger, sc), cfg, sc, now))
  {
  }

  /** Every call leaves one of the shapes of `IsRunShape` in the history, so it
      always records at least one status and never skips a stage. */
  lemma RunShape(t: TriggerEvent, cfg: Config, sc: Script, now: int)
    ensures IsRunShape(Statuses(ProcessTrigger(t, cfg, sc, now).effects.steps))
  {
    ProcessTriggerStages(t, cfg, sc, now);
    var d := ProcessDocuments(NoEffects, t, sc);
    if d.raised.None? {
      var g := RunGate(d.effects, d.trigger, sc);
      AfterGateOutcome(d.trigger, g, cfg, sc, now);
      var r := AfterGate(d.trigger, g, cfg, sc, now);
      assert r.effects.steps[|g.effects.steps|..] == r.effects.steps;
    }
  }

  /** Any exception ends the run with an ERROR entry "Pipeline error: …" and
      the pipeline_error result carrying the same reason. */
  lemma ErrorIsTerminal(t: TriggerEvent, cfg: Config, sc: Script, now: int)
    ensures |ProcessTrigger(t, cfg, sc, now).effects.steps| > 0
    ensures var r := ProcessTrigger(t, cfg, sc, now);
            NewestStep(r).status == Error ==>
              && StartsWith(NewestStep(r).reason, "Pipeline error: ")
              && r.result == GateResult(false, NewestStep(r).reason, "pipeline_error", Some("n/a"))
  {
    ProcessTriggerStages(t, cfg, sc, now);
    var d := ProcessDocuments(NoEffects, t, sc);
    if d.raised.None? {
      AfterGateOutcome(d.trigger, RunGate(d.effects, d.trigger, sc), cfg, sc, now);
    }
  }

  /** A human trigger bypasses the gate: neither the filter nor the
      classifier is consulted, and GATE_PASSED is recorded first with the
      bypass reason. */
  lemma HumanBypassesGate(t: TriggerEvent, cfg: Config, sc: Script, now: int)
    requires t.source == Human
    requires ProcessDocuments(NoEffects, t, sc).raised.None?
    ensures forall c | c in ProcessTrigger(t, cfg, sc, now).effects.calls :: Kind(c) != GateKind
    ensures ProcessTrigger(t, cfg, sc, now).effects.steps[0] == Step(GatePassed, "Human trigger bypasses Layer 2 gate", now)
    ensures ProcessTrigger(t, cfg, sc, now).trigger.gateResult == Some(HumanBypass)
    ensures var r := ProcessTrigger(t, cfg, sc, now);
            r.result == HumanBypass || r.result.gateMethod == "pipeline_error"
  {
    ProcessTriggerStages(t, cfg, sc, now);
    var d := ProcessDocuments(NoEffects, t, sc);
    var e0 := Record(d.effects, GatePassed, HumanBypass.reason, now);
    var p := PostGate(e0, cfg, sc, now);
    assert p.effects.steps[..1] == e0.steps;
    var r := Finish(d.trigger.(gateResult := Some(HumanBypass)), HumanBypass, p, now);
    assert ProcessTrigger(t, cfg, sc, now) == r;
    FinishKeepsSteps(d.trigger.(gateResult := Some(HumanBypass)), HumanBypass, p, now);
    assert r.effects.steps[0] == p.effects.steps[..1][0];
    forall c | c in p.effects.calls ensures Kind(c) != GateKind {
      var i :| 0 <= i < |p.effects.calls| && p.effects.calls[i] == c;
      if i < |d.effects.calls| {
        assert c in d.effects.calls;
      }
    }
  }

  /** Finishing a stage keeps the statuses it recorded and the calls it made. */
  lemma FinishKeepsSteps(t: TriggerEvent, gr: GateResult, p: Partial, now: int)
    ensures |p.effects.steps| <= |Finish(t, gr, p, now).effects.steps|
    ensures Finish(t, gr, p, now).effects.steps[..|p.effects.steps|] == p.effects.steps
    ensures Finish(t, gr, p, now).effects.calls == p.effects.calls
  {
  }

  /** A filter rejection is returned unchanged as the run's result, the
      classifier is never called, and FILTERED_OUT with the filter's reason is
      the only status recorded. */
  lemma FilterRejection(t: TriggerEvent, cfg: Config, sc: Script, now: int, f: GateResult)
    requires t.source != Human
    requires ProcessDocuments(NoEffects, t, sc).raised.None?
    requires sc.filter(ProcessDocuments(NoEffects, t, sc).trigger) == Ok(f) && !f.passed
    ensures ProcessTrigger(t, cfg, sc, now).result == f
    ensures ProcessTrigger(t, cfg, sc, now).effects.steps == [Step(FilteredOut, f.reason, now)]
    ensures forall c | c in ProcessTrigger(t, cfg, sc, now).effects.calls :: !c.Classify?
  {
    ProcessTriggerStages(t, cfg, sc, now);
    var d := ProcessDocuments(NoEffects, t, sc);
    FilterRejects(d.effects, d.trigger, sc, f);
    var g := RunGate(d.effects, d.trigger, sc);
    GateRejection(d.trigger, g, cfg, sc, now, f);
    var calls := ProcessTrigger(t, cfg, sc, now).effects.calls;
    assert calls == d.effects.calls + [Filter];
    forall c | c in calls ensures !c.Classify? {
      var i :| 0 <= i < |calls| && calls[i] == c;
      if i < |d.effects.calls| {
        assert Kind(d.effects.calls[i]) == IngestKind;
      }
    }
  }

  /** A failing fetch is an ordinary pipeline error with the fetcher's message. */
  lemma FetchErrorIsPipelineError(t: TriggerEvent, cfg: Config, sc: Script, now: int, m: string)
    requires Truthy(t.sourceUrl) && t.documentIds == [] && sc.fetch == Raise(m)
    ensures ProcessTrigger(t, cfg, sc, now).effects.steps == [Step(Error, "Pipeline error: " + m, now)]
    ensures ProcessTrigger(t, cfg, sc, now).result == PipelineError(m)
  {
  }

  // ---------------------------------------------------------------- the store

  /** Replaying a run's steps on the store is `set_status` on the stored
      trigger, step by step; other triggers are untouched and the store stays
      valid. */
  lemma {:induction false} ReplaySpec(st: Store, id: string, steps: seq<Step>)
    ensures var r := Replay(st, id, steps);
            && (Get(st, id).None? ==> Get(r, id).None?)
            && (Get(st, id).Some? ==> Get(r, id) == Some(ApplySteps(Get(st, id).value, steps)))
            && (forall other | other != id :: Get(r, other) == Get(st, other))
            && (Valid(st) ==> Valid(r))
    decreases |steps|
  {
    if |steps| > 0 {
      var st1 := UpdateStatus(st, id, steps[0].status, steps[0].reason, steps[0].at);
      UpdateStatusSpec(st, id, steps[0].status, steps[0].reason, steps[0].at);
      ReplaySpec(st1, id, steps[1..]);
    }
  }

  /** After processing a stored trigger with a consistent history, the stored
      trigger keeps its old history as a prefix, still ends with its current
      status, and carries one new entry per recorded step. */
  lemma StoredTriggerAfterRun(st: Store, t: TriggerEvent, cfg: Config, sc: Script, now: int)
    requires Get(st, t.triggerId).Some? && HistoryConsistent(Get(st, t.triggerId).value)
    ensures Get(Replay(st, t.triggerId, ProcessTrigger(t, cfg, sc, now).effects.steps), t.triggerId).Some?
    ensures var r := ProcessTrigger(t, cfg, sc, now);
            var old_t := Get(st, t.triggerId).value;
            var new_t := Get(Replay(st, t.triggerId, r.effects.steps), t.triggerId).value;
            && HistoryConsistent(new_t)
            && new_t.status == NewestStep(r).status
            && |new_t.statusHistory| == |old_t.statusHistory| + |r.effects.steps|
            && new_t.statusHistory[..|old_t.statusHistory|] == old_t.statusHistory
  {
    var r := ProcessTrigger(t, cfg, sc, now);
    StoredAfterProcessed(st, t.triggerId, r);
  }

  /** `ReplayHistory` for the steps of a run that recorded at least one. */
  lemma StoredAfterProcessed(st: Store, id: string, r: Processed)
    requires Get(st, id).Some? && HistoryConsistent(Get(st, id).value) && |r.effects.steps| > 0
    ensures Get(Replay(st, id, r.effects.steps), id).Some?
    ensures var old_t := Get(st, id).value;
            var new_t := Get(Replay(st, id, r.effects.steps), id).value;
            && HistoryConsistent(new_t)
            && new_t.status == NewestStep(r).status
            && |new_t.statusHistory| == |old_t.statusHistory| + |r.effects.steps|
            && new_t.statusHistory[..|old_t.statusHistory|] == old_t.statusHistory
  {
    ReplayHistory(st, id, r.effects.steps);
  }

  /** The stored trigger after a replay is the trigger with the steps applied. */
  lemma ReplayOwn(st: Store, id: string, steps: seq<Step>)
    requires Get(st, id).Some?
    ensures Get(Replay(st, id, steps), id) == Some(ApplySteps(Get(st, id).value, steps))
  {
    ReplaySpec(st, id, steps);
  }

  /** A non-empty run applied to a trigger with a consistent history. */
  lemma StepsHistory(old_t: TriggerEvent, steps: seq<Step>)
    requires HistoryConsistent(old_t) && |steps| > 0
    ensures var new_t := ApplySteps(old_t, steps);
            && HistoryConsistent(new_t)
            && new_t.status == steps[|steps| - 1].status
            && |new_t.statusHistory| == |old_t.statusHistory| + |steps|
            && new_t.statusHistory[..|old_t.statusHistory|] == old_t.statusHistory
  {
    StepsKeepHistory(old_t, steps);
    var k := |steps| - 1;
    var new_t := ApplySteps(old_t, steps);
    assert new_t.statusHistory[|old_t.statusHistory| + k] == StatusTransition(steps[k].status, steps[k].at, steps[k].reason);
  }

  /** Replaying a non-empty run on a stored trigger with a consistent history. */
  lemma ReplayHistory(st: Store, id: string, steps: seq<Step>)
    requires Get(st, id).Some? && HistoryConsistent(Get(st, id).value) && |steps| > 0
    ensures Get(Replay(st, id, steps), id).Some?
    ensures var old_t := Get(st, id).value;
            var new_t := Get(Replay(st, id, steps), id).value;
            && HistoryConsistent(new_t)
            && new_t.status == steps[|steps| - 1].status
            && |new_t.statusHistory| == |old_t.statusHistory| + |steps|
            && new_t.statusHistory[..|old_t.statusHistory|] == old_t.statusHistory
  {
    ReplayOwn(st, id, steps);
    StepsHistory(Get(st, id).value, steps);
  }

  /** Six steps applied to a trigger with an empty history leave exactly
      their statuses as its history. */
  lemma StepsFromEmpty(old_t: TriggerEvent, steps: seq<Step>)
    requires old_t.statusHistory == [] && Statuses(steps) == FullRun
    ensures StatusesOf(ApplySteps(old_t, steps).statusHistory) == FullRun
  {
    StepsKeepHistory(old_t, steps);
    var h := ApplySteps(old_t, steps).statusHistory;
    assert |h| == 6;
    forall k | 0 <= k < 6
      ensures StatusesOf(h)[k] == FullRun[k]
    {
      assert h[k] == StatusTransition(steps[k].status, steps[k].at, steps[k].reason);
    }
  }

  /** A trigger stored with an empty history that runs the full pipeline ends
      with exactly the six pipeline statuses. */
  lemma FullHistoryFromEmpty(st: Store, t: TriggerEvent, cfg: Config, sc: Script, now: int)
    requires Get(st, t.triggerId).Some? && Get(st, t.triggerId).value.statusHistory == []
    requires Statuses(ProcessTrigger(t, cfg, sc, now).effects.steps) == FullRun
    ensures Get(Replay(st, t.triggerId, ProcessTrigger(t, cfg, sc, now).effects.steps), t.triggerId).Some?
    ensures var r := ProcessTrigger(t, cfg, sc, now);
            StatusesOf(Get(Replay(st, t.triggerId, r.effects.steps), t.triggerId).value.statusHistory) == FullRun
  {
    var steps := ProcessTrigger(t, cfg, sc, now).effects.steps;
    ReplayOwn(st, t.triggerId, steps);
    StepsFromEmpty(Get(st, t.triggerId).value, steps);
  }

  // ------------------------------------------------------- pending triggers

  /** `process_pending_triggers` processes exactly the triggers `get_pending`
      returned, in order, and returns how many there were. */
  lemma PendingProcessedInOrder(st: Store, limit: nat, cfg: Config, scripts: string -> Script, now: int)
    ensures var pending := GetPending(st, limit);
            var runs := ProcessAll(st, pending, cfg, scripts, now).1;
            && ProcessPending(st, limit, cfg, scripts, now).1 == |pending| == |runs|
            && (forall i | 0 <= i < |runs| :: runs[i] == ProcessTrigger(pending[i], cfg, scripts(pending[i].triggerId), now))
  {
    ProcessAllRuns(st, GetPending(st, limit), cfg, scripts, now);
  }

  lemma {:induction false} ProcessAllRuns(st: Store, ts: seq<TriggerEvent>, cfg: Config, scripts: string -> Script, now: int)
    ensures var runs := ProcessAll(st, ts, cfg, scripts, now).1;
            forall i | 0 <= i < |runs| :: runs[i] == ProcessTrigger(ts[i], cfg, scripts(ts[i].triggerId), now)
    decreases |ts|
  {
    if |ts| > 0 {
      var p := ProcessTrigger(ts[0], cfg, scripts(ts[0].triggerId), now);
      var st1 := Replay(st, ts[0].triggerId, p.effects.steps);
      ProcessAllRuns(st1, ts[1..], cfg, scripts, now);
    }
  }
}

=== FILE: performance.dfy ===
/** Recommendation performance (api/performance.py): the return since a
    recommendation, whether its timeframe has run out, its outcome, and the
    summary over a page of outcome rows. Instants are seconds since the
    epoch in UTC; prices and returns are reals. Reading the assessments and
    prices from the database or the market-data tool is left out: the
    prices a row uses are inputs. */
module Performance {
  import opened Wrappers
  import opened Text
  import opened Collections

  // --------------------------------------------------------------- returns

  /** `_pct_change`: the percentage move from the base price to the latest
      one; None when a price is missing or the base is not positive. */
  function PctChange(base: Option<real>, latest: Option<real>): (r: Option<real>)
    ensures r.None? <==> base.None? || latest.None? || base.value <= 0.0
    ensures r.Some? ==> base.value * (1.0 + r.value / 100.0) == latest.value
    ensures r.Some? ==> (r.value > 0.0 <==> latest.value > base.value)
    ensures r.Some? ==> (r.value < 0.0 <==> latest.value < base.value)
  {
    if base.None? || latest.None? then None
    else if base.value <= 0.0 then None
    else
      var b, l := base.value, latest.value;
      var x := ((l / b) - 1.0) * 100.0;
      assert b * (1.0 + x / 100.0) == l by {
        assert x / 100.0 == l / b - 1.0;
        assert b * (l / b) == l;
      }
      MoveSign(b, l, x);
      Some(x)
  }

  /** A relative move is positive exactly when the price rose. */
  lemma MoveSign(b: real, l: real, x: real)
    requires b > 0.0 && b * (1.0 + x / 100.0) == l
    ensures x > 0.0 <==> l > b
    ensures x < 0.0 <==> l < b
  {
    assert l - b == b * (x / 100.0);
    if x > 0.0 {
      assert b * (x / 100.0) > 0.0;
    } else if x < 0.0 {
      assert b * (-x / 100.0) > 0.0;
    }
  }

  // ------------------------------------------------------------- timeframes

  const SecondsPerDay: real := 86400.0

  /** `_TIMEFRAME_DAYS.get(timeframe, 90)`. */
  function TimeframeDays(timeframe: string): (d: nat)
    ensures d == 30 || d == 90 || d == 180
    ensures d == 30 <==> timeframe == "short_term"
    ensures d == 180 <==> timeframe == "long_term"
  {
    if timeframe == "short_term" then 30
    else if timeframe == "long_term" then 180
    else 90
  }

  datatype Status = WithinTimeframe | Expired

  /** `_status_for_timeframe`: within the timeframe until the deadline, the
      creation instant plus the timeframe's days, inclusive. */
  function StatusFor(createdAt: real, timeframe: string, now: real): (s: Status)
    ensures s == WithinTimeframe <==> now <= createdAt + TimeframeDays(timeframe) as real * SecondsPerDay
  {
    var deadline := createdAt + TimeframeDays(timeframe) as real * SecondsPerDay;
    if now <= deadline then WithinTimeframe else Expired
  }

  /** A recommendation that has expired stays expired. */
  lemma ExpiredStaysExpired(createdAt: real, timeframe: string, now: real, later: real)
    requires StatusFor(createdAt, timeframe, now) == Expired && now <= later
    ensures StatusFor(createdAt, timeframe, later) == Expired
  {
  }

  /** A longer timeframe is within whenever a shorter one is, and an unknown
      timeframe behaves as the medium one. */
  lemma LongerTimeframesLast(createdAt: real, now: real, other: string)
    requires other != "short_term" && other != "long_term"
    ensures StatusFor(createdAt, "short_term", now) == WithinTimeframe ==> StatusFor(createdAt, "medium_term", now) == WithinTimeframe
    ensures StatusFor(createdAt, "medium_term", now) == WithinTimeframe ==> StatusFor(createdAt, "long_term", now) == WithinTimeframe
    ensures StatusFor(createdAt, other, now) == StatusFor(createdAt, "medium_term", now)
  {
    assert TimeframeDays("medium_term") == 90;
  }

  // --------------------------------------------------------------- outcomes

  datatype Outcome = Win | Loss | Neutral | Unknown

  /** `_outcome_for_recommendation`: with a return, a buy wins when it is
      positive and a sell when it is negative, any other return losing;
      a hold is neutral; anything else, or no return, is unknown. The
      recommendation is compared lower-cased and stripped. */
  function OutcomeFor(recommendation: string, returnPct: Option<real>): (o: Outcome)
    ensures returnPct.None? ==> o == Unknown
    ensures o == Win <==> (returnPct.Some? &&
      ((Strip(Lower(recommendation)) == "buy" && returnPct.value > 0.0) ||
       (Strip(Lower(recommendation)) == "sell" && returnPct.value < 0.0)))
    ensures o == Loss <==> (returnPct.Some? &&
      ((Strip(Lower(recommendation)) == "buy" && returnPct.value <= 0.0) ||
       (Strip(Lower(recommendation)) == "sell" && returnPct.value >= 0.0)))
    ensures o == Neutral <==> returnPct.Some? && Strip(Lower(recommendation)) == "hold"
  {
    var normalized := Strip(Lower(recommendation));
    if returnPct.None? then Unknown
    else if normalized == "buy" then (if returnPct.value > 0.0 then Win else Loss)
    else if normalized == "sell" then (if returnPct.value < 0.0 then Win else Loss)
    else if normalized == "hold" then Neutral
    else Unknown
  }

  /** A buy made at a known positive price wins exactly when the price rose
      since, and a sell exactly when it fell. */
  lemma CallWinsWhenPriceMovesItsWay(base: real, latest: real)
    requires base > 0.0
    ensures OutcomeFor("buy", PctChange(Some(base), Some(latest))) == Win <==> latest > base
    ensures OutcomeFor("sell", PctChange(Some(base), Some(latest))) == Win <==> latest < base
  {
    StripOfStripped("buy");
    StripOfStripped("sell");
    assert Lower("buy") == "buy";
    assert Lower("sell") == "sell";
  }

  // ------------------------------------------------------------------- rows

  /** The fields of a `PerformanceRecommendationRow` the summary reads. */
  datatype Row = Row(assessmentId: string, companySymbol: string, recommendation: string, timeframe: string,
                     returnPct: Option<real>, status: Status, outcome: Outcome)

  /** One row of `_build_rows`, from an assessment's fields and the two
      prices looked up for it: the recommendation defaults to "none" and the
      timeframe to "medium_term", both lower-cased; a missing creation
      instant is taken as now. */
  function BuildRow(assessmentId: Option<string>, companySymbol: Option<string>, newRecommendation: Option<string>,
                    timeframe: Option<string>, createdAt: Option<real>, recPrice: Option<real>, priceNow: Option<real>,
                    now: real): (r: Row)
    ensures r.recommendation == Lower(if Truthy(newRecommendation) then newRecommendation.value else "none")
    ensures r.timeframe == Lower(if Truthy(timeframe) then timeframe.value else "medium_term")
    ensures r.companySymbol == Upper(OrEmpty(companySymbol))
    ensures r.returnPct == PctChange(recPrice, priceNow)
    ensures r.outcome == OutcomeFor(r.recommendation, r.returnPct)
    ensures createdAt.None? ==> r.status == WithinTimeframe
    ensures createdAt.Some? ==> r.status == StatusFor(createdAt.value, r.timeframe, now)
  {
    var recommendation := Lower(if Truthy(newRecommendation) then newRecommendation.value else "none");
    var tf := Lower(if Truthy(timeframe) then timeframe.value else "medium_term");
    var created := if createdAt.Some? then createdAt.value else now;
    var ret := PctChange(recPrice, priceNow);
    Row(OrEmpty(assessmentId), Upper(OrEmpty(companySymbol)), recommendation, tf, ret,
        StatusFor(created, tf, now), OutcomeFor(recommendation, ret))
  }

  /** A row's outcome is the one its recommendation and return give, as
      every built row's is. */
  predicate Consistent(r: Row) {
    r.outcome == OutcomeFor(r.recommendation, r.returnPct)
  }

  // ---------------------------------------------------------------- summary

  predicate HasReturn(r: Row) {
    r.returnPct.Some?
  }

  function Ret(r: Row): real
    requires HasReturn(r)
  {
    r.returnPct.value
  }

  predicate IsBuy(r: Row) { r.recommendation == "buy" }
  predicate IsSell(r: Row) { r.recommendation == "sell" }
  predicate IsHold(r: Row) { r.recommendation == "hold" }

  /** A buy or sell row with a return: the rows the win rate is over. */
  predicate Actionable(r: Row) {
    (IsBuy(r) || IsSell(r)) && HasReturn(r)
  }

  predicate ActionableWin(r: Row) {
    Actionable(r) && r.outcome == Win
  }

  /** An actionable row whose price moved the way it called. */
  predicate CalledRight(r: Row) {
    Actionable(r) && ((IsBuy(r) && Ret(r) > 0.0) || (IsSell(r) && Ret(r) < 0.0))
  }

  /** `PerformanceCall`: the best or worst row by return. */
  datatype Call = Call(assessmentId: string, companySymbol: string, recommendation: string, returnPct: real)

  datatype Summary = Summary(
    totalRecommendations: nat,
    buyRecommendations: nat,
    sellRecommendations: nat,
    holdRecommendations: nat,
    evaluatedRecommendations: nat,
    wins: nat,
    winRate: real,
    avgReturnBuy: Option<real>,
    avgReturnSell: Option<real>,
    bestCall: Option<Call>,
    worstCall: Option<Call>)

  function Sum(xs: seq<real>): real
    decreases |xs|
  {
    if |xs| == 0 then 0.0 else Sum(xs[..|xs| - 1]) + xs[|xs| - 1]
  }

  /** The returns of the rows with the given recommendation that have one. */
  function ReturnsOf(items: seq<Row>, recommendation: string): (xs: seq<real>)
    decreases |items|
  {
    if |items| == 0 then []
    else
      var init := ReturnsOf(items[..|items| - 1], recommendation);
      var r := items[|items| - 1];
      if r.recommendation == recommendation && HasReturn(r) then init + [Ret(r)] else init
  }

  /** `sum(xs) / len(xs)`, or None for no values. */
  function Mean(xs: seq<real>): (m: Option<real>)
    ensures m.None? <==> xs == []
    ensures m.Some? ==> m.value * |xs| as real == Sum(xs)
  {
    if xs == [] then None else Some(Sum(xs) / |xs| as real)
  }

  /** Which of two returns `max` (`top`) or `min` prefers strictly. */
  predicate Beats(top: bool, x: real, y: real) {
    if top then x > y else x < y
  }

  /** `max`/`min` over the rows with a return, as a scan from `k` holding
      the best index `b` so far: the first row whose return no other row
      beats. */
  function ExtremeFrom(items: seq<Row>, top: bool, k: nat, b: nat): (m: nat)
    requires b < k <= |items| && HasReturn(items[b])
    requires forall j | 0 <= j < k && HasReturn(items[j]) :: !Beats(top, Ret(items[j]), Ret(items[b]))
    requires forall j | 0 <= j < b && HasReturn(items[j]) :: Beats(top, Ret(items[b]), Ret(items[j]))
    ensures m < |items| && HasReturn(items[m])
    ensures forall j | 0 <= j < |items| && HasReturn(items[j]) :: !Beats(top, Ret(items[j]), Ret(items[m]))
    ensures forall j | 0 <= j < m && HasReturn(items[j]) :: Beats(top, Ret(items[m]), Ret(items[j]))
    decreases |items| - k
  {
    if k == |items| then b
    else if HasReturn(items[k]) && Beats(top, Ret(items[k]), Ret(items[b])) then
      BeatsChain(items, top, k, b);
      ExtremeFrom(items, top, k + 1, k)
    else ExtremeFrom(items, top, k + 1, b)
  }

  /** A row beating the best so far beats every earlier row. */
  lemma BeatsChain(items: seq<Row>, top: bool, k: nat, b: nat)
    requires b < k < |items| && HasReturn(items[b]) && HasReturn(items[k])
    requires forall j | 0 <= j < k && HasReturn(items[j]) :: !Beats(top, Ret(items[j]), Ret(items[b]))
    requires Beats(top, Ret(items[k]), Ret(items[b]))
    ensures forall j | 0 <= j < k + 1 && HasReturn(items[j]) :: !Beats(top, Ret(items[j]), Ret(items[k]))
    ensures forall j | 0 <= j < k && HasReturn(items[j]) :: Beats(top, Ret(items[k]), Ret(items[j]))
  {
    forall j | 0 <= j < k && HasReturn(items[j])
      ensures !Beats(top, Ret(items[j]), Ret(items[k])) && Beats(top, Ret(items[k]), Ret(items[j]))
    {
      assert !Beats(top, Ret(items[j]), Ret(items[b]));
    }
  }

  /** The first row with a return, from `k` on, or `|items|`. */
  function FirstWithReturn(items: seq<Row>, k: nat): (i: nat)
    requires k <= |items|
    ensures k <= i <= |items|
    ensures i < |items| ==> HasReturn(items[i])
    ensures forall j | k <= j < i :: !HasReturn(items[j])
    decreases |items| - k
  {
    if k == |items| || HasReturn(items[k]) then k else FirstWithReturn(items, k + 1)
  }

  /** The index of the row `max` (`top`) or `min` returns, when a row has a
      return. */
  function ExtremeIndex(items: seq<Row>, top: bool): (m: Option<nat>)
    ensures m.None? <==> forall j | 0 <= j < |items| :: !HasReturn(items[j])
    ensures m.Some? ==> m.value < |items| && HasReturn(items[m.value])
    ensures m.Some? ==> forall j | 0 <= j < |items| && HasReturn(items[j]) :: !Beats(top, Ret(items[j]), Ret(items[m.value]))
    ensures m.Some? ==> forall j | 0 <= j < m.value && HasReturn(items[j]) :: Beats(top, Ret(items[m.value]), Ret(items[j]))
  {
    var f := FirstWithReturn(items, 0);
    if f == |items| then None else Some(ExtremeFrom(items, top, f + 1, f))
  }

  function CallOf(r: Row): Call
    requires HasReturn(r)
  {
    Call(r.assessmentId, r.companySymbol, r.recommendation, Ret(r))
  }

  /** The aggregation of `summarize_recommendation_performance`. */
  function Summarize(items: seq<Row>): (s: Summary)
    ensures s.totalRecommendations == |items|
    ensures s.buyRecommendations == |Filter(items, IsBuy)| && s.sellRecommendations == |Filter(items, IsSell)|
    ensures s.holdRecommendations == |Filter(items, IsHold)|
    ensures s.buyRecommendations + s.sellRecommendations + s.holdRecommendations <= s.totalRecommendations
    ensures s.avgReturnBuy == Mean(ReturnsOf(items, "buy")) && s.avgReturnSell == Mean(ReturnsOf(items, "sell"))
    ensures s.evaluatedRecommendations == |Filter(items, Actionable)|
    ensures s.wins == |Filter(items, ActionableWin)| && s.wins <= s.evaluatedRecommendations
    ensures s.evaluatedRecommendations == 0 ==> s.winRate == 0.0
    ensures s.evaluatedRecommendations > 0 ==>
      s.winRate == s.wins as real / s.evaluatedRecommendations as real && 0.0 <= s.winRate <= 1.0
    ensures s.bestCall.Some? <==> exists j | 0 <= j < |items| :: HasReturn(items[j])
    ensures s.worstCall.Some? <==> s.bestCall.Some?
    ensures s.bestCall.Some? ==> exists j | 0 <= j < |items| && HasReturn(items[j]) :: s.bestCall.value == CallOf(items[j])
    ensures s.worstCall.Some? ==> exists j | 0 <= j < |items| && HasReturn(items[j]) :: s.worstCall.value == CallOf(items[j])
    ensures s.bestCall.Some? ==> forall j | 0 <= j < |items| && HasReturn(items[j]) ::
      s.worstCall.value.returnPct <= Ret(items[j]) <= s.bestCall.value.returnPct
  {
    var buy := |Filter(items, IsBuy)|;
    var sell := |Filter(items, IsSell)|;
    var hold := |Filter(items, IsHold)|;
    CountsBounded(items);
    var evaluated := |Filter(items, Actionable)|;
    var wins := |Filter(items, ActionableWin)|;
    FilterImplies(items, ActionableWin, Actionable);
    var rate := if evaluated > 0 then wins as real / evaluated as real else 0.0;
    RateBounded(wins, evaluated);
    var best := ExtremeIndex(items, true);
    var worst := ExtremeIndex(items, false);
    Summary(|items|, buy, sell, hold, evaluated, wins, rate,
            Mean(ReturnsOf(items, "buy")), Mean(ReturnsOf(items, "sell")),
            if best.Some? then Some(CallOf(items[best.value])) else None,
            if worst.Some? then Some(CallOf(items[worst.value])) else None)
  }

  /** A share of a positive count lies in [0, 1]. */
  lemma RateBounded(wins: nat, evaluated: nat)
    requires wins <= evaluated
    ensures evaluated > 0 ==> 0.0 <= wins as real / evaluated as real <= 1.0
  {
    if evaluated > 0 {
      var e := evaluated as real;
      assert wins as real / e <= e / e;
    }
  }

  /** Like Python's `max` and `min`, the best and worst calls are the first
      rows with the extreme return: every row before them does worse. */
  lemma CallsAreFirstExtremes(items: seq<Row>)
    requires exists j | 0 <= j < |items| :: HasReturn(items[j])
    ensures var b := ExtremeIndex(items, true).value;
      && Summarize(items).bestCall == Some(CallOf(items[b]))
      && forall j | 0 <= j < b && HasReturn(items[j]) :: Ret(items[j]) < Ret(items[b])
    ensures var w := ExtremeIndex(items, false).value;
      && Summarize(items).worstCall == Some(CallOf(items[w]))
      && forall j | 0 <= j < w && HasReturn(items[j]) :: Ret(items[j]) > Ret(items[w])
  {
  }

  /** The three recommendation counts do not exceed the rows. */
  lemma {:induction false} CountsBounded(items: seq<Row>)
    ensures |Filter(items, IsBuy)| + |Filter(items, IsSell)| + |Filter(items, IsHold)| <= |items|
    decreases |items|
  {
    if |items| > 0 {
      CountsBounded(items[1..]);
    }
  }

  /** A test implied by another keeps no more rows. */
  lemma {:induction false} FilterImplies<T>(xs: seq<T>, p: T -> bool, q: T -> bool)
    requires forall k | 0 <= k < |xs| :: p(xs[k]) ==> q(xs[k])
    ensures |Filter(xs, p)| <= |Filter(xs, q)|
    decreases |xs|
  {
    if |xs| > 0 {
      FilterImplies(xs[1..], p, q);
    }
  }

  /** Over built rows the wins are the calls the price proved right. */
  lemma WinsAreRightCalls(items: seq<Row>)
    requires forall k | 0 <= k < |items| :: Consistent(items[k])
    ensures Summarize(items).wins == |Filter(items, CalledRight)|
  {
    forall k | 0 <= k < |items| ensures ActionableWin(items[k]) <==> CalledRight(items[k]) {
      WinIffRight(items[k]);
    }
    FilterSame(items, ActionableWin, CalledRight);
  }

  /** A consistent actionable row wins exactly when it called right. */
  lemma WinIffRight(r: Row)
    requires Consistent(r)
    ensures ActionableWin(r) <==> CalledRight(r)
  {
    if IsBuy(r) {
      StripOfStripped("buy");
      assert Lower("buy") == "buy";
    } else if IsSell(r) {
      StripOfStripped("sell");
      assert Lower("sell") == "sell";
    }
  }

  /** Two tests that agree on every element keep the same elements. */
  lemma {:induction false} FilterSame<T>(xs: seq<T>, p: T -> bool, q: T -> bool)
    requires forall k | 0 <= k < |xs| :: p(xs[k]) <==> q(xs[k])
    ensures Filter(xs, p) == Filter(xs, q)
    decreases |xs|
  {
    if |xs| > 0 {
      FilterSame(xs[1..], p, q);
    }
  }

  /** Returns bounded by `lo` and `hi` on every row are so in each list of
      returns. */
  lemma {:induction false} ReturnsBounded(items: seq<Row>, recommendation: string, lo: real, hi: real)
    requires forall j | 0 <= j < |items| && HasReturn(items[j]) :: lo <= Ret(items[j]) <= hi
    ensures forall k | 0 <= k < |ReturnsOf(items, recommendation)| :: lo <= ReturnsOf(items, recommendation)[k] <= hi
    decreases |items|
  {
    if |items| > 0 {
      ReturnsBounded(items[..|items| - 1], recommendation, lo, hi);
    }
  }

  /** A mean lies between the bounds of its values. */
  lemma {:induction false} SumBounded(xs: seq<real>, lo: real, hi: real)
    requires forall k | 0 <= k < |xs| :: lo <= xs[k] <= hi
    ensures |xs| as real * lo <= Sum(xs) <= |xs| as real * hi
    decreases |xs|
  {
    if |xs| > 0 {
      SumBounded(xs[..|xs| - 1], lo, hi);
    }
  }

  lemma MeanBounded(xs: seq<real>, lo: real, hi: real)
    requires xs != [] && forall k | 0 <= k < |xs| :: lo <= xs[k] <= hi
    ensures lo <= Mean(xs).value <= hi
  {
    SumBounded(xs, lo, hi);
    var n := |xs| as real;
    assert Sum(xs) / n >= lo by {
      assert Sum(xs) >= n * lo;
    }
    assert Sum(xs) / n <= hi by {
      assert Sum(xs) <= n * hi;
    }
  }

  /** The average buy and sell returns lie between the worst and the best
      call. */
  lemma AveragesBetweenCalls(items: seq<Row>)
    ensures var s := Summarize(items);
      && (s.avgReturnBuy.Some? ==> s.bestCall.Some? && s.worstCall.value.returnPct <= s.avgReturnBuy.value <= s.bestCall.value.returnPct)
      && (s.avgReturnSell.Some? ==> s.bestCall.Some? && s.worstCall.value.returnPct <= s.avgReturnSell.value <= s.bestCall.value.returnPct)
  {
    var s := Summarize(items);
    if s.bestCall.Some? {
      var lo, hi := s.worstCall.value.returnPct, s.bestCall.value.returnPct;
      ReturnsBounded(items, "buy", lo, hi);
      ReturnsBounded(items, "sell", lo, hi);
      if ReturnsOf(items, "buy") != [] {
        MeanBounded(ReturnsOf(items, "buy"), lo, hi);
      }
      if ReturnsOf(items, "sell") != [] {
        MeanBounded(ReturnsOf(items, "sell"), lo, hi);
      }
    } else {
      NoReturnsNoMeans(items, "buy");
      NoReturnsNoMeans(items, "sell");
    }
  }

  /** Without any return the lists of returns are empty. */
  lemma {:induction false} NoReturnsNoMeans(items: seq<Row>, recommendation: string)
    requires forall j | 0 <= j < |items| :: !HasReturn(items[j])
    ensures ReturnsOf(items, recommendation) == []
    decreases |items|
  {
    if |items| > 0 {
      NoReturnsNoMeans(items[..|items| - 1], recommendation);
    }
  }
}

=== FILE: poller.dfy ===
/** The exchange announcement poller (pipeline/layer1_triggers/rss_poller.py):
    payload rows, priority-ordered field lookup, normalisation into
    announcements, and trigger creation de-duplicated by source URL.

    The HTTP fetch and the payload decoding are one scripted outcome per
    source. `urljoin`, the SHA-256 hex digest and the date parser are
    oracle functions the model does not compute. Trigger ids are supplied
    by a `mint` function; the clock is one reading `now` per poll. */
module Poller {
  import opened Wrappers
  import opened Text
  import opened Json
  import opened Trigger
  import opened TriggerStore

  const TitleKeys: seq<string> := ["desc", "headline", "News_Sub", "title", "subject"]
  const ContentKeys: seq<string> := ["desc", "details", "description", "News_Sub", "title", "subject"]
  const SymbolKeys: seq<string> := ["symbol", "sm_symbol", "SCRIP_CD", "scrip_cd", "scripcode"]
  const NameKeys: seq<string> := ["sm_name", "companyName", "company_name", "CompanyName", "scripname"]
  const SectorKeys: seq<string> := ["industry", "sector"]
  const UrlKeys: seq<string> := ["attchmntFile", "link", "url", "attachment", "Attachment"]
  const DateKeys: seq<string> := ["an_dt", "an_date", "news_date", "News_submission_dt", "date", "published"]
  const DocumentKeys: seq<string> := ["attchmntFile", "link", "url", "attachment", "Attachment", "attachments"]
  const NestedUrlKeys: seq<string> := ["url", "link", "href"]
  const DigestTitleKeys: seq<string> := ["desc", "headline", "title"]
  const DigestDateKeys: seq<string> := ["an_dt", "date", "published"]
  const DigestSymbolKeys: seq<string> := ["symbol", "sm_symbol", "SCRIP_CD"]
  const NseListKeys: seq<string> := ["data", "rows", "announcements"]
  const BseListKeys: seq<string> := ["Table", "Data", "data", "results"]

  /** The foreign primitives normalisation relies on. */
  datatype Oracles = Oracles(
    urljoin: (string, string) -> string,
    sha256Hex: string -> string,
    parseDate: string -> Option<int>)

  // ---------------------------------------------------------------------------
  // Field lookup
  // ---------------------------------------------------------------------------

  /** A value `_pick_str` accepts: a string that is not blank, or a number. */
  predicate Usable(v: Option<Value>) {
    v.Some? && ((v.value.Str? && !IsBlank(v.value.s)) || IsNumber(v.value))
  }

  /** What `_pick_str` returns for an accepted value: the stripped string,
      or `str()` of the number (`True`/`False` for a bool). */
  function Stringified(v: Value): string {
    match v
    case Str(s) => Strip(s)
    case Bool(b) => if b then "True" else "False"
    case Int(i) => IntToString(i)
    case Float(_, repr) => repr
    case _ => ""
  }

  /** `_pick_str(row, keys, default)`: the first key, in priority order,
      holding an accepted value decides; otherwise the default. */
  function PickStr(row: Entries, keys: seq<string>, default: Option<string>): (r: Option<string>)
    ensures default.Some? ==> r.Some?
    decreases |keys|
  {
    if |keys| == 0 then default
    else
      var v := Lookup(row, keys[0]);
      if Usable(v) then Some(Stringified(v.value)) else PickStr(row, keys[1..], default)
  }

  /** No key holds an accepted value. */
  predicate NoneUsable(row: Entries, keys: seq<string>) {
    forall i | 0 <= i < |keys| :: !Usable(Lookup(row, keys[i]))
  }

  /** `keys[i]` is the first key holding an accepted value. */
  predicate FirstUsableAt(row: Entries, keys: seq<string>, i: nat) {
    i < |keys| && Usable(Lookup(row, keys[i])) && NoneUsable(row, keys[..i])
  }

  /** With no usable key, `_pick_str` returns its default. */
  lemma {:induction false} PickStrDefault(row: Entries, keys: seq<string>, default: Option<string>)
    requires NoneUsable(row, keys)
    ensures PickStr(row, keys, default) == default
    decreases |keys|
  {
    if |keys| > 0 {
      assert NoneUsable(row, keys[1..]) by {
        forall i | 0 <= i < |keys[1..]| ensures !Usable(Lookup(row, keys[1..][i])) {
          assert keys[1..][i] == keys[i + 1];
        }
      }
      PickStrDefault(row, keys[1..], default);
    }
  }

  /** The first usable key in priority order decides. */
  lemma {:induction false} PickStrFirst(row: Entries, keys: seq<string>, default: Option<string>, i: nat)
    requires FirstUsableAt(row, keys, i)
    ensures PickStr(row, keys, default) == Some(Stringified(Lookup(row, keys[i]).value))
    decreases i
  {
    if i > 0 {
      assert keys[..i][0] == keys[0];
      assert keys[1..][i - 1] == keys[i];
      var ks := keys[1..][..i - 1];
      forall j | 0 <= j < |ks| ensures !Usable(Lookup(row, ks[j])) {
        assert ks[j] == keys[..i][j + 1];
      }
      PickStrFirst(row, keys[1..], default, i - 1);
    }
  }

  /** A picked string value is stripped and non-empty. */
  lemma PickedStringIsStripped(row: Entries, keys: seq<string>, default: Option<string>, i: nat)
    requires FirstUsableAt(row, keys, i) && Lookup(row, keys[i]).value.Str?
    ensures var r := PickStr(row, keys, default);
            r == Some(Strip(Lookup(row, keys[i]).value.s)) && r.value != []
            && !IsSpace(r.value[0]) && !IsSpace(r.value[|r.value| - 1])
  {
    PickStrFirst(row, keys, default, i);
  }

  // ---------------------------------------------------------------------------
  // Row extraction
  // ---------------------------------------------------------------------------

  /** `[row for row in xs if isinstance(row, dict)]`. */
  function DictRows(xs: seq<Value>): (r: seq<Entries>)
    ensures |r| <= |xs|
    ensures forall k | 0 <= k < |r| :: Dict(r[k]) in xs
    ensures forall k | 0 <= k < |xs| && xs[k].Dict? :: xs[k].entries in r
  {
    if |xs| == 0 then []
    else
      var rest := DictRows(xs[1..]);
      assert forall k | 1 <= k < |xs| :: xs[k] == xs[1..][k - 1];
      if xs[0].Dict? then [xs[0].entries] + rest else rest
  }

  /** A feed entry remapped to the NSE keys. Entries are read with `.get`,
      so an entry that is not a mapping raises. */
  function EntryRow(entry: Value): (r: Attempt<Entries>)
    ensures r.Ok? <==> entry.Dict?
  {
    match entry
    case Dict(e) =>
      Ok([("desc", Lookup(e, "title").GetOr(Str(""))),
          ("attchmntFile", Lookup(e, "link").GetOr(Str(""))),
          ("an_dt", Lookup(e, "published").GetOr(Str(""))),
          ("symbol", Lookup(e, "symbol").GetOr(Null)),
          ("sm_name", Lookup(e, "company").GetOr(Null))])
    case _ => Raise("object has no attribute 'get'")
  }

  /** The remapped entry carries the entry's title, link, publication time,
      symbol and company under the NSE keys, with "" or None for missing
      ones. */
  lemma EntryRowFields(e: Entries)
    ensures var r := EntryRow(Dict(e)).value;
            && Lookup(r, "desc") == Some(Lookup(e, "title").GetOr(Str("")))
            && Lookup(r, "attchmntFile") == Some(Lookup(e, "link").GetOr(Str("")))
            && Lookup(r, "an_dt") == Some(Lookup(e, "published").GetOr(Str("")))
            && Lookup(r, "symbol") == Some(Lookup(e, "symbol").GetOr(Null))
            && Lookup(r, "sm_name") == Some(Lookup(e, "company").GetOr(Null))
  {
    var r := EntryRow(Dict(e)).value;
    assert Lookup(r, "attchmntFile") == Lookup(r[1..], "attchmntFile");
    assert Lookup(r, "an_dt") == Lookup(r[1..], "an_dt") == Lookup(r[2..], "an_dt");
    assert r[2..][1..] == r[3..] && r[3..][1..] == r[4..];
    assert Lookup(r, "symbol") == Lookup(r[1..], "symbol") == Lookup(r[2..], "symbol") == Lookup(r[3..], "symbol");
    assert Lookup(r, "sm_name") == Lookup(r[2..], "sm_name") == Lookup(r[3..], "sm_name") == Lookup(r[4..], "sm_name");
  }

  /** The rows of a feed: each entry remapped; the first entry that is not
      a mapping raises. */
  function EntryRows(entries: seq<Value>): (r: Attempt<seq<Entries>>)
    ensures r.Ok? <==> forall k | 0 <= k < |entries| :: entries[k].Dict?
    ensures r.Ok? ==> |r.value| == |entries|
    ensures r.Ok? ==> forall k | 0 <= k < |entries| :: Ok(r.value[k]) == EntryRow(entries[k])
  {
    if forall k | 0 <= k < |entries| :: entries[k].Dict? then
      Ok(seq(|entries|, k requires 0 <= k < |entries| => EntryRow(entries[k]).value))
    else Raise("object has no attribute 'get'")
  }

  /** The rows of the first key, in `keys` order, that holds a list. */
  function FirstListRows(d: Entries, keys: seq<string>): seq<Entries>
    decreases |keys|
  {
    if |keys| == 0 then []
    else
      match Lookup(d, keys[0])
      case Some(List(xs)) => DictRows(xs)
      case _ => FirstListRows(d, keys[1..])
  }

  predicate Listed(v: Option<Value>) {
    v.Some? && v.value.List?
  }

  predicate NoneListed(d: Entries, keys: seq<string>) {
    forall i | 0 <= i < |keys| :: !Listed(Lookup(d, keys[i]))
  }

  predicate FirstListAt(d: Entries, keys: seq<string>, i: nat) {
    i < |keys| && Listed(Lookup(d, keys[i])) && NoneListed(d, keys[..i])
  }

  /** With no key holding a list there are no rows. */
  lemma {:induction false} FirstListRowsNone(d: Entries, keys: seq<string>)
    requires NoneListed(d, keys)
    ensures FirstListRows(d, keys) == []
    decreases |keys|
  {
    if |keys| > 0 {
      assert NoneListed(d, keys[1..]) by {
        forall i | 0 <= i < |keys[1..]| ensures !Listed(Lookup(d, keys[1..][i])) {
          assert keys[1..][i] == keys[i + 1];
        }
      }
      FirstListRowsNone(d, keys[1..]);
    }
  }

  /** The first key holding a list decides. */
  lemma {:induction false} FirstListRowsFirst(d: Entries, keys: seq<string>, i: nat)
    requires FirstListAt(d, keys, i)
    ensures FirstListRows(d, keys) == DictRows(Lookup(d, keys[i]).value.items)
    decreases i
  {
    if i > 0 {
      assert keys[..i][0] == keys[0];
      assert keys[1..][i - 1] == keys[i];
      var ks := keys[1..][..i - 1];
      forall j | 0 <= j < |ks| ensures !Listed(Lookup(d, ks[j])) {
        assert ks[j] == keys[..i][j + 1];
      }
      FirstListRowsFirst(d, keys[1..], i - 1);
    }
  }

  /** `_extract_rows`: a list payload yields its mappings; a mapping with an
      `entries` list is a feed; otherwise each exchange looks in its own
      keys; anything else yields no rows. */
  function ExtractRows(source: TriggerSource, payload: Value): (r: Attempt<seq<Entries>>)
    ensures payload.List? ==> r == Ok(DictRows(payload.items))
    ensures !payload.List? && !payload.Dict? ==> r == Ok([])
    ensures payload.Dict? && Lookup(payload.entries, "entries").Some? && Lookup(payload.entries, "entries").value.List? ==>
              r == EntryRows(Lookup(payload.entries, "entries").value.items)
    ensures payload.Dict? && !(Lookup(payload.entries, "entries").Some? && Lookup(payload.entries, "entries").value.List?) ==>
              r == Ok(match source
                      case NseRss => FirstListRows(payload.entries, NseListKeys)
                      case BseRss => FirstListRows(payload.entries, BseListKeys)
                      case Human => [])
  {
    match payload
    case List(xs) => Ok(DictRows(xs))
    case Dict(d) =>
      (match Lookup(d, "entries")
       case Some(List(es)) => EntryRows(es)
       case _ =>
         if source == NseRss then Ok(FirstListRows(d, NseListKeys))
         else if source == BseRss then Ok(FirstListRows(d, BseListKeys))
         else Ok([]))
    case _ => Ok([])
  }

  /** An exchange only reads its own keys: an NSE payload whose list sits
      under a BSE-only key yields no rows, and the other way round. */
  lemma NseIgnoresBseKeys(xs: seq<Value>)
    ensures ExtractRows(NseRss, Dict([("Table", List(xs))])) == Ok([])
  {
    var d := [("Table", List(xs))];
    assert forall i | 0 <= i < |NseListKeys| :: Lookup(d, NseListKeys[i]).None?;
    FirstListRowsNone(d, NseListKeys);
  }

  lemma BseIgnoresNseKeys(xs: seq<Value>)
    ensures ExtractRows(BseRss, Dict([("rows", List(xs))])) == Ok([])
  {
    var d := [("rows", List(xs))];
    assert forall i | 0 <= i < |BseListKeys| :: Lookup(d, BseListKeys[i]).None?;
    FirstListRowsNone(d, BseListKeys);
  }

  /** BSE also reads the shared `data` key, after its own two. */
  lemma BseReadsSharedData(xs: seq<Value>)
    ensures ExtractRows(BseRss, Dict([("data", List(xs))])) == Ok(DictRows(xs))
  {
    var d := [("data", List(xs))];
    assert BseListKeys[..2] == ["Table", "Data"];
    assert NoneListed(d, BseListKeys[..2]);
    FirstListRowsFirst(d, BseListKeys, 2);
  }

  // ---------------------------------------------------------------------------
  // Normalisation
  // ---------------------------------------------------------------------------

  datatype Announcement = Announcement(
    source: TriggerSource,
    sourceUrl: string,
    title: string,
    rawContent: string,
    companySymbol: Option<string>,
    companyName: Option<string>,
    sector: Option<string>,
    publishedAt: Option<int>,
    documentUrls: seq<string>)

  /** `_parse_date`: an empty value is no date. */
  function ParseDate(o: Oracles, v: Option<string>): (r: Option<int>)
    ensures !Truthy(v) ==> r == None
  {
    if Truthy(v) then o.parseDate(v.value) else None
  }

  const UrnPrefix := "urn:tuj:"

  /** `_synthetic_source_url`: a URN made of the source and the first 16 hex
      digits of the digest of source|title|date|symbol. */
  function SyntheticSourceUrl(source: TriggerSource, row: Entries, o: Oracles): (r: string)
    ensures StartsWith(r, UrnPrefix + SourceValue(source) + ":")
    ensures |o.sha256Hex(DigestInput(source, row))| >= 16 ==>
              |r| == |UrnPrefix + SourceValue(source) + ":"| + 16
  {
    var prefix := UrnPrefix + SourceValue(source) + ":";
    var r := prefix + Take(o.sha256Hex(DigestInput(source, row)), 16);
    assert r[..|prefix|] == prefix;
    r
  }

  function DigestInput(source: TriggerSource, row: Entries): string {
    Join([SourceValue(source),
          PickStr(row, DigestTitleKeys, Some("")).value,
          PickStr(row, DigestDateKeys, Some("")).value,
          PickStr(row, DigestSymbolKeys, Some("")).value], "|")
  }

  function UrlOf(item: Value, base: string, o: Oracles): (r: seq<string>)
    ensures |r| <= 1
  {
    match item
    case Str(s) => if IsBlank(s) then [] else [o.urljoin(base, Strip(s))]
    case Dict(e) =>
      var nested := PickStr(e, NestedUrlKeys, None);
      if Truthy(nested) then [o.urljoin(base, nested.value)] else []
    case _ => []
  }

  function UrlsOfList(items: seq<Value>, base: string, o: Oracles): (r: seq<string>)
    ensures |r| <= |items|
  {
    if |items| == 0 then [] else UrlOf(items[0], base, o) + UrlsOfList(items[1..], base, o)
  }

  /** The URLs one document key contributes: a non-blank string, or every
      usable item of a list. */
  function UrlsOfKey(v: Option<Value>, base: string, o: Oracles): seq<string> {
    match v
    case Some(Str(s)) => if IsBlank(s) then [] else [o.urljoin(base, Strip(s))]
    case Some(List(items)) => UrlsOfList(items, base, o)
    case _ => []
  }

  function UrlCandidates(row: Entries, keys: seq<string>, base: string, o: Oracles): seq<string> {
    if |keys| == 0 then [] else UrlsOfKey(Lookup(row, keys[0]), base, o) + UrlCandidates(row, keys[1..], base, o)
  }

  /** `_extract_document_urls`: every document URL of the row, each once, in
      the order of first occurrence. */
  function ExtractDocumentUrls(row: Entries, base: string, o: Oracles): (r: seq<string>)
    ensures NoDuplicates(r)
    ensures var c := UrlCandidates(row, DocumentKeys, base, o);
            (forall i | 0 <= i < |r| :: r[i] in c) && (forall i | 0 <= i < |c| :: c[i] in r)
            && forall i, j | 0 <= i < j < |r| :: FirstIndex(c, r[i]) < FirstIndex(c, r[j])
  {
    Dedup(UrlCandidates(row, DocumentKeys, base, o))
  }

  /** `_normalize_row`. */
  function NormalizeRow(source: TriggerSource, row: Entries, base: string, o: Oracles): (a: Announcement)
    ensures a.source == source
    ensures a.companySymbol == PickStr(row, SymbolKeys, None)
    ensures a.companyName == PickStr(row, NameKeys, None)
    ensures a.sector == PickStr(row, SectorKeys, None)
    ensures a.documentUrls == ExtractDocumentUrls(row, base, o)
    ensures NoneUsable(row, TitleKeys) ==>
              a.title == Take(a.rawContent, 120)
    ensures NoneUsable(row, ContentKeys) ==>
              a.rawContent == PickStr(row, TitleKeys, Some("")).value
    ensures NoneUsable(row, UrlKeys) ==>
              a.sourceUrl == SyntheticSourceUrl(source, row, o)
    ensures PickStr(row, UrlKeys, Some("")).value != "" ==>
              a.sourceUrl == o.urljoin(base, PickStr(row, UrlKeys, Some("")).value)
  {
    var title := PickStr(row, TitleKeys, Some("")).value;
    var raw := PickStr(row, ContentKeys, Some(title)).value;
    assert NoneUsable(row, TitleKeys) ==> title == "" by {
      if NoneUsable(row, TitleKeys) { PickStrDefault(row, TitleKeys, Some("")); }
    }
    assert NoneUsable(row, ContentKeys) ==> raw == title by {
      if NoneUsable(row, ContentKeys) { PickStrDefault(row, ContentKeys, Some(title)); }
    }
    assert NoneUsable(row, UrlKeys) ==> PickStr(row, UrlKeys, Some("")) == Some("") by {
      if NoneUsable(row, UrlKeys) { PickStrDefault(row, UrlKeys, Some("")); }
    }
    var picked := PickStr(row, UrlKeys, Some("")).value;
    var url := if picked != "" then o.urljoin(base, picked) else SyntheticSourceUrl(source, row, o);
    Announcement(
      source, url, if title != "" then title else Take(raw, 120), raw,
      PickStr(row, SymbolKeys, None), PickStr(row, NameKeys, None), PickStr(row, SectorKeys, None),
      ParseDate(o, PickStr(row, DateKeys, None)), ExtractDocumentUrls(row, base, o))
  }

  function NormalizeRows(source: TriggerSource, rows: seq<Entries>, base: string, o: Oracles): (r: seq<Announcement>)
    ensures |r| == |rows|
    ensures forall k | 0 <= k < |rows| :: r[k] == NormalizeRow(source, rows[k], base, o)
  {
    seq(|rows|, k requires 0 <= k < |rows| => NormalizeRow(source, rows[k], base, o))
  }

  // ---------------------------------------------------------------------------
  // Trigger creation
  // ---------------------------------------------------------------------------

  /** The trigger an announcement becomes. */
  function AnnouncementTrigger(a: Announcement, id: string, now: int): (t: TriggerEvent)
    ensures t.triggerId == id && t.source == a.source && t.sourceUrl == Some(a.sourceUrl)
    ensures t.feedTitle == Some(a.title) && t.feedPublished == a.publishedAt
    ensures t.companySymbol == a.companySymbol && t.companyName == a.companyName && t.sector == a.sector
    ensures t.rawContent == a.rawContent && t.priority == Normal
    ensures t.status == Pending && t.statusHistory == [] && t.documentIds == [] && t.gateResult == None
  {
    NewTrigger(id, a.source, a.rawContent, now).(
      sourceUrl := Some(a.sourceUrl), feedTitle := Some(a.title), feedPublished := a.publishedAt,
      companySymbol := a.companySymbol, companyName := a.companyName, sector := a.sector)
  }

  /** The store after a creation pass, the triggers the pass returns, and
      whether a save raised (which ends the pass; earlier saves stay). */
  datatype Batch = Batch(store: Store, created: seq<TriggerEvent>, failed: bool)

  /** `_create_new_triggers` from announcement `k` on. */
  function CreateFrom(st: Store, anns: seq<Announcement>, mint: nat -> string, now: int, k: nat): (r: Batch)
    requires k <= |anns|
    ensures !r.failed ==> multiset(r.store.items) == multiset(st.items) + multiset(r.created)
    ensures |r.created| <= |anns| - k
    decreases |anns| - k
  {
    if k == |anns| then Batch(st, [], false)
    else if ExistsByUrl(st, anns[k].sourceUrl) then CreateFrom(st, anns, mint, now, k + 1)
    else
      var t := AnnouncementTrigger(anns[k], mint(k), now);
      match Save(st, t)
      case Failure(_) => Batch(st, [], true)
      case Success(st1) =>
        var rest := CreateFrom(st1, anns, mint, now, k + 1);
        Batch(rest.store, [t] + rest.created, rest.failed)
  }

  function CreateNewTriggers(st: Store, anns: seq<Announcement>, mint: nat -> string, now: int): (r: Batch)
    ensures !r.failed ==> multiset(r.store.items) == multiset(st.items) + multiset(r.created)
    ensures |r.created| <= |anns|
  {
    CreateFrom(st, anns, mint, now, 0)
  }

  /** Announcement `k` is already known when reached: its URL is stored, or
      an earlier announcement of the batch carries the same URL. */
  predicate Seen(st: Store, anns: seq<Announcement>, k: nat)
    requires k < |anns|
  {
    ExistsByUrl(st, anns[k].sourceUrl)
    || (anns[k].sourceUrl != "" && exists j | 0 <= j < k :: anns[j].sourceUrl == anns[k].sourceUrl)
  }

  /** The triggers for the unseen announcements from `k` on, in order. */
  function Unseen(st: Store, anns: seq<Announcement>, mint: nat -> string, now: int, k: nat): seq<TriggerEvent>
    requires k <= |anns|
    decreases |anns| - k
  {
    if k == |anns| then []
    else (if Seen(st, anns, k) then [] else [AnnouncementTrigger(anns[k], mint(k), now)])
         + Unseen(st, anns, mint, now, k + 1)
  }

  /** Ids the pass can draw without clashing: distinct, and not in the store. */
  predicate FreshIds(st: Store, mint: nat -> string, n: nat) {
    (forall k | 0 <= k < n :: !HasId(st.items, mint(k)))
    && forall i, j | 0 <= i < j < n :: mint(i) != mint(j)
  }

  /** The URLs known after the first `k` announcements were handled. */
  ghost predicate KnownAfter(st0: Store, st: Store, anns: seq<Announcement>, k: nat)
    requires k <= |anns|
  {
    forall u: string ::
      ExistsByUrl(st, u) <==> ExistsByUrl(st0, u) || (u != "" && exists j | 0 <= j < k :: anns[j].sourceUrl == u)
  }

  lemma {:induction false} CreateFromUnseen(st0: Store, st: Store, anns: seq<Announcement>, mint: nat -> string, now: int, k: nat)
    requires k <= |anns| && Valid(st) && KnownAfter(st0, st, anns, k)
    requires forall j | k <= j < |anns| :: !HasId(st.items, mint(j))
    requires forall i, j | k <= i < j < |anns| :: mint(i) != mint(j)
    ensures var r := CreateFrom(st, anns, mint, now, k);
            !r.failed && r.created == Unseen(st0, anns, mint, now, k)
    decreases |anns| - k
  {
    if k < |anns| {
      var u := anns[k].sourceUrl;
      assert ExistsByUrl(st, u) <==> Seen(st0, anns, k);
      if !ExistsByUrl(st, u) {
        var t := AnnouncementTrigger(anns[k], mint(k), now);
        var st1 := Save(st, t).value;
        forall v: string ensures ExistsByUrl(st1, v) <==> ExistsByUrl(st0, v) || (v != "" && exists j | 0 <= j < k + 1 :: anns[j].sourceUrl == v) {
          SaveAddsOne(st, t, v, "");
          if v != "" && anns[k].sourceUrl == v {
            assert exists j | 0 <= j < k + 1 :: anns[j].sourceUrl == v;
          }
        }
        forall j | k + 1 <= j < |anns| ensures !HasId(st1.items, mint(j)) {
          SaveAddsOne(st, t, "", mint(j));
        }
        CreateFromUnseen(st0, st1, anns, mint, now, k + 1);
      } else {
        CreateFromUnseen(st0, st, anns, mint, now, k + 1);
      }
    }
  }

  /** An announcement becomes a trigger iff its URL is unknown when it is
      reached, and the created triggers come in announcement order. With
      fresh ids no save fails. */
  lemma CreatesExactlyUnseen(st: Store, anns: seq<Announcement>, mint: nat -> string, now: int)
    requires Valid(st) && FreshIds(st, mint, |anns|)
    ensures var r := CreateNewTriggers(st, anns, mint, now);
            !r.failed && r.created == Unseen(st, anns, mint, now, 0)
            && multiset(r.store.items) == multiset(st.items) + multiset(r.created)
  {
    CreateFromUnseen(st, st, anns, mint, now, 0);
  }

  /** A batch whose URLs are all stored already creates nothing and leaves
      the store as it was. */
  lemma {:induction false} KnownUrlsCreateNothing(st: Store, anns: seq<Announcement>, mint: nat -> string, now: int, k: nat)
    requires k <= |anns|
    requires forall j | k <= j < |anns| :: ExistsByUrl(st, anns[j].sourceUrl)
    ensures CreateFrom(st, anns, mint, now, k) == Batch(st, [], false)
    decreases |anns| - k
  {
    if k < |anns| {
      KnownUrlsCreateNothing(st, anns, mint, now, k + 1);
    }
  }

  // ---------------------------------------------------------------------------
  // Polling
  // ---------------------------------------------------------------------------

  /** What one source's poll did to the store and which triggers it reports. */
  function PollSource(st: Store, source: TriggerSource, url: string, fetched: Attempt<Value>,
                      o: Oracles, mint: nat -> string, now: int): (r: (Store, seq<TriggerEvent>))
    ensures fetched.Raise? ==> r == (st, [])
  {
    match fetched
    case Raise(_) => (st, [])
    case Ok(payload) =>
      match ExtractRows(source, payload)
      case Raise(_) => (st, [])
      case Ok(rows) =>
        var anns := NormalizeRows(source, rows, url, o);
        var b := CreateNewTriggers(st, anns, mint, now);
        (b.store, if b.failed then [] else b.created)
  }

  /** Every trigger a pass creates is a new PENDING trigger of the
      announcements' source. */
  lemma {:induction false} CreatedKeepSource(st: Store, anns: seq<Announcement>, mint: nat -> string, now: int, k: nat, source: TriggerSource)
    requires k <= |anns| && forall j | k <= j < |anns| :: anns[j].source == source
    ensures forall t | t in CreateFrom(st, anns, mint, now, k).created ::
              t.source == source && t.status == Pending && t.priority == Normal
    decreases |anns| - k
  {
    if k < |anns| {
      if ExistsByUrl(st, anns[k].sourceUrl) {
        assert CreateFrom(st, anns, mint, now, k) == CreateFrom(st, anns, mint, now, k + 1);
        CreatedKeepSource(st, anns, mint, now, k + 1, source);
      } else {
        var t := AnnouncementTrigger(anns[k], mint(k), now);
        if Save(st, t).Success? {
          var rest := CreateFrom(Save(st, t).value, anns, mint, now, k + 1);
          assert CreateFrom(st, anns, mint, now, k) == Batch(rest.store, [t] + rest.created, rest.failed);
          CreatedKeepSource(Save(st, t).value, anns, mint, now, k + 1, source);
        }
      }
    }
  }

  datatype PollRun = PollRun(store: Store, created: seq<TriggerEvent>, polled: seq<TriggerSource>)

  /** `poll`: NSE first, then BSE when its URL is set. Each source is fetched
      (`fetch` scripts the network and decoding outcome) and handled on its
      own: a failure there contributes no triggers and does not stop the
      other source. Ids for source `s` come from `mint(s, k)`. */
  function Poll(st: Store, nseUrl: string, bseUrl: Option<string>,
                fetch: (TriggerSource, string) -> Attempt<Value>, o: Oracles,
                mint: (TriggerSource, nat) -> string, now: int): (r: PollRun)
    ensures r.polled == [NseRss] + (if Truthy(bseUrl) then [BseRss] else [])
  {
    var nse := PollSource(st, NseRss, nseUrl, fetch(NseRss, nseUrl), o, (k: nat) => mint(NseRss, k), now);
    if Truthy(bseUrl) then
      var bse := PollSource(nse.0, BseRss, bseUrl.value, fetch(BseRss, bseUrl.value), o, (k: nat) => mint(BseRss, k), now);
      PollRun(bse.0, nse.1 + bse.1, [NseRss, BseRss])
    else
      PollRun(nse.0, nse.1, [NseRss])
  }

  /** Per-source isolation: a failing NSE fetch leaves the store alone and
      the result is exactly what BSE alone would create; a failing BSE fetch
      leaves exactly NSE's triggers. */
  lemma PollIsolation(st: Store, nseUrl: string, bseUrl: Option<string>,
                      fetch: (TriggerSource, string) -> Attempt<Value>, o: Oracles,
                      mint: (TriggerSource, nat) -> string, now: int)
    ensures fetch(NseRss, nseUrl).Raise? && Truthy(bseUrl) ==>
              Poll(st, nseUrl, bseUrl, fetch, o, mint, now).created
              == PollSource(st, BseRss, bseUrl.value, fetch(BseRss, bseUrl.value), o, (k: nat) => mint(BseRss, k), now).1
    ensures Truthy(bseUrl) && fetch(BseRss, bseUrl.value).Raise? ==>
              Poll(st, nseUrl, bseUrl, fetch, o, mint, now).created
              == PollSource(st, NseRss, nseUrl, fetch(NseRss, nseUrl), o, (k: nat) => mint(NseRss, k), now).1
    ensures !Truthy(bseUrl) ==>
              Poll(st, nseUrl, bseUrl, fetch, o, mint, now).created
              == PollSource(st, NseRss, nseUrl, fetch(NseRss, nseUrl), o, (k: nat) => mint(NseRss, k), now).1
  {
  }

  /** A source's poll only creates new PENDING, NORMAL-priority triggers of
      that source. */
  lemma PollSourceKeepsSource(st: Store, source: TriggerSource, url: string, fetched: Attempt<Value>,
                              o: Oracles, mint: nat -> string, now: int)
    ensures forall t | t in PollSource(st, source, url, fetched, o, mint, now).1 ::
              t.source == source && t.status == Pending && t.priority == Normal
  {
    if fetched.Ok? && ExtractRows(source, fetched.value).Ok? {
      var anns := NormalizeRows(source, ExtractRows(source, fetched.value).value, url, o);
      CreatedKeepSource(st, anns, mint, now, 0, source);
    }
  }

  /** Every trigger a poll creates comes from a polled source and starts
      PENDING with NORMAL priority. */
  lemma PollCreatesFromPolledSources(st: Store, nseUrl: string, bseUrl: Option<string>,
                                     fetch: (TriggerSource, string) -> Attempt<Value>, o: Oracles,
                                     mint: (TriggerSource, nat) -> string, now: int)
    ensures var r := Poll(st, nseUrl, bseUrl, fetch, o, mint, now);
            forall t | t in r.created :: t.source in r.polled && t.status == Pending && t.priority == Normal
  {
    var nmint := (k: nat) => mint(NseRss, k);
    var nse := PollSource(st, NseRss, nseUrl, fetch(NseRss, nseUrl), o, nmint, now);
    PollSourceKeepsSource(st, NseRss, nseUrl, fetch(NseRss, nseUrl), o, nmint, now);
    if Truthy(bseUrl) {
      var bmint := (k: nat) => mint(BseRss, k);
      PollSourceKeepsSource(nse.0, BseRss, bseUrl.value, fetch(BseRss, bseUrl.value), o, bmint, now);
    }
  }
}

=== FILE: ranking.dfy ===
/** Ranking recommendation reports in the investor dashboard
    (dashboard/recommendation_utils.py): the signal and the confidence
    read back from a report's recommendation summary, its creation time,
    and the score the dashboard sorts by. `datetime.fromisoformat` is an
    oracle parameter that gives the parsed instant's timestamp. */
module Ranking {
  import opened Wrappers
  import opened Text
  import opened Collections
  import Decision
  import ReportGenerator

  // -------------------------------------------------------------- signals

  const SellSignal: string := "SELL"
  const BuySignal: string := "BUY"
  const HoldSignal: string := "HOLD"
  const NoSignal: string := "NONE"

  /** `infer_recommendation_signal`: the first of "sell", "buy" and "hold"
      that the lower-cased text mentions, in that order of precedence. */
  function InferSignal(text: string): (r: string)
    ensures r == SellSignal <==> Contains(Lower(text), "sell")
    ensures r == BuySignal <==> !Contains(Lower(text), "sell") && Contains(Lower(text), "buy")
    ensures r == HoldSignal <==>
      !Contains(Lower(text), "sell") && !Contains(Lower(text), "buy") && Contains(Lower(text), "hold")
    ensures r == NoSignal <==>
      !Contains(Lower(text), "sell") && !Contains(Lower(text), "buy") && !Contains(Lower(text), "hold")
  {
    var lowered := Lower(text);
    if Contains(lowered, "sell") then SellSignal
    else if Contains(lowered, "buy") then BuySignal
    else if Contains(lowered, "hold") then HoldSignal
    else NoSignal
  }

  /** The signal ignores letter case. */
  lemma SignalIgnoresCase(text: string)
    ensures InferSignal(Upper(text)) == InferSignal(text)
    ensures InferSignal(Lower(text)) == InferSignal(text)
  {
    LowerOfUpper(text);
    LowerIdempotent(text);
  }

  /** `signal_weight`: 3 for BUY and SELL, 2 for HOLD and 1 for anything
      else, after upper-casing and stripping the signal. */
  function SignalWeight(signal: string): (w: int)
    ensures 1 <= w <= 3
    ensures w == 3 <==> Strip(Upper(signal)) in {BuySignal, SellSignal}
    ensures w == 2 <==> Strip(Upper(signal)) == HoldSignal
    ensures w == 1 <==> Strip(Upper(signal)) !in {BuySignal, SellSignal, HoldSignal}
  {
    var normalized := Strip(Upper(signal));
    if normalized == BuySignal || normalized == SellSignal then 3
    else if normalized == HoldSignal then 2
    else 1
  }

  /** The weight of an inferred signal: 3 when the text mentions selling or
      buying, else 2 when it mentions holding, else 1. */
  lemma InferredWeight(text: string)
    ensures var lowered := Lower(text);
      SignalWeight(InferSignal(text)) ==
        if Contains(lowered, "sell") || Contains(lowered, "buy") then 3
        else if Contains(lowered, "hold") then 2
        else 1
  {
    var signal := InferSignal(text);
    assert Upper(signal) == signal;
    StripOfStripped(signal);
  }

  lemma UpperAppend(a: string, b: string)
    ensures Upper(a + b) == Upper(a) + Upper(b)
  {
    assert forall i | 0 <= i < |a + b| :: Upper(a + b)[i] == (Upper(a) + Upper(b))[i];
  }

  /** The weight does not depend on the signal's letter case or on the
      whitespace around it. */
  lemma WeightIgnoresCaseAndPadding(a: string, signal: string, b: string)
    requires AllSpace(a) && AllSpace(b) && signal != [] && Trimmed(signal)
    ensures SignalWeight(a + Lower(signal) + b) == SignalWeight(signal)
  {
    PaddedNormalizes(a, signal, b);
  }

  /** Upper-casing and stripping a padded, lower-cased signal gives the
      upper-cased signal. */
  lemma PaddedNormalizes(a: string, signal: string, b: string)
    requires AllSpace(a) && AllSpace(b) && signal != [] && Trimmed(signal)
    ensures Strip(Upper(a + Lower(signal) + b)) == Strip(Upper(signal))
  {
    var u := Upper(signal);
    UpperPadded(a, signal, b);
    UpperOfStripped(signal);
    StripPadded(Upper(a), u, Upper(b));
    StripOfStripped(u);
  }

  lemma UpperPadded(a: string, signal: string, b: string)
    requires AllSpace(a) && AllSpace(b)
    ensures Upper(a + Lower(signal) + b) == Upper(a) + Upper(signal) + Upper(b)
    ensures AllSpace(Upper(a)) && AllSpace(Upper(b))
  {
    UpperAppend(a + Lower(signal), b);
    UpperAppend(a, Lower(signal));
    UpperOfLower(signal);
    assert forall i | 0 <= i < |a| :: Upper(a)[i] == a[i];
    assert forall i | 0 <= i < |b| :: Upper(b)[i] == b[i];
  }

  // ---------------------------------------------------------- confidence

  const ConfidenceWord: string := "confidence"

  predicate IsDigit(c: char) {
    '0' <= c <= '9'
  }

  /** The pattern's word at `i`, in any ASCII letter case. */
  predicate WordAt(s: string, i: nat) {
    i + |ConfidenceWord| <= |s| && forall k | 0 <= k < |ConfidenceWord| :: LowerChar(s[i + k]) == ConfidenceWord[k]
  }

  /** The end of the run of digits that starts at `i`. */
  function DigitRunEnd(s: string, i: nat): (e: nat)
    requires i <= |s|
    ensures i <= e <= |s|
    ensures forall k | i <= k < e :: IsDigit(s[k])
    ensures e < |s| ==> !IsDigit(s[e])
    decreases |s| - i
  {
    if i < |s| && IsDigit(s[i]) then DigitRunEnd(s, i + 1) else i
  }

  /** The digit group of a match of `confidence\s*[:=]\s*(\d{1,3})\s*%`
      that starts at `i`. The whitespace runs and the digit run are greedy
      and nothing after them can be matched by giving characters back, so a
      run of four or more digits fails the match. */
  function MatchAt(s: string, i: nat): (g: Option<(nat, nat)>)
    requires i <= |s|
    ensures g.Some? ==> g.value.0 < g.value.1 <= g.value.0 + 3 && g.value.1 < |s| && AllDigits(s[g.value.0..g.value.1])
  {
    if !WordAt(s, i) then None
    else
      var a := SkipSpace(s, i + |ConfidenceWord|);
      if a == |s| || (s[a] != ':' && s[a] != '=') then None
      else
        var b := SkipSpace(s, a + 1);
        var e := DigitRunEnd(s, b);
        var c := SkipSpace(s, e);
        if b < e <= b + 3 && c < |s| && s[c] == '%' then Some((b, e)) else None
  }

  /** Whether a match starts at a position. */
  function Matches(s: string): nat -> bool {
    (k: nat) => k <= |s| && MatchAt(s, k).Some?
  }

  /** `extract_confidence_pct`: the number in the leftmost match, capped at
      100, or 50 when the text holds no match. */
  function ExtractConfidencePct(text: string): (r: int)
    ensures 0 <= r <= 100
    ensures (forall k | 0 <= k <= |text| :: MatchAt(text, k).None?) ==> r == 50
  {
    var m := MatchAt(text, FirstWhere(Matches(text), 0, |text|));
    if m.None? then 50
    else
      var value := DigitsValue(text[m.value.0..m.value.1]);
      if value > 100 then 100 else value
  }

  lemma {:induction false} NatToStringShort(n: nat)
    requires n <= 999
    ensures |NatToString(n)| <= 3
  {
    if n >= 10 {
      NatToStringShort(n / 10);
      if n / 10 < 10 {
        assert |NatToString(n / 10)| == 1;
      } else {
        assert |NatToString(n / 10)| <= 2 by {
          assert n / 10 / 10 < 10;
        }
      }
    }
  }

  /** The capitalised word the report generator writes matches the
      pattern's word. */
  lemma CapitalisedWord()
    ensures forall k | 0 <= k < 10 :: LowerChar("Confidence: "[k]) == ConfidenceWord[k]
  {
    var w := "Confidence: ";
    assert LowerChar(w[0]) == 'c' && w[1] == 'o' && w[2] == 'n' && w[3] == 'f' && w[4] == 'i';
    assert w[5] == 'd' && w[6] == 'e' && w[7] == 'n' && w[8] == 'c' && w[9] == 'e';
  }

  /** The match at `p` of a text that reads "Confidence: <d>%" there. */
  lemma MatchOfRendered(s: string, p: nat, d: string)
    requires AllDigits(d) && 1 <= |d| <= 3
    requires p + 13 + |d| <= |s|
    requires WordAt(s, p) && s[p + 10] == ':' && s[p + 11] == ' '
    requires forall k | 0 <= k < |d| :: s[p + 12 + k] == d[k]
    requires s[p + 12 + |d|] == '%'
    ensures MatchAt(s, p) == Some((p + 12, p + 12 + |d|))
    ensures s[p + 12..p + 12 + |d|] == d
  {
    var a := SkipSpace(s, p + 10);
    assert a == p + 10;
    var b := SkipSpace(s, a + 1);
    assert b == p + 12 by {
      assert IsSpace(s[p + 11]);
      assert s[p + 12] == d[0];
    }
    var e := DigitRunEnd(s, b);
    assert e == p + 12 + |d| by {
      forall k | p + 12 <= k < p + 12 + |d| ensures IsDigit(s[k]) {
        assert s[k] == d[k - (p + 12)];
      }
    }
    assert SkipSpace(s, e) == e;
    assert s[p + 12..p + 12 + |d|] == d;
  }

  /** Where the pieces of a rendered summary sit. */
  lemma RenderedChars(prefix: string, w: string, d: string, rest: string)
    requires |w| == 12
    ensures var s := prefix + w + d + "%" + rest; var p := |prefix|;
      && |s| == p + 13 + |d| + |rest|
      && (forall k | 0 <= k < p :: s[k] == prefix[k])
      && (forall k | 0 <= k < 12 :: s[p + k] == w[k])
      && (forall k | 0 <= k < |d| :: s[p + 12 + k] == d[k])
      && s[p + 12 + |d|] == '%'
  {
  }

  /** No match starts at a character other than a c. */
  lemma NoWordNoMatch(s: string, p: nat)
    requires p <= |s|
    requires forall k | 0 <= k < p :: LowerChar(s[k]) != 'c'
    ensures forall k | 0 <= k < p :: MatchAt(s, k).None?
  {
    forall k | 0 <= k < p ensures MatchAt(s, k).None? {
      assert !WordAt(s, k) by {
        assert ConfidenceWord[0] == 'c';
        assert s[k + 0] == s[k];
      }
    }
  }

  /** The confidence read from the first match, at `p`, with digits `d`. */
  lemma ExtractAt(s: string, p: nat, d: string)
    requires p + 12 + |d| <= |s| && AllDigits(d)
    requires MatchAt(s, p) == Some((p + 12, p + 12 + |d|)) && s[p + 12..p + 12 + |d|] == d
    requires forall k | 0 <= k < p :: MatchAt(s, k).None?
    ensures ExtractConfidencePct(s) == if DigitsValue(d) > 100 then 100 else DigitsValue(d)
  {
    assert FirstWhere(Matches(s), 0, |s|) == p by {
      FirstWhereIs(Matches(s), 0, |s|, p);
    }
    var m := MatchAt(s, p);
    assert s[m.value.0..m.value.1] == d;
  }

  /** The confidence the dashboard reads from a summary that renders it as
      "Confidence: <n>%", after text holding no letter c: the number,
      capped at 100. */
  lemma ConfidenceReadBack(prefix: string, n: nat, rest: string)
    requires n <= 999
    requires forall k | 0 <= k < |prefix| :: LowerChar(prefix[k]) != 'c'
    ensures ExtractConfidencePct(prefix + "Confidence: " + NatToString(n) + "%" + rest) == if n > 100 then 100 else n
  {
    var d := NatToString(n);
    var w := "Confidence: ";
    var s := prefix + w + d + "%" + rest;
    var p := |prefix|;
    NatToStringShort(n);
    NatToStringRoundTrip(n);
    RenderedChars(prefix, w, d, rest);
    assert WordAt(s, p) by {
      CapitalisedWord();
      forall k | 0 <= k < 10 ensures LowerChar(s[p + k]) == ConfidenceWord[k] {
        assert s[p + k] == w[k];
      }
    }
    assert s[p + 10] == ':' && s[p + 11] == ' ' by {
      assert s[p + 10] == w[10] && s[p + 11] == w[11];
    }
    MatchOfRendered(s, p, d);
    assert forall k | 0 <= k < p :: LowerChar(s[k]) != 'c' by {
      forall k | 0 <= k < p ensures LowerChar(s[k]) != 'c' {
        assert s[k] == prefix[k];
      }
    }
    NoWordNoMatch(s, p);
    ExtractAt(s, p, d);
  }

  /** The generator's summary, cut around the confidence it renders. */
  lemma SummaryPieces(u: string, pct: string, tf: string)
    ensures (u + " ") + ("(Confidence: " + pct + "%, Timeframe: ") + (tf + ")")
         == (u + " " + "(") + "Confidence: " + pct + "%" + (", Timeframe: " + tf + ")")
  {
    assert "(Confidence: " == "(" + "Confidence: ";
    assert "%, Timeframe: " == "%" + ", Timeframe: ";
  }

  /** The dashboard reads back the confidence the report generator put in
      its recommendation summary, when the percentage renders as a whole
      number. */
  lemma DashboardReadsGeneratedConfidence(rec: Decision.Recommendation, confidence: real, tf: Decision.Timeframe,
                                          f: ReportGenerator.Formats, n: nat)
    requires n <= 100 && ReportGenerator.Percent(confidence, f) == NatToString(n)
    ensures ExtractConfidencePct(ReportGenerator.RecommendationSummary(rec, confidence, tf, f)) == n
  {
    var v := Decision.RecommendationValue(rec);
    var head := Upper(v) + " " + "(";
    var tail := ", Timeframe: " + Decision.TimeframeValue(tf) + ")";
    assert forall k | 0 <= k < |v| :: LowerChar(v[k]) != 'c';
    assert forall k | 0 <= k < |head| :: LowerChar(head[k]) != 'c' by {
      forall k | 0 <= k < |head| ensures LowerChar(head[k]) != 'c' {
        if k < |v| {
          assert head[k] == UpperChar(v[k]);
        }
      }
    }
    SummaryPieces(Upper(v), NatToString(n), Decision.TimeframeValue(tf));
    ConfidenceReadBack(head, n, tail);
  }

  // ---------------------------------------------------------- created_at

  /** What `datetime.fromisoformat` makes of a string: no datetime (a
      `ValueError`), `datetime.min` itself, or an instant with its
      `timestamp()`. */
  datatype Parsed = NotIso | Earliest | Instant(timestamp: real)

  /** `value.replace("Z", "+00:00")`. */
  function ReplaceZ(s: string): (r: string)
    ensures 'Z' !in r
    ensures 'Z' !in s ==> r == s
    ensures |r| >= |s|
  {
    if |s| == 0 then []
    else (if s[0] == 'Z' then "+00:00" else [s[0]]) + ReplaceZ(s[1..])
  }

  lemma {:induction false} ReplaceZAppend(a: string, b: string)
    ensures ReplaceZ(a + b) == ReplaceZ(a) + ReplaceZ(b)
    decreases |a|
  {
    if |a| == 0 {
      assert a + b == b;
    } else {
      var h := if a[0] == 'Z' then "+00:00" else [a[0]];
      assert ReplaceZ(a + b) == h + ReplaceZ(a[1..] + b) by {
        assert (a + b)[0] == a[0];
        assert (a + b)[1..] == a[1..] + b;
      }
      ReplaceZAppend(a[1..], b);
      assert h + (ReplaceZ(a[1..]) + ReplaceZ(b)) == (h + ReplaceZ(a[1..])) + ReplaceZ(b);
    }
  }

  /** `parse_created_at`: the timestamp of the instant the string names,
      with None standing for `datetime.min`, which an empty or unparsable
      string also gives. */
  function ParseCreatedAt(value: string, fromIso: string -> Parsed): (t: Option<real>)
    ensures value == [] ==> t.None?
    ensures t.Some? ==> fromIso(ReplaceZ(value)) == Instant(t.value)
    ensures value != [] && fromIso(ReplaceZ(value)).Instant? ==> t == Some(fromIso(ReplaceZ(value)).timestamp)
  {
    if value == [] then None
    else
      match fromIso(ReplaceZ(value))
      case Instant(x) => Some(x)
      case _ => None
  }

  /** A trailing "Z" means UTC: it parses as the "+00:00" offset does. */
  lemma ZuluMeansUtc(value: string, fromIso: string -> Parsed)
    ensures ParseCreatedAt(value + "Z", fromIso) == ParseCreatedAt(value + "+00:00", fromIso)
  {
    ReplaceZAppend(value, "Z");
    ReplaceZAppend(value, "+00:00");
    assert ReplaceZ("Z") == "+00:00" by {
      assert "Z"[1..] == [];
    }
  }

  // --------------------------------------------------------------- scores

  /** The fields of a report the dashboard ranks by. */
  datatype DashboardReport = DashboardReport(recommendationSummary: Option<string>, createdAt: Option<string>)

  function Summary(r: DashboardReport): string {
    OrEmpty(r.recommendationSummary)
  }

  function Weight(r: DashboardReport): int {
    SignalWeight(InferSignal(Summary(r)))
  }

  function Confidence(r: DashboardReport): int {
    ExtractConfidencePct(Summary(r))
  }

  function Created(r: DashboardReport, fromIso: string -> Parsed): Option<real> {
    ParseCreatedAt(OrEmpty(r.createdAt), fromIso)
  }

  /** The recency term: the timestamp in millions of seconds, or 0 for
      `datetime.min`. */
  function Recency(t: Option<real>): real {
    if t.None? then 0.0 else t.value / 1000000.0
  }

  /** `expected_impact_score` as written. */
  function ExpectedImpactScore(r: DashboardReport, fromIso: string -> Parsed): (score: real)
    ensures Created(r, fromIso).None? ==> score == Weight(r) as real * 10000.0 + Confidence(r) as real * 10.0
  {
    Weight(r) as real * 10000.0 + Confidence(r) as real * 10.0 + Recency(Created(r, fromIso))
  }

  /** As written, recency does not only break ties: between two reports
      with the same signal, one created after September 2001 outranks one
      without a creation time even with up to 99 points less confidence. */
  lemma RecencyOutranksConfidence(a: DashboardReport, b: DashboardReport, fromIso: string -> Parsed)
    requires Weight(a) == Weight(b) && Confidence(a) < Confidence(b) <= Confidence(a) + 99
    requires Created(a, fromIso).Some? && Created(a, fromIso).value >= 1000000000.0
    requires Created(b, fromIso).None?
    ensures ExpectedImpactScore(a, fromIso) > ExpectedImpactScore(b, fromIso)
  {
  }

  /** The same on two concrete reports: a SELL at 55% created on
      25 February 2026 outranks a SELL at 95% whose creation time is
      missing. */
  lemma RecencyOutranksConfidenceExample(fromIso: string -> Parsed)
    requires fromIso("2026-02-25T10:00:00+00:00") == Instant(1772013600.0)
    ensures var a := DashboardReport(Some(SellSummary(55)), Some("2026-02-25T10:00:00+00:00"));
      var b := DashboardReport(Some(SellSummary(95)), None);
      && Weight(a) == Weight(b) == 3
      && Confidence(a) == 55 && Confidence(b) == 95
      && ExpectedImpactScore(a, fromIso) > ExpectedImpactScore(b, fromIso)
  {
    var a := DashboardReport(Some(SellSummary(55)), Some("2026-02-25T10:00:00+00:00"));
    RenderedSell(55);
    RenderedSell(95);
    assert Created(a, fromIso) == Some(1772013600.0) by {
      NoZulu();
    }
  }

  lemma NoZulu()
    ensures ReplaceZ("2026-02-25T10:00:00+00:00") == "2026-02-25T10:00:00+00:00"
  {
    var t := "2026-02-25T10:00:00+00:00";
    assert forall k | 0 <= k < |t| :: t[k] != 'Z';
  }

  lemma MentionsSell(x: string)
    requires |x| >= 4 && x[0] == 'S' && x[1] == 'E' && x[2] == 'L' && x[3] == 'L'
    ensures Contains(Lower(x), "sell")
  {
    var t := Lower(x);
    assert t[0] == 's' && t[1] == 'e' && t[2] == 'l' && t[3] == 'l';
    assert t[0..4] == "sell";
    assert OccursAt(t, "sell", 0);
  }

  /** "SELL, Confidence: <n>%". */
  function SellSummary(n: nat): string {
    "SELL, " + "Confidence: " + NatToString(n) + "%"
  }

  /** A SELL summary weighs 3 and reads back its confidence. */
  lemma RenderedSell(n: nat)
    requires n <= 100
    ensures SignalWeight(InferSignal(SellSummary(n))) == 3 && ExtractConfidencePct(SellSummary(n)) == n
  {
    SellSummaryWeight(n);
    assert SellSummary(n) == "SELL, " + "Confidence: " + NatToString(n) + "%" + "";
    ConfidenceReadBack("SELL, ", n, "");
  }

  lemma SellSummaryWeight(n: nat)
    ensures SignalWeight(InferSignal(SellSummary(n))) == 3
  {
    var a := "SELL, ";
    var text := a + "Confidence: " + NatToString(n) + "%";
    assert text[0] == a[0] && text[1] == a[1] && text[2] == a[2] && text[3] == a[3];
    MentionsSell(text);
    InferredWeight(text);
  }

  /** The recency order the ranking means: `datetime.min` before every
      instant, instants by their timestamps. */
  predicate Earlier(s: Option<real>, t: Option<real>) {
    t.Some? && (s.None? || s.value < t.value)
  }

  /** Maps a creation time into [0, 1), keeping the recency order, so that
      it can only break ties between equal signals and confidences. */
  function Squash(t: Option<real>): (x: real)
    ensures 0.0 <= x < 1.0
    ensures x == 0.0 <==> t.None?
  {
    if t.None? then 0.0
    else if t.value >= 0.0 then 1.0 - 0.5 / (t.value + 1.0)
    else 0.5 / (1.0 - t.value)
  }

  lemma HalfOverDecreasing(a: real, b: real)
    requires 0.0 < a < b
    ensures 0.5 / a > 0.5 / b
  {
    var x := 0.5 / a;
    var y := 0.5 / b;
    assert x * a == 0.5 && y * b == 0.5;
    assert (x - y) * (a * b) == 0.5 * b - 0.5 * a by {
      assert (x - y) * (a * b) == (x * a) * b - (y * b) * a;
    }
    assert a * b > 0.0;
  }

  lemma SquashStrict(u: real, v: real)
    requires u < v
    ensures Squash(Some(u)) < Squash(Some(v))
  {
    if 0.0 <= u {
      HalfOverDecreasing(u + 1.0, v + 1.0);
    } else if v < 0.0 {
      HalfOverDecreasing(1.0 - v, 1.0 - u);
    } else {
      HalfOverDecreasing(1.0, 1.0 - u);
      if v > 0.0 {
        HalfOverDecreasing(1.0, v + 1.0);
      }
    }
  }

  lemma SquashOrder(s: Option<real>, t: Option<real>)
    ensures Squash(s) < Squash(t) <==> Earlier(s, t)
  {
    if s.Some? && t.Some? {
      var u := s.value;
      var v := t.value;
      if u < v {
        SquashStrict(u, v);
      } else if v < u {
        SquashStrict(v, u);
      }
    }
  }

  /** The order the score is meant to give: signal first, then confidence,
      then recency. */
  predicate RanksAbove(a: DashboardReport, b: DashboardReport, fromIso: string -> Parsed) {
    || Weight(a) > Weight(b)
    || (Weight(a) == Weight(b) && Confidence(a) > Confidence(b))
    || (Weight(a) == Weight(b) && Confidence(a) == Confidence(b) && Earlier(Created(b, fromIso), Created(a, fromIso)))
  }

  /** The score with recency squashed into [0, 1). */
  function CorrectedImpactScore(r: DashboardReport, fromIso: string -> Parsed): real {
    Weight(r) as real * 10000.0 + Confidence(r) as real * 10.0 + Squash(Created(r, fromIso))
  }

  /** One report scores above another exactly when it ranks above it. */
  lemma CorrectedScoreOrder(a: DashboardReport, b: DashboardReport, fromIso: string -> Parsed)
    ensures CorrectedImpactScore(a, fromIso) > CorrectedImpactScore(b, fromIso) <==> RanksAbove(a, b, fromIso)
  {
    SquashOrder(Created(b, fromIso), Created(a, fromIso));
  }

  lemma SortedMeansRanked(s: seq<DashboardReport>, key: DashboardReport -> real, fromIso: string -> Parsed)
    requires forall x :: key(x) == CorrectedImpactScore(x, fromIso)
    requires SortedDesc(s, key)
    ensures forall i, j | 0 <= i < j < |s| :: !RanksAbove(s[j], s[i], fromIso)
  {
    forall i, j | 0 <= i < j < |s| ensures !RanksAbove(s[j], s[i], fromIso) {
      CorrectedScoreOrder(s[j], s[i], fromIso);
    }
  }

  /** `sort_reports_by_expected_impact`, with the corrected score: the
      reports reordered so that no report ranks above one placed before it. */
  function SortReportsByImpact(reports: seq<DashboardReport>, fromIso: string -> Parsed): (r: seq<DashboardReport>)
    ensures multiset(r) == multiset(reports)
    ensures forall i, j | 0 <= i < j < |r| :: CorrectedImpactScore(r[i], fromIso) >= CorrectedImpactScore(r[j], fromIso)
    ensures forall i, j | 0 <= i < j < |r| :: !RanksAbove(r[j], r[i], fromIso)
    // stable: reports of equal score stay in their input order
    ensures forall v :: WithKey(r, CorrectedKey(fromIso), v) == WithKey(reports, CorrectedKey(fromIso), v)
  {
    var key := CorrectedKey(fromIso);
    var sorted := SortByKeyDesc(reports, key);
    SortedMeansRanked(sorted, key, fromIso);
    SortByKeyDescStableAll(reports, key);
    sorted
  }

  /** The corrected score as a sort key. */
  function CorrectedKey(fromIso: string -> Parsed): (key: DashboardReport -> real)
    ensures forall x :: key(x) == CorrectedImpactScore(x, fromIso)
  {
    (x: DashboardReport) => CorrectedImpactScore(x, fromIso)
  }

  /** The score as written as a sort key. */
  function AsWrittenKey(fromIso: string -> Parsed): (key: DashboardReport -> real)
    ensures forall x :: key(x) == ExpectedImpactScore(x, fromIso)
  {
    (x: DashboardReport) => ExpectedImpactScore(x, fromIso)
  }

  /** `sort_reports_by_expected_impact` as written: the reports reordered
      into non-increasing `expected_impact_score`. */
  function SortReportsAsWritten(reports: seq<DashboardReport>, fromIso: string -> Parsed): (r: seq<DashboardReport>)
    ensures multiset(r) == multiset(reports)
    ensures forall i, j | 0 <= i < j < |r| :: ExpectedImpactScore(r[i], fromIso) >= ExpectedImpactScore(r[j], fromIso)
    // stable: reports of equal score stay in their input order
    ensures forall v :: WithKey(r, AsWrittenKey(fromIso), v) == WithKey(reports, AsWrittenKey(fromIso), v)
  {
    SortByKeyDescStableAll(reports, AsWrittenKey(fromIso));
    SortByKeyDesc(reports, AsWrittenKey(fromIso))
  }

  /** The sort as written puts a dated report ahead of an undated one with
      the same signal and more confidence, though the undated one ranks
      above it. */
  lemma AsWrittenSortPutsRecentFirst(a: DashboardReport, b: DashboardReport, fromIso: string -> Parsed)
    requires Weight(a) == Weight(b) && Confidence(a) < Confidence(b) <= Confidence(a) + 99
    requires Created(a, fromIso).Some? && Created(a, fromIso).value >= 1000000000.0
    requires Created(b, fromIso).None?
    ensures SortReportsAsWritten([b, a], fromIso) == [a, b]
    ensures RanksAbove(b, a, fromIso)
  {
    RecencyOutranksConfidence(a, b, fromIso);
    AsWrittenSortOfTwo(a, b, fromIso);
  }

  /** Of two reports, the sort as written puts the higher score first. */
  lemma AsWrittenSortOfTwo(a: DashboardReport, b: DashboardReport, fromIso: string -> Parsed)
    requires ExpectedImpactScore(a, fromIso) > ExpectedImpactScore(b, fromIso)
    ensures SortReportsAsWritten([b, a], fromIso) == [a, b]
  {
    var r := SortReportsAsWritten([b, a], fromIso);
    TwoElements(r, a, b);
    if r == [b, a] {
      assert false;
    }
  }

  /** The corrected sort keeps the more confident of two reports with the
      same signal first. */
  lemma CorrectedSortPutsConfidentFirst(a: DashboardReport, b: DashboardReport, fromIso: string -> Parsed)
    requires Weight(a) == Weight(b) && Confidence(a) < Confidence(b)
    ensures SortReportsByImpact([b, a], fromIso) == [b, a]
  {
    CorrectedScoreOrder(b, a, fromIso);
    CorrectedSortOfTwo([b, a], b, a, fromIso);
  }

  /** Of two reports, the corrected sort puts the higher score first. */
  lemma CorrectedSortOfTwo(reports: seq<DashboardReport>, a: DashboardReport, b: DashboardReport, fromIso: string -> Parsed)
    requires multiset(reports) == multiset([b, a])
    requires CorrectedImpactScore(a, fromIso) > CorrectedImpactScore(b, fromIso)
    ensures SortReportsByImpact(reports, fromIso) == [a, b]
  {
    var r := SortReportsByImpact(reports, fromIso);
    TwoElements(r, a, b);
    if r == [b, a] {
      assert false;
    }
  }

  /** A sequence holding exactly two given elements lists them in one of
      the two orders. */
  lemma TwoElements<T>(r: seq<T>, p: T, q: T)
    requires multiset(r) == multiset([q, p])
    ensures r == [p, q] || r == [q, p]
  {
    assert |r| == |multiset(r)| == 2;
    var x, y := r[0], r[1];
    assert r == [x, y];
    assert multiset{x, y} == multiset{p, q};
    if x == p {
      assert multiset{y} == multiset{q};
    } else {
      assert x == q;
      assert multiset{y} == multiset{p};
    }
  }
}

=== FILE: reports.dfy ===
/** Layer 5 analysis reports and their delivery metadata (models/report.py). */
module Reports {
  import opened Wrappers

  datatype DeliveryStatus = Generated | Delivered | DeliveryFailed

  datatype AnalysisReport = AnalysisReport(
    reportId: string,
    assessmentId: string,
    investigationId: string,
    triggerId: string,
    companySymbol: string,
    companyName: string,
    title: string,
    executiveSummary: string,
    reportBody: string,
    recommendationSummary: string,
    deliveryStatus: DeliveryStatus,
    deliveredVia: seq<string>,
    deliveredAt: Option<int>)
}

=== FILE: retry.dfy ===
/** Bounded exponential-backoff retry (utils/retry.py). The operation is a
    script: `op(k)` is what its (k+1)-th call returns or raises. The sleeps
    are recorded as a list of delays instead of being slept. `retry_sync`,
    `retry_async` and `retry_in_thread` share this one model: they differ
    only in how the call and the sleep are awaited. */
module Retry {
  import opened Text

  /** The exception classes the transient-error test distinguishes. */
  datatype ErrorKind =
    | TimeoutKind                     // TimeoutError, asyncio.TimeoutError, httpx.TimeoutException
    | HttpStatusKind(statusCode: int) // httpx.HTTPStatusError
    | OtherKind(typeName: string)

  datatype Exception = Exception(kind: ErrorKind, message: string)

  datatype Outcome<T> = Returns(value: T) | Throws(error: Exception)

  /** HTTP 429 (section 4 of RFC 6585) and 500/502/503/504 (section 15.6 of RFC 9110). */
  const TransientStatusCodes: set<int> := {429, 500, 502, 503, 504}

  const TransientTokens: seq<string> := ["timeout", "temporarily", "rate limit", "429", "503", "502", "504", "500"]

  /** Python `any(token in text for token in tokens)`. */
  function AnyToken(text: string, tokens: seq<string>): (r: bool)
    ensures r <==> exists i | 0 <= i < |tokens| :: Contains(text, tokens[i])
  {
    if |tokens| == 0 then false
    else Contains(text, tokens[0]) || AnyToken(text, tokens[1..])
  }

  /** `is_transient_error`. */
  function IsTransientError(e: Exception): (r: bool)
    ensures r <==>
      || e.kind.TimeoutKind?
      || (e.kind.HttpStatusKind? && e.kind.statusCode in TransientStatusCodes)
      || exists i | 0 <= i < |TransientTokens| :: Contains(Lower(e.message), TransientTokens[i])
  {
    if e.kind.TimeoutKind? then true
    else if e.kind.HttpStatusKind? && e.kind.statusCode in TransientStatusCodes then true
    else AnyToken(Lower(e.message), TransientTokens)
  }

  function Pow2(n: nat): (r: nat)
    ensures r >= 1
  {
    if n == 0 then 1 else 2 * Pow2(n - 1)
  }

  /** What one retry run did: its result, how many times it called the
      operation, and the delays it slept, in order. */
  datatype RetryRun<T> = RetryRun(result: Outcome<T>, calls: nat, delays: seq<real>)

  const AttemptsError := Exception(OtherKind("ValueError"), "attempts must be > 0")

  /** `retry_sync(op, attempts=…, base_delay_seconds=…, should_retry=…)`. */
  function RetrySync<T>(op: nat -> Outcome<T>, attempts: int, baseDelay: real, shouldRetry: Exception -> bool): (r: RetryRun<T>)
    ensures attempts <= 0 ==> r == RetryRun(Throws(AttemptsError), 0, [])
    ensures attempts > 0 ==> 1 <= r.calls <= attempts && r.result == op(r.calls - 1)
    ensures forall k | 0 <= k < r.calls - 1 :: op(k).Throws? && shouldRetry(op(k).error)
    ensures attempts > 0 && r.result.Throws? ==> r.calls == attempts || !shouldRetry(r.result.error)
    ensures |r.delays| == if r.calls == 0 then 0 else r.calls - 1
    ensures forall k | 0 <= k < |r.delays| :: r.delays[k] == baseDelay * Pow2(k) as real
  {
    if attempts <= 0 then RetryRun(Throws(AttemptsError), 0, [])
    else RetryFrom(op, attempts, baseDelay, shouldRetry, 1)
  }

  /** The loop of `retry_sync` from call number `attempt` (1-based) on. */
  function RetryFrom<T>(op: nat -> Outcome<T>, attempts: nat, baseDelay: real, shouldRetry: Exception -> bool, attempt: nat): (r: RetryRun<T>)
    requires 1 <= attempt <= attempts
    ensures attempt <= r.calls <= attempts && r.result == op(r.calls - 1)
    ensures forall k | attempt - 1 <= k < r.calls - 1 :: op(k).Throws? && shouldRetry(op(k).error)
    ensures r.result.Throws? ==> r.calls == attempts || !shouldRetry(r.result.error)
    ensures |r.delays| == r.calls - attempt
    ensures forall k | 0 <= k < |r.delays| :: r.delays[k] == baseDelay * Pow2(attempt - 1 + k) as real
    decreases attempts - attempt
  {
    match op(attempt - 1)
    case Returns(v) => RetryRun(Returns(v), attempt, [])
    case Throws(e) =>
      if attempt >= attempts || !shouldRetry(e) then RetryRun(Throws(e), attempt, [])
      else
        var rest := RetryFrom(op, attempts, baseDelay, shouldRetry, attempt + 1);
        RetryRun(rest.result, rest.calls, [baseDelay * Pow2(attempt - 1) as real] + rest.delays)
  }

  /** If the first k-1 calls fail retryably and call k succeeds, call k's
      value is returned after exactly k calls. */
  lemma SucceedsOnCall<T>(op: nat -> Outcome<T>, attempts: int, baseDelay: real, shouldRetry: Exception -> bool, k: nat)
    requires 1 <= k <= attempts
    requires forall j | 0 <= j < k - 1 :: op(j).Throws? && shouldRetry(op(j).error)
    requires op(k - 1).Returns?
    ensures RetrySync(op, attempts, baseDelay, shouldRetry).calls == k
    ensures RetrySync(op, attempts, baseDelay, shouldRetry).result == op(k - 1)
  {
  }

  /** A failure `should_retry` rejects is raised after that one call. */
  lemma NonRetryableStops<T>(op: nat -> Outcome<T>, attempts: int, baseDelay: real, shouldRetry: Exception -> bool)
    requires attempts > 0 && op(0).Throws? && !shouldRetry(op(0).error)
    ensures RetrySync(op, attempts, baseDelay, shouldRetry) == RetryRun(op(0), 1, [])
  {
  }

  /** When every call fails retryably, the last error is raised after exactly
      `attempts` calls and `attempts - 1` growing delays. */
  lemma AllFailRaisesLast<T>(op: nat -> Outcome<T>, attempts: int, baseDelay: real, shouldRetry: Exception -> bool)
    requires attempts > 0
    requires forall j | 0 <= j < attempts :: op(j).Throws? && shouldRetry(op(j).error)
    ensures RetrySync(op, attempts, baseDelay, shouldRetry).calls == attempts
    ensures RetrySync(op, attempts, baseDelay, shouldRetry).result == op(attempts - 1)
    ensures |RetrySync(op, attempts, baseDelay, shouldRetry).delays| == attempts - 1
  {
    var r := RetrySync(op, attempts, baseDelay, shouldRetry);
    assert op(r.calls - 1).Throws? && shouldRetry(op(r.calls - 1).error);
  }

  /** The exceptions of the tests: a timeout is transient and so is an
      HTTP 503. */
  lemma TransientExamples()
    ensures IsTransientError(Exception(TimeoutKind, "temporary timeout"))
    ensures IsTransientError(Exception(HttpStatusKind(503), "Service Unavailable"))
  {
  }

  /** A plain ValueError("bad input") is not transient. */
  lemma BadInputNotTransient()
    ensures !IsTransientError(Exception(OtherKind("ValueError"), "bad input"))
  {
    var m := Lower("bad input");
    assert m == "bad input";
    forall i | 0 <= i < |TransientTokens| ensures !Contains(m, TransientTokens[i]) {
      TokenMissing(m, i);
    }
  }

  lemma TokenMissing(m: string, i: nat)
    requires m == "bad input" && i < |TransientTokens|
    ensures !Contains(m, TransientTokens[i])
  {
    var c := if i == 0 then 'o' else if i == 1 then 'e' else if i == 2 then 'r' else if i == 3 then '4' else '5';
    MissingCharNotContained(m, TransientTokens[i], c);
  }

  /** A text lacking one of a token's characters does not contain the token. */
  lemma MissingCharNotContained(text: string, token: string, c: char)
    requires c in token && c !in text
    ensures !Contains(text, token)
  {
    var k :| 0 <= k < |token| && token[k] == c;
    forall j | 0 <= j <= |text| - |token| ensures !OccursAt(text, token, j) {
      assert text[j..j + |token|][k] == text[j + k] != token[k];
    }
  }

  /** A message naming a rate limit is transient whatever its exception class. */
  lemma RateLimitMessageIsTransient(kind: ErrorKind)
    ensures IsTransientError(Exception(kind, "Rate limit exceeded"))
  {
    var m := Lower("Rate limit exceeded");
    assert m == "rate limit exceeded";
    assert OccursAt(m, "rate limit", 0);
    assert Contains(m, TransientTokens[2]);
  }
}

=== FILE: settings.dfy ===
/** Application settings (config.py): the effective LLM API key and the
    cross-field checks `validate_runtime_configuration` runs once the
    fields have parsed. Reading the environment and the `.env` file, and
    the field-level parsing pydantic does before the checks, are left out:
    a `Settings` value holds fields that already parsed, with the literal
    choices as enumerations. */
module AppSettings {
  import opened Wrappers
  import opened Text
  import LmConfig

  datatype LlmProvider = Anthropic | OpenAI | Azure | LocalLlm
  datatype NotificationMethod = SlackNotify | EmailNotify | NoNotify
  datatype WebSearchProvider = Brave | Tavily | NoWebSearch

  function ProviderName(p: LlmProvider): string {
    match p
    case Anthropic => "anthropic"
    case OpenAI => "openai"
    case Azure => "azure"
    case LocalLlm => "local"
  }

  function SearchProviderName(p: WebSearchProvider): string {
    match p
    case Brave => "brave"
    case Tavily => "tavily"
    case NoWebSearch => "none"
  }

  /** The fields the checks read. */
  datatype Settings = Settings(
    llmProvider: LlmProvider,
    llmApiKey: Option<string>,
    llmBaseUrl: Option<string>,
    anthropicApiKey: Option<string>,
    openaiApiKey: Option<string>,
    webSearchProvider: WebSearchProvider,
    braveApiKey: Option<string>,
    tavilyApiKey: Option<string>,
    webSearchTimeoutSeconds: int,
    webSearchMaxResults: int,
    pollingIntervalSeconds: int,
    maxDocumentSizeMb: int,
    textExtractionTimeoutSeconds: int,
    notificationMethod: NotificationMethod,
    slackWebhookUrl: Option<string>,
    smtpHost: Option<string>,
    notificationEmail: Option<string>)

  /** The fields' defaults, for the fields that have one. */
  function WithDefaults(llmApiKey: Option<string>, anthropicApiKey: Option<string>, openaiApiKey: Option<string>): (s: Settings)
    ensures s.llmProvider == Anthropic && s.webSearchProvider == NoWebSearch && s.notificationMethod == NoNotify
    ensures s.pollingIntervalSeconds == 300 && s.maxDocumentSizeMb == 50 && s.textExtractionTimeoutSeconds == 60
    ensures s.webSearchTimeoutSeconds == 15 && s.webSearchMaxResults == 5
  {
    Settings(Anthropic, llmApiKey, None, anthropicApiKey, openaiApiKey, NoWebSearch, None, None,
             15, 5, 300, 50, 60, NoNotify, None, None, None)
  }

  /** `resolved_llm_api_key`: the generic key when it is set and non-empty,
      else the provider's own key, and None for a local provider. */
  function ResolvedLlmApiKey(s: Settings): (r: Option<string>)
    ensures Truthy(s.llmApiKey) ==> r == s.llmApiKey
    ensures !Truthy(s.llmApiKey) ==>
      r == (match s.llmProvider
            case Anthropic => s.anthropicApiKey
            case OpenAI => s.openaiApiKey
            case Azure => s.openaiApiKey
            case LocalLlm => None)
  {
    if Truthy(s.llmApiKey) then s.llmApiKey
    else if s.llmProvider == Anthropic then s.anthropicApiKey
    else if s.llmProvider == OpenAI || s.llmProvider == Azure then s.openaiApiKey
    else None
  }

  const PollingMessage: string := "TUJ_POLLING_INTERVAL_SECONDS must be > 0"
  const DocumentSizeMessage: string := "TUJ_MAX_DOCUMENT_SIZE_MB must be > 0"
  const ExtractionTimeoutMessage: string := "TUJ_TEXT_EXTRACTION_TIMEOUT_SECONDS must be > 0"
  const SearchTimeoutMessage: string := "TUJ_WEB_SEARCH_TIMEOUT_SECONDS must be > 0"
  const SearchResultsMessage: string := "TUJ_WEB_SEARCH_MAX_RESULTS must be > 0"
  const MissingKeyMessage: string :=
    "Missing API key for selected LLM provider. Set TUJ_LLM_API_KEY or provider-specific key."
  const SlackMessage: string := "TUJ_SLACK_WEBHOOK_URL is required when TUJ_NOTIFICATION_METHOD=slack"
  const EmailMessage: string :=
    "TUJ_SMTP_HOST and TUJ_NOTIFICATION_EMAIL are required when TUJ_NOTIFICATION_METHOD=email"
  const BraveMessage: string := "TUJ_BRAVE_API_KEY is required when TUJ_WEB_SEARCH_PROVIDER=brave"
  const TavilyMessage: string := "TUJ_TAVILY_API_KEY is required when TUJ_WEB_SEARCH_PROVIDER=tavily"

  /** The checks, one per message, in the order they run: `Checks(s)[k]`
      holds when check `k` passes. */
  function Checks(s: Settings): (r: seq<(bool, string)>)
    ensures |r| == 10
  {
    [ (s.pollingIntervalSeconds > 0, PollingMessage),
      (s.maxDocumentSizeMb > 0, DocumentSizeMessage),
      (s.textExtractionTimeoutSeconds > 0, ExtractionTimeoutMessage),
      (s.webSearchTimeoutSeconds > 0, SearchTimeoutMessage),
      (s.webSearchMaxResults > 0, SearchResultsMessage),
      (s.llmProvider == LocalLlm || Truthy(ResolvedLlmApiKey(s)), MissingKeyMessage),
      (s.notificationMethod != SlackNotify || Truthy(s.slackWebhookUrl), SlackMessage),
      (s.notificationMethod != EmailNotify || (Truthy(s.smtpHost) && Truthy(s.notificationEmail)), EmailMessage),
      (s.webSearchProvider != Brave || Truthy(s.braveApiKey), BraveMessage),
      (s.webSearchProvider != Tavily || Truthy(s.tavilyApiKey), TavilyMessage) ]
  }

  /** Every check passes. */
  predicate RuntimeValid(s: Settings) {
    && s.pollingIntervalSeconds > 0 && s.maxDocumentSizeMb > 0 && s.textExtractionTimeoutSeconds > 0
    && s.webSearchTimeoutSeconds > 0 && s.webSearchMaxResults > 0
    && (s.llmProvider != LocalLlm ==> Truthy(ResolvedLlmApiKey(s)))
    && (s.notificationMethod == SlackNotify ==> Truthy(s.slackWebhookUrl))
    && (s.notificationMethod == EmailNotify ==> Truthy(s.smtpHost) && Truthy(s.notificationEmail))
    && (s.webSearchProvider == Brave ==> Truthy(s.braveApiKey))
    && (s.webSearchProvider == Tavily ==> Truthy(s.tavilyApiKey))
  }

  /** The settings are valid exactly when each of the ten checks passes. */
  lemma ChecksMeanValid(s: Settings)
    ensures RuntimeValid(s) <==> forall k | 0 <= k < 10 :: Checks(s)[k].0
  {
    var c := Checks(s);
    assert RuntimeValid(s) <==> c[0].0 && c[1].0 && c[2].0 && c[3].0 && c[4].0 && c[5].0 && c[6].0 && c[7].0 && c[8].0 && c[9].0;
  }

  /** The first check from `k` on that fails, or `|checks|`. */
  function FirstFailing(checks: seq<(bool, string)>, k: nat): (i: nat)
    requires k <= |checks|
    ensures k <= i <= |checks|
    ensures i < |checks| ==> !checks[i].0
    ensures forall j | k <= j < i :: checks[j].0
    decreases |checks| - k
  {
    if k == |checks| || !checks[k].0 then k else FirstFailing(checks, k + 1)
  }

  /** `validate_runtime_configuration`: the message of the first check that
      fails, or the settings unchanged. */
  function ValidateRuntime(s: Settings): (r: Result<Settings, string>)
    ensures r.Success? <==> RuntimeValid(s)
    ensures r.Success? ==> r.value == s
    ensures r.Failure? ==> exists k | 0 <= k < 10 :: !Checks(s)[k].0 && r.error == Checks(s)[k].1
                                      && forall j | 0 <= j < k :: Checks(s)[j].0
  {
    var checks := Checks(s);
    var i := FirstFailing(checks, 0);
    ChecksMeanValid(s);
    if i < |checks| then Failure(checks[i].1) else Success(s)
  }

  /** The polling interval is checked first: when it is not positive, its
      message is the one reported, whatever else is wrong. */
  lemma PollingCheckedFirst(s: Settings)
    requires s.pollingIntervalSeconds <= 0
    ensures ValidateRuntime(s) == Failure(PollingMessage)
  {
  }

  /** A remote provider is refused when no key resolves for it. */
  lemma RemoteProviderNeedsKey(s: Settings)
    requires s.pollingIntervalSeconds > 0 && s.maxDocumentSizeMb > 0 && s.textExtractionTimeoutSeconds > 0
    requires s.webSearchTimeoutSeconds > 0 && s.webSearchMaxResults > 0
    requires s.llmProvider != LocalLlm && !Truthy(ResolvedLlmApiKey(s))
    ensures ValidateRuntime(s) == Failure(MissingKeyMessage)
  {
    var checks := Checks(s);
    assert FirstFailing(checks, 0) == 5 by {
      assert checks[0].0 && checks[1].0 && checks[2].0 && checks[3].0 && checks[4].0 && !checks[5].0;
    }
  }

  /** Settings that validate configure the language model: the key the
      settings resolve is accepted for their provider. */
  lemma ValidSettingsConfigureLm(s: Settings, model: string)
    requires ValidateRuntime(s).Success?
    ensures LmConfig.ConfigureLm(ProviderName(s.llmProvider), model, ResolvedLlmApiKey(s), s.llmBaseUrl).Success?
  {
    if s.llmProvider == LocalLlm {
      StripOfStripped("local");
      assert Lower("local") == "local";
    }
  }
}

=== FILE: store.dfy ===
/** The trigger repository with the semantics of the MongoDB implementation
    (repositories/mongo.py): documents keyed by a unique trigger id, a
    `$set`/`$push` status update, oldest-first pending queries. Triggers are
    held in `created_at` order, entries with equal timestamps in insertion
    order. */
module TriggerStore {
  import opened Wrappers
  import opened Trigger
  import opened Collections

  datatype Store = Store(items: seq<TriggerEvent>)

  predicate UniqueIds(items: seq<TriggerEvent>) {
    forall i, j | 0 <= i < j < |items| :: items[i].triggerId != items[j].triggerId
  }

  predicate ByCreation(items: seq<TriggerEvent>) {
    forall i, j | 0 <= i < j < |items| :: items[i].createdAt <= items[j].createdAt
  }

  predicate Valid(st: Store) {
    UniqueIds(st.items) && ByCreation(st.items)
  }

  const Empty: Store := Store([])

  predicate HasId(items: seq<TriggerEvent>, id: string) {
    exists i | 0 <= i < |items| :: items[i].triggerId == id
  }

  /** Position of the first document with the given id. */
  function FindIndex(items: seq<TriggerEvent>, id: string): (r: Option<nat>)
    ensures r.Some? ==> r.value < |items| && items[r.value].triggerId == id
    ensures r.Some? ==> forall k | 0 <= k < r.value :: items[k].triggerId != id
    ensures r.None? ==> forall k | 0 <= k < |items| :: items[k].triggerId != id
  {
    if |items| == 0 then None
    else if items[0].triggerId == id then Some(0)
    else
      match FindIndex(items[1..], id)
      case None => None
      case Some(i) => Some(i + 1)
  }

  /** `find_one({"trigger_id": id})`: the first document with that id. */
  function Find(items: seq<TriggerEvent>, id: string): (r: Option<TriggerEvent>)
    ensures r.Some? <==> HasId(items, id)
    ensures r.Some? ==> r.value in items && r.value.triggerId == id
  {
    match FindIndex(items, id)
    case None => None
    case Some(i) => Some(items[i])
  }

  function Get(st: Store, id: string): Option<TriggerEvent> {
    Find(st.items, id)
  }

  /** In a store with unique ids, lookup returns the one trigger carrying the id. */
  lemma GetUnique(st: Store, i: nat)
    requires Valid(st) && i < |st.items|
    ensures Get(st, st.items[i].triggerId) == Some(st.items[i])
  {
    var j := FindIndex(st.items, st.items[i].triggerId).value;
    assert i == j;
  }

  /** Where a trigger created at `c` goes: after every entry not newer than it. */
  function InsertPos(items: seq<TriggerEvent>, c: int): (k: nat)
    ensures k <= |items|
    ensures forall i | k <= i < |items| :: items[i].createdAt > c
    ensures k > 0 ==> items[k - 1].createdAt <= c
  {
    if |items| == 0 then 0
    else if items[|items| - 1].createdAt <= c then |items|
    else InsertPos(items[..|items| - 1], c)
  }

  function Insert(items: seq<TriggerEvent>, t: TriggerEvent): (r: seq<TriggerEvent>)
    ensures |r| == |items| + 1
    ensures multiset(r) == multiset(items) + multiset{t}
  {
    var k := InsertPos(items, t.createdAt);
    assert items == items[..k] + items[k..];
    items[..k] + [t] + items[k..]
  }

  /** Where each entry lands after an insertion at position `k`. */
  lemma InsertShape(items: seq<TriggerEvent>, t: TriggerEvent)
    ensures var k := InsertPos(items, t.createdAt);
      var r := Insert(items, t);
      && r[k] == t
      && (forall i | 0 <= i < k :: r[i] == items[i])
      && (forall i | k < i < |r| :: r[i] == items[i - 1])
  {
    var k := InsertPos(items, t.createdAt);
    var r := Insert(items, t);
    assert r == items[..k] + [t] + items[k..];
    InsertAtShape(items, k, t);
  }

  lemma InsertKeepsOrder(items: seq<TriggerEvent>, t: TriggerEvent)
    requires ByCreation(items)
    ensures ByCreation(Insert(items, t))
  {
    var k := InsertPos(items, t.createdAt);
    var r := Insert(items, t);
    InsertShape(items, t);
    forall i, j | 0 <= i < j < |r|
      ensures r[i].createdAt <= r[j].createdAt
    {
      if j == k {
        assert items[i].createdAt <= items[k - 1].createdAt;
      }
    }
  }

  lemma InsertKeepsUnique(items: seq<TriggerEvent>, t: TriggerEvent)
    requires UniqueIds(items) && !HasId(items, t.triggerId)
    ensures UniqueIds(Insert(items, t))
  {
    var k := InsertPos(items, t.createdAt);
    var r := Insert(items, t);
    InsertShape(items, t);
    forall i, j | 0 <= i < j < |r|
      ensures r[i].triggerId != r[j].triggerId
    {
      if j < k {
        assert r[i] == items[i] && r[j] == items[j];
      } else if j == k {
        assert r[i] == items[i];
      } else if i < k {
        assert r[i] == items[i] && r[j] == items[j - 1];
      } else if i == k {
        assert r[j] == items[j - 1];
      } else {
        assert r[i] == items[i - 1] && r[j] == items[j - 1];
      }
    }
  }

  /** `save`: insert, or fail with the repository's duplicate-key message. */
  function Save(st: Store, t: TriggerEvent): (r: Result<Store, string>)
    ensures r.Failure? <==> HasId(st.items, t.triggerId)
    ensures r.Failure? ==> r.error == "Trigger with id '" + t.triggerId + "' already exists"
    ensures r.Success? ==> multiset(r.value.items) == multiset(st.items) + multiset{t}
    ensures r.Success? && Valid(st) ==> Valid(r.value) && Get(r.value, t.triggerId) == Some(t)
  {
    if Get(st, t.triggerId).Some? then
      Failure("Trigger with id '" + t.triggerId + "' already exists")
    else
      var items := Insert(st.items, t);
      if Valid(st) then
        InsertKeepsOrder(st.items, t);
        InsertKeepsUnique(st.items, t);
        assert t in multiset(items);
        var i :| 0 <= i < |items| && items[i] == t;
        GetUnique(Store(items), i);
        Success(Store(items))
      else
        Success(Store(items))
  }

  /** `update_one` with `$set` status/updated_at and `$push` of one history
      entry: the first trigger with the id gets `set_status` semantics. */
  function UpdateIn(items: seq<TriggerEvent>, id: string, status: TriggerStatus, reason: string, now: int): (r: seq<TriggerEvent>)
    ensures |r| == |items|
    ensures forall i | 0 <= i < |items| :: r[i].triggerId == items[i].triggerId && r[i].createdAt == items[i].createdAt
    ensures forall i | 0 <= i < |items| :: r[i].sourceUrl == items[i].sourceUrl
  {
    if |items| == 0 then []
    else if items[0].triggerId == id then [SetStatus(items[0], status, reason, now)] + items[1..]
    else [items[0]] + UpdateIn(items[1..], id, status, reason, now)
  }

  function UpdateStatus(st: Store, id: string, status: TriggerStatus, reason: string, now: int): (r: Store)
    ensures Valid(st) ==> Valid(r)
  {
    Store(UpdateIn(st.items, id, status, reason, now))
  }

  lemma UpdateInFindSame(items: seq<TriggerEvent>, id: string, status: TriggerStatus, reason: string, now: int)
    ensures var r := UpdateIn(items, id, status, reason, now);
            FindIndex(r, id) == FindIndex(items, id)
            && (FindIndex(items, id).Some? ==>
                  r[FindIndex(items, id).value] == SetStatus(items[FindIndex(items, id).value], status, reason, now))
  {
    UpdateInKeepsIndex(items, id, status, reason, now);
    if FindIndex(items, id).Some? {
      UpdateInAtIndex(items, id, status, reason, now);
    }
  }

  /** The update keeps every id where it was, so the id is found where it was. */
  lemma {:induction false} UpdateInKeepsIndex(items: seq<TriggerEvent>, id: string, status: TriggerStatus, reason: string, now: int)
    ensures FindIndex(UpdateIn(items, id, status, reason, now), id) == FindIndex(items, id)
    decreases |items|
  {
    if |items| > 0 {
      var r := UpdateIn(items, id, status, reason, now);
      if items[0].triggerId != id {
        assert r == [items[0]] + UpdateIn(items[1..], id, status, reason, now);
        assert r[1..] == UpdateIn(items[1..], id, status, reason, now);
        UpdateInKeepsIndex(items[1..], id, status, reason, now);
      } else {
        assert r[0].triggerId == id;
      }
    }
  }

  /** The trigger found under the id is the one updated. */
  lemma {:induction false} UpdateInAtIndex(items: seq<TriggerEvent>, id: string, status: TriggerStatus, reason: string, now: int)
    requires FindIndex(items, id).Some?
    ensures UpdateIn(items, id, status, reason, now)[FindIndex(items, id).value] ==
      SetStatus(items[FindIndex(items, id).value], status, reason, now)
    decreases |items|
  {
    if items[0].triggerId != id {
      var r := UpdateIn(items, id, status, reason, now);
      assert r[1..] == UpdateIn(items[1..], id, status, reason, now);
      UpdateInAtIndex(items[1..], id, status, reason, now);
      var j := FindIndex(items[1..], id).value;
      assert r[j + 1] == r[1..][j] && items[j + 1] == items[1..][j];
    }
  }

  lemma {:induction false} UpdateInFindOther(items: seq<TriggerEvent>, id: string, other: string, status: TriggerStatus, reason: string, now: int)
    requires other != id
    ensures var r := UpdateIn(items, id, status, reason, now);
            FindIndex(r, other) == FindIndex(items, other)
            && (FindIndex(items, other).Some? ==> r[FindIndex(items, other).value] == items[FindIndex(items, other).value])
    decreases |items|
  {
    if |items| > 0 {
      var r := UpdateIn(items, id, status, reason, now);
      if items[0].triggerId != id {
        assert r[1..] == UpdateIn(items[1..], id, status, reason, now);
        UpdateInFindOther(items[1..], id, other, status, reason, now);
      } else {
        assert r[1..] == items[1..];
      }
    }
  }

  /** `update_status` behaves as `set_status` on the stored trigger, leaves
      every other trigger alone, and does nothing for an unknown id. */
  lemma UpdateStatusSpec(st: Store, id: string, status: TriggerStatus, reason: string, now: int)
    ensures var r := UpdateStatus(st, id, status, reason, now);
            && (Get(st, id).None? ==> Get(r, id).None?)
            && (Get(st, id).Some? ==> Get(r, id) == Some(SetStatus(Get(st, id).value, status, reason, now)))
            && (forall other | other != id :: Get(r, other) == Get(st, other))
  {
    forall other | other != id
      ensures Get(UpdateStatus(st, id, status, reason, now), other) == Get(st, other)
    {
      UpdateInFindOther(st.items, id, other, status, reason, now);
    }
    UpdateInFindSame(st.items, id, status, reason, now);
  }

  /** An unknown id leaves the store exactly as it was. */
  lemma {:induction false} UpdateUnknownIsNoop(items: seq<TriggerEvent>, id: string, status: TriggerStatus, reason: string, now: int)
    requires !HasId(items, id)
    ensures UpdateIn(items, id, status, reason, now) == items
    decreases |items|
  {
    if |items| > 0 {
      assert items[0].triggerId != id;
      UpdateUnknownIsNoop(items[1..], id, status, reason, now);
      assert items == [items[0]] + items[1..];
    }
  }

  /** The PENDING triggers, in store order. */
  function Pendings(items: seq<TriggerEvent>): (r: seq<TriggerEvent>)
    ensures |r| <= |items|
    ensures forall x | x in r :: x in items && x.status == Pending
    ensures forall x | x in items && x.status == Pending :: x in r
  {
    if |items| == 0 then []
    else
      var rest := Pendings(items[1..]);
      if items[0].status == Pending then [items[0]] + rest else rest
  }

  lemma {:induction false} PendingsSorted(items: seq<TriggerEvent>)
    requires ByCreation(items)
    ensures ByCreation(Pendings(items))
    decreases |items|
  {
    if |items| > 0 {
      var tail := items[1..];
      TailSorted(items);
      PendingsSorted(tail);
      if items[0].status == Pending {
        PendingsBounded(tail, items[0].createdAt);
        ConsSorted(items[0], Pendings(tail));
      }
    }
  }

  lemma TailSorted(items: seq<TriggerEvent>)
    requires |items| > 0 && ByCreation(items)
    ensures ByCreation(items[1..])
    ensures forall k | 0 <= k < |items[1..]| :: items[0].createdAt <= items[1..][k].createdAt
  {
    forall k | 0 <= k < |items[1..]| ensures items[1..][k] == items[k + 1] {
    }
  }

  lemma {:induction false} PendingsBounded(items: seq<TriggerEvent>, c: int)
    requires forall k | 0 <= k < |items| :: c <= items[k].createdAt
    ensures forall k | 0 <= k < |Pendings(items)| :: c <= Pendings(items)[k].createdAt
    decreases |items|
  {
    if |items| > 0 {
      assert forall k | 0 <= k < |items[1..]| :: items[1..][k] == items[k + 1];
      PendingsBounded(items[1..], c);
    }
  }

  lemma ConsSorted(x: TriggerEvent, rest: seq<TriggerEvent>)
    requires ByCreation(rest)
    requires forall k | 0 <= k < |rest| :: x.createdAt <= rest[k].createdAt
    ensures ByCreation([x] + rest)
  {
    var r := [x] + rest;
    forall i, j | 0 <= i < j < |r| ensures r[i].createdAt <= r[j].createdAt {
      assert r[j] == rest[j - 1];
      if i > 0 {
        assert r[i] == rest[i - 1];
      }
    }
  }

  /** `get_pending(limit)`: PENDING triggers sorted by `created_at`, at most
      `limit` of them; a limit of 0 means no limit, as for a MongoDB cursor. */
  function GetPending(st: Store, limit: nat): (r: seq<TriggerEvent>)
    ensures forall x | x in r :: x in st.items && x.status == Pending
    ensures |r| == if limit == 0 || limit >= |Pendings(st.items)| then |Pendings(st.items)| else limit
    ensures r == Pendings(st.items)[..|r|]
    ensures ByCreation(st.items) ==> ByCreation(r)
    ensures ByCreation(st.items) ==>
              forall i, j | 0 <= i < |r| <= j < |Pendings(st.items)| :: r[i].createdAt <= Pendings(st.items)[j].createdAt
  {
    var p := Pendings(st.items);
    assert ByCreation(st.items) ==> ByCreation(p) by {
      if ByCreation(st.items) {
        PendingsSorted(st.items);
      }
    }
    if limit == 0 || limit >= |p| then p else p[..limit]
  }

  /** `exists_by_url`: an empty URL never matches. */
  function ExistsByUrl(st: Store, url: string): bool {
    url != "" && exists i | 0 <= i < |st.items| :: st.items[i].sourceUrl == Some(url)
  }

  /** Saving a trigger makes its (non-empty) source URL known to the store,
      and status updates never change which URLs are known. */
  lemma ExistsAfterSave(st: Store, t: TriggerEvent, url: string)
    requires Save(st, t).Success? && t.sourceUrl == Some(url) && url != ""
    ensures ExistsByUrl(Save(st, t).value, url)
  {
    var r := Save(st, t).value;
    assert t in multiset(r.items);
    var i :| 0 <= i < |r.items| && r.items[i] == t;
  }

  lemma ExistsStableUnderUpdate(st: Store, url: string, id: string, status: TriggerStatus, reason: string, now: int)
    ensures ExistsByUrl(UpdateStatus(st, id, status, reason, now), url) == ExistsByUrl(st, url)
  {
    var r := UpdateStatus(st, id, status, reason, now);
    if ExistsByUrl(st, url) {
      var i :| 0 <= i < |st.items| && st.items[i].sourceUrl == Some(url);
      assert r.items[i].sourceUrl == Some(url);
    }
    if ExistsByUrl(r, url) {
      var i :| 0 <= i < |r.items| && r.items[i].sourceUrl == Some(url);
      assert st.items[i].sourceUrl == Some(url);
    }
  }

  /** A successful save makes exactly the saved trigger's URL and id known
      in addition to the old ones. */
  lemma SaveAddsOne(st: Store, t: TriggerEvent, url: string, id: string)
    requires Save(st, t).Success?
    ensures ExistsByUrl(Save(st, t).value, url) <==> ExistsByUrl(st, url) || (url != "" && t.sourceUrl == Some(url))
    ensures HasId(Save(st, t).value.items, id) <==> HasId(st.items, id) || t.triggerId == id
  {
    var r := Save(st, t).value;
    SavedMembers(st, t);
    SaveAddsUrl(st.items, r.items, t, url);
    SaveAddsId(st.items, r.items, t, id);
  }

  lemma SavedMembers(st: Store, t: TriggerEvent)
    requires Save(st, t).Success?
    ensures forall x :: x in Save(st, t).value.items <==> x in st.items || x == t
  {
    var r := Save(st, t).value;
    assert multiset(r.items) == multiset(st.items) + multiset{t};
    forall x ensures x in r.items <==> x in st.items || x == t {
      assert x in r.items <==> x in multiset(r.items);
      assert x in st.items <==> x in multiset(st.items);
    }
  }

  lemma SaveAddsUrl(items: seq<TriggerEvent>, r: seq<TriggerEvent>, t: TriggerEvent, url: string)
    requires forall x :: x in r <==> x in items || x == t
    ensures ExistsByUrl(Store(r), url) <==> ExistsByUrl(Store(items), url) || (url != "" && t.sourceUrl == Some(url))
  {
    if ExistsByUrl(Store(r), url) {
      var i :| 0 <= i < |r| && r[i].sourceUrl == Some(url);
      if r[i] != t {
        assert r[i] in items;
        var j :| 0 <= j < |items| && items[j] == r[i];
      }
    }
    if ExistsByUrl(Store(items), url) {
      var j :| 0 <= j < |items| && items[j].sourceUrl == Some(url);
      assert items[j] in r;
      var i :| 0 <= i < |r| && r[i] == items[j];
    }
    if url != "" && t.sourceUrl == Some(url) {
      assert t in r;
      var i :| 0 <= i < |r| && r[i] == t;
    }
  }

  lemma SaveAddsId(items: seq<TriggerEvent>, r: seq<TriggerEvent>, t: TriggerEvent, id: string)
    requires forall x :: x in r <==> x in items || x == t
    ensures HasId(r, id) <==> HasId(items, id) || t.triggerId == id
  {
    if HasId(r, id) {
      var i :| 0 <= i < |r| && r[i].triggerId == id;
      if r[i] != t {
        assert r[i] in items;
        var j :| 0 <= j < |items| && items[j] == r[i];
      }
    }
    if HasId(items, id) {
      var j :| 0 <= j < |items| && items[j].triggerId == id;
      assert items[j] in r;
      var i :| 0 <= i < |r| && r[i] == items[j];
    }
    if t.triggerId == id {
      assert t in r;
      var i :| 0 <= i < |r| && r[i] == t;
    }
  }

  /** How many of `items` have status `s`. */
  function CountStatus(items: seq<TriggerEvent>, s: TriggerStatus): nat {
    if |items| == 0 then 0
    else (if items[0].status == s then 1 else 0) + CountStatus(items[1..], s)
  }

  function Since(items: seq<TriggerEvent>, since: Option<int>): (r: seq<TriggerEvent>)
    ensures forall x | x in r :: x in items && (since.Some? ==> x.createdAt >= since.value)
  {
    if |items| == 0 then []
    else if since.None? || items[0].createdAt >= since.value then [items[0]] + Since(items[1..], since)
    else Since(items[1..], since)
  }

  /** `counts_by_status`: one (status value, count) row per status present
      among the triggers created at or after `since`. */
  function CountsByStatus(st: Store, since: Option<int>): (r: seq<(string, nat)>)
    ensures forall row | row in r :: row.1 > 0
  {
    CountRows(Since(st.items, since), AllStatuses)
  }

  function CountRows(items: seq<TriggerEvent>, statuses: seq<TriggerStatus>): (r: seq<(string, nat)>)
    ensures forall row | row in r :: row.1 > 0
  {
    if |statuses| == 0 then []
    else
      var c := CountStatus(items, statuses[0]);
      (if c > 0 then [(StatusValue(statuses[0]), c)] else []) + CountRows(items, statuses[1..])
  }

  function SumRows(rows: seq<(string, nat)>): nat {
    if |rows| == 0 then 0 else rows[0].1 + SumRows(rows[1..])
  }

  function SumCounts(items: seq<TriggerEvent>, statuses: seq<TriggerStatus>): nat {
    if |statuses| == 0 then 0 else CountStatus(items, statuses[0]) + SumCounts(items, statuses[1..])
  }

  function Occurrences(statuses: seq<TriggerStatus>, s: TriggerStatus): nat {
    if |statuses| == 0 then 0 else (if statuses[0] == s then 1 else 0) + Occurrences(statuses[1..], s)
  }

  lemma {:induction false} SumRowsIsSumCounts(items: seq<TriggerEvent>, statuses: seq<TriggerStatus>)
    ensures SumRows(CountRows(items, statuses)) == SumCounts(items, statuses)
    decreases |statuses|
  {
    if |statuses| > 0 {
      SumRowsIsSumCounts(items, statuses[1..]);
      var c := CountStatus(items, statuses[0]);
      var head: seq<(string, nat)> := if c > 0 then [(StatusValue(statuses[0]), c)] else [];
      SumRowsAppend(head, CountRows(items, statuses[1..]));
    }
  }

  lemma {:induction false} SumRowsAppend(a: seq<(string, nat)>, b: seq<(string, nat)>)
    ensures SumRows(a + b) == SumRows(a) + SumRows(b)
    decreases |a|
  {
    if |a| > 0 {
      assert (a + b)[1..] == a[1..] + b;
      assert (a + b)[0] == a[0];
      SumRowsAppend(a[1..], b);
      assert SumRows(a + b) == a[0].1 + SumRows(a[1..] + b);
    } else {
      assert a + b == b;
    }
  }

  lemma {:induction false} SumCountsCons(x: TriggerEvent, tail: seq<TriggerEvent>, statuses: seq<TriggerStatus>)
    ensures SumCounts([x] + tail, statuses) == SumCounts(tail, statuses) + Occurrences(statuses, x.status)
    decreases |statuses|
  {
    if |statuses| > 0 {
      SumCountsCons(x, tail, statuses[1..]);
      assert ([x] + tail)[1..] == tail;
    }
  }

  lemma {:induction false} SumCountsAll(items: seq<TriggerEvent>)
    ensures SumCounts(items, AllStatuses) == |items|
    decreases |items|
  {
    if |items| == 0 {
      assert SumCounts([], AllStatuses) == 0 by { SumCountsEmpty(AllStatuses); }
    } else {
      SumCountsAll(items[1..]);
      assert items == [items[0]] + items[1..];
      SumCountsCons(items[0], items[1..], AllStatuses);
      OccurrencesAll(items[0].status);
    }
  }

  lemma {:induction false} OccurrencesOne(statuses: seq<TriggerStatus>, s: TriggerStatus)
    requires s in statuses
    requires forall i, j | 0 <= i < j < |statuses| :: statuses[i] != statuses[j]
    ensures Occurrences(statuses, s) == 1
    decreases |statuses|
  {
    if statuses[0] == s {
      OccurrencesNone(statuses[1..], s);
    } else {
      OccurrencesOne(statuses[1..], s);
    }
  }

  lemma OccurrencesAll(s: TriggerStatus)
    ensures Occurrences(AllStatuses, s) == 1
  {
    AllStatusesComplete(s);
    AllStatusesDistinct();
    OccurrencesOne(AllStatuses, s);
  }

  lemma {:induction false} OccurrencesNone(statuses: seq<TriggerStatus>, s: TriggerStatus)
    requires s !in statuses
    ensures Occurrences(statuses, s) == 0
    decreases |statuses|
  {
    if |statuses| > 0 {
      OccurrencesNone(statuses[1..], s);
    }
  }

  lemma {:induction false} SumCountsEmpty(statuses: seq<TriggerStatus>)
    ensures SumCounts([], statuses) == 0
    decreases |statuses|
  {
    if |statuses| > 0 {
      SumCountsEmpty(statuses[1..]);
    }
  }

  /** The counts per status add up to the number of triggers in the window. */
  lemma CountsCoverWindow(st: Store, since: Option<int>)
    ensures SumRows(CountsByStatus(st, since)) == |Since(st.items, since)|
  {
    SumRowsIsSumCounts(Since(st.items, since), AllStatuses);
    SumCountsAll(Since(st.items, since));
  }
}

=== FILE: text.dfy ===
/** String primitives the Python code relies on, written out over seq<char>.

    Python's `str.strip()`, `lower()`, `upper()`, `in`, `startswith`,
    `endswith`, `join`, `split` and slicing are modelled here once and used by
    every other module.  Case mapping covers ASCII letters only; the
    whitespace set is the full one of `str.isspace()`.
 */
module Text {
  import opened Wrappers

  /** Python's `str.isspace()`: the characters `strip()` removes. */
  predicate IsSpace(c: char) {
    if c <= ' ' then '\t' <= c <= '\r' || '\U{001C}' <= c
    else if c < '\U{0085}' then false
    else if c <= '\U{00A0}' then c == '\U{0085}' || c == '\U{00A0}'
    else
      || c == '\U{1680}' || ('\U{2000}' <= c <= '\U{200A}') || c == '\U{2028}' || c == '\U{2029}'
      || c == '\U{202F}' || c == '\U{205F}' || c == '\U{3000}'
  }

  predicate AllSpace(s: string) {
    forall i | 0 <= i < |s| :: IsSpace(s[i])
  }

  /** Python truthiness of `s.strip()`: false exactly for blank strings. */
  predicate IsBlank(s: string) {
    AllSpace(s)
  }

  /** The first index from `i` on that does not hold whitespace, or `|s|`. */
  function SkipSpace(s: string, i: nat): (r: nat)
    requires i <= |s|
    ensures i <= r <= |s|
    ensures forall k | i <= k < r :: IsSpace(s[k])
    ensures r < |s| ==> !IsSpace(s[r])
    decreases |s| - i
  {
    if i < |s| && IsSpace(s[i]) then SkipSpace(s, i + 1) else i
  }

  /** Moving down from `j`, but not below `lo`: the first index after which
      only whitespace lies before `j`. */
  function SkipSpaceBack(s: string, lo: nat, j: nat): (r: nat)
    requires lo <= j <= |s|
    ensures lo <= r <= j
    ensures forall k | r <= k < j :: IsSpace(s[k])
    ensures r > lo ==> !IsSpace(s[r - 1])
    decreases j
  {
    if j > lo && IsSpace(s[j - 1]) then SkipSpaceBack(s, lo, j - 1) else j
  }

  /** Number of leading whitespace characters `s.strip()` removes. */
  function StripStart(s: string): (n: nat)
    ensures n <= |s|
  {
    SkipSpace(s, 0)
  }

  /** Python `s.strip()`: the infix left after removing whitespace at both ends. */
  function Strip(s: string): (r: string)
    ensures |r| <= |s| - StripStart(s)
    ensures r == s[StripStart(s)..StripStart(s) + |r|]
    ensures AllSpace(s[..StripStart(s)]) && AllSpace(s[StripStart(s) + |r|..])
    ensures r == [] || (!IsSpace(r[0]) && !IsSpace(r[|r| - 1]))
    ensures r == [] <==> IsBlank(s)
  {
    var i := SkipSpace(s, 0);
    var j := SkipSpaceBack(s, i, |s|);
    StripBounds(s, i, j);
    s[i..j]
  }

  /** What the two scans leave: whitespace outside `[i, j)` and non-space
      characters at its ends. */
  lemma StripBounds(s: string, i: nat, j: nat)
    requires i == SkipSpace(s, 0) && j == SkipSpaceBack(s, i, |s|)
    ensures AllSpace(s[..i]) && AllSpace(s[j..])
    ensures i < j ==> !IsSpace(s[i]) && !IsSpace(s[j - 1])
    ensures i == j <==> IsBlank(s)
  {
    assert forall k | 0 <= k < i :: s[..i][k] == s[k];
    assert forall k | 0 <= k < |s| - j :: s[j..][k] == s[j + k];
    if i == j {
      assert i == |s|;
    } else {
      assert !IsSpace(s[i]);
    }
  }

  lemma StripOfStripped(s: string)
    requires s == [] || (!IsSpace(s[0]) && !IsSpace(s[|s| - 1]))
    ensures Strip(s) == s
  {
    var i := SkipSpace(s, 0);
    assert i == 0;
    var j := SkipSpaceBack(s, i, |s|);
    assert j == |s|;
    assert s[i..j] == s;
  }

  function LowerChar(c: char): char {
    if 'A' <= c <= 'Z' then (c as int + 32) as char else c
  }

  function UpperChar(c: char): char {
    if 'a' <= c <= 'z' then (c as int - 32) as char else c
  }

  /** Case mapping never turns a visible character into whitespace. */
  lemma UpperCharNotSpace(c: char)
    requires !IsSpace(c)
    ensures !IsSpace(UpperChar(c))
  {
  }

  lemma LowerCharNotSpace(c: char)
    requires !IsSpace(c)
    ensures !IsSpace(LowerChar(c))
  {
  }

  /** Lower-casing a string that is not blank leaves it not blank. */
  lemma LowerNotBlank(s: string)
    requires !IsBlank(s)
    ensures !IsBlank(Lower(s))
  {
    var i :| 0 <= i < |s| && !IsSpace(s[i]);
    LowerCharNotSpace(s[i]);
    assert Lower(s)[i] == LowerChar(s[i]);
  }

  /** Python `s.lower()` on ASCII letters. */
  function Lower(s: string): (r: string)
    ensures |r| == |s|
    ensures forall i | 0 <= i < |s| :: r[i] == LowerChar(s[i])
  {
    seq(|s|, i requires 0 <= i < |s| => LowerChar(s[i]))
  }

  /** Python `s.upper()` on ASCII letters. */
  function Upper(s: string): (r: string)
    ensures |r| == |s|
    ensures forall i | 0 <= i < |s| :: r[i] == UpperChar(s[i])
  {
    seq(|s|, i requires 0 <= i < |s| => UpperChar(s[i]))
  }

  /** No whitespace at either end. */
  predicate Trimmed(s: string) {
    s == [] || (!IsSpace(s[0]) && !IsSpace(s[|s| - 1]))
  }

  lemma StripIdempotent(s: string)
    ensures Strip(Strip(s)) == Strip(s)
  {
    StripOfStripped(Strip(s));
  }

  lemma UpperIdempotent(s: string)
    ensures Upper(Upper(s)) == Upper(s)
  {
    assert forall i | 0 <= i < |s| :: Upper(Upper(s))[i] == Upper(s)[i];
  }

  lemma LowerIdempotent(s: string)
    ensures Lower(Lower(s)) == Lower(s)
  {
    assert forall i | 0 <= i < |s| :: Lower(Lower(s))[i] == Lower(s)[i];
  }

  /** Lower-casing forgets an earlier upper-casing, and the reverse. */
  lemma LowerOfUpper(s: string)
    ensures Lower(Upper(s)) == Lower(s)
  {
    assert forall i | 0 <= i < |s| :: Lower(Upper(s))[i] == Lower(s)[i];
  }

  lemma UpperOfLower(s: string)
    ensures Upper(Lower(s)) == Upper(s)
  {
    assert forall i | 0 <= i < |s| :: Upper(Lower(s))[i] == Upper(s)[i];
  }

  /** Case mapping keeps whitespace where it is, so a case-mapped stripped
      string is still stripped. */
  lemma UpperOfStripped(s: string)
    requires Trimmed(s)
    ensures Trimmed(Upper(s))
  {
    if s != [] {
      UpperCharNotSpace(s[0]);
      UpperCharNotSpace(s[|s| - 1]);
    }
  }

  lemma LowerOfStripped(s: string)
    requires Trimmed(s)
    ensures Trimmed(Lower(s))
  {
    if s != [] {
      LowerCharNotSpace(s[0]);
      LowerCharNotSpace(s[|s| - 1]);
    }
  }

  /** Python `sub in s`. */
  predicate Contains(s: string, sub: string) {
    exists i | 0 <= i <= |s| - |sub| :: OccursAt(s, sub, i)
  }

  predicate OccursAt(s: string, sub: string, i: int) {
    0 <= i <= |s| - |sub| && s[i..i + |sub|] == sub
  }

  predicate StartsWith(s: string, prefix: string) {
    |prefix| <= |s| && s[..|prefix|] == prefix
  }

  predicate EndsWith(s: string, suffix: string) {
    |suffix| <= |s| && s[|s| - |suffix|..] == suffix
  }

  /** Python `s[:n]` for a non-negative `n`, on strings and lists. */
  function Take<T>(s: seq<T>, n: nat): (r: seq<T>)
    ensures |r| <= n && |r| <= |s|
    ensures |r| <= |s| && r == s[..|r|]
    ensures |s| <= n ==> r == s
    ensures n <= |s| ==> |r| == n
  {
    if |s| <= n then s else s[..n]
  }

  /** Python `s[:n]` for any `n`: a negative `n` counts from the end. */
  function SliceTo(s: string, n: int): (r: string)
    ensures |r| <= |s| && r == s[..|r|]
    ensures n >= 0 ==> |r| == if n <= |s| then n else |s|
    ensures n < 0 ==> |r| == if |s| + n >= 0 then |s| + n else 0
  {
    if n >= 0 then Take(s, n)
    else if |s| + n >= 0 then s[..|s| + n]
    else []
  }

  /** Python `sep.join(parts)`. */
  function Join(parts: seq<string>, sep: string): string {
    if |parts| == 0 then ""
    else if |parts| == 1 then parts[0]
    else parts[0] + sep + Join(parts[1..], sep)
  }

  /** Each string of `xs` stripped: `[x.strip() for x in xs]`. */
  function StripAll(xs: seq<string>): (r: seq<string>)
    ensures |r| == |xs|
    ensures forall k | 0 <= k < |xs| :: r[k] == Strip(xs[k])
  {
    seq(|xs|, k requires 0 <= k < |xs| => Strip(xs[k]))
  }

  /** A join begins with its first part. */
  lemma JoinStartsWith(parts: seq<string>, sep: string)
    requires |parts| > 0
    ensures StartsWith(Join(parts, sep), parts[0])
  {
    if |parts| > 1 {
      var j := Join(parts, sep);
      assert j == parts[0] + (sep + Join(parts[1..], sep));
      assert j[..|parts[0]|] == parts[0];
    }
  }

  /** A join ends with its last part. */
  lemma {:induction false} JoinEndsWith(parts: seq<string>, sep: string)
    requires |parts| > 0
    ensures EndsWith(Join(parts, sep), parts[|parts| - 1])
    decreases |parts|
  {
    if |parts| > 1 {
      JoinEndsWith(parts[1..], sep);
      var rest := Join(parts[1..], sep);
      var j := Join(parts, sep);
      var last := parts[|parts| - 1];
      assert j == (parts[0] + sep) + rest;
      assert j[|j| - |last|..] == rest[|rest| - |last|..];
    }
  }

  /** A join starts with the first part's first character. */
  lemma JoinFirst(parts: seq<string>, sep: string)
    requires |parts| > 0 && parts[0] != []
    ensures Join(parts, sep) != [] && Join(parts, sep)[0] == parts[0][0]
  {
  }

  /** A join ends with the last part's last character. */
  lemma {:induction false} JoinLast(parts: seq<string>, sep: string)
    requires |parts| > 0 && parts[|parts| - 1] != []
    ensures var j := Join(parts, sep);
            j != [] && j[|j| - 1] == parts[|parts| - 1][|parts[|parts| - 1]| - 1]
    decreases |parts|
  {
    if |parts| > 1 {
      JoinLast(parts[1..], sep);
    }
  }

  /** Joining non-empty parts gives the empty string only for no parts. */
  lemma JoinEmpty(parts: seq<string>, sep: string)
    requires forall k | 0 <= k < |parts| :: parts[k] != []
    ensures Join(parts, sep) == [] <==> parts == []
  {
    if parts != [] {
      JoinFirst(parts, sep);
    }
  }

  /** Splitting a join on a separator no part contains gives the parts back. */
  lemma {:induction false} SplitJoin(parts: seq<string>, sep: char)
    requires |parts| >= 1
    requires forall k | 0 <= k < |parts| :: sep !in parts[k]
    ensures Split(Join(parts, [sep]), sep) == parts
    decreases |parts|
  {
    if |parts| == 1 {
      SplitNoSep(parts[0], sep);
    } else {
      SplitJoin(parts[1..], sep);
      SplitAfter(parts[0], sep, Join(parts[1..], [sep]));
      assert Join(parts, [sep]) == parts[0] + ([sep] + Join(parts[1..], [sep]));
    }
  }

  /** A string without the separator splits into itself. */
  lemma {:induction false} SplitNoSep(s: string, sep: char)
    requires sep !in s
    ensures Split(s, sep) == [s]
    decreases |s|
  {
    if |s| > 0 {
      SplitNoSep(s[1..], sep);
    }
  }

  /** A separator-free head followed by the separator is split off as one piece. */
  lemma {:induction false} SplitAfter(a: string, sep: char, rest: string)
    requires sep !in a
    ensures Split(a + ([sep] + rest), sep) == [a] + Split(rest, sep)
    decreases |a|
  {
    var s := a + ([sep] + rest);
    if |a| == 0 {
      assert s == [sep] + rest;
      assert s[1..] == rest;
    } else {
      assert sep !in a[1..];
      SplitAfter(a[1..], sep, rest);
      assert s[1..] == a[1..] + ([sep] + rest) && s[0] == a[0] && s[0] != sep;
      var tail := Split(s[1..], sep);
      assert tail == [a[1..]] + Split(rest, sep);
      assert Split(s, sep) == [[a[0]] + tail[0]] + tail[1..];
      assert [a[0]] + a[1..] == a;
    }
  }

  /** Python `s.split(sep)` for a one-character separator. */
  function Split(s: string, sep: char): (r: seq<string>)
    ensures |r| >= 1
    ensures forall k | 0 <= k < |r| :: sep !in r[k]
    ensures Join(r, [sep]) == s
  {
    if |s| == 0 then [""]
    else
      var rest := Split(s[1..], sep);
      if s[0] == sep then [""] + rest
      else [[s[0]] + rest[0]] + rest[1..]
  }

  /** Python `s.replace(a, b)` for single characters. */
  function ReplaceChar(s: string, a: char, b: char): (r: string)
    ensures |r| == |s|
    ensures forall i | 0 <= i < |s| :: r[i] == (if s[i] == a then b else s[i])
  {
    seq(|s|, i requires 0 <= i < |s| => if s[i] == a then b else s[i])
  }

  function DigitChar(d: nat): char
    requires d < 10
  {
    ('0' as int + d) as char
  }

  /** Python `str(n)` for a natural number. */
  function NatToString(n: nat): (r: string)
    ensures |r| >= 1
  {
    if n < 10 then [DigitChar(n)] else NatToString(n / 10) + [DigitChar(n % 10)]
  }

  predicate AllDigits(s: string) {
    forall i | 0 <= i < |s| :: '0' <= s[i] <= '9'
  }

  /** Python `int(s)` for a string of decimal digits. */
  function DigitsValue(s: string): nat
    requires AllDigits(s)
  {
    if |s| == 0 then 0 else DigitsValue(s[..|s| - 1]) * 10 + (s[|s| - 1] as int - '0' as int)
  }

  /** `int(str(n)) == n`: the decimal rendering is all digits and reads back. */
  lemma {:induction false} NatToStringRoundTrip(n: nat)
    ensures AllDigits(NatToString(n)) && DigitsValue(NatToString(n)) == n
  {
    var r := NatToString(n);
    if n >= 10 {
      NatToStringRoundTrip(n / 10);
      var init := NatToString(n / 10);
      assert r == init + [DigitChar(n % 10)];
      assert r[..|r| - 1] == init;
    }
  }

  /** Python `str(i)` for any integer. */
  function IntToString(i: int): string {
    if i < 0 then "-" + NatToString(-i) else NatToString(i)
  }

  /** No element of `xs` occurs twice. */
  predicate NoDuplicates<T(==)>(xs: seq<T>) {
    forall i, j | 0 <= i < j < |xs| :: xs[i] != xs[j]
  }

  /** Position of the first occurrence of `x` in `xs`. */
  function FirstIndex<T(==)>(xs: seq<T>, x: T): (i: nat)
    requires x in xs
    ensures i < |xs| && xs[i] == x && x !in xs[..i]
  {
    if xs[0] == x then 0
    else
      var j := FirstIndex(xs[1..], x);
      assert xs[..j + 1] == [xs[0]] + xs[1..][..j];
      j + 1
  }

  /** A prefix locates its elements where the whole sequence does. */
  lemma FirstIndexPrefix<T>(xs: seq<T>, n: nat, x: T)
    requires n <= |xs| && x in xs[..n]
    ensures FirstIndex(xs[..n], x) == FirstIndex(xs, x)
  {
    var i := FirstIndex(xs[..n], x);
    var j := FirstIndex(xs, x);
    assert xs[..n][..i] == xs[..i];
  }

  /** Order-preserving de-duplication: the loop that appends each element
      not yet in its `seen` set. The result keeps exactly the elements of
      `xs`, each once, in the order of their first occurrences. */
  function Dedup<T(==)>(xs: seq<T>): (r: seq<T>)
    ensures NoDuplicates(r)
    ensures forall i | 0 <= i < |r| :: r[i] in xs
    ensures forall i | 0 <= i < |xs| :: xs[i] in r
    ensures forall i, j | 0 <= i < j < |r| :: FirstIndex(xs, r[i]) < FirstIndex(xs, r[j])
    decreases |xs|
  {
    if |xs| == 0 then []
    else
      var init := xs[..|xs| - 1];
      var p := Dedup(init);
      var x := xs[|xs| - 1];
      assert xs == init + [x];
      DedupStep(init, p, x);
      if x in p then p else p + [x]
  }

  /** The de-duplication of `xs`: its elements, each once, in the order of
      their first occurrences in `xs`. */
  predicate IsDedupOf<T(==)>(xs: seq<T>, r: seq<T>) {
    && NoDuplicates(r)
    && (forall i | 0 <= i < |r| :: r[i] in xs)
    && (forall i | 0 <= i < |xs| :: xs[i] in r)
    && (forall i, j | 0 <= i < j < |r| :: FirstIndex(xs, r[i]) < FirstIndex(xs, r[j]))
  }

  /** One element more: it is appended unless it is already there. */
  lemma DedupStep<T>(init: seq<T>, p: seq<T>, x: T)
    requires IsDedupOf(init, p)
    ensures x in p ==> IsDedupOf(init + [x], p)
    ensures x !in p ==> IsDedupOf(init + [x], p + [x])
  {
    var xs := init + [x];
    assert xs[..|xs| - 1] == init;
    forall y | y in p ensures FirstIndex(init, y) == FirstIndex(xs, y) {
      FirstIndexPrefix(xs, |xs| - 1, y);
    }
    if x !in p {
      assert x !in init;
      assert FirstIndex(xs, x) == |xs| - 1;
      var r := p + [x];
      forall i, j | 0 <= i < j < |r| ensures FirstIndex(xs, r[i]) < FirstIndex(xs, r[j]) {
        if j == |p| {
          assert r[i] == p[i];
        } else {
          assert r[i] == p[i] && r[j] == p[j];
        }
      }
    }
  }

  /** De-duplication keeps exactly the elements that occur. */
  lemma DedupHas<T>(xs: seq<T>, x: T)
    ensures x in Dedup(xs) <==> x in xs
  {
    var r := Dedup(xs);
    if x in xs {
      var i :| 0 <= i < |xs| && xs[i] == x;
    }
    if x in r {
      var i :| 0 <= i < |r| && r[i] == x;
    }
  }

  /** De-duplicating one element more: it is appended unless already seen. */
  lemma DedupSnoc<T>(xs: seq<T>, x: T)
    ensures Dedup(xs + [x]) == if x in xs then Dedup(xs) else Dedup(xs) + [x]
  {
    assert (xs + [x])[..|xs|] == xs;
  }

  /** De-duplicating a sequence without duplicates changes nothing. */
  lemma {:induction false} DedupOfDistinct<T>(xs: seq<T>)
    requires NoDuplicates(xs)
    ensures Dedup(xs) == xs
    decreases |xs|
  {
    if |xs| > 0 {
      var init := xs[..|xs| - 1];
      var x := xs[|xs| - 1];
      DistinctInit(xs);
      DedupOfDistinct(init);
      assert x !in Dedup(init);
      assert Dedup(xs) == init + [x];
      assert init + [x] == xs;
    }
  }

  lemma DistinctInit<T>(xs: seq<T>)
    requires |xs| > 0 && NoDuplicates(xs)
    ensures NoDuplicates(xs[..|xs| - 1]) && xs[|xs| - 1] !in xs[..|xs| - 1]
  {
    var init := xs[..|xs| - 1];
    forall i | 0 <= i < |init| ensures init[i] != xs[|xs| - 1] {
      assert init[i] == xs[i];
    }
  }

  /** De-duplication is idempotent. */
  lemma DedupIdempotent<T>(xs: seq<T>)
    ensures Dedup(Dedup(xs)) == Dedup(xs)
  {
    DedupOfDistinct(Dedup(xs));
  }

  /** `ys` is a subsequence of `xs`: it can be obtained by deleting elements. */
  predicate IsSubsequence<T(==)>(ys: seq<T>, xs: seq<T>)
    decreases |xs|
  {
    if |ys| == 0 then true
    else if |xs| == 0 then false
    else if ys[0] == xs[0] then IsSubsequence(ys[1..], xs[1..])
    else IsSubsequence(ys, xs[1..])
  }

  /** Python truthiness of an optional string: present and non-empty. */
  predicate Truthy(o: Option<string>) {
    o.Some? && o.value != []
  }

  /** `x or ""` for an optional string. */
  function OrEmpty(o: Option<string>): (r: string)
    ensures Truthy(o) ==> r == o.value
    ensures !Truthy(o) ==> r == []
  {
    if o.Some? then o.value else []
  }
  /** `strip()` removes any amount of whitespace padding and nothing else. */
  lemma StripPadded(a: string, x: string, b: string)
    requires AllSpace(a) && AllSpace(b)
    requires x != [] && !IsSpace(x[0]) && !IsSpace(x[|x| - 1])
    ensures Strip(a + x + b) == x
  {
    var s := a + x + b;
    assert forall k | 0 <= k < |a| :: s[k] == a[k];
    assert forall k | 0 <= k < |b| :: s[|a| + |x| + k] == b[k];
    assert s[|a|] == x[0] && s[|a| + |x| - 1] == x[|x| - 1];
    var i := SkipSpace(s, 0);
    assert i == |a|;
    var j := SkipSpaceBack(s, i, |s|);
    assert j == |a| + |x|;
    assert s[i..j] == x;
  }

  /** What occurs in the tail or the front of a string occurs in it. */
  lemma OccursInTail(s: string, r: string, i: int)
    requires |s| > 0 && OccursAt(s[1..], r, i)
    ensures OccursAt(s, r, i + 1)
  {
    assert s[i + 1..i + 1 + |r|] == s[1..][i..i + |r|];
  }

  lemma OccursInFront(s: string, r: string, i: int)
    requires |s| > 0 && OccursAt(s[..|s| - 1], r, i)
    ensures OccursAt(s, r, i)
  {
    assert s[i..i + |r|] == s[..|s| - 1][i..i + |r|];
  }

  /** Python `s.strip(chars)`: remove characters of `chars` at both ends. */
  function StripChars(s: string, chars: seq<char>): (r: string)
    ensures |r| <= |s|
    ensures r == [] || (r[0] !in chars && r[|r| - 1] !in chars)
    ensures Contains(s, r)
    decreases |s|
  {
    if |s| == 0 then
      assert OccursAt(s, s, 0);
      s
    else if s[0] in chars then
      var r := StripChars(s[1..], chars);
      var i :| OccursAt(s[1..], r, i);
      OccursInTail(s, r, i);
      r
    else if s[|s| - 1] in chars then
      var r := StripChars(s[..|s| - 1], chars);
      var i :| OccursAt(s[..|s| - 1], r, i);
      OccursInFront(s, r, i);
      r
    else
      assert OccursAt(s, s, 0);
      s
  }

  /** The line boundaries of Python's `str.splitlines()`. */
  predicate IsLineBreak(c: char) {
    c == '\n' || c == '\r' || c == '\U{000B}' || c == '\U{000C}' || c == '\U{001C}' || c == '\U{001D}'
    || c == '\U{001E}' || c == '\U{0085}' || c == '\U{2028}' || c == '\U{2029}'
  }

  /** Number of leading characters before the first line boundary. */
  function LineEnd(s: string): (n: nat)
    ensures n <= |s|
    ensures forall k | 0 <= k < n :: !IsLineBreak(s[k])
    ensures n < |s| ==> IsLineBreak(s[n])
  {
    if |s| == 0 || IsLineBreak(s[0]) then 0 else 1 + LineEnd(s[1..])
  }

  /** Python `s.splitlines()`: lines without their boundaries, where
      "\r\n" counts as one boundary and a final boundary opens no line. */
  function SplitLines(s: string): (r: seq<string>)
    ensures forall k | 0 <= k < |r| :: forall j | 0 <= j < |r[k]| :: !IsLineBreak(r[k][j])
    decreases |s|
  {
    if |s| == 0 then []
    else
      var n := LineEnd(s);
      if n == |s| then [s]
      else
        var width := if s[n] == '\r' && n + 1 < |s| && s[n + 1] == '\n' then 2 else 1;
        [s[..n]] + SplitLines(s[n + width..])
  }

  /** Lines joined with "\n" split back into the same lines. */
  lemma {:induction false} SplitLinesJoin(lines: seq<string>)
    requires |lines| >= 1 && lines[|lines| - 1] != []
    requires forall k | 0 <= k < |lines| :: forall j | 0 <= j < |lines[k]| :: !IsLineBreak(lines[k][j])
    ensures SplitLines(Join(lines, "\n")) == lines
    decreases |lines|
  {
    var s := Join(lines, "\n");
    var head := lines[0];
    if |lines| == 1 {
      LineEndOf(head, "");
      assert head + "" == head;
    } else {
      var rest := Join(lines[1..], "\n");
      assert s == head + ("\n" + rest);
      LineEndOf(head, "\n" + rest);
      assert s[|head|] == '\n';
      assert s[..|head|] == head;
      assert s[|head| + 1..] == rest;
      SplitLinesJoin(lines[1..]);
    }
  }

  lemma {:induction false} LineEndOf(head: string, tail: string)
    requires forall j | 0 <= j < |head| :: !IsLineBreak(head[j])
    requires tail == [] || IsLineBreak(tail[0])
    ensures LineEnd(head + tail) == |head|
    decreases |head|
  {
    if |head| > 0 {
      assert (head + tail)[1..] == head[1..] + tail;
      LineEndOf(head[1..], tail);
    } else {
      assert head + tail == tail;
    }
  }
}

=== FILE: token_usage.dfy ===
/** Token counting over the usage payloads an LM tracker reports
    (utils/token_usage.py): `_sum_tokens` adds every number stored under one
    of a set of keys, at any depth of nested dictionaries and lists, and
    `extract_token_counts` splits the totals into input and output tokens.
    Running the operation under the tracker is left out; the payload is an
    input. */
module TokenUsage {
  import opened Wrappers
  import opened Json

  const InputTokenKeys: set<string> :=
    {"prompt_tokens", "input_tokens", "cache_creation_input_tokens", "cache_read_input_tokens"}
  const OutputTokenKeys: set<string> := {"completion_tokens", "output_tokens", "reasoning_tokens"}
  const TotalTokenKeys: set<string> := {"total_tokens"}

  /** `_is_number`: an int or a float, but not a bool. */
  predicate IsTokenNumber(v: Value) {
    v.Int? || v.Float?
  }

  /** Python `int(x)` of a finite float: truncation toward zero. */
  function Truncate(x: real): (i: int)
    ensures x >= 0.0 ==> i as real <= x < i as real + 1.0
    ensures x < 0.0 ==> i as real - 1.0 < x <= i as real
  {
    if x >= 0.0 then x.Floor else -((-x).Floor)
  }

  function TokenValue(v: Value): int
    requires IsTokenNumber(v)
  {
    if v.Int? then v.i else Truncate(v.x)
  }

  /** What one dictionary entry adds by itself: its value when the key
      matches and the value is a number, else nothing. */
  function Counted(entry: (string, Value), keys: set<string>): int {
    if entry.0 in keys && IsTokenNumber(entry.1) then TokenValue(entry.1) else 0
  }

  // ----------------------------------------------------------- summation

  /** `_sum_tokens(payload, keys)`: for a dictionary, each entry's own
      count plus the count inside its value; for a list, the items' counts;
      nothing for anything else. */
  function SumTokens(v: Value, keys: set<string>): int
    decreases v, 1, 0
  {
    match v
    case Dict(es) => SumEntries(v, 0, keys)
    case List(items) => SumItems(v, 0, keys)
    case _ => 0
  }

  /** The entries of dictionary `v` from index `i` on. */
  function SumEntries(v: Value, i: nat, keys: set<string>): int
    requires v.Dict? && i <= |v.entries|
    decreases v, 0, |v.entries| - i
  {
    if i == |v.entries| then 0
    else Counted(v.entries[i], keys) + SumTokens(v.entries[i].1, keys) + SumEntries(v, i + 1, keys)
  }

  /** The items of list `v` from index `i` on. */
  function SumItems(v: Value, i: nat, keys: set<string>): int
    requires v.List? && i <= |v.items|
    decreases v, 0, |v.items| - i
  {
    if i == |v.items| then 0
    else SumTokens(v.items[i], keys) + SumItems(v, i + 1, keys)
  }

  // --------------------------------------------- the reference definition

  /** Every dictionary entry inside `v`, at any depth, in traversal order. */
  function Pairs(v: Value): seq<(string, Value)>
    decreases v, 1, 0
  {
    match v
    case Dict(es) => EntriesPairs(v, 0)
    case List(items) => ItemsPairs(v, 0)
    case _ => []
  }

  function EntriesPairs(v: Value, i: nat): seq<(string, Value)>
    requires v.Dict? && i <= |v.entries|
    decreases v, 0, |v.entries| - i
  {
    if i == |v.entries| then [] else [v.entries[i]] + Pairs(v.entries[i].1) + EntriesPairs(v, i + 1)
  }

  function ItemsPairs(v: Value, i: nat): seq<(string, Value)>
    requires v.List? && i <= |v.items|
    decreases v, 0, |v.items| - i
  {
    if i == |v.items| then [] else Pairs(v.items[i]) + ItemsPairs(v, i + 1)
  }

  /** The sum of what each entry adds by itself. */
  function PairSum(ps: seq<(string, Value)>, keys: set<string>): int {
    if |ps| == 0 then 0 else Counted(ps[0], keys) + PairSum(ps[1..], keys)
  }

  lemma {:induction false} PairSumAppend(a: seq<(string, Value)>, b: seq<(string, Value)>, keys: set<string>)
    ensures PairSum(a + b, keys) == PairSum(a, keys) + PairSum(b, keys)
    decreases |a|
  {
    if |a| == 0 {
      assert a + b == b;
    } else {
      assert (a + b)[0] == a[0];
      assert (a + b)[1..] == a[1..] + b;
      PairSumAppend(a[1..], b, keys);
    }
  }

  /** `_sum_tokens` adds, over every entry at any depth, the entry's number
      when its key matches: nothing more and nothing twice. */
  lemma {:induction false} SumTokensIsPairSum(v: Value, keys: set<string>)
    ensures SumTokens(v, keys) == PairSum(Pairs(v), keys)
    decreases v, 1, 0
  {
    match v
    case Dict(es) => SumEntriesIsPairSum(v, 0, keys);
    case List(items) => SumItemsIsPairSum(v, 0, keys);
    case _ =>
  }

  lemma {:induction false} SumEntriesIsPairSum(v: Value, i: nat, keys: set<string>)
    requires v.Dict? && i <= |v.entries|
    ensures SumEntries(v, i, keys) == PairSum(EntriesPairs(v, i), keys)
    decreases v, 0, |v.entries| - i
  {
    if i < |v.entries| {
      var e := v.entries[i];
      SumTokensIsPairSum(e.1, keys);
      SumEntriesIsPairSum(v, i + 1, keys);
      PairSumAppend([e] + Pairs(e.1), EntriesPairs(v, i + 1), keys);
      PairSumAppend([e], Pairs(e.1), keys);
    }
  }

  lemma {:induction false} SumItemsIsPairSum(v: Value, i: nat, keys: set<string>)
    requires v.List? && i <= |v.items|
    ensures SumItems(v, i, keys) == PairSum(ItemsPairs(v, i), keys)
    decreases v, 0, |v.items| - i
  {
    if i < |v.items| {
      SumTokensIsPairSum(v.items[i], keys);
      SumItemsIsPairSum(v, i + 1, keys);
      PairSumAppend(Pairs(v.items[i]), ItemsPairs(v, i + 1), keys);
    }
  }

  /** Summing for two disjoint key sets at once is summing for each: an
      entry counts toward at most one of them. */
  lemma {:induction false} PairSumSplit(ps: seq<(string, Value)>, a: set<string>, b: set<string>)
    requires a * b == {}
    ensures PairSum(ps, a + b) == PairSum(ps, a) + PairSum(ps, b)
    decreases |ps|
  {
    if |ps| > 0 {
      PairSumSplit(ps[1..], a, b);
      var k := ps[0].0;
      assert k !in a * b;
    }
  }

  lemma SumTokensSplit(v: Value, a: set<string>, b: set<string>)
    requires a * b == {}
    ensures SumTokens(v, a + b) == SumTokens(v, a) + SumTokens(v, b)
  {
    SumTokensIsPairSum(v, a + b);
    SumTokensIsPairSum(v, a);
    SumTokensIsPairSum(v, b);
    PairSumSplit(Pairs(v), a, b);
  }

  /** Booleans and non-numbers never count, whatever their key. */
  lemma {:induction false} NonNumbersIgnored(ps: seq<(string, Value)>, keys: set<string>)
    requires forall k | 0 <= k < |ps| :: !IsTokenNumber(ps[k].1)
    ensures PairSum(ps, keys) == 0
    decreases |ps|
  {
    if |ps| > 0 {
      NonNumbersIgnored(ps[1..], keys);
    }
  }

  /** The input and output key sets share no key, so no value counts
      toward both totals. */
  lemma TokenKeysDisjoint()
    ensures InputTokenKeys * OutputTokenKeys == {}
    ensures TotalTokenKeys * (InputTokenKeys + OutputTokenKeys) == {}
  {
  }

  // ------------------------------------------------ extract_token_counts

  /** `extract_token_counts(usage_by_model)`: `(input, output)`. A None or
      empty map counts nothing; a payload with neither input nor output
      tokens reports its `total_tokens` as output. */
  function ExtractTokenCounts(usage: Option<Entries>): (r: (int, int))
    ensures usage.None? || usage == Some([]) ==> r == (0, 0)
    ensures usage.Some? && usage.value != [] ==>
      var d := Dict(usage.value);
      var input := SumTokens(d, InputTokenKeys);
      var output := SumTokens(d, OutputTokenKeys);
      && r.0 == input
      && r.1 == (if input == 0 && output == 0 then SumTokens(d, TotalTokenKeys) else output)
  {
    if usage.None? || usage.value == [] then (0, 0)
    else
      var d := Dict(usage.value);
      var input := SumTokens(d, InputTokenKeys);
      var output := SumTokens(d, OutputTokenKeys);
      if input == 0 && output == 0 then (0, SumTokens(d, TotalTokenKeys)) else (input, output)
  }

  /** Both totals together are the sum over the union of the key sets,
      unless the fallback applies. */
  lemma CountsAddUp(usage: Entries)
    requires usage != []
    ensures var r := ExtractTokenCounts(Some(usage));
      r.0 != 0 || SumTokens(Dict(usage), OutputTokenKeys) != 0 ==>
        r.0 + r.1 == SumTokens(Dict(usage), InputTokenKeys + OutputTokenKeys)
  {
    TokenKeysDisjoint();
    SumTokensSplit(Dict(usage), InputTokenKeys, OutputTokenKeys);
  }
}

=== FILE: trigger.dfy ===
/** The trigger entity: one announcement under consideration, with its
    status and an append-only status history (models/trigger.py). */
module Trigger {
  import opened Wrappers

  datatype TriggerSource = NseRss | BseRss | Human

  datatype TriggerStatus =
    | Pending | FilteredOut | GatePassed | Analyzing | Analyzed
    | Assessing | Assessed | Reported | Error

  datatype TriggerPriority = Normal | High

  function SourceValue(s: TriggerSource): string {
    match s
    case NseRss => "nse_rss"
    case BseRss => "bse_rss"
    case Human => "human"
  }

  function StatusValue(s: TriggerStatus): string {
    match s
    case Pending => "pending"
    case FilteredOut => "filtered_out"
    case GatePassed => "gate_passed"
    case Analyzing => "analyzing"
    case Analyzed => "analyzed"
    case Assessing => "assessing"
    case Assessed => "assessed"
    case Reported => "reported"
    case Error => "error"
  }

  /** Every status, in declaration order. */
  const AllStatuses: seq<TriggerStatus> :=
    [Pending, FilteredOut, GatePassed, Analyzing, Analyzed, Assessing, Assessed, Reported, Error]

  lemma AllStatusesComplete(s: TriggerStatus)
    ensures s in AllStatuses
  {
  }

  lemma AllStatusesDistinct()
    ensures forall i, j | 0 <= i < j < |AllStatuses| :: AllStatuses[i] != AllStatuses[j]
  {
  }

  /** One entry of the status history; timestamps are clock readings. */
  datatype StatusTransition = StatusTransition(status: TriggerStatus, timestamp: int, reason: string)

  /** A gate decision: the watchlist filter's record has no model, the
      classifier's and the bypass record carry one. */
  datatype GateResult = GateResult(passed: bool, reason: string, gateMethod: string, model: Option<string>)

  datatype TriggerEvent = TriggerEvent(
    triggerId: string,
    source: TriggerSource,
    sourceUrl: Option<string>,
    feedTitle: Option<string>,
    feedPublished: Option<int>,
    companySymbol: Option<string>,
    companyName: Option<string>,
    sector: Option<string>,
    rawContent: string,
    documentIds: seq<string>,
    priority: TriggerPriority,
    triggeredBy: Option<string>,
    humanNotes: Option<string>,
    status: TriggerStatus,
    statusHistory: seq<StatusTransition>,
    gateResult: Option<GateResult>,
    createdAt: int,
    updatedAt: int)

  /** The history/status invariant: a non-empty history ends with the current status. */
  predicate HistoryConsistent(t: TriggerEvent) {
    |t.statusHistory| == 0 || t.statusHistory[|t.statusHistory| - 1].status == t.status
  }

  /** The field defaults of a freshly constructed TriggerEvent at clock `now`. */
  function NewTrigger(
    id: string, source: TriggerSource, rawContent: string, now: int): (t: TriggerEvent)
    ensures t.status == Pending && t.statusHistory == [] && t.documentIds == []
    ensures t.priority == Normal && t.gateResult == None
    ensures t.createdAt == now && t.updatedAt == now
    ensures HistoryConsistent(t)
  {
    TriggerEvent(id, source, None, None, None, None, None, None, rawContent, [], Normal,
                 None, None, Pending, [], None, now, now)
  }

  /** `set_status`: set the status, stamp `updated_at`, append one history entry.
      There is no transition guard: any target status is accepted. */
  function SetStatus(t: TriggerEvent, status: TriggerStatus, reason: string, now: int): (r: TriggerEvent)
    ensures r.status == status && r.updatedAt == now
    ensures |r.statusHistory| == |t.statusHistory| + 1
    ensures r.statusHistory[..|t.statusHistory|] == t.statusHistory
    ensures r.statusHistory[|t.statusHistory|] == StatusTransition(status, now, reason)
    ensures r.(status := t.status, updatedAt := t.updatedAt, statusHistory := t.statusHistory) == t
    ensures HistoryConsistent(r)
  {
    t.(status := status, updatedAt := now,
       statusHistory := t.statusHistory + [StatusTransition(status, now, reason)])
  }

  /** A run of status changes, each with its reason and clock reading. */
  datatype Step = Step(status: TriggerStatus, reason: string, at: int)

  function ApplySteps(t: TriggerEvent, steps: seq<Step>): TriggerEvent
    decreases |steps|
  {
    if |steps| == 0 then t
    else ApplySteps(SetStatus(t, steps[0].status, steps[0].reason, steps[0].at), steps[1..])
  }

  function StatusesOf(h: seq<StatusTransition>): (r: seq<TriggerStatus>)
    ensures |r| == |h|
    ensures forall i | 0 <= i < |h| :: r[i] == h[i].status
  {
    seq(|h|, i requires 0 <= i < |h| => h[i].status)
  }

  /** If every mutation goes through `set_status`, the history only grows,
      earlier entries never change, and it stays consistent with the status. */
  lemma {:induction false} StepsKeepHistory(t: TriggerEvent, steps: seq<Step>)
    requires HistoryConsistent(t)
    ensures var r := ApplySteps(t, steps);
            && HistoryConsistent(r)
            && |r.statusHistory| == |t.statusHistory| + |steps|
            && r.statusHistory[..|t.statusHistory|] == t.statusHistory
            && (forall k | 0 <= k < |steps| ::
                  r.statusHistory[|t.statusHistory| + k] == StatusTransition(steps[k].status, steps[k].at, steps[k].reason))
            && r.documentIds == t.documentIds && r.rawContent == t.rawContent
            && r.gateResult == t.gateResult && r.createdAt == t.createdAt
            && r.triggerId == t.triggerId
    decreases |steps|
  {
    if |steps| > 0 {
      var t1 := SetStatus(t, steps[0].status, steps[0].reason, steps[0].at);
      StepsKeepHistory(t1, steps[1..]);
      var r := ApplySteps(t1, steps[1..]);
      assert r.statusHistory[..|t.statusHistory|] == r.statusHistory[..|t1.statusHistory|][..|t.statusHistory|];
      forall k | 0 <= k < |steps|
        ensures r.statusHistory[|t.statusHistory| + k] == StatusTransition(steps[k].status, steps[k].at, steps[k].reason)
      {
        if k == 0 {
          assert r.statusHistory[|t.statusHistory|] == r.statusHistory[..|t1.statusHistory|][|t.statusHistory|];
        } else {
          assert steps[1..][k - 1] == steps[k];
        }
      }
    }
  }
}

=== FILE: triggers_api.dfy ===
/** The trigger routes of the HTTP API (api/triggers.py): human submission,
    status counts and the single-trigger lookup, over the trigger store. */
module TriggersApi {
  import opened Wrappers
  import opened Trigger
  import opened TriggerStore

  /** The body of a human submission; `content` must be non-empty. */
  datatype HumanTriggerRequest = HumanTriggerRequest(
    content: string,
    companySymbol: Option<string>,
    companyName: Option<string>,
    sourceUrl: Option<string>,
    triggeredBy: Option<string>,
    notes: Option<string>)

  datatype Accepted = Accepted(triggerId: string, status: string)

  /** An HTTP error response, or an exception the route lets escape. */
  datatype ApiError = HttpError(code: int, detail: string) | Raised(message: string)

  const BypassReason := "Human trigger bypasses Layer 2 gate"

  /** The trigger `create_human_trigger` builds before saving it. */
  function HumanTrigger(payload: HumanTriggerRequest, id: string, now: int): (t: TriggerEvent)
    ensures t.triggerId == id && t.source == Human && t.priority == High
    ensures t.rawContent == payload.content && t.sourceUrl == payload.sourceUrl
    ensures t.companySymbol == payload.companySymbol && t.companyName == payload.companyName
    ensures t.triggeredBy == payload.triggeredBy && t.humanNotes == payload.notes
    ensures t.status == GatePassed && t.statusHistory == [StatusTransition(GatePassed, now, BypassReason)]
    ensures t.documentIds == [] && t.gateResult == None && t.createdAt == now
    ensures HistoryConsistent(t)
  {
    var built := NewTrigger(id, Human, payload.content, now).(
      sourceUrl := payload.sourceUrl, companySymbol := payload.companySymbol,
      companyName := payload.companyName, priority := High,
      triggeredBy := payload.triggeredBy, humanNotes := payload.notes);
    SetStatus(built, GatePassed, BypassReason, now)
  }

  /** `POST /api/v1/triggers/human`. The request model rejects empty content
      (HTTP 422); a failing save escapes as an exception. The trigger id is
      the fresh identifier the model would draw. */
  function CreateHumanTrigger(st: Store, payload: HumanTriggerRequest, id: string, now: int): (r: Result<(Store, Accepted), ApiError>)
    ensures payload.content == [] ==> r.Failure? && r.error.HttpError? && r.error.code == 422
    ensures r.Success? ==> r.value.1 == Accepted(id, "accepted")
    ensures payload.content != [] && Valid(st) && !HasId(st.items, id) ==>
              r.Success? && Valid(r.value.0) && Get(r.value.0, id) == Some(HumanTrigger(payload, id, now))
    ensures payload.content != [] && HasId(st.items, id) ==>
              r == Failure(Raised("Trigger with id '" + id + "' already exists"))
  {
    if payload.content == [] then Failure(HttpError(422, "content must have at least 1 character"))
    else
      match Save(st, HumanTrigger(payload, id, now))
      case Failure(m) => Failure(Raised(m))
      case Success(st1) => Success((st1, Accepted(id, "accepted")))
  }

  datatype TriggerStats = TriggerStats(total: nat, countsByStatus: seq<(string, nat)>)

  /** `GET /api/v1/triggers/stats`. */
  function Stats(st: Store, since: Option<int>): (r: TriggerStats)
    ensures r.countsByStatus == CountsByStatus(st, since)
    ensures r.total == SumRows(r.countsByStatus)
    ensures r.total == |Since(st.items, since)|
  {
    CountsCoverWindow(st, since);
    var counts := CountsByStatus(st, since);
    TriggerStats(SumRows(counts), counts)
  }

  datatype TriggerStatusResponse = TriggerStatusResponse(
    triggerId: string, status: string, source: string,
    companySymbol: Option<string>, companyName: Option<string>, createdAt: int)

  /** `GET /api/v1/triggers/{trigger_id}`: 404 exactly for an unknown id. */
  function GetTriggerStatus(st: Store, id: string): (r: Result<TriggerStatusResponse, ApiError>)
    ensures r.Failure? <==> Get(st, id).None?
    ensures r.Failure? ==> r.error == HttpError(404, "Trigger not found")
    ensures r.Success? ==> var t := Get(st, id).value;
              r.value.triggerId == t.triggerId == id && r.value.status == StatusValue(t.status)
              && r.value.source == SourceValue(t.source) && r.value.createdAt == t.createdAt
  {
    match Get(st, id)
    case None => Failure(HttpError(404, "Trigger not found"))
    case Some(t) =>
      Success(TriggerStatusResponse(t.triggerId, StatusValue(t.status), SourceValue(t.source),
                                    t.companySymbol, t.companyName, t.createdAt))
  }
}

=== FILE: vector.dfy ===
/** The chunking and metadata rules of the vector repository
    (repositories/vector.py): the constructor's checks on the chunk sizes,
    `_chunk_text`, the ids and metadata `add_document` gives each chunk, and
    `_sanitize_metadata`. The embedding model and the ChromaDB collection
    are left out; `add_document` is modelled by the records it adds. */
module VectorStore {
  import opened Wrappers
  import opened Text
  import opened Collections

  /** The chunk sizes of a repository. */
  datatype Chunking = Chunking(size: int, overlap: int)

  predicate ValidChunking(c: Chunking) {
    0 < c.size && 0 <= c.overlap < c.size
  }

  /** The distance between the starts of two consecutive chunks. */
  function Step(c: Chunking): (s: nat)
    requires ValidChunking(c)
    ensures 0 < s <= c.size
  {
    c.size - c.overlap
  }

  /** The constructor's checks, in order: the error it raises, or the
      accepted sizes. */
  function NewChunking(size: int, overlap: int): (r: Attempt<Chunking>)
    ensures r.Ok? <==> ValidChunking(Chunking(size, overlap))
    ensures r.Ok? ==> r.value == Chunking(size, overlap)
    ensures size <= 0 ==> r == Raise("chunk_size must be > 0")
    ensures size > 0 && overlap < 0 ==> r == Raise("chunk_overlap must be >= 0")
    ensures size > 0 && overlap >= size ==> r == Raise("chunk_overlap must be smaller than chunk_size")
  {
    if size <= 0 then Raise("chunk_size must be > 0")
    else if overlap < 0 then Raise("chunk_overlap must be >= 0")
    else if overlap >= size then Raise("chunk_overlap must be smaller than chunk_size")
    else Ok(Chunking(size, overlap))
  }

  function Min(a: int, b: int): int {
    if a <= b then a else b
  }

  /** `i * step`, written as repeated addition so that the proofs about
      chunk positions stay linear. */
  function Times(i: nat, step: nat): nat {
    if i == 0 then 0 else Times(i - 1, step) + step
  }

  /** Where chunk `i` starts: `i * step`. */
  function ChunkStart(c: Chunking, i: nat): (s: nat)
    requires ValidChunking(c)
  {
    Times(i, Step(c))
  }

  /** Chunk `i` of `text`: `text[i*step : i*step + size]`, cut at the end. */
  function ChunkAt(text: string, c: Chunking, i: nat): (r: string)
    requires ValidChunking(c) && ChunkStart(c, i) < |text|
  {
    text[ChunkStart(c, i)..Min(ChunkStart(c, i) + c.size, |text|)]
  }

  /** The number of chunk starts below `n`: the ceiling of `n / step`. */
  function ChunkCount(n: nat, step: nat): (k: nat)
    requires step > 0
    ensures (k == 0 <==> n == 0)
    ensures Times(k, step) >= n && (k > 0 ==> Times(k - 1, step) < n)
    decreases n
  {
    if n == 0 then 0
    else if n <= step then 1
    else 1 + ChunkCount(n - step, step)
  }

  /** The chunks still to come once the next start is `start`. */
  function ChunksLeft(n: nat, step: nat, start: nat): nat
    requires step > 0
  {
    if start >= n then 0 else ChunkCount(n - start, step)
  }

  /** Taking one chunk leaves one fewer to come. */
  lemma ChunksLeftStep(n: nat, step: nat, start: nat)
    requires step > 0 && start < n
    ensures ChunksLeft(n, step, start) == 1 + ChunksLeft(n, step, start + step)
  {
  }

  /** `_chunk_text(text)`: the chunks starting every `step` characters
      while the start lies inside the text. */
  method ChunkText(text: string, c: Chunking) returns (chunks: seq<string>)
    requires ValidChunking(c)
    ensures |chunks| == ChunkCount(|text|, Step(c))
    ensures forall i | 0 <= i < |chunks| :: ChunkStart(c, i) < |text| && chunks[i] == ChunkAt(text, c, i)
  {
    chunks := [];
    if |text| == 0 {
      return;
    }
    var step := Step(c);
    var start := 0;
    while start < |text|
      invariant start == ChunkStart(c, |chunks|)
      invariant |chunks| + ChunksLeft(|text|, step, start) == ChunkCount(|text|, step)
      invariant forall i | 0 <= i < |chunks| :: ChunkStart(c, i) < |text| && chunks[i] == ChunkAt(text, c, i)
      decreases |text| - start
    {
      var end := start + c.size;
      assert text[start..Min(end, |text|)] == ChunkAt(text, c, |chunks|);
      assert ChunkStart(c, |chunks| + 1) == start + step;
      ChunksLeftStep(|text|, step, start);
      chunks := chunks + [text[start..Min(end, |text|)]];
      start := start + step;
    }
  }

  /** The chunk that holds character `k`: the number of whole steps
      below it. */
  function ChunkOf(k: nat, step: nat): (i: nat)
    requires step > 0
    ensures Times(i, step) <= k < Times(i, step) + step
    decreases k
  {
    if k < step then 0 else 1 + ChunkOf(k - step, step)
  }

  /** A character inside the text lies in a chunk that exists. */
  lemma {:induction false} ChunkOfBelow(k: nat, n: nat, step: nat)
    requires step > 0 && k < n
    ensures ChunkOf(k, step) < ChunkCount(n, step)
    decreases k
  {
    if k >= step {
      ChunkOfBelow(k - step, n - step, step);
    }
  }

  /** Every chunk is non-empty and at most `chunk_size` long. */
  lemma ChunkBounds(text: string, c: Chunking, i: nat)
    requires ValidChunking(c) && ChunkStart(c, i) < |text|
    ensures 0 < |ChunkAt(text, c, i)| <= c.size
  {
  }

  /** The chunks cover the text: character `k` lies in chunk
      `ChunkOf(k, step)`, at its offset from that chunk's start. */
  lemma ChunksCover(text: string, c: Chunking, k: nat)
    requires ValidChunking(c) && k < |text|
    ensures var i := ChunkOf(k, Step(c));
      && i < ChunkCount(|text|, Step(c))
      && ChunkStart(c, i) <= k < ChunkStart(c, i) + |ChunkAt(text, c, i)|
      && ChunkAt(text, c, i)[k - ChunkStart(c, i)] == text[k]
  {
    var step := Step(c);
    var i := ChunkOf(k, step);
    ChunkOfBelow(k, |text|, step);
    var s := ChunkStart(c, i);
    var e := Min(s + c.size, |text|);
    SliceAt(text, s, e, k);
  }

  lemma SliceAt<T>(xs: seq<T>, s: nat, e: nat, k: nat)
    requires s <= k < e <= |xs|
    ensures |xs[s..e]| == e - s && xs[s..e][k - s] == xs[k]
  {
  }

  /** Two consecutive chunks, the first of full length, share exactly
      `chunk_overlap` characters: the first's tail is the second's head. */
  lemma ConsecutiveChunksOverlap(text: string, c: Chunking, i: nat)
    requires ValidChunking(c) && ChunkStart(c, i + 1) < |text|
    requires ChunkStart(c, i) + c.size <= |text|
    ensures ChunkStart(c, i) < |text|
    ensures |ChunkAt(text, c, i)| == c.size && c.overlap <= |ChunkAt(text, c, i + 1)|
    ensures ChunkAt(text, c, i)[Step(c)..] == ChunkAt(text, c, i + 1)[..c.overlap]
  {
    var step := Step(c);
    var s := ChunkStart(c, i);
    assert ChunkStart(c, i + 1) == s + step;
    var a := ChunkAt(text, c, i);
    var b := ChunkAt(text, c, i + 1);
    assert a == text[s..s + c.size];
    assert b[..c.overlap] == text[s + step..s + c.size];
  }

  // ------------------------------------------------------------- metadata

  /** A metadata value as `add_document` may receive it. An enum carries
      the text `str(member.value)`, a date or datetime its ISO text, and
      any other object its `str()` text. */
  datatype MetaValue =
    | NoneValue
    | BoolValue(b: bool)
    | IntValue(i: int)
    | FloatValue(x: real)
    | StrValue(s: string)
    | EnumValue(valueText: string)
    | DateValue(iso: string)
    | ObjectValue(text: string)

  /** A value ChromaDB accepts. */
  datatype CleanValue = CleanBool(b: bool) | CleanInt(i: int) | CleanFloat(x: real) | CleanStr(s: string)

  /** The value one entry keeps, or None for a dropped one. */
  function CleanOf(v: MetaValue): (r: Option<CleanValue>)
    ensures r.None? <==> v.NoneValue?
    ensures v.BoolValue? ==> r == Some(CleanBool(v.b))
    ensures v.IntValue? ==> r == Some(CleanInt(v.i))
    ensures v.FloatValue? ==> r == Some(CleanFloat(v.x))
    ensures v.StrValue? ==> r == Some(CleanStr(v.s))
  {
    match v
    case NoneValue => None
    case BoolValue(b) => Some(CleanBool(b))
    case IntValue(i) => Some(CleanInt(i))
    case FloatValue(x) => Some(CleanFloat(x))
    case StrValue(s) => Some(CleanStr(s))
    case EnumValue(t) => Some(CleanStr(t))
    case DateValue(iso) => Some(CleanStr(iso))
    case ObjectValue(t) => Some(CleanStr(t))
  }

  /** `_sanitize_metadata(metadata)` over a dict with string keys: None
      values are dropped, the others kept in order under the same key. */
  function Sanitize(md: seq<(string, MetaValue)>): (r: seq<(string, CleanValue)>)
    ensures |r| <= |md|
    decreases |md|
  {
    if |md| == 0 then []
    else
      match CleanOf(md[0].1)
      case None => Sanitize(md[1..])
      case Some(v) => [(md[0].0, v)] + Sanitize(md[1..])
  }

  /** Every entry kept comes from an entry of the input, under its key
      and with its cleaned value. */
  lemma {:induction false} SanitizeFrom(md: seq<(string, MetaValue)>, k: nat)
    requires k < |Sanitize(md)|
    ensures exists j | 0 <= j < |md| :: md[j].0 == Sanitize(md)[k].0 && CleanOf(md[j].1) == Some(Sanitize(md)[k].1)
    decreases |md|
  {
    var r := Sanitize(md);
    if CleanOf(md[0].1).Some? && k == 0 {
      assert md[0].0 == r[0].0;
    } else {
      var k' := if CleanOf(md[0].1).Some? then k - 1 else k;
      assert r[k] == Sanitize(md[1..])[k'];
      SanitizeFrom(md[1..], k');
      var j :| 0 <= j < |md| - 1 && md[1..][j].0 == r[k].0 && CleanOf(md[1..][j].1) == Some(r[k].1);
      assert md[1..][j] == md[j + 1];
    }
  }

  /** No non-None entry is lost: each one appears with its cleaned value. */
  lemma {:induction false} SanitizeKeeps(md: seq<(string, MetaValue)>, j: nat)
    requires j < |md| && !md[j].1.NoneValue?
    ensures (md[j].0, CleanOf(md[j].1).value) in Sanitize(md)
    decreases j
  {
    if j > 0 {
      assert md[1..][j - 1] == md[j];
      SanitizeKeeps(md[1..], j - 1);
    }
  }

  /** A dict of distinct keys stays one. */
  lemma {:induction false} SanitizeDistinct(md: seq<(string, MetaValue)>)
    requires DistinctKeys(md)
    ensures DistinctKeys(Sanitize(md))
    decreases |md|
  {
    if |md| > 0 {
      var rest := Sanitize(md[1..]);
      assert DistinctKeys(md[1..]) by {
        forall i, j | 0 <= i < j < |md| - 1 ensures md[1..][i].0 != md[1..][j].0 {
          assert md[1..][i] == md[i + 1] && md[1..][j] == md[j + 1];
        }
      }
      SanitizeDistinct(md[1..]);
      forall k | 0 <= k < |rest| ensures rest[k].0 != md[0].0 {
        SanitizeFrom(md[1..], k);
        var j :| 0 <= j < |md| - 1 && md[1..][j].0 == rest[k].0 && CleanOf(md[1..][j].1) == Some(rest[k].1);
        assert md[1..][j] == md[j + 1];
      }
    }
  }

  /** Metadata without None values keeps every entry, each cleaned in place. */
  lemma {:induction false} SanitizeNoNone(md: seq<(string, MetaValue)>)
    requires forall j | 0 <= j < |md| :: !md[j].1.NoneValue?
    ensures |Sanitize(md)| == |md|
    ensures forall j | 0 <= j < |md| :: Sanitize(md)[j] == (md[j].0, CleanOf(md[j].1).value)
    decreases |md|
  {
    if |md| > 0 {
      SanitizeNoNone(md[1..]);
      forall j | 1 <= j < |md| ensures Sanitize(md)[j] == (md[j].0, CleanOf(md[j].1).value) {
        assert md[1..][j - 1] == md[j];
      }
    }
  }

  // ---------------------------------------------------------- add_document

  /** One record `add_document` adds to the collection. */
  datatype ChunkRecord = ChunkRecord(id: string, text: string, metadata: seq<(string, CleanValue)>)

  const ChunkInfix: string := "_chunk_"

  function ChunkId(documentId: string, i: nat): string {
    documentId + ChunkInfix + NatToString(i)
  }

  /** Different chunks of one document get different ids. */
  lemma ChunkIdsDistinct(documentId: string, i: nat, j: nat)
    requires i != j
    ensures ChunkId(documentId, i) != ChunkId(documentId, j)
  {
    var p := documentId + ChunkInfix;
    if ChunkId(documentId, i) == ChunkId(documentId, j) {
      assert NatToString(i) == ChunkId(documentId, i)[|p|..];
      assert NatToString(j) == ChunkId(documentId, j)[|p|..];
      NatToStringRoundTrip(i);
      NatToStringRoundTrip(j);
      assert false;
    }
  }

  /** The metadata of chunk `i`: the cleaned metadata with `document_id`
      and `chunk_index` set, replacing any entries of those names. */
  function ChunkMetadata(clean: seq<(string, CleanValue)>, documentId: string, i: nat): (r: seq<(string, CleanValue)>)
    requires DistinctKeys(clean)
    ensures DistinctKeys(r)
    ensures ("document_id", CleanStr(documentId)) in r && ("chunk_index", CleanInt(i)) in r
    ensures forall k | 0 <= k < |clean| :: clean[k].0 != "document_id" && clean[k].0 != "chunk_index" ==> clean[k] in r
    ensures forall k | 0 <= k < |r| ::
      || r[k] == ("document_id", CleanStr(documentId))
      || r[k] == ("chunk_index", CleanInt(i))
      || (r[k] in clean && r[k].0 != "document_id" && r[k].0 != "chunk_index")
  {
    var d := Put(clean, "document_id", CleanStr(documentId));
    PutHolds(clean, "document_id", CleanStr(documentId));
    var r := Put(d, "chunk_index", CleanInt(i));
    PutHolds(d, "chunk_index", CleanInt(i));
    var m :| 0 <= m < |d| && d[m] == ("document_id", CleanStr(documentId));
    assert r[m] == d[m];
    forall k | 0 <= k < |clean| && clean[k].0 != "document_id" && clean[k].0 != "chunk_index" ensures clean[k] in r {
      assert d[k] == clean[k] && r[k] == d[k];
    }
    forall k | 0 <= k < |r|
      ensures || r[k] == ("document_id", CleanStr(documentId))
              || r[k] == ("chunk_index", CleanInt(i))
              || (r[k] in clean && r[k].0 != "document_id" && r[k].0 != "chunk_index")
    {
      if k < |clean| {
        assert d[k] == if clean[k].0 == "document_id" then ("document_id", CleanStr(documentId)) else clean[k];
      } else if k < |d| {
        assert d == clean + [("document_id", CleanStr(documentId))];
      }
    }
    r
  }

  /** `add_document(document_id, text, metadata)`: the records it adds, one
      per chunk, in chunk order. */
  method AddDocument(documentId: string, text: string, md: seq<(string, MetaValue)>, c: Chunking)
    returns (records: seq<ChunkRecord>)
    requires ValidChunking(c) && DistinctKeys(md)
    ensures |records| == ChunkCount(|text|, Step(c))
    ensures text == [] ==> records == []
    ensures forall i | 0 <= i < |records| ::
      && ChunkStart(c, i) < |text|
      && records[i].id == ChunkId(documentId, i)
      && records[i].text == ChunkAt(text, c, i)
      && ("document_id", CleanStr(documentId)) in records[i].metadata
      && ("chunk_index", CleanInt(i)) in records[i].metadata
    ensures DistinctKeys(Sanitize(md))
    ensures forall i | 0 <= i < |records| :: records[i].metadata == ChunkMetadata(Sanitize(md), documentId, i)
  {
    var chunks := ChunkText(text, c);
    var clean := Sanitize(md);
    SanitizeDistinct(md);
    records := seq(|chunks|, i requires 0 <= i < |chunks| =>
      ChunkRecord(ChunkId(documentId, i), chunks[i], ChunkMetadata(clean, documentId, i)));
  }
}

=== FILE: watchlist_api.dfy ===
/** The admin watchlist routes (api/watchlist.py): the overview of the
    watched companies and sectors, and the flattening of an agent access
    policy into one row per agent and domain. The per-symbol lookups the
    overview reads from the database are inputs, as maps; reading the
    policy file is not part of this model, its decoded payload is an
    input. */
module WatchlistApi {
  import opened Wrappers
  import opened Text
  import opened Collections
  import opened Json
  import Companies
  import Notes
  import TriggersApi

  type Company = Companies.Company
  type Sector = Companies.Sector
  type ApiError = TriggersApi.ApiError

  // ------------------------------------------------------------- overview

  const Unassigned: string := "Unassigned"

  /** `_resolve_sector`: the company's own sector when it names one, else
      the only sector when there is exactly one, else "Unassigned". */
  function ResolveSector(c: Company, sectors: seq<Sector>): (s: string)
    ensures Truthy(c.sector) ==> s == c.sector.value
    ensures !Truthy(c.sector) ==> s == (if |sectors| == 1 then sectors[0].name else Unassigned)
  {
    if Truthy(c.sector) then c.sector.value
    else if |sectors| == 1 then sectors[0].name
    else Unassigned
  }

  /** How many of the companies resolve to the sector `name`. */
  function CountIn(cs: seq<Company>, sectors: seq<Sector>, name: string): (n: nat)
    ensures n <= |cs|
    decreases |cs|
  {
    if |cs| == 0 then 0
    else CountIn(cs[..|cs| - 1], sectors, name) + (if ResolveSector(cs[|cs| - 1], sectors) == name then 1 else 0)
  }

  /** `sector_counts`, as the loop builds it: one increment per company at
      its resolved sector. */
  function Tally(cs: seq<Company>, sectors: seq<Sector>): map<string, nat>
    decreases |cs|
  {
    if |cs| == 0 then map[]
    else
      var m := Tally(cs[..|cs| - 1], sectors);
      var s := ResolveSector(cs[|cs| - 1], sectors);
      m[s := CountOf(m, s) + 1]
  }

  /** `sector_counts.get(name, 0)`. */
  function CountOf(m: map<string, nat>, name: string): nat {
    if name in m then m[name] else 0
  }

  /** The loop's tally of a sector is the number of companies resolving to
      it. */
  lemma {:induction false} TallyCounts(cs: seq<Company>, sectors: seq<Sector>, name: string)
    ensures CountOf(Tally(cs, sectors), name) == CountIn(cs, sectors, name)
    decreases |cs|
  {
    if |cs| > 0 {
      TallyCounts(cs[..|cs| - 1], sectors, name);
    }
  }

  datatype CompanyRow = CompanyRow(symbol: string, name: string, sector: string, priority: string, aliases: seq<string>,
                                   status: string, lastTrigger: Option<real>, totalInvestigations: int,
                                   currentRecommendation: string)

  datatype SectorRow = SectorRow(sectorName: string, keywords: seq<string>, companiesCount: nat)

  datatype Overview = Overview(companies: seq<CompanyRow>, sectors: seq<SectorRow>)

  /** The per-symbol facts the overview reads: the latest trigger instant,
      the number of investigations and the current recommendation. */
  datatype Lookups = Lookups(lastTriggers: map<string, Option<real>>, investigations: map<string, int>,
                             recommendations: map<string, string>)

  function CompanyRowOf(c: Company, sectors: seq<Sector>, l: Lookups): CompanyRow {
    var symbol := Upper(c.symbol);
    CompanyRow(symbol, c.name, ResolveSector(c, sectors), c.priority, c.aliases,
               if c.monitoringActive then "active" else "paused",
               if symbol in l.lastTriggers then l.lastTriggers[symbol] else None,
               if symbol in l.investigations then l.investigations[symbol] else 0,
               if symbol in l.recommendations then l.recommendations[symbol] else "none")
  }

  const WatchlistMissing: string := "Watchlist is not configured"
  const DatabaseMissing: string := "Database is not configured"

  /** `watchlist_overview`: 503 without a watchlist, then 503 without a
      database; otherwise one row per company in order, and one row per
      sector counting the companies that resolve to it. */
  function WatchlistOverview(watchlist: Option<Companies.WatchlistConfig>, hasDb: bool, l: Lookups): (r: Result<Overview, ApiError>)
    ensures watchlist.None? ==> r == Failure(TriggersApi.HttpError(503, WatchlistMissing))
    ensures watchlist.Some? && !hasDb ==> r == Failure(TriggersApi.HttpError(503, DatabaseMissing))
    ensures r.Success? <==> watchlist.Some? && hasDb
    ensures r.Success? ==>
      var w := watchlist.value;
      var o := r.value;
      && |o.companies| == |w.companies|
      && (forall k | 0 <= k < |w.companies| ::
            o.companies[k].symbol == Upper(w.companies[k].symbol) &&
            o.companies[k].sector == ResolveSector(w.companies[k], w.sectors) &&
            o.companies[k].status == (if w.companies[k].monitoringActive then "active" else "paused"))
      && (forall k | 0 <= k < |w.companies| ::
            var c, row := w.companies[k], o.companies[k];
            row.name == c.name && row.priority == c.priority && row.aliases == c.aliases &&
            (row.symbol !in l.lastTriggers ==> row.lastTrigger.None?) &&
            (row.symbol !in l.investigations ==> row.totalInvestigations == 0) &&
            (row.symbol !in l.recommendations ==> row.currentRecommendation == "none"))
      && |o.sectors| == |w.sectors|
      && (forall k | 0 <= k < |w.sectors| ::
            o.sectors[k].sectorName == w.sectors[k].name &&
            o.sectors[k].keywords == w.sectors[k].keywords &&
            o.sectors[k].companiesCount == CountIn(w.companies, w.sectors, w.sectors[k].name))
  {
    if watchlist.None? then Failure(TriggersApi.HttpError(503, WatchlistMissing))
    else if !hasDb then Failure(TriggersApi.HttpError(503, DatabaseMissing))
    else
      var w := watchlist.value;
      var counts := Tally(w.companies, w.sectors);
      var companyRows := seq(|w.companies|, k requires 0 <= k < |w.companies| => CompanyRowOf(w.companies[k], w.sectors, l));
      var sectorRows := seq(|w.sectors|, k requires 0 <= k < |w.sectors| =>
                            SectorRow(w.sectors[k].name, w.sectors[k].keywords, CountOf(counts, w.sectors[k].name)));
      assert forall k | 0 <= k < |w.sectors| :: sectorRows[k].companiesCount == CountIn(w.companies, w.sectors, w.sectors[k].name) by {
        forall k | 0 <= k < |w.sectors| ensures sectorRows[k].companiesCount == CountIn(w.companies, w.sectors, w.sectors[k].name) {
          TallyCounts(w.companies, w.sectors, w.sectors[k].name);
        }
      }
      Success(Overview(companyRows, sectorRows))
  }

  function SectorNames(sectors: seq<Sector>): (r: seq<string>)
    ensures |r| == |sectors| && forall k | 0 <= k < |sectors| :: r[k] == sectors[k].name
  {
    seq(|sectors|, k requires 0 <= k < |sectors| => sectors[k].name)
  }

  function SumCounts(rows: seq<SectorRow>): nat
    decreases |rows|
  {
    if |rows| == 0 then 0 else SumCounts(rows[..|rows| - 1]) + rows[|rows| - 1].companiesCount
  }

  /** `sum(CountIn(cs, sectors, n) for n in names)`. */
  function SumOver(cs: seq<Company>, sectors: seq<Sector>, names: seq<string>): nat
    decreases |names|
  {
    if |names| == 0 then 0 else SumOver(cs, sectors, names[..|names| - 1]) + CountIn(cs, sectors, names[|names| - 1])
  }

  /** How many of the names are `x`. */
  function Hits(names: seq<string>, x: string): nat
    decreases |names|
  {
    if |names| == 0 then 0 else Hits(names[..|names| - 1], x) + (if names[|names| - 1] == x then 1 else 0)
  }

  lemma {:induction false} HitsOnce(names: seq<string>, x: string)
    requires NoDuplicates(names)
    ensures Hits(names, x) == (if x in names then 1 else 0)
    decreases |names|
  {
    if |names| > 0 {
      DistinctInit(names);
      HitsOnce(names[..|names| - 1], x);
      assert names == names[..|names| - 1] + [names[|names| - 1]];
    }
  }

  /** Adding a company adds one to the sum for each name it resolves to. */
  lemma {:induction false} SumOverSnoc(cs: seq<Company>, sectors: seq<Sector>, names: seq<string>)
    requires |cs| > 0
    ensures SumOver(cs, sectors, names) ==
            SumOver(cs[..|cs| - 1], sectors, names) + Hits(names, ResolveSector(cs[|cs| - 1], sectors))
    decreases |names|
  {
    if |names| > 0 {
      SumOverSnoc(cs, sectors, names[..|names| - 1]);
    }
  }

  /** Every company is counted once when the sector names are distinct and
      each company resolves to one of them. */
  lemma {:induction false} CountsCoverCompanies(cs: seq<Company>, sectors: seq<Sector>)
    requires NoDuplicates(SectorNames(sectors))
    requires forall k | 0 <= k < |cs| :: ResolveSector(cs[k], sectors) in SectorNames(sectors)
    ensures SumOver(cs, sectors, SectorNames(sectors)) == |cs|
    decreases |cs|
  {
    var names := SectorNames(sectors);
    if |cs| == 0 {
      SumOverEmpty(sectors, names);
    } else {
      CountsCoverCompanies(cs[..|cs| - 1], sectors);
      SumOverSnoc(cs, sectors, names);
      HitsOnce(names, ResolveSector(cs[|cs| - 1], sectors));
    }
  }

  lemma {:induction false} SumOverEmpty(sectors: seq<Sector>, names: seq<string>)
    ensures SumOver([], sectors, names) == 0
    decreases |names|
  {
    if |names| > 0 {
      SumOverEmpty(sectors, names[..|names| - 1]);
    }
  }

  /** The sector rows' counts sum to their names' counts. */
  lemma {:induction false} SumCountsIsSumOver(rows: seq<SectorRow>, cs: seq<Company>, sectors: seq<Sector>)
    requires |rows| <= |sectors|
    requires forall k | 0 <= k < |rows| :: rows[k].companiesCount == CountIn(cs, sectors, sectors[k].name)
    ensures SumCounts(rows) == SumOver(cs, sectors, SectorNames(sectors)[..|rows|])
    decreases |rows|
  {
    if |rows| > 0 {
      var n := |rows| - 1;
      SumCountsIsSumOver(rows[..n], cs, sectors);
      assert SectorNames(sectors)[..|rows|][..n] == SectorNames(sectors)[..n];
    }
  }

  /** With distinct sector names and every company in a listed sector, the
      overview's sector counts add up to the number of companies. */
  lemma OverviewCountsEveryCompany(w: Companies.WatchlistConfig, l: Lookups)
    requires NoDuplicates(SectorNames(w.sectors))
    requires forall k | 0 <= k < |w.companies| :: ResolveSector(w.companies[k], w.sectors) in SectorNames(w.sectors)
    ensures SumCounts(WatchlistOverview(Some(w), true, l).value.sectors) == |w.companies|
  {
    var rows := WatchlistOverview(Some(w), true, l).value.sectors;
    SumCountsIsSumOver(rows, w.companies, w.sectors);
    assert SectorNames(w.sectors)[..|rows|] == SectorNames(w.sectors);
    CountsCoverCompanies(w.companies, w.sectors);
  }

  // ---------------------------------------------------------- agent policy

  datatype PermissionRow = PermissionRow(agent: string, domain: string, actions: seq<string>)

  /** `d.get(key)`, with an absent key read as `None`. */
  function GetValue(d: Entries, key: string): (v: Value)
    ensures Lookup(d, key).None? ==> v == Null
    ensures Lookup(d, key).Some? ==> v == Lookup(d, key).value
  {
    var r := Lookup(d, key);
    if r.None? then Null else r.value
  }

  /** Python `a or b`. */
  function Or(a: Value, b: Value): (v: Value)
    ensures IsTruthy(a) ==> v == a
    ensures !IsTruthy(a) ==> v == b
  {
    if IsTruthy(a) then a else b
  }

  /** An entry's agent: `str(entry.get("agent") or entry.get("name") or "").strip()`. */
  function AgentOf(d: Entries, containerStr: Value -> string): (a: string)
    ensures Trimmed(a)
  {
    Strip(PyStr(Or(Or(GetValue(d, "agent"), GetValue(d, "name")), Str("")), containerStr))
  }

  /** A permission's domain: `str(permission.get("domain") or "")`,
      stripped and lower-cased, the form the notes' tags take too. */
  function DomainOf(d: Entries, containerStr: Value -> string): (s: string)
    ensures Trimmed(s) && Lower(s) == s
  {
    Notes.TagForm(PyStr(Or(GetValue(d, "domain"), Str("")), containerStr))
  }

  function Strs(items: seq<Value>, containerStr: Value -> string): (r: seq<string>)
    ensures |r| == |items| && forall k | 0 <= k < |items| :: r[k] == PyStr(items[k], containerStr)
  {
    seq(|items|, k requires 0 <= k < |items| => PyStr(items[k], containerStr))
  }

  /** The actions of a permission: a non-list is no actions; each action is
      stringified, stripped and lower-cased, and blank ones are dropped. */
  function ActionsOf(actions: Value, containerStr: Value -> string): (r: seq<string>)
    ensures !actions.List? ==> r == []
    ensures forall k | 0 <= k < |r| :: r[k] != [] && Trimmed(r[k]) && Lower(r[k]) == r[k]
    ensures actions.List? ==> forall k | 0 <= k < |r| :: r[k] in Notes.TagForms(Strs(actions.items, containerStr))
    ensures actions.List? ==> forall j | 0 <= j < |actions.items| ::
      !IsBlank(PyStr(actions.items[j], containerStr)) ==> Notes.TagForm(PyStr(actions.items[j], containerStr)) in r
  {
    if !actions.List? then []
    else
      var forms := Notes.TagForms(Strs(actions.items, containerStr));
      Filter(forms, Notes.NonEmptyTag)
  }

  /** The row one permission of `agent` contributes: none when it is not a
      dictionary or its domain is blank. */
  function PermissionRows(agent: string, permission: Value, containerStr: Value -> string): (r: seq<PermissionRow>)
    ensures !permission.Dict? ==> r == []
    ensures permission.Dict? && DomainOf(permission.entries, containerStr) == [] ==> r == []
    ensures permission.Dict? && DomainOf(permission.entries, containerStr) != [] ==>
      r == [PermissionRow(agent, DomainOf(permission.entries, containerStr), ActionsOf(GetValue(permission.entries, "actions"), containerStr))]
  {
    if !permission.Dict? then []
    else
      var domain := DomainOf(permission.entries, containerStr);
      if domain == [] then []
      else [PermissionRow(agent, domain, ActionsOf(GetValue(permission.entries, "actions"), containerStr))]
  }

  /** A row's domain is stripped, non-empty and lower-case, and so is each
      of its actions. */
  predicate PermissionShape(row: PermissionRow) {
    && row.domain != [] && Trimmed(row.domain) && Lower(row.domain) == row.domain
    && forall a | 0 <= a < |row.actions| :: row.actions[a] != [] && Trimmed(row.actions[a]) && Lower(row.actions[a]) == row.actions[a]
  }

  /** The rows of an agent's permissions, one for each usable permission. */
  function PermissionsRows(agent: string, permissions: seq<Value>, containerStr: Value -> string): seq<PermissionRow>
    decreases |permissions|
  {
    if |permissions| == 0 then []
    else PermissionsRows(agent, permissions[..|permissions| - 1], containerStr) +
         PermissionRows(agent, permissions[|permissions| - 1], containerStr)
  }

  /** A row of `agent` in the shape the flattening gives it. */
  predicate RowOf(agent: string, row: PermissionRow) {
    row.agent == agent && PermissionShape(row)
  }

  /** Every row of an agent's permissions names that agent and has the
      permission shape, and there is at most one row per permission. */
  lemma {:induction false} PermissionsRowsShape(agent: string, permissions: seq<Value>, containerStr: Value -> string)
    ensures forall k | 0 <= k < |PermissionsRows(agent, permissions, containerStr)| ::
      RowOf(agent, PermissionsRows(agent, permissions, containerStr)[k])
    ensures |PermissionsRows(agent, permissions, containerStr)| <= |permissions|
    decreases |permissions|
  {
    if |permissions| > 0 {
      var init := permissions[..|permissions| - 1];
      PermissionsRowsShape(agent, init, containerStr);
      var x := PermissionsRows(agent, init, containerStr);
      var y := PermissionRows(agent, permissions[|permissions| - 1], containerStr);
      assert forall k | 0 <= k < |y| :: RowOf(agent, y[k]);
      RowsOfConcat(agent, x, y);
    }
  }

  lemma RowsOfConcat(agent: string, x: seq<PermissionRow>, y: seq<PermissionRow>)
    requires forall k | 0 <= k < |x| :: RowOf(agent, x[k])
    requires forall k | 0 <= k < |y| :: RowOf(agent, y[k])
    ensures forall k | 0 <= k < |x + y| :: RowOf(agent, (x + y)[k])
  {
    forall k | 0 <= k < |x + y| ensures RowOf(agent, (x + y)[k]) {
      if k < |x| {
        assert (x + y)[k] == x[k];
      } else {
        assert (x + y)[k] == y[k - |x|];
      }
    }
  }

  /** The rows of one policy entry: none when it is not a dictionary, names
      no agent, or its permissions are not a list. */
  function EntryRows(entry: Value, containerStr: Value -> string): (r: seq<PermissionRow>)
    ensures !entry.Dict? ==> r == []
    ensures entry.Dict? && AgentOf(entry.entries, containerStr) == [] ==> r == []
    ensures entry.Dict? && !GetValue(entry.entries, "permissions").List? ==> r == []
    ensures entry.Dict? && AgentOf(entry.entries, containerStr) != [] && GetValue(entry.entries, "permissions").List? ==>
      r == PermissionsRows(AgentOf(entry.entries, containerStr), GetValue(entry.entries, "permissions").items, containerStr)
  {
    if !entry.Dict? then []
    else
      var agent := AgentOf(entry.entries, containerStr);
      var permissions := GetValue(entry.entries, "permissions");
      if agent == [] || !permissions.List? then []
      else PermissionsRows(agent, permissions.items, containerStr)
  }

  /** A flattened row: a stripped, non-empty agent and domain, the domain
      and the actions lower-case, and no blank action. */
  predicate WellFormedRow(row: PermissionRow) {
    row.agent != [] && Trimmed(row.agent) && PermissionShape(row)
  }

  function EntriesRows(entries: seq<Value>, containerStr: Value -> string): seq<PermissionRow>
    decreases |entries|
  {
    if |entries| == 0 then []
    else EntriesRows(entries[..|entries| - 1], containerStr) + EntryRows(entries[|entries| - 1], containerStr)
  }

  /** Every flattened row is well formed. */
  lemma {:induction false} EntriesWellFormed(entries: seq<Value>, containerStr: Value -> string)
    ensures forall k | 0 <= k < |EntriesRows(entries, containerStr)| :: WellFormedRow(EntriesRows(entries, containerStr)[k])
    decreases |entries|
  {
    if |entries| > 0 {
      var init := entries[..|entries| - 1];
      EntriesWellFormed(init, containerStr);
      EntryWellFormed(entries[|entries| - 1], containerStr);
      EntriesRowsSnoc(entries, containerStr);
      WellFormedConcat(EntriesRows(init, containerStr), EntryRows(entries[|entries| - 1], containerStr));
    }
  }

  /** The rows of one entry are well formed. */
  lemma EntryWellFormed(entry: Value, containerStr: Value -> string)
    ensures forall k | 0 <= k < |EntryRows(entry, containerStr)| :: WellFormedRow(EntryRows(entry, containerStr)[k])
  {
    if entry.Dict? {
      var agent := AgentOf(entry.entries, containerStr);
      var permissions := GetValue(entry.entries, "permissions");
      if agent != [] && permissions.List? {
        PermissionsRowsShape(agent, permissions.items, containerStr);
      }
    }
  }

  lemma WellFormedConcat(x: seq<PermissionRow>, y: seq<PermissionRow>)
    requires forall k | 0 <= k < |x| :: WellFormedRow(x[k])
    requires forall k | 0 <= k < |y| :: WellFormedRow(y[k])
    ensures forall k | 0 <= k < |x + y| :: WellFormedRow((x + y)[k])
  {
    forall k | 0 <= k < |x + y| ensures WellFormedRow((x + y)[k]) {
      if k < |x| {
        assert (x + y)[k] == x[k];
      } else {
        assert (x + y)[k] == y[k - |x|];
      }
    }
  }

  /** The last entry's rows come last. */
  lemma EntriesRowsSnoc(entries: seq<Value>, containerStr: Value -> string)
    requires |entries| > 0
    ensures EntriesRows(entries, containerStr) ==
      EntriesRows(entries[..|entries| - 1], containerStr) + EntryRows(entries[|entries| - 1], containerStr)
  {
  }

  /** `_flatten_permissions`: no rows unless the payload is a list; else the
      rows of each entry in turn. */
  function FlattenPermissions(payload: Value, containerStr: Value -> string): (r: seq<PermissionRow>)
    ensures !payload.List? ==> r == []
    ensures forall k | 0 <= k < |r| :: WellFormedRow(r[k])
  {
    if !payload.List? then []
    else
      EntriesWellFormed(payload.items, containerStr);
      EntriesRows(payload.items, containerStr)
  }

  /** Flattening two lists of entries one after the other flattens each. */
  lemma {:induction false} EntriesRowsAppend(a: seq<Value>, b: seq<Value>, containerStr: Value -> string)
    ensures EntriesRows(a + b, containerStr) == EntriesRows(a, containerStr) + EntriesRows(b, containerStr)
    decreases |b|
  {
    if |b| == 0 {
      assert a + b == a;
    } else {
      var n := |b| - 1;
      EntriesRowsAppend(a, b[..n], containerStr);
      assert (a + b)[..|a + b| - 1] == a + b[..n] && (a + b)[|a + b| - 1] == b[n];
      EntriesRowsSnoc(a + b, containerStr);
      EntriesRowsSnoc(b, containerStr);
      ConcatAssoc(EntriesRows(a, containerStr), EntriesRows(b[..n], containerStr), EntryRows(b[n], containerStr));
    }
  }

  // The entry a well-formed row is written as in a policy file.

  function ActionValues(actions: seq<string>): (vs: seq<Value>)
    ensures |vs| == |actions| && forall a | 0 <= a < |actions| :: vs[a] == Str(actions[a])
  {
    seq(|actions|, a requires 0 <= a < |actions| => Str(actions[a]))
  }

  function CanonicalPermission(row: PermissionRow): Value {
    Dict([("domain", Str(row.domain)), ("actions", List(ActionValues(row.actions)))])
  }

  function CanonicalEntry(row: PermissionRow): Value {
    Dict([("agent", Str(row.agent)), ("permissions", List([CanonicalPermission(row)]))])
  }

  /** A well-formed row written as a policy entry flattens back to itself. */
  lemma EntryRoundTrip(row: PermissionRow, containerStr: Value -> string)
    requires WellFormedRow(row)
    ensures EntryRows(CanonicalEntry(row), containerStr) == [row]
  {
    var cp := CanonicalPermission(row);
    CanonicalAgent(row, containerStr);
    CanonicalPermissionRow(row, containerStr);
    assert [cp][..0] == [];
    assert PermissionsRows(row.agent, [cp], containerStr) == PermissionRows(row.agent, cp, containerStr);
  }

  /** The canonical entry names the row's agent and lists one permission. */
  lemma CanonicalAgent(row: PermissionRow, containerStr: Value -> string)
    requires WellFormedRow(row)
    ensures AgentOf(CanonicalEntry(row).entries, containerStr) == row.agent
    ensures GetValue(CanonicalEntry(row).entries, "permissions") == List([CanonicalPermission(row)])
  {
    var e := CanonicalEntry(row).entries;
    assert GetValue(e, "agent") == Str(row.agent);
    StripOfStripped(row.agent);
    assert |"agent"| != |"permissions"|;
    LookupSecond("agent", Str(row.agent), "permissions", List([CanonicalPermission(row)]));
  }

  /** The canonical permission gives back the row. */
  lemma CanonicalPermissionRow(row: PermissionRow, containerStr: Value -> string)
    requires WellFormedRow(row)
    ensures PermissionRows(row.agent, CanonicalPermission(row), containerStr) == [row]
  {
    CanonicalDomain(row, containerStr);
    ActionsRoundTrip(row.actions, containerStr);
  }

  /** The canonical permission names the row's domain and lists its actions. */
  lemma CanonicalDomain(row: PermissionRow, containerStr: Value -> string)
    requires row.domain != [] && Trimmed(row.domain) && Lower(row.domain) == row.domain
    ensures DomainOf(CanonicalPermission(row).entries, containerStr) == row.domain
    ensures GetValue(CanonicalPermission(row).entries, "actions") == List(ActionValues(row.actions))
  {
    var p := CanonicalPermission(row).entries;
    assert GetValue(p, "domain") == Str(row.domain);
    assert Or(GetValue(p, "domain"), Str("")) == Str(row.domain);
    assert PyStr(Str(row.domain), containerStr) == row.domain;
    StripOfStripped(row.domain);
    assert |"domain"| != |"actions"|;
    LookupSecond("domain", Str(row.domain), "actions", List(ActionValues(row.actions)));
  }

  /** Normalised actions written as strings read back unchanged. */
  lemma ActionsRoundTrip(actions: seq<string>, containerStr: Value -> string)
    requires forall a | 0 <= a < |actions| :: actions[a] != [] && Trimmed(actions[a]) && Lower(actions[a]) == actions[a]
    ensures ActionsOf(List(ActionValues(actions)), containerStr) == actions
  {
    var items := ActionValues(actions);
    var forms := Notes.TagForms(Strs(items, containerStr));
    forall a | 0 <= a < |actions| ensures forms[a] == actions[a] {
      StripOfStripped(actions[a]);
    }
    assert forms == actions;
    FilterAll(forms, Notes.NonEmptyTag);
  }

  /** The second of two distinct keys reads its own value. */
  lemma LookupSecond(k1: string, v1: Value, k2: string, v2: Value)
    requires k1 != k2
    ensures Lookup([(k1, v1), (k2, v2)], k2) == Some(v2)
  {
    assert [(k1, v1), (k2, v2)][1..] == [(k2, v2)];
  }

  /** A policy listing one canonical entry per row. */
  function CanonicalPolicy(rows: seq<PermissionRow>): (es: seq<Value>)
    ensures |es| == |rows|
    decreases |rows|
  {
    if |rows| == 0 then [] else CanonicalPolicy(rows[..|rows| - 1]) + [CanonicalEntry(rows[|rows| - 1])]
  }

  /** Well-formed rows written as a policy, one entry each, flatten back to
      the same rows in the same order. */
  lemma {:induction false} PolicyRoundTrip(rows: seq<PermissionRow>, containerStr: Value -> string)
    requires forall k | 0 <= k < |rows| :: WellFormedRow(rows[k])
    ensures FlattenPermissions(List(CanonicalPolicy(rows)), containerStr) == rows
    decreases |rows|
  {
    var entries := CanonicalPolicy(rows);
    if |rows| > 0 {
      var n := |rows| - 1;
      PolicyRoundTrip(rows[..n], containerStr);
      var init := CanonicalPolicy(rows[..n]);
      assert entries == init + [CanonicalEntry(rows[n])];
      assert entries[..n] == init;
      EntryRoundTrip(rows[n], containerStr);
      SplitLast(rows);
    } else {
      assert entries == [];
    }
  }
}

=== FILE: watchlist_filter.dfy ===
/** The cheap first half of the layer-2 gate
    (pipeline/layer2_gate/watchlist_filter.py): lookup tables built once
    from the watchlist, and the cascade `check` runs a trigger through —
    watched symbol, then company name or alias, then watched sector with a
    keyword, then a scan of the content for a name, alias or symbol. */
module WatchlistFilter {
  import opened Wrappers
  import opened Text
  import opened Collections
  import opened Companies
  import opened Trigger

  /** The `method` strings a filter result carries. */
  datatype FilterMethod = SymbolMatch | NameMatch | KeywordMatch | SectorNoKeyword | ContentScan | NoMatch {
    /** The four methods of a passing result. */
    predicate Passing() {
      !SectorNoKeyword? && !NoMatch?
    }
  }

  function MethodName(m: FilterMethod): string {
    match m
    case SymbolMatch => "symbol_match"
    case NameMatch => "name_match"
    case KeywordMatch => "keyword_match"
    case SectorNoKeyword => "sector_no_keyword"
    case ContentScan => "content_scan"
    case NoMatch => "no_match"
  }

  datatype FilterResult = FilterResult(passed: bool, reason: string, filterMethod: FilterMethod)

  /** The filter's tables. `symbols`, `sectors`, `keywords` and
      `globalKeywords` stand for Python sets and hold each element once;
      their order is the order of first occurrence in the watchlist, which
      Python's set iteration does not promise. `names` is the
      insertion-ordered dict from a lower-cased name or alias to the
      upper-cased symbol of its company. */
  datatype WatchFilter = WatchFilter(
    symbols: seq<string>,
    names: seq<(string, string)>,
    sectors: seq<string>,
    keywords: seq<string>,
    globalKeywords: seq<string>)

  predicate NonBlank(s: string) {
    !IsBlank(s)
  }

  function LowerAll(xs: seq<string>): (r: seq<string>)
    ensures |r| == |xs|
    ensures forall k | 0 <= k < |xs| :: r[k] == Lower(xs[k])
  {
    seq(|xs|, k requires 0 <= k < |xs| => Lower(xs[k]))
  }

  /** `{x.lower() for x in xs if x.strip()}`, as a list. */
  function LoweredNonBlank(xs: seq<string>): (r: seq<string>)
    ensures forall k | 0 <= k < |r| :: NonBlank(r[k])
    ensures forall k | 0 <= k < |xs| :: NonBlank(xs[k]) ==> Lower(xs[k]) in r
    ensures forall k | 0 <= k < |r| :: r[k] in LowerAll(xs)
  {
    var kept := Filter(xs, NonBlank);
    LoweredKept(xs, kept);
    LowerAll(kept)
  }

  lemma LoweredKept(xs: seq<string>, kept: seq<string>)
    requires forall k | 0 <= k < |kept| :: kept[k] in xs && NonBlank(kept[k])
    requires forall k | 0 <= k < |xs| :: NonBlank(xs[k]) ==> xs[k] in kept
    ensures forall k | 0 <= k < |kept| :: NonBlank(LowerAll(kept)[k]) && LowerAll(kept)[k] in LowerAll(xs)
    ensures forall k | 0 <= k < |xs| :: NonBlank(xs[k]) ==> Lower(xs[k]) in LowerAll(kept)
  {
    var r := LowerAll(kept);
    forall k | 0 <= k < |kept| ensures NonBlank(r[k]) && r[k] in LowerAll(xs) {
      LowerNotBlank(kept[k]);
      var m :| 0 <= m < |xs| && xs[m] == kept[k];
      assert LowerAll(xs)[m] == r[k];
    }
    forall k | 0 <= k < |xs| && NonBlank(xs[k]) ensures Lower(xs[k]) in r {
      var m :| 0 <= m < |kept| && kept[m] == xs[k];
      assert r[m] == Lower(xs[k]);
    }
  }

  function UpperSymbols(cs: seq<Company>): (r: seq<string>)
    ensures |r| == |cs|
    ensures forall k | 0 <= k < |cs| :: r[k] == Upper(cs[k].symbol)
  {
    seq(|cs|, k requires 0 <= k < |cs| => Upper(cs[k].symbol))
  }

  function SectorNames(ss: seq<Sector>): (r: seq<string>)
    ensures |r| == |ss|
    ensures forall k | 0 <= k < |ss| :: r[k] == Lower(ss[k].name)
  {
    seq(|ss|, k requires 0 <= k < |ss| => Lower(ss[k].name))
  }

  /** The keywords of all sectors, sector by sector. */
  function SectorKeywords(ss: seq<Sector>): (r: seq<string>)
    ensures forall k, m | 0 <= k < |ss| && 0 <= m < |ss[k].keywords| :: ss[k].keywords[m] in r
    decreases |ss|
  {
    if |ss| == 0 then []
    else
      var rest := SectorKeywords(ss[1..]);
      forall k, m | 1 <= k < |ss| && 0 <= m < |ss[k].keywords| ensures ss[k].keywords[m] in rest {
        assert ss[k] == ss[1..][k - 1];
      }
      ss[0].keywords + rest
  }

  /** A company's name followed by its aliases. */
  function Candidates(c: Company): seq<string> {
    [c.name] + c.aliases
  }

  /** Each key paired with the value `v`. */
  function WithValue(keys: seq<string>, v: string): (r: seq<(string, string)>)
    ensures |r| == |keys|
    ensures forall i | 0 <= i < |keys| :: r[i] == (keys[i], v)
  {
    seq(|keys|, i requires 0 <= i < |keys| => (keys[i], v))
  }

  /** The `(candidate.lower(), symbol.upper())` pairs one company adds to
      the name dict, in order, skipping blank candidates. */
  function CompanyEntries(c: Company): (r: seq<(string, string)>)
    ensures forall i | 0 <= i < |r| :: r[i].1 == Upper(c.symbol) && NonBlank(r[i].0)
    ensures forall m | 0 <= m < |Candidates(c)| :: NonBlank(Candidates(c)[m]) ==> (Lower(Candidates(c)[m]), Upper(c.symbol)) in r
  {
    var cands := Candidates(c);
    var names := LoweredNonBlank(cands);
    var v := Upper(c.symbol);
    var r := WithValue(names, v);
    forall m | 0 <= m < |cands| && NonBlank(cands[m]) ensures (Lower(cands[m]), v) in r {
      var i :| 0 <= i < |names| && names[i] == Lower(cands[m]);
      assert r[i] == (Lower(cands[m]), v);
    }
    r
  }

  /** The pairs of the name dict comprehension, in its iteration order. */
  function NameEntries(cs: seq<Company>): (r: seq<(string, string)>)
    ensures forall i | 0 <= i < |r| :: NonBlank(r[i].0) && r[i].1 in UpperSymbols(cs)
    ensures forall k, i | 0 <= k < |cs| && 0 <= i < |CompanyEntries(cs[k])| :: CompanyEntries(cs[k])[i] in r
    decreases |cs|
  {
    if |cs| == 0 then []
    else
      var rest := NameEntries(cs[1..]);
      NameEntriesStep(cs, rest);
      CompanyEntries(cs[0]) + rest
  }

  lemma NameEntriesStep(cs: seq<Company>, rest: seq<(string, string)>)
    requires |cs| > 0
    requires forall i | 0 <= i < |rest| :: NonBlank(rest[i].0) && rest[i].1 in UpperSymbols(cs[1..])
    requires forall k, i | 0 <= k < |cs[1..]| && 0 <= i < |CompanyEntries(cs[1..][k])| :: CompanyEntries(cs[1..][k])[i] in rest
    ensures var r := CompanyEntries(cs[0]) + rest;
      && (forall i | 0 <= i < |r| :: NonBlank(r[i].0) && r[i].1 in UpperSymbols(cs))
      && (forall k, i | 0 <= k < |cs| && 0 <= i < |CompanyEntries(cs[k])| :: CompanyEntries(cs[k])[i] in r)
  {
    var head := CompanyEntries(cs[0]);
    var r := head + rest;
    forall i | 0 <= i < |r| ensures NonBlank(r[i].0) && r[i].1 in UpperSymbols(cs) {
      if i < |head| {
        assert r[i] == head[i] && UpperSymbols(cs)[0] == head[i].1;
      } else {
        assert r[i] == rest[i - |head|];
        var k :| 0 <= k < |cs[1..]| && UpperSymbols(cs[1..])[k] == r[i].1;
        assert UpperSymbols(cs)[k + 1] == r[i].1;
      }
    }
    forall k, i | 0 <= k < |cs| && 0 <= i < |CompanyEntries(cs[k])| ensures CompanyEntries(cs[k])[i] in r {
      if k == 0 {
        assert r[i] == head[i];
      } else {
        assert cs[k] == cs[1..][k - 1];
      }
    }
  }

  /** `WatchlistFilter.__init__`: the tables of a loaded watchlist. */
  function NewFilter(cfg: WatchlistConfig): (r: WatchFilter)
    ensures NoDuplicates(r.symbols) && forall s :: s in r.symbols <==> s in UpperSymbols(cfg.companies)
    ensures NoDuplicates(r.sectors) && forall s :: s in r.sectors <==> s in SectorNames(cfg.sectors)
    ensures DistinctKeys(r.names) && Keys(r.names) == Dedup(Keys(NameEntries(cfg.companies)))
    ensures forall i | 0 <= i < |r.names| :: r.names[i] in NameEntries(cfg.companies)
    ensures forall j | LastFor(NameEntries(cfg.companies), j) :: NameEntries(cfg.companies)[j] in r.names
    ensures forall k :: k in r.keywords <==> k in LoweredNonBlank(SectorKeywords(cfg.sectors))
    ensures forall k :: k in r.globalKeywords <==> k in LoweredNonBlank(cfg.globalKeywords)
  {
    PutAllKeys(NameEntries(cfg.companies));
    WatchFilter(
      Dedup(UpperSymbols(cfg.companies)),
      PutAll(NameEntries(cfg.companies)),
      Dedup(SectorNames(cfg.sectors)),
      Dedup(LoweredNonBlank(SectorKeywords(cfg.sectors))),
      Dedup(LoweredNonBlank(cfg.globalKeywords)))
  }

  /** No table holds an empty name or keyword, so none matches every text. */
  predicate Valid(f: WatchFilter) {
    && (forall i | 0 <= i < |f.names| :: f.names[i].0 != "")
    && (forall i | 0 <= i < |AllKeywords(f)| :: AllKeywords(f)[i] != "")
  }

  /** Every name and keyword of a built filter is non-blank. */
  lemma NewFilterValid(cfg: WatchlistConfig)
    ensures Valid(NewFilter(cfg))
  {
    NamesNonBlank(NameEntries(cfg.companies));
    var ks := LoweredNonBlank(SectorKeywords(cfg.sectors));
    var gs := LoweredNonBlank(cfg.globalKeywords);
    DedupNonBlank(ks);
    DedupNonBlank(gs);
    ConcatNonBlank(Dedup(ks), Dedup(gs));
  }

  lemma NamesNonBlank(entries: seq<(string, string)>)
    requires forall i | 0 <= i < |entries| :: NonBlank(entries[i].0)
    ensures forall i | 0 <= i < |PutAll(entries)| :: PutAll(entries)[i].0 != ""
  {
    var names := PutAll(entries);
    forall i | 0 <= i < |names| ensures names[i].0 != "" {
      var j :| 0 <= j < |entries| && entries[j] == names[i];
      NonBlankNotEmpty(entries[j].0);
    }
  }

  lemma NonBlankNotEmpty(s: string)
    requires NonBlank(s)
    ensures s != ""
  {
    if s == "" {
      assert AllSpace(s);
    }
  }

  lemma ConcatNonBlank(ks: seq<string>, gs: seq<string>)
    requires forall i | 0 <= i < |ks| :: ks[i] != ""
    requires forall i | 0 <= i < |gs| :: gs[i] != ""
    ensures forall i | 0 <= i < |ks + gs| :: (ks + gs)[i] != ""
  {
    forall i | 0 <= i < |ks + gs| ensures (ks + gs)[i] != "" {
      if i >= |ks| { assert (ks + gs)[i] == gs[i - |ks|]; }
    }
  }

  lemma DedupNonBlank(xs: seq<string>)
    requires forall k | 0 <= k < |xs| :: NonBlank(xs[k])
    ensures forall k | 0 <= k < |Dedup(xs)| :: Dedup(xs)[k] != ""
  {
    forall k | 0 <= k < |Dedup(xs)| ensures Dedup(xs)[k] != "" {
      var m :| 0 <= m < |xs| && xs[m] == Dedup(xs)[k];
      NonBlankNotEmpty(xs[m]);
    }
  }

  // -------------------------------------------------------- trigger views

  /** `(trigger.company_symbol or "").strip().upper()`. */
  function SymbolOf(t: TriggerEvent): string {
    Upper(Strip(OrEmpty(t.companySymbol)))
  }

  /** `(trigger.company_name or "").strip().lower()`. */
  function NameOf(t: TriggerEvent): string {
    Lower(Strip(OrEmpty(t.companyName)))
  }

  /** `(trigger.sector or "").strip().lower()`. */
  function SectorOf(t: TriggerEvent): string {
    Lower(Strip(OrEmpty(t.sector)))
  }

  /** The lower-cased content and feed title, joined by a space and stripped. */
  function ContentOf(t: TriggerEvent): string {
    Strip(Lower(t.rawContent) + " " + Lower(OrEmpty(t.feedTitle)))
  }

  // --------------------------------------------------------- the cascade

  /** The keywords `_find_keyword` searches: sector and global keywords. */
  function AllKeywords(f: WatchFilter): seq<string> {
    f.keywords + f.globalKeywords
  }

  predicate SymbolHit(f: WatchFilter, symbol: string) {
    symbol != "" && symbol in f.symbols
  }

  /** Some watched name or alias occurs in `text`. */
  predicate MentionsName(f: WatchFilter, text: string) {
    exists i | 0 <= i < |f.names| :: Contains(text, f.names[i].0)
  }

  /** Some watched symbol, lower-cased, occurs in `text`. */
  predicate MentionsSymbol(f: WatchFilter, text: string) {
    exists i | 0 <= i < |f.symbols| :: Contains(text, Lower(f.symbols[i]))
  }

  predicate NameHit(f: WatchFilter, name: string) {
    name != "" && MentionsName(f, name)
  }

  predicate SectorHit(f: WatchFilter, sector: string) {
    sector != "" && sector in f.sectors
  }

  predicate KeywordHit(f: WatchFilter, text: string) {
    exists i | 0 <= i < |AllKeywords(f)| :: Contains(text, AllKeywords(f)[i])
  }

  predicate ContentHit(f: WatchFilter, content: string) {
    MentionsName(f, content) || MentionsSymbol(f, content)
  }

  /** `k` is the least keyword, in string order, that occurs in `text`. */
  predicate LeastKeyword(f: WatchFilter, text: string, k: string) {
    && k in AllKeywords(f) && Contains(text, k)
    && forall k' | k' in AllKeywords(f) && Contains(text, k') :: StrLe(k, k')
  }

  /** `_find_keyword`: the least keyword that occurs in `content`, or None
      when no keyword occurs. */
  function FindKeyword(f: WatchFilter, content: string): (r: Option<string>)
    ensures r.None? <==> !KeywordHit(f, content)
    ensures r.Some? ==> LeastKeyword(f, content, r.value)
  {
    var sorted := SortedSet(AllKeywords(f));
    var i := FirstMatch(sorted, k => Contains(content, k));
    FirstInSorted(f, content, sorted, i);
    if i < |sorted| then Some(sorted[i]) else None
  }

  /** The first keyword of the sorted listing that occurs is the least one. */
  lemma FirstInSorted(f: WatchFilter, content: string, sorted: seq<string>, i: nat)
    requires SortedStr(sorted) && forall x :: x in sorted <==> x in AllKeywords(f)
    requires i <= |sorted| && (i < |sorted| ==> Contains(content, sorted[i]))
    requires forall j | 0 <= j < i :: !Contains(content, sorted[j])
    ensures i < |sorted| ==> LeastKeyword(f, content, sorted[i])
    ensures i == |sorted| ==> !KeywordHit(f, content)
  {
    if i < |sorted| {
      forall k | k in AllKeywords(f) && Contains(content, k) ensures StrLe(sorted[i], k) {
        var j :| 0 <= j < |sorted| && sorted[j] == k;
        if j == i { StrLeRefl(k); }
      }
    } else {
      forall j | 0 <= j < |AllKeywords(f)| ensures !Contains(content, AllKeywords(f)[j]) {
        assert AllKeywords(f)[j] in AllKeywords(f);
        var m :| 0 <= m < |sorted| && sorted[m] == AllKeywords(f)[j];
      }
    }
  }

  /** The keyword found depends only on which keywords the filter holds. */
  lemma FindKeywordSetOnly(f: WatchFilter, g: WatchFilter, content: string)
    requires forall k :: k in AllKeywords(f) <==> k in AllKeywords(g)
    ensures FindKeyword(f, content) == FindKeyword(g, content)
  {
    SortedSetDeterministic(AllKeywords(f), AllKeywords(g));
  }

  /** The first watched name or alias, in dict order, that occurs in `text`. */
  function NameIn(f: WatchFilter, text: string): (i: nat)
    ensures i <= |f.names|
    ensures i < |f.names| <==> MentionsName(f, text)
    ensures i < |f.names| ==> Contains(text, f.names[i].0)
    ensures forall j | 0 <= j < i :: !Contains(text, f.names[j].0)
  {
    FirstMatch(f.names, (e: (string, string)) => Contains(text, e.0))
  }

  /** The first watched symbol whose lower-cased form occurs in `text`. */
  function SymbolIn(f: WatchFilter, text: string): (i: nat)
    ensures i <= |f.symbols|
    ensures i < |f.symbols| <==> MentionsSymbol(f, text)
    ensures i < |f.symbols| ==> Contains(text, Lower(f.symbols[i]))
  {
    FirstMatch(f.symbols, s => Contains(text, Lower(s)))
  }

  function NameReason(prefix: string, e: (string, string)): string {
    prefix + e.0 + " (" + e.1 + ")"
  }

  /** Step 3 for a watched sector: pass on a keyword, reject otherwise. */
  function SectorStage(f: WatchFilter, content: string): (r: FilterResult)
    ensures r.filterMethod.KeywordMatch? || r.filterMethod.SectorNoKeyword?
    ensures r.passed <==> r.filterMethod.Passing()
    ensures r.passed ==> KeywordHit(f, content)
    ensures Valid(f) ==> (r.passed <==> KeywordHit(f, content))
    ensures r.passed ==> FindKeyword(f, content).Some? && r.reason == "Watched sector + keyword matched: " + FindKeyword(f, content).value
    ensures !r.passed ==> r.reason == "Watched sector matched but no relevant keywords found"
  {
    var found := FindKeyword(f, content);
    FoundNotEmpty(f, found);
    if found.Some? && found.value != "" then
      FilterResult(true, "Watched sector + keyword matched: " + found.value, KeywordMatch)
    else
      FilterResult(false, "Watched sector matched but no relevant keywords found", SectorNoKeyword)
  }

  lemma FoundNotEmpty(f: WatchFilter, found: Option<string>)
    requires found.Some? ==> found.value in AllKeywords(f)
    ensures Valid(f) && found.Some? ==> found.value != ""
  {
    if found.Some? {
      var i :| 0 <= i < |AllKeywords(f)| && AllKeywords(f)[i] == found.value;
    }
  }

  /** Step 4: scan the content for a name or alias, then for a symbol. */
  function ContentStage(f: WatchFilter, content: string): (r: FilterResult)
    ensures r.filterMethod.ContentScan? || r.filterMethod.NoMatch?
    ensures r.passed <==> r.filterMethod.Passing()
    ensures r.passed <==> ContentHit(f, content)
    ensures MentionsName(f, content) ==> r.reason == NameReason("Company mention in content: ", f.names[NameIn(f, content)])
    ensures !MentionsName(f, content) && MentionsSymbol(f, content) ==>
      r.reason == "Company symbol mention in content: " + f.symbols[SymbolIn(f, content)]
    ensures !r.passed ==> r.reason == "No watchlist symbol/name/sector-keyword match"
  {
    if NameIn(f, content) < |f.names| then
      FilterResult(true, NameReason("Company mention in content: ", f.names[NameIn(f, content)]), ContentScan)
    else if SymbolIn(f, content) < |f.symbols| then
      FilterResult(true, "Company symbol mention in content: " + f.symbols[SymbolIn(f, content)], ContentScan)
    else
      FilterResult(false, "No watchlist symbol/name/sector-keyword match", NoMatch)
  }

  /** The cascade on the normalised symbol, name, sector and content.
      `passed` holds exactly for the four passing methods, the first stage
      that applies decides, and a watched sector always decides. */
  function Cascade(f: WatchFilter, symbol: string, name: string, sector: string, content: string): (r: FilterResult)
    ensures r.passed <==> r.filterMethod.Passing()
    ensures r.filterMethod == SymbolMatch <==> SymbolHit(f, symbol)
    ensures r.filterMethod == SymbolMatch ==> r.reason == "Watched symbol matched: " + symbol
    ensures !SymbolHit(f, symbol) ==> r == AfterSymbol(f, name, sector, content)
  {
    if symbol != "" && symbol in f.symbols then
      FilterResult(true, "Watched symbol matched: " + symbol, SymbolMatch)
    else AfterSymbol(f, name, sector, content)
  }

  /** Steps 2 to 4 of the cascade, once no watched symbol matched. */
  function AfterSymbol(f: WatchFilter, name: string, sector: string, content: string): (r: FilterResult)
    ensures r.passed <==> r.filterMethod.Passing()
    ensures !r.filterMethod.SymbolMatch?
    ensures r.filterMethod == NameMatch <==> NameHit(f, name)
    ensures r.filterMethod == NameMatch ==>
      r.reason == NameReason("Watched company/alias matched: ", f.names[NameIn(f, name)])
    ensures !NameHit(f, name) ==> r == AfterName(f, sector, content)
  {
    if name != "" && NameIn(f, name) < |f.names| then
      FilterResult(true, NameReason("Watched company/alias matched: ", f.names[NameIn(f, name)]), NameMatch)
    else AfterName(f, sector, content)
  }

  /** Steps 3 and 4: a watched sector decides on its own; otherwise the
      content scan does. */
  function AfterName(f: WatchFilter, sector: string, content: string): (r: FilterResult)
    ensures r.passed <==> r.filterMethod.Passing()
    ensures !r.filterMethod.SymbolMatch? && !r.filterMethod.NameMatch?
    ensures SectorHit(f, sector) ==> r == SectorStage(f, content)
    ensures !SectorHit(f, sector) ==> r == ContentStage(f, content)
  {
    if sector != "" && sector in f.sectors then SectorStage(f, content)
    else ContentStage(f, content)
  }

  /** `check`: the cascade on the trigger's symbol, name, sector and content
      after their normalisation. */
  function Check(f: WatchFilter, t: TriggerEvent): (r: FilterResult)
    ensures r.passed <==> r.filterMethod.Passing()
    ensures r.filterMethod == SymbolMatch <==> SymbolHit(f, SymbolOf(t))
    ensures r.filterMethod == NameMatch <==> !SymbolHit(f, SymbolOf(t)) && NameHit(f, NameOf(t))
  {
    Cascade(f, SymbolOf(t), NameOf(t), SectorOf(t), ContentOf(t))
  }

  /** A trigger in a watched sector, matching no symbol or name, passes
      exactly when its content holds a keyword, and is never looked at by
      the content scan. */
  lemma SectorDecides(f: WatchFilter, symbol: string, name: string, sector: string, content: string)
    requires Valid(f)
    requires !SymbolHit(f, symbol) && !NameHit(f, name) && SectorHit(f, sector)
    ensures var r := Cascade(f, symbol, name, sector, content);
      && (r.filterMethod == KeywordMatch || r.filterMethod == SectorNoKeyword)
      && (r.passed <==> KeywordHit(f, content))
      && (r.passed ==> exists k | LeastKeyword(f, content, k) :: r.reason == "Watched sector + keyword matched: " + k)
  {
  }

  /** Outside a watched sector, with no symbol or name match, the content
      scan decides: pass exactly when the content mentions a watched name,
      alias or symbol, and reject with "no_match" otherwise. */
  lemma ContentDecides(f: WatchFilter, symbol: string, name: string, sector: string, content: string)
    requires !SymbolHit(f, symbol) && !NameHit(f, name) && !SectorHit(f, sector)
    ensures var r := Cascade(f, symbol, name, sector, content);
      && (r.passed <==> ContentHit(f, content))
      && (r.filterMethod == if ContentHit(f, content) then ContentScan else NoMatch)
  {
  }

  /** Only the sets matter for the decision: two filters with the same name
      dict and the same symbols, sectors and keywords, listed in any order,
      take the same decision on every input, and give the same reason too
      except for a content scan that matched a symbol. */
  lemma SetOrderIrrelevant(f: WatchFilter, g: WatchFilter, symbol: string, name: string, sector: string, content: string)
    requires f.names == g.names
    requires forall s :: s in f.symbols <==> s in g.symbols
    requires forall s :: s in f.sectors <==> s in g.sectors
    requires forall k :: k in AllKeywords(f) <==> k in AllKeywords(g)
    ensures Cascade(f, symbol, name, sector, content).passed == Cascade(g, symbol, name, sector, content).passed
    ensures Cascade(f, symbol, name, sector, content).filterMethod == Cascade(g, symbol, name, sector, content).filterMethod
    ensures !Cascade(f, symbol, name, sector, content).filterMethod.ContentScan? || MentionsName(f, content) ==>
      Cascade(f, symbol, name, sector, content) == Cascade(g, symbol, name, sector, content)
  {
    assert SymbolHit(f, symbol) == SymbolHit(g, symbol);
    if !SymbolHit(f, symbol) {
      AfterSymbolSetOnly(f, g, name, sector, content);
    }
  }

  lemma AfterSymbolSetOnly(f: WatchFilter, g: WatchFilter, name: string, sector: string, content: string)
    requires f.names == g.names
    requires forall s :: s in f.symbols <==> s in g.symbols
    requires forall s :: s in f.sectors <==> s in g.sectors
    requires forall k :: k in AllKeywords(f) <==> k in AllKeywords(g)
    ensures AfterSymbol(f, name, sector, content).passed == AfterSymbol(g, name, sector, content).passed
    ensures AfterSymbol(f, name, sector, content).filterMethod == AfterSymbol(g, name, sector, content).filterMethod
    ensures !AfterSymbol(f, name, sector, content).filterMethod.ContentScan? || MentionsName(f, content) ==>
      AfterSymbol(f, name, sector, content) == AfterSymbol(g, name, sector, content)
  {
    assert NameIn(f, name) == NameIn(g, name);
    if !NameHit(f, name) {
      AfterNameSetOnly(f, g, sector, content);
    }
  }

  lemma AfterNameSetOnly(f: WatchFilter, g: WatchFilter, sector: string, content: string)
    requires f.names == g.names
    requires forall s :: s in f.symbols <==> s in g.symbols
    requires forall s :: s in f.sectors <==> s in g.sectors
    requires forall k :: k in AllKeywords(f) <==> k in AllKeywords(g)
    ensures AfterName(f, sector, content).passed == AfterName(g, sector, content).passed
    ensures AfterName(f, sector, content).filterMethod == AfterName(g, sector, content).filterMethod
    ensures !AfterName(f, sector, content).filterMethod.ContentScan? || MentionsName(f, content) ==>
      AfterName(f, sector, content) == AfterName(g, sector, content)
  {
    assert SectorHit(f, sector) == SectorHit(g, sector);
    if SectorHit(f, sector) {
      FindKeywordSetOnly(f, g, content);
    } else {
      ContentStageSetOnly(f, g, content);
    }
  }

  lemma ContentStageSetOnly(f: WatchFilter, g: WatchFilter, content: string)
    requires f.names == g.names
    requires forall s :: s in f.symbols <==> s in g.symbols
    ensures ContentStage(f, content).passed == ContentStage(g, content).passed
    ensures ContentStage(f, content).filterMethod == ContentStage(g, content).filterMethod
    ensures MentionsName(f, content) ==> ContentStage(f, content) == ContentStage(g, content)
  {
    MentionsSymbolSetOnly(f, g, content);
    MentionsSymbolSetOnly(g, f, content);
    assert NameIn(f, content) == NameIn(g, content);
  }

  lemma MentionsSymbolSetOnly(f: WatchFilter, g: WatchFilter, content: string)
    requires forall s :: s in f.symbols ==> s in g.symbols
    ensures MentionsSymbol(f, content) ==> MentionsSymbol(g, content)
  {
    if MentionsSymbol(f, content) {
      var i :| 0 <= i < |f.symbols| && Contains(content, Lower(f.symbols[i]));
      assert f.symbols[i] in g.symbols;
      var j :| 0 <= j < |g.symbols| && g.symbols[j] == f.symbols[i];
      assert Contains(content, Lower(g.symbols[j]));
    }
  }
}

=== FILE: wrappers.dfy ===
/** Failure-carrying datatypes shared by every module of the model.

    - Option<T>: a Python value that may be None.
    - Result<T, E>: an operation that returns a value or signals an error
      (an exception, an HTTP error status, a validation message).
    - Attempt<T>: the scripted outcome of one call into a collaborator the
      model cannot see: it either returns a value or raises with a message.
    - Outcome: the same for a call that returns nothing.
 */
module Wrappers {

  datatype Option<+T> = None | Some(value: T) {
    function GetOr(default: T): T {
      match this
      case Some(v) => v
      case None => default
    }
  }

  datatype Result<+T, +E> = Success(value: T) | Failure(error: E)

  /** One call into an external collaborator: returns `value` or raises. */
  datatype Attempt<+T> = Ok(value: T) | Raise(message: string)

  /** One call into an external collaborator that returns nothing. */
  datatype Outcome = Done | Fails(message: string)
}
